=== FILE: README.md ===
# GOLEM core logic in Dafny

This project models the sequential, pure core of GOLEM, a graph-based
evolutionary optimisation framework, and proves what its code promises:

- **DAG utilities** (`golem/core/dag/graph_utils.py`). A graph is a list of
  nodes, where node `i` holds the indices of its `nodes_from` parents. On that
  view the project models:
  - the stack-based cycle check;
  - `node_depth` and the two distance helpers;
  - `nodes_from_layer`;
  - `ordered_subnodes_hierarchy`;
  - `map_dag_nodes`.
- **`LinkedGraph` edit and read operations** on the same index graphs:
  - `delete_node` with `ReconnectType`, `delete_subtree`, `update_node`,
    `update_subtree`, `connect_nodes`, `disconnect_nodes`, `add_node`,
    `actualise_old_node_children`;
  - `get_edges`, `root_nodes`, `depth` and `descriptive_id`.

  The implementation of `LinkedGraph` is not part of this model. Its semantics
  follow the unit tests in `test/unit/dag/test_graph.py`. The scenarios those
  tests assert on graph structure are proved as lemmas about concrete graphs
  (modules `GraphFixtures` and `ResetIdFixtures`); "## Left out" lists the
  ones that are not. A graph built from a root lists the root first, then its
  parents depth-first.
- **Adaptive operator machinery**:
  - `RewardAgent`: decayed reward sums per arm, the fitness rank rate and
    per-arm rewards.
  - `AdaptiveGraphDepth`: constructor checks, `initial` and `next`.
- **Tuning bookkeeping**:
  - hyperparameter labels and `convert_params`;
  - the search-space queries;
  - `BaseTuner`'s metric mapping, the `final_check` acceptance rule,
    `set_arg_graph`/`set_arg_node` and `_stop_tuning_with_message`.
- **Structural-analysis result tables**:
  - the iteration-keyed `SAAnalysisResults`;
  - the presenting `SAAnalysisResults`;
  - `DeletionSAApproachResult`;
  - `get_entity_from_str`.
- **History helpers of the visualisation module**:
  - `trace_genealogical_path`, `objectives_lists` and `extract_objectives`;
  - the running-best logic of `_visualise_convergence` and
    `_visualise_graphs`.

Python values are modelled as follows:

- Exceptions are `Result` values (`Builtins.Result`, with the raised class
  named).
- `None` is `Option`.
- Floats are `real`.
- Dictionaries are insertion-ordered association lists (`Dicts`).
- `str(n)`, `int(s)`, `str.split`, `sorted` and `join` on strings are
  written out in `Strings`.

Callables the source receives (`transform`, `graph_dist`, a result's worst
value) are function parameters.

The cycle check's search state (`GraphCycle.DfsState`) holds the source's
`visited`, `on_stack` and `stack`, together with four bookkeeping fields that
the source does not have: the stack position at which each on-stack node was
visited, a finishing rank per node, the next rank to hand out, and the set of
unvisited nodes. These fields exist only to state the search invariant. They
never influence a branch the search takes.

## Model

| member | source | states |
|---|---|---|
| GraphCycle.ScanParents | golem/core/dag/graph_utils.py:181-185 | the parent scan returns True only at a parent that is visited and on the stack; otherwise it pushes only unvisited parents, and afterwards every parent is either finished (visited, off the stack) or pushed |
| GraphCycle.VisitTop | golem/core/dag/graph_utils.py:175-177 | visiting the unvisited top node either finds a real cycle or keeps the search invariant with one node fewer left unvisited |
| GraphCycle.PopTop | golem/core/dag/graph_utils.py:178-180 | popping the visited top node either finds a real cycle or keeps the search invariant with a shorter stack |
| GraphCycle.GraphHasCycle | golem/core/dag/graph_utils.py:163-186 | the iterative DFS reports a cycle exactly when some node reaches itself by one or more `nodes_from` steps (sound and complete) |
| Depths.NodeDepth | golem/core/dag/graph_utils.py:100-123 | the result is -1 or at least 1; a positive result d means layers 0..d-1 are non-empty and free of repeats, and layer d is empty; -1 means some layer repeats an earlier node |
| Depths.DepthLoop | golem/core/dag/graph_utils.py:109-121 | the layer loop terminates (each round adds an unvisited node) and never returns less than the depth reached |
| Depths.NodeDepthMeaning | golem/core/dag/graph_utils.py:100-123 | `node_depth` is -1 iff some node is reached from the start by walks of two different lengths; otherwise it is the node count of the longest walk |
| Depths.NodeDepthCycle | golem/core/dag/graph_utils.py:100-123 | a cycle reachable from the node always gives -1 |
| Depths.NodeDepthAgrees | golem/core/dag/graph_utils.py:100-123 | where `node_depth` is positive it equals the longest-path depth the docstring promises; on a cycle-free graph -1 arises only from walks of different lengths |
| Depths.NodeDepthCycleFree | golem/core/dag/graph_utils.py:100-123 | a positive `node_depth` implies no cycle is reachable |
| Depths.NodeDepthShortcut | golem/core/dag/graph_utils.py:100-123 | on the acyclic graph `[[1, 2], [2], []]` `node_depth` of node 0 is -1 (see Findings) |
| Depths.LongestDepth | golem/core/dag/graph_utils.py:100-108 | corrected depth: -1 iff a cycle is reachable, otherwise between 1 and the node count, and the node count of the longest walk |
| Depths.LongestDepthShortcut | golem/core/dag/graph_utils.py:100-108 | on the same graph the corrected depth is 3 |
| Depths.DepthByLayers | golem/core/dag/graph_utils.py:100-123 | when layers 1..d-1 are non-empty and layer d is empty, the corrected depth is d |
| Depths.DistanceToPrimaryLevel | golem/core/dag/graph_utils.py:40-42 | -1 exactly when `node_depth` is -1; otherwise d such that the longest walk has d + 1 nodes |
| Depths.ChildHeightSome | golem/core/dag/graph_utils.py:24-32 | when `child_height` started at `height` returns h, h lies in [height, height + fuel), and the chain it followed, each node the first child (`node_children(...)[0]`) of the next, has h - height + 1 nodes from a childless node to the start |
| Depths.FirstChildChainUnique | golem/core/dag/graph_utils.py:24-32 | two first-child chains that start at childless nodes and end at the same node are the same chain |
| Depths.ChildHeightNone | golem/core/dag/graph_utils.py:24-32 | when the rounds run out, a parent walk of `fuel + 1` nodes ends at the start, so on an acyclic graph with `fuel` = length this cannot happen |
| Depths.DistanceToRootLevel | golem/core/dag/graph_utils.py:13-37 | -1 on a cyclic graph; otherwise a value r in [0, length - 1], 0 iff the node has no children, and r + 1 is the length of the one chain that follows first children from the node to a childless node |
| Layers.NodesFromLayer | golem/core/dag/graph_utils.py:45-73 | layer 0 is `root_nodes()`, and layer k is k in-order parent expansions of the roots, duplicates kept |
| Layers.GetNodesIsExpansion | golem/core/dag/graph_utils.py:56-70 | the depth-first `get_nodes` recursion equals `layer - height` breadth-first expansions |
| Layers.NodesFromLayerSucc | golem/core/dag/graph_utils.py:45-73 | layer k + 1 is the concatenation of the `nodes_from` lists of layer k |
| Layers.NodesFromLayerWalks | golem/core/dag/graph_utils.py:45-73 | x is in layer k iff a walk of exactly k parent steps leads from a root node to x |
| Subnodes.OrderedSubnodesHierarchy | golem/core/dag/graph_utils.py:76-97 | raises ValueError iff a cycle is reachable; otherwise lists the start first, every reachable node exactly once and nothing else, in depth-first pre-order: each next node is the first not-yet-listed parent, in `nodes_from` order, of the latest listed node that still has one |
| Subnodes.DepthFirstUnique | golem/core/dag/graph_utils.py:76-97 | two depth-first listings with the same start and length are equal, so the order above pins the result |
| Subnodes.BreadthFirstExcluded | golem/core/dag/graph_utils.py:85-95 | on `[[1, 2], [3], [], []]` the breadth-first listing `[0, 1, 2, 3]` is not depth-first: after 1 the search descends to 3 |
| Subnodes.HierarchyDepthFirst | golem/core/dag/graph_utils.py:76-97 | the listing from the start node is in depth-first order |
| Subnodes.SubtreeDepthFirst | golem/core/dag/graph_utils.py:85-95 | a `subtree_impl` call lists its node and then its subtree in depth-first order, the started nodes counting as seen |
| Subnodes.ParentsDepthFirst | golem/core/dag/graph_utils.py:87-94 | the loop enters each parent not yet seen in `nodes_from` order and lists its subtree before going on to the next one |
| Subnodes.HierarchySpec | golem/core/dag/graph_utils.py:76-97 | the recursive `subtree_impl` from the start node meets the contract above |
| Subnodes.HierarchyOk | golem/core/dag/graph_utils.py:85-95 | a completed search lists distinct nodes, exactly the reachable ones, and no cycle is reachable |
| Subnodes.SubtreeSpec | golem/core/dag/graph_utils.py:85-95 | one `subtree_impl` call keeps the search invariant; an error implies a cycle is reachable from the root |
| Subnodes.ParentsSpec | golem/core/dag/graph_utils.py:92-94 | the loop over `nodes_from` keeps the search invariant, lists only nodes not seen before, each a parent of the node or of an earlier entry, and ends with every parent visited; an error implies a reachable cycle |
| Subnodes.ErrIsValueError | golem/core/dag/graph_utils.py:87-91 | the only exception the search raises is ValueError |
| Subnodes.RepeatedParent | golem/core/dag/graph_utils.py:87-95 | a parent listed twice is skipped the second time, not reported: `[[1, 1], []]` from 0 gives `[0, 1]` |
| MapNodes.MapImpl | golem/core/dag/graph_utils.py:138-148 | `map_impl` memoises: the node gets a copy, earlier entries are kept, and a new node is numbered after the nodes produced so far |
| MapNodes.MapAll | golem/core/dag/graph_utils.py:148-150 | mapping a list keeps every earlier entry and maps every listed node |
| MapNodes.MapImplSpec | golem/core/dag/graph_utils.py:138-148 | one `map_impl` call keeps the copy invariant and only adds to the memo |
| MapNodes.MapAllSpec | golem/core/dag/graph_utils.py:148-150 | mapping a list keeps the invariant and returns the copies of the list, in order |
| MapNodes.MapDagNodes | golem/core/dag/graph_utils.py:126-150 | there is a one-to-one correspondence between the nodes reachable from the inputs and the produced nodes; each copy holds the transformed content and links to the copies of its parents in order, and the result lists the inputs' copies |
| MapNodes.MapDagNodesCopy | golem/core/dag/graph_utils.py:126-150 | the memo built by the recursion is that correspondence |
| MapNodes.InvIsCopy | golem/core/dag/graph_utils.py:126-150 | once nothing is pending and every input is mapped, the state is a structure-preserving copy |
| LinkedGraphs.RemoveNodes | test/unit/dag/test_graph.py:200-233 | removing marked nodes keeps the rest in order, under their new indices, with the removed parents pruned |
| LinkedGraphs.RemoveNodesEdges | test/unit/dag/test_graph.py:200-219 | after removal, p is a parent of c iff both are images of kept nodes that were parent and child |
| LinkedGraphs.Unlink | test/unit/dag/test_graph.py:115-167 | no node lists the deleted node any more, and every node's list is its old list without the deleted node, followed by the deleted node's parents exactly for its only child under single reconnection when it had parents |
| LinkedGraphs.DeleteNode | test/unit/dag/test_graph.py:76-180 | every other node keeps its name and moves one place down if it came after the deleted node; its parent list is the unlinked one, renumbered |
| LinkedGraphs.DeleteNodeEdges | test/unit/dag/test_graph.py:76-180 | after `delete_node`, p is a parent of c iff it was one before, or the deleted node's parents were handed to c and p was among them |
| LinkedGraphs.AddNode | test/unit/dag/test_graph.py:356-358 | adding a node keeps the graph valid |
| LinkedGraphs.AddNodeChildren | test/unit/dag/test_graph.py:356-358 | `add_node` gives every old node the same children, and the new node has none |
| LinkedGraphs.AddNodeEdges | test/unit/dag/test_graph.py:356-358 | `add_node` of a parentless node adds no edge |
| LinkedGraphs.ConnectNodes | test/unit/dag/test_graph.py:136-150 | `connect_nodes` appends the parent once and leaves an existing edge alone |
| LinkedGraphs.ConnectNodesEdges | test/unit/dag/test_graph.py:136-150 | the edges afterwards are the old edges plus `(parent, child)`, with one more entry unless the edge existed |
| LinkedGraphs.DisconnectNodes | test/unit/dag/test_graph.py:340-342 | `disconnect_nodes` removes one occurrence of the parent from the child's list and changes nothing else; an absent edge changes nothing |
| LinkedGraphs.DisconnectNodesEdges | test/unit/dag/test_graph.py:340-342 | one entry fewer if the edge existed; the edge survives only if it was listed twice |
| LinkedGraphs.ConnectThenDisconnect | test/unit/dag/test_graph.py:340-346 | connecting a new edge and disconnecting it again gives the original graph |
| LinkedGraphs.Actualise | test/unit/dag/test_graph.py:255-269 | `actualise_old_node_children` replaces every occurrence of the old node, duplicates included |
| LinkedGraphs.ActualiseEdges | test/unit/dag/test_graph.py:236-269 | afterwards p is a parent of c iff it was one and is not the old node, or it is the new node and c was a child of the old one |
| LinkedGraphs.UpdateNode | test/unit/dag/test_graph.py:236-269 | the new node takes the old node's parents, every child of the old node lists the new one in each place it listed the old one, and the old node is gone |
| LinkedGraphs.DeleteSubtree | test/unit/dag/test_graph.py:183-233 | removes exactly the node and every node it reaches, with all their edges; ValueError iff a cycle is reachable |
| LinkedGraphs.DeleteSubtreeEdges | test/unit/dag/test_graph.py:200-219 | afterwards p is a parent of c iff both are images of unreached nodes that were parent and child; this also prunes a distant edge |
| LinkedGraphs.Graft | test/unit/dag/test_graph.py:272-288 | the first half of `update_subtree`: the replacement's nodes come after the old ones, with their links shifted, and every reference to the old node now names the replacement's root |
| LinkedGraphs.UpdateSubtree | test/unit/dag/test_graph.py:272-288 | grafting then deleting the old subtree fails iff a cycle is reachable from the old node, and otherwise gives a valid graph |
| LinkedGraphs.Edges | test/unit/dag/test_graph.py:136-167 | `get_edges` holds one pair per parent entry, and `(p, c)` occurs iff p is listed by c |
| LinkedGraphs.Roots | test/unit/dag/test_graph.py:94-112 | `root_nodes` are exactly the nodes without children |
| LinkedGraphs.RootsAscending | test/unit/dag/test_graph.py:105-106 | `root_nodes` lists the roots in node order, so none is listed twice |
| LinkedGraphs.Depth | test/unit/dag/test_graph.py:94-133 | `depth` is 0 for an empty graph or one without root nodes; otherwise it is the longest-path depth of some root node and no root node's is greater |
| LinkedGraphs.NodeId | test/unit/dag/test_graph.py:35-42 | a node's id is `ID_CYCLED` iff the node is already on the current path |
| LinkedGraphs.ParentOrderFree | test/unit/dag/test_graph.py:35-42 | the sorted parent items do not depend on the order of `nodes_from` |
| LinkedGraphs.ReorderedDescriptiveId | test/unit/dag/test_graph.py:35-42 | reordering any node's parents leaves the graph's `descriptive_id` unchanged |
| GraphFixtures.FourNodesDepth | test/unit/dag/test_graph.py:94-102 | the four-node graph has the single root `n4` and depth 3 |
| GraphFixtures.DeletePrimaryNode | test/unit/dag/test_graph.py:76-91 | deleting the primary node `n1` leaves three nodes, `n2` among them, with `n4` keeping parents `n2` and `n3` and `n3` left without parents |
| GraphFixtures.DeleteRootNode | test/unit/dag/test_graph.py:94-106 | deleting the root `n4` leaves `n2` and `n3` (with parent `n1`) |
| GraphFixtures.DeleteRootDepth | test/unit/dag/test_graph.py:105-106 | the roots are then `[n2, n3]` and the depth is 2 |
| GraphFixtures.DeleteSecondRoot | test/unit/dag/test_graph.py:108 | deleting `n2` next leaves `n3` with parent `n1` |
| GraphFixtures.LastPairDepth | test/unit/dag/test_graph.py:110-111 | `n3` is the root node and the depth is still 2 |
| GraphFixtures.FourNodesUnlink | test/unit/dag/test_graph.py:115-130 | unlinking `n3` with single reconnection hands `n1` to `n4` |
| GraphFixtures.DeleteIntermediateNode | test/unit/dag/test_graph.py:115-133 | deleting `n3` gives `n4` the parents `n2` and `n1` |
| GraphFixtures.DeleteIntermediateDepth | test/unit/dag/test_graph.py:133 | the depth drops from 3 to 2 |
| GraphFixtures.DiamondId | test/unit/dag/test_graph.py:35-42 | the diamond's root id is exactly `((/n_n1;)/n_n2;;(/n_n1;)/n_n3;)/n_n4` |
| GraphFixtures.CloseChain | test/unit/dag/test_graph.py:136-144 | closing the chain with `connect_nodes(final, first)` gives a 4-ring with 4 edges, without error |
| GraphFixtures.DeleteLeaveCycle | test/unit/dag/test_graph.py:136-150 | deleting `n3` with single reconnection leaves 3 edges, among them `(n2, n4)` |
| GraphFixtures.DeleteBreakCycle | test/unit/dag/test_graph.py:153-167 | deleting `n3` without reconnection leaves 2 edges and `n4` parentless |
| GraphFixtures.DeleteRepeated | test/unit/dag/test_graph.py:170-180 | deleting `n2` removes both of its entries from `n3`'s parents |
| GraphFixtures.DeleteSubtreeNear | test/unit/dag/test_graph.py:183-197 | deleting the subtree of `n2b` removes `n2b` and `n2a`, and `n3` keeps only `n1` |
| GraphFixtures.DeleteSubtreeDistant | test/unit/dag/test_graph.py:200-217 | deleting the subtree of `n2b` also removes `n2a` and prunes the distant edge from `n2a` to `n4` |
| GraphFixtures.DeleteSubtreeDuplicated | test/unit/dag/test_graph.py:220-233 | with `n2b` listed twice, deleting its subtree leaves `n3` with the single parent `n1` |
| GraphFixtures.UpdateWithoutPredecessors | test/unit/dag/test_graph.py:236-252 | `l2new` takes the parents of `l2n1`, `l3n1` lists `l2new`, and `l2n1` is gone |
| GraphFixtures.UpdateRepeated | test/unit/dag/test_graph.py:255-269 | updating `n2` to `n2b` puts `n2b` in both places `n3` listed `n2` |
| GraphFixtures.UpdateSubtreeDuplicated | test/unit/dag/test_graph.py:272-288 | `n4b` (with parent `n4a`) replaces both entries of `n2b`; `n2b` and `n2a` are gone |
| ResetIdFixtures.DeleteLeaf | test/unit/dag/test_graph.py:321-336 | `delete_node(nodes[3])` on `get_graph()` removes `l3_n1` and leaves `l2_n1` without parents |
| ResetIdFixtures.DisconnectReconnect | test/unit/dag/test_graph.py:338-344 | `disconnect_nodes(nodes[3], nodes[4])` drops the edge `l2_n2 -> l2_n3` and `connect_nodes` restores the graph |
| ResetIdFixtures.IdLength | test/unit/dag/test_graph.py:35-42 | a node's id is as long as its parent items plus separators and brackets, plus `/n_` and its name, whatever order sorting puts the items in |
| ResetIdFixtures.SumLenPermutation | test/unit/dag/test_graph.py:35-42 | reordering strings keeps their total length |
| ResetIdFixtures.GetGraphIdLength | test/unit/dag/test_graph.py:20-32 | `descriptive_id` of `get_graph()` has 72 characters |
| ResetIdFixtures.PrunedIdLength | test/unit/dag/test_graph.py:333-344 | after the deletion it has 61 characters, after the disconnection 50 |
| ResetIdFixtures.UpdateRoot | test/unit/dag/test_graph.py:346-347 | `update_node(nodes[0], 'new')` on the five-node graph gives `new` the parent `l1_n1` and keeps the other edges |
| ResetIdFixtures.UpdatedIdLength | test/unit/dag/test_graph.py:346-348 | after the update the only root is `new` and `descriptive_id` has 59 characters |
| ResetIdFixtures.UpdateChangesId | test/unit/dag/test_graph.py:346-348 | the update shortens `descriptive_id` from 61 to 59 characters |
| ResetIdFixtures.ResetDescriptiveId | test/unit/dag/test_graph.py:321-348 | `delete_node`, `disconnect_nodes`, `connect_nodes` and `update_node` each change `descriptive_id` |
| GraphFixtures.StarDepth | test/unit/dag/test_graph.py:45-73 | `n4` with parents `n1`, `n2`, `n3` has four nodes, one root and depth 2 |
| Rewards.SumsPerArm | golem/core/optimisers/adaptive/reward_agent.py:23-25 | every pulled arm gets a key holding the sum of the rewards at its positions; a reward past the last pull raises IndexError, and only then |
| Rewards.DecayValuesForArms | golem/core/optimisers/adaptive/reward_agent.py:22-27 | returns the distinct arms in first-seen order, each with `decaying_factor` times the sum of the rewards at that arm's positions; IndexError iff there are more rewards than arms |
| Rewards.SumAtAbsent | golem/core/optimisers/adaptive/reward_agent.py:23-25 | an arm with no reward at its positions gets decay 0 |
| Rewards.Dedup | golem/core/optimisers/adaptive/reward_agent.py:23 | the unique arms are distinct and hold every arm |
| Rewards.FitnessRankRate | golem/core/optimisers/adaptive/reward_agent.py:30-33 | `[0.]` when all decays are zero, otherwise each value divided by the sum of absolute values |
| Rewards.FitnessRankRateSigns | golem/core/optimisers/adaptive/reward_agent.py:30-33 | with a nonzero total the rates keep the length and every entry's sign |
| Rewards.FitnessRankRateNormalised | golem/core/optimisers/adaptive/reward_agent.py:30-33 | with a nonzero total the absolute rates sum to 1 |
| Rewards.AbsSumZero | golem/core/optimisers/adaptive/reward_agent.py:33 | the total is zero iff every decay is zero |
| Rewards.PickRates | golem/core/optimisers/adaptive/reward_agent.py:19 | each arm gets the rate at its arm's position among the unique arms; IndexError iff such a position is past the rates |
| Rewards.RewardsForArms | golem/core/optimisers/adaptive/reward_agent.py:16-20 | one value per input arm, equal values for equal arms; IndexError when there are more rewards than arms or when all decays are zero with two or more distinct arms |
| GraphDepth.NewDepthParam | golem/core/optimisers/genetic/parameters/graph_depth.py:13-29 | ValueError iff a value is None, `start_depth <= 0`, `max_depth < start_depth` or `max_stagnation_gens <= 0`; otherwise the fields hold the arguments and the depth starts at `start_depth` |
| GraphDepth.Initial | golem/core/optimisers/genetic/parameters/graph_depth.py:31-33 | `initial` is a positive depth no greater than `max_depth` |
| GraphDepth.InitialIsStart | golem/core/optimisers/genetic/parameters/graph_depth.py:13-33 | on a freshly built parameter `initial` is the `start_depth` passed in, which is also the current depth |
| GraphDepth.Next | golem/core/optimisers/genetic/parameters/graph_depth.py:35-42 | non-adaptive: returns `max_depth` and changes nothing; adaptive: only the depth changes, it rises by at most one, and it rises exactly when stagnation reaches the limit below `max_depth` |
| GraphDepth.RunBounds | golem/core/optimisers/genetic/parameters/graph_depth.py:38-42 | over any sequence of calls the adaptive depth stays between the current depth and `max_depth`, never falls, and rises by at most one per call |
| GraphDepth.RunStatic | golem/core/optimisers/genetic/parameters/graph_depth.py:36-37 | the non-adaptive parameter answers `max_depth` every time and never changes |
| GraphDepth.NextAtMax | golem/core/optimisers/genetic/parameters/graph_depth.py:38-39 | once at `max_depth`, `next` returns it with the state unchanged |
| SearchSpace.StripLabelRoundTrip | golem/core/tuning/search_space.py:97-122 | stripping a label `f'{i} \|\| {op} \| {p}'` gives back p when p holds no `' \| '` |
| SearchSpace.LabelInjective | golem/core/tuning/search_space.py:97-103 | the labels of two parameters of the same node and operation differ |
| SearchSpace.ConvertParams | golem/core/tuning/search_space.py:106-122 | the stripped dictionary has distinct keys |
| SearchSpace.ConvertParamsGet | golem/core/tuning/search_space.py:106-122 | a stripped name maps to the last non-None value whose key strips to it, or is absent |
| SearchSpace.ConvertLabel | golem/core/tuning/search_space.py:97-122 | `convert_params({label(i, op, p): v})` is `{p: v}` |
| SearchSpace.ConvertDropsNone | golem/core/tuning/search_space.py:119-120 | an entry whose value is None is dropped |
| SearchSpace.ConvertLaterWins | golem/core/tuning/search_space.py:115-120 | when two keys strip to the same name, the later value wins |
| SearchSpace.ParametersForOperation | golem/core/tuning/search_space.py:92-94 | `[]` for an unknown operation, otherwise the operation's parameter names in the order the space lists them |
| SearchSpace.ParameterHyperoptSpace | golem/core/tuning/search_space.py:18-42 | None iff the operation is unknown; AttributeError for an unknown parameter of a known operation; otherwise a distribution carrying the label |
| SearchSpace.NodeParamsForIopt | golem/core/tuning/search_space.py:72-90 | two empty dictionaries for an unknown operation, otherwise the continuous and the discrete parameters keyed by label |
| SearchSpace.IoptSpec | golem/core/tuning/search_space.py:72-90 | a labelled parameter is in the first dictionary iff it is continuous and in the second iff it is discrete; parameters of any other type are dropped |
| Tuner.MetricValue | golem/core/tuning/tuner_interface.py:138-161 | a single-objective fitness gives its value when valid and `_default_metric_value` otherwise; in a multi-objective fitness each None component is replaced by the default |
| Tuner.FillMissing | golem/core/tuning/tuner_interface.py:156-161 | same length, each None replaced by the default and every other value kept |
| Tuner.Threshold | golem/core/tuning/tuner_interface.py:114-115 | the threshold is `init - \|init\|·deviation/100`, never above `init` for a non-negative deviation |
| Tuner.FinalCheck | golem/core/tuning/tuner_interface.py:95-136 | the tuned graph is returned iff the obtained metric is not the default and is at most the threshold; afterwards `obtained_metric` is the returned graph's metric |
| Tuner.FinalCheckNeverWorse | golem/core/tuning/tuner_interface.py:114-135 | with a non-negative deviation the final metric never exceeds the initial one |
| Tuner.FinalCheckDefaultRejected | golem/core/tuning/tuner_interface.py:103-106 | an obtained metric equal to the default counts as missing, so the initial graph and metric are kept |
| Tuner.StopTuning | golem/core/tuning/tuner_interface.py:205-207 | `obtained_metric` becomes `init_metric` and nothing else changes |
| Tuner.WithPrefix | golem/core/tuning/tuner_interface.py:176-177 | exactly the entries whose key starts with the prefix |
| Tuner.WithPrefixAppend | golem/core/tuning/tuner_interface.py:176-177 | the selection keeps the dict's order and multiplicity: filtering `a + b` gives the filtered `a` followed by the filtered `b` |
| Tuner.SetArgNode | golem/core/tuning/tuner_interface.py:184-203 | IndexError iff the index is outside Python's range; otherwise only that node changes, and it gets the stripped parameters |
| Tuner.SetArgGraph | golem/core/tuning/tuner_interface.py:163-182 | every node gets exactly the stripped entries with its own `f'{i} \|\| {name}'` prefix, `{}` when none match |
| Tuner.OtherNodePrefix | golem/core/tuning/tuner_interface.py:176-177 | a label of node i never carries the prefix of another node j |
| Tuner.SetArgGraphLabel | golem/core/tuning/tuner_interface.py:163-182 | a single labelled parameter reaches its own node as `{p: v}`, and every other node gets `{}` |
| IterationResults.EmptyIteration | golem/structural_analysis/graph_sa/results/sa_analysis_results.py:29-31 | a new iteration holds empty `'nodes'` and `'edges'` lists |
| IterationResults.NewResults | golem/structural_analysis/graph_sa/results/sa_analysis_results.py:20-23 | a new table has exactly the iteration `'0'`, and its keys are consecutive |
| IterationResults.AddEmptyIteration | golem/structural_analysis/graph_sa/results/sa_analysis_results.py:25-27 | an empty table gets the iteration `'0'`; otherwise the step can fail only with ValueError, from `int` of the last key |
| IterationResults.AddEmptyConsecutive | golem/structural_analysis/graph_sa/results/sa_analysis_results.py:25-27 | a new iteration is keyed `str(last + 1)`, so the keys stay `'0'..'k'` |
| IterationResults.IsEmpty | golem/structural_analysis/graph_sa/results/sa_analysis_results.py:33-39 | never true; KeyError only without iteration `'0'` |
| IterationResults.IsEmptyNever | golem/structural_analysis/graph_sa/results/sa_analysis_results.py:33-39 | on every table the class builds `is_empty` is False |
| IterationResults.FirstEmpty | golem/structural_analysis/graph_sa/results/sa_analysis_results.py:74-79 | the first iteration whose list for the key is empty, or none |
| IterationResults.FindLastEmptyIter | golem/structural_analysis/graph_sa/results/sa_analysis_results.py:74-79 | returns the first iteration with an empty list; if there is none it appends a fresh one and returns it |
| IterationResults.AddResults | golem/structural_analysis/graph_sa/results/sa_analysis_results.py:63-72 | `add_results([])` changes nothing |
| IterationResults.AddResultsFill | golem/structural_analysis/graph_sa/results/sa_analysis_results.py:63-79 | the whole batch goes under its first result's entity type, into the first iteration where that list is empty, and nothing else changes |
| IterationResults.AddResultsAppend | golem/structural_analysis/graph_sa/results/sa_analysis_results.py:63-79 | when every such list is full, a fresh consecutive iteration holding the batch is appended |
| IterationResults.IterKey | golem/structural_analysis/graph_sa/results/sa_analysis_results.py:47-48 | a falsy `iter` (None or 0) selects the last key, any other selects `str(iter)` |
| IterationResults.GetInfoAboutWorstResult | golem/structural_analysis/graph_sa/results/sa_analysis_results.py:41-61 | IndexError iff the iteration is unknown; otherwise None iff it holds no result, and else the first result, nodes before edges, with the greatest worst value (corrected scan) |
| IterationResults.WorstIndexAsWritten | golem/structural_analysis/graph_sa/results/sa_analysis_results.py:55-60 | the scan as written picks some entry of a non-empty list |
| IterationResults.ZeroWorstReplaced | golem/structural_analysis/graph_sa/results/sa_analysis_results.py:58 | with values 0 then -3 the scan as written picks -3 (see Findings) |
| IterationResults.WorstIndex | golem/structural_analysis/graph_sa/results/sa_analysis_results.py:55-60 | the first entry with the greatest value |
| IterationResults.WorstScansAgree | golem/structural_analysis/graph_sa/results/sa_analysis_results.py:55-60 | when no value is 0 the scan as written picks the first greatest |
| PresentingResults.InitialResults | golem/structural_analysis/graph_sa/result_presenting_structures/sa_analysis_results.py:13-21 | an empty list without approaches; otherwise one result per object to analyse, TypeError when there are approaches but nothing to analyse |
| PresentingResults.NewPresenting | golem/structural_analysis/graph_sa/result_presenting_structures/sa_analysis_results.py:9-21 | the objects to analyse default to the graph's nodes and edges, and the result lists are built as above |
| PresentingResults.IsEmpty | golem/structural_analysis/graph_sa/result_presenting_structures/sa_analysis_results.py:23-28 | always False |
| PresentingResults.GetWorstResult | golem/structural_analysis/graph_sa/result_presenting_structures/sa_analysis_results.py:30-40 | None iff both lists are empty, otherwise the greatest worst value over all node and edge results |
| PresentingResults.GetInfoAboutWorstResult | golem/structural_analysis/graph_sa/result_presenting_structures/sa_analysis_results.py:42-51 | `{'value': -1}` iff the worst is None or 0; otherwise the first result, nodes before edges, whose worst equals the maximum |
| PresentingResults.AddNodeResult | golem/structural_analysis/graph_sa/result_presenting_structures/sa_analysis_results.py:53-55 | appends exactly one element to `'nodes'` |
| PresentingResults.AddEdgeResult | golem/structural_analysis/graph_sa/result_presenting_structures/sa_analysis_results.py:57-59 | as written: appends to `'nodes'` and leaves `'edges'` alone |
| PresentingResults.EdgesNeverChange | golem/structural_analysis/graph_sa/result_presenting_structures/sa_analysis_results.py:53-59 | after any sequence of additions `'edges'` is what the constructor built, and `'nodes'` holds every added result in order |
| PresentingResults.EdgeResultMisfiled | golem/structural_analysis/graph_sa/result_presenting_structures/sa_analysis_results.py:57-59 | an edge result never reaches `'edges'` as written, and does with the fix (see Findings) |
| PresentingResults.AddEdgeResultFixed | golem/structural_analysis/graph_sa/result_presenting_structures/sa_analysis_results.py:57-59 | corrected: appends to `'edges'` and leaves `'nodes'` alone |
| PresentingResults.AddAllFixedSorts | golem/structural_analysis/graph_sa/result_presenting_structures/sa_analysis_results.py:53-59 | corrected: after any sequence of additions `'nodes'` holds the node results and `'edges'` the edge results, each in the order added |
| DeletionResult.NewDeletionResult | golem/structural_analysis/graph_sa/result_presenting_structures/deletion_sa_approach_result.py:8-9 | a new result has no metrics |
| DeletionResult.AddResults | golem/structural_analysis/graph_sa/result_presenting_structures/deletion_sa_approach_result.py:11-12 | `get_all_results` afterwards is exactly the list passed in |
| DeletionResult.AddResultsReplaces | golem/structural_analysis/graph_sa/result_presenting_structures/deletion_sa_approach_result.py:11-23 | a second `add_results` replaces the first batch instead of extending it |
| DeletionResult.GetWorstResult | golem/structural_analysis/graph_sa/result_presenting_structures/deletion_sa_approach_result.py:14-16 | the greatest metric; ValueError on an empty list |
| DeletionResult.GetWorstResultWithNames | golem/structural_analysis/graph_sa/result_presenting_structures/deletion_sa_approach_result.py:18-19 | `{'value': get_worst_result()}`, failing exactly when it fails |
| Entity.EntityFromStr | golem/structural_analysis/graph_sa/results/utils.py:7-18 | an edge iff the string splits into exactly two parts at `'_'`, built from nodes of the graph; the error classes each form can raise |
| Entity.EdgeFromParts | golem/structural_analysis/graph_sa/results/utils.py:9-16 | only ValueError (a part that is not a number) or UnboundLocalError (the swallowed IndexError) can escape; a result is an edge between nodes of the graph |
| Entity.NodeFromStr | golem/structural_analysis/graph_sa/results/utils.py:17-18 | only ValueError or IndexError can escape; a result is a node of the graph |
| Entity.SplitEdgeStr | golem/structural_analysis/graph_sa/results/utils.py:9-10 | `f"{i}_{j}"` splits into `str(i)` and `str(j)` |
| Entity.EdgeRoundTrip | golem/structural_analysis/graph_sa/results/utils.py:9-16 | `f"{i}_{j}"` yields `(nodes[i], nodes[j])` for valid indices |
| Entity.NodeRoundTrip | golem/structural_analysis/graph_sa/results/utils.py:17-18 | `f"{i}"` yields `nodes[i]` for a valid index |
| Entity.EdgeOutOfRange | golem/structural_analysis/graph_sa/results/utils.py:11-16 | an out-of-range index in the edge form ends in UnboundLocalError, not IndexError |
| Entity.NodeOutOfRange | golem/structural_analysis/graph_sa/results/utils.py:17-18 | an out-of-range node index raises IndexError |
| History.TraceGenealogicalPath | golem/visualisation/opt_viz_extra.py:375-384 | the path ends at the given individual and starts at one without parents; each step takes the parent with the greatest `graph_dist` (the first on ties), as the code's `max` does, although the docstring of `visualize_best_genealogical_path` speaks of the most similar parent |
| History.PathSteps | golem/visualisation/opt_viz_extra.py:378-382 | each earlier element is the first parent of the next one that maximises `graph_dist` to it |
| History.ArgMax | golem/visualisation/opt_viz_extra.py:379-382 | `max(..., key=...)` gives the first element with the greatest key |
| History.ObjectivesLists | golem/visualisation/opt_viz_extra.py:363-371 | the absolute values of each chosen objective over all individuals; by default every objective of the first individual, which raises IndexError when there are no individuals |
| History.ExtractObjectives | golem/visualisation/opt_viz_extra.py:337-354 | one column per objective over all individuals of all generations; when asked, a column with a value that is not positive is negated as a whole; defaults to the first individual's objectives |
| History.FromMinimisation | golem/visualisation/opt_viz_extra.py:345-351 | a column is negated iff not all its values are positive |
| History.ExtractAgreesWithLists | golem/visualisation/opt_viz_extra.py:337-371 | on negative objectives `extract_objectives` and `objectives_lists` give the same values |
| History.ConvergenceSeries | golem/visualisation/opt_viz_extra.py:95-101 | the series is the running minimum, entry k the least of the first k + 1 values, so it never increases; IndexError on an empty history |
| History.MinUpToMonotone | golem/visualisation/opt_viz_extra.py:95-101 | the running minimum never increases |
| History.BestGraphs | golem/visualisation/opt_viz_extra.py:71-93 | the best graph shown after step k is the latest graph up to k whose fitness equals the running minimum, every later one being worse; IndexError iff there is no graph or fewer fitnesses than graphs |
| Strings.ParseInt | golem/structural_analysis/graph_sa/results/utils.py:12-18 | `int(s)` fails only with ValueError |
| Strings.ParseIntAccepts | golem/structural_analysis/graph_sa/results/utils.py:12-18 | `int(s)` succeeds exactly when the stripped string is digit groups after an optional sign; an unsigned string gives the number its digits spell, and `-` negates it |
| Strings.ParseIntStr | golem/structural_analysis/graph_sa/results/sa_analysis_results.py:25-27 | `int(str(i)) == i` |
| Strings.ParseUnderscores | golem/structural_analysis/graph_sa/results/utils.py:12-18 | `int("1_0_0") == 100`, as in Python |
| Strings.NatStrInjective | golem/structural_analysis/graph_sa/results/sa_analysis_results.py:25-27 | `str` of two different numbers differs, so iteration keys never clash |
| Strings.Split | golem/structural_analysis/graph_sa/results/utils.py:9-10 | `s.split(sep)` returns at least one piece |
| Strings.SplitNone | golem/structural_analysis/graph_sa/results/utils.py:9-10 | a string without the separator splits into itself alone |
| Strings.SplitFirst | golem/structural_analysis/graph_sa/results/utils.py:9-10 | `split` cuts at the first occurrence of the separator and goes on with the rest |
| Strings.SplitPair | golem/structural_analysis/graph_sa/results/utils.py:9-10 | `(x + '_' + y).split('_') == [x, y]` when neither part holds `'_'` |
| Strings.Sort | test/unit/dag/test_graph.py:35-42 | `sorted` gives a sorted permutation |
| Strings.SortedUnique | test/unit/dag/test_graph.py:35-42 | two sorted lists holding the same strings are equal, so the order of the input does not matter |
| Dicts.Put | golem/core/tuning/search_space.py:119-120 | `d.update({k: v})`: an existing key is rewritten where it stands, a new key is appended |
| Dicts.PutDistinct | golem/core/tuning/search_space.py:119-120 | updating never creates a duplicate key |

## Left out

- The `LinkedGraph` implementation (`golem/core/dag/linked_graph.py`) is not part of this model. The edit operations are modelled from the expectations of `test/unit/dag/test_graph.py`, with these limits:
  - `DeleteNode` and `UpdateNode` require that the node does not list itself as a parent.
  - Only `ReconnectType.none` and `ReconnectType.single` are modelled.
  - Where `update_node` places the new node in the node list is not asserted by any test; the model appends it.
  - The `clean_up_leftovers` option of `disconnect_nodes` is left out.
- LinkedGraphs.UpdateNode: the replacement is a node without parents of its own, as in every test; a replacement that brings its own `nodes_from` is not modelled.
- LinkedGraphs.Depth: a non-empty graph without root nodes (every node has a child, so every node is on or leads into a cycle) gives 0; what `LinkedGraph.depth` returns there is not modelled. `Depth` is also built on the corrected longest-path depth (`Depths.LongestDepth`), not on the as-written `node_depth` (see "## Findings"): on the parent lists `[[1, 2], [2], []]` it is 3, where the maximum of the as-written `node_depth` would be -1.
- LinkedGraphs.UpdateSubtree: its contract states only when it fails and that the result is valid; the exact result is pinned down on the test graph by `GraphFixtures.UpdateSubtreeDuplicated` and through `Graft` and `DeleteSubtree`.
- `descriptive_id` covers a node's name only, not its parameters. The node-level id (`linked_graph_node.py`) is not part of this model; `NodeId` follows the format the diamond test asserts and marks a node met again on the current path as `ID_CYCLED`. The cache and its reset are not modelled: the id is a function of the graph, so every read leaves it unchanged by construction. Of `test_reset_descriptive_id` (`test/unit/dag/test_graph.py:321-428`), the first four edits are proved to change the id (`ResetIdFixtures.ResetDescriptiveId`). From the fifth edit on, the test addresses nodes by position after `update_node` has placed `new` in the node list; the model appends it last, but no test asserts where `update_node` puts it, so the remaining steps are not modelled.
- The shallow- and deep-copy tests (`test/unit/dag/test_graph.py:291-314`) test object aliasing, which has no counterpart in a value model.
- `graph_structure` (`golem/core/dag/graph_utils.py:153-160`) depends on `str(graph)` of code outside this model.
- `child_height` loops `graph.length` times; the model passes that bound as `fuel`. When the rounds run out, the source returns None implicitly; `ChildHeight` returns `None` there. On an acyclic graph this cannot happen.
- Plotting, GIF and image output in `golem/visualisation/opt_viz_extra.py` are left out; only the pure helpers are modelled.
- The `save`/`load` JSON I/O in `golem/structural_analysis/graph_sa/results/sa_analysis_results.py:81-134` is left out.
- Result objects (`ObjectSAResult`, approach results) are reduced to their entity type and their worst value. The metric index passed to `get_worst_result_with_names` is folded into that value.
- The multiprocessing analyses (`nodes_analysis.py`, `edges_analysis.py`) are concurrency over unseen classes and are left out.
- `get_node_params_for_hyperopt` (`golem/core/tuning/search_space.py:44-70`) and the distribution call in `get_parameter_hyperopt_space` (lines 36-40) build hyperopt objects. The model stops at the tagged parameter description and at the None branch.
- `golem/core/tuning/tuner_interface.py:16` imports `convert_parameters`, but `golem/core/tuning/search_space.py` defines `convert_params`. The model uses `convert_params` as the stripping function throughout.
- Objective evaluation, logging and the timing parts of `BaseTuner` are left out. The metric of the tuned graph is a parameter of `FinalCheck`.
- FinalCheck: compares a single scalar metric; a multi-objective metric tuple compared against the default is not modelled.
- Floats are modelled as Dafny `real`: there is no NaN, no infinity and no rounding, and `np.sign` and `abs` follow the real numbers.
- LinkedGraphs.AddNode: the contract states validity only; that no old node gains or loses a child and no edge appears is stated by `LinkedGraphs.AddNodeChildren` and `LinkedGraphs.AddNodeEdges`.
- Strings.ParseInt: accepts ASCII whitespace around an optional sign and ASCII digits with single underscores between them. Python's `int` also accepts non-ASCII whitespace and Unicode decimal digits (such as `"\u00a012"`), which the model rejects.
- Strings.Split: the contract states only that there is a piece; where the string is cut is stated by `Strings.SplitNone`, `Strings.SplitFirst` and `Strings.SplitPair`.
- Layers.NodesFromLayer: the layer number is a `nat`; the source returns `[]` for a negative `layer_number`, and that case is not modelled.
- Rewards.DecayValuesForArms: lists the distinct arms in first-seen order, where the source iterates `set(arms)`, whose order CPython derives from the hashes. Each arm stays paired with its own value, and `get_rewards_for_arms` looks values up by arm, so the rates and the error condition do not depend on the order.
- `print('a')` in `get_entity_from_str` is output only; the model keeps the error that follows it.

## Findings

| source | as written | input that shows it | evidently intended | confidence | as-written member | corrected member |
|---|---|---|---|---|---|---|
| golem/core/dag/graph_utils.py:100-123 | `node_depth` returns -1 as soon as a node of a later layer was visited before, which also happens on acyclic graphs where a node is reached by paths of different lengths | nodes_from `[[1, 2], [2], []]`, node 0 (node 0 has parents 1 and 2, node 1 has parent 2): result -1 | the docstring promises the length of a path to the farthest primary node: 3 here | not executed | Depths.NodeDepthShortcut | Depths.LongestDepth (Depths.LongestDepthShortcut, Depths.NodeDepthAgrees) |
| golem/structural_analysis/graph_sa/result_presenting_structures/sa_analysis_results.py:57-59 | `add_edge_result` appends to the `'nodes'` list | any edge result added to a fresh object: `'edges'` stays empty | append to `'edges'`, as the name and docstring say | not executed | PresentingResults.AddEdgeResult (PresentingResults.EdgeResultMisfiled, PresentingResults.EdgesNeverChange) | PresentingResults.AddEdgeResultFixed (PresentingResults.AddAllFixedSorts) |
| golem/structural_analysis/graph_sa/results/sa_analysis_results.py:58 | `if not worst_value or ...` treats a current worst of 0 like no worst yet, so the next value replaces it even when smaller | worst values 0 then -3: the scan returns -3 | the greatest value, first on ties: 0 here | not executed | IterationResults.WorstIndexAsWritten (IterationResults.ZeroWorstReplaced) | IterationResults.WorstIndex (IterationResults.WorstScansAgree, IterationResults.GetInfoAboutWorstResult) |

=== FILE: builtins.dfy ===
/** The few Python built-ins the modelled code relies on: `None`, the
    exceptions it raises, and a `Result` that carries either a value or the
    exception that escaped. */
module Builtins {

  datatype Option<T> = None | Some(value: T)

  /** The exception classes the modelled functions can raise. */
  datatype Exception =
    | ValueError
    | IndexError
    | KeyError
    | UnboundLocalError
    | TypeError
    | AttributeError

  datatype Result<T> = Ok(value: T) | Err(error: Exception)
  {
    predicate IsFailure() {
      Err?
    }

    function PropagateFailure<U>(): Result<U>
      requires Err?
    {
      Err(error)
    }

    function Extract(): T
      requires Ok?
    {
      value
    }
  }

  /** `xs[i]` with Python's reading of an integer index: `-len(xs) <= i < 0`
      counts from the end, anything outside `-len(xs) .. len(xs) - 1` raises
      `IndexError`. */
  function PyIndex<T>(xs: seq<T>, i: int): (r: Result<T>)
    ensures r.Ok? <==> -|xs| <= i < |xs|
    ensures 0 <= i < |xs| ==> r == Ok(xs[i])
    ensures -|xs| <= i < 0 ==> r == Ok(xs[|xs| + i])
    ensures r.Err? ==> r.error == IndexError
  {
    if 0 <= i < |xs| then Ok(xs[i])
    else if -|xs| <= i < 0 then Ok(xs[|xs| + i])
    else Err(IndexError)
  }

  /** The elements of a sequence are pairwise different. */
  predicate Distinct<T(==)>(xs: seq<T>) {
    forall i, j :: 0 <= i < j < |xs| ==> xs[i] != xs[j]
  }

  /** Python's `abs` on a float. */
  function Abs(x: real): (r: real)
    ensures r >= 0.0 && (r == x || r == -x)
  {
    if x < 0.0 then -x else x
  }
}

=== FILE: cycle_check.dfy ===
/** `graph_has_cycle`: the iterative depth-first search with an explicit
    stack and per-node `visited` / `on_stack` marks. A node may be pushed
    several times before it is first visited; a visited node on top of the
    stack is popped and loses its `on_stack` mark. The parent scan runs after
    either step and reports a cycle as soon as it meets a parent that is
    visited and still on the stack. */
module GraphCycle {
  import opened Dag

  /** The outcome of the parent scan: a visited parent still on the stack
      closes a cycle; otherwise the unvisited parents to push, in order. */
  datatype Scan = Cycle(parent: nat) | Pushed(nodes: seq<nat>)

  /** The `for parent in cur_node.nodes_from` scan: pushes the unvisited
      parents in order and stops at the first visited parent still on the
      stack. */
  method ScanParents(g: Graph, cur: nat, visited: seq<bool>, onStack: seq<bool>) returns (r: Scan)
    requires WellFormed(g) && cur < |g| && |visited| == |g| && |onStack| == |g|
    ensures r.Cycle? ==> r.parent in g[cur] && visited[r.parent] && onStack[r.parent]
    ensures r.Pushed? ==> forall k :: 0 <= k < |r.nodes| ==> r.nodes[k] in g[cur] && !visited[r.nodes[k]]
    ensures r.Pushed? ==> forall k :: 0 <= k < |g[cur]| ==>
      (visited[g[cur][k]] && !onStack[g[cur][k]]) || g[cur][k] in r.nodes
    ensures r.Pushed? && (forall k :: 0 <= k < |g[cur]| ==> visited[g[cur][k]]) ==> r.nodes == []
  {
    var pushed := [];
    var j := 0;
    while j < |g[cur]|
      invariant j <= |g[cur]|
      invariant forall k :: 0 <= k < |pushed| ==> pushed[k] in g[cur] && !visited[pushed[k]]
      invariant forall k :: 0 <= k < j ==> (visited[g[cur][k]] && !onStack[g[cur][k]]) || g[cur][k] in pushed
      invariant (forall k :: 0 <= k < |g[cur]| ==> visited[g[cur][k]]) ==> pushed == []
    {
      var parent := g[cur][j];
      if !visited[parent] {
        pushed := pushed + [parent];
      } else if onStack[parent] {
        return Cycle(parent);
      }
      j := j + 1;
    }
    return Pushed(pushed);
  }

  /** Every parent of a visited stack entry is visited or still above it on the stack. */
  ghost predicate StackCovers(g: Graph, visited: seq<bool>, stack: seq<nat>)
    requires WellFormed(g) && |visited| == |g| && AllNodes(g, stack)
  {
    forall i, k :: 0 <= i < |stack| && visited[stack[i]] && 0 <= k < |g[stack[i]]| ==>
      visited[g[stack[i]][k]] || g[stack[i]][k] in stack[i + 1..]
  }

  /** Finished nodes (visited, off the stack) have finished parents of strictly lower rank. */
  ghost predicate FinishedRanked(g: Graph, visited: seq<bool>, onStack: seq<bool>, rank: seq<nat>)
    requires WellFormed(g) && |visited| == |g| && |onStack| == |g| && |rank| == |g|
  {
    forall x, k :: 0 <= x < |g| && visited[x] && !onStack[x] && 0 <= k < |g[x]| ==>
      visited[g[x][k]] && !onStack[g[x][k]] && rank[g[x][k]] < rank[x]
  }

  /** Every stack entry at or above the position where an on-stack node was
      visited is reachable from that node. */
  ghost predicate OnStackReaches(g: Graph, onStack: seq<bool>, vpos: seq<nat>, stack: seq<nat>)
    requires |onStack| == |g| && |vpos| == |g|
  {
    && (forall y :: 0 <= y < |g| && onStack[y] ==> vpos[y] < |stack| && stack[vpos[y]] == y)
    && (forall y, k :: 0 <= y < |g| && onStack[y] && vpos[y] <= k < |stack| ==> Reaches(g, y, stack[k]))
  }

  /** The search state: the source's `visited`, `on_stack` and `stack`,
      together with the bookkeeping the correctness argument follows: the
      stack position at which each on-stack node was visited (`vpos`), a
      finishing rank per node with the next rank to hand out (`clock`), and
      the nodes not yet visited. */
  datatype DfsState = DfsState(visited: seq<bool>, onStack: seq<bool>, stack: seq<nat>,
                               vpos: seq<nat>, rank: seq<nat>, clock: nat, unvisited: set<nat>)

  /** One step of the stack loop either meets a cycle or moves to a new state. */
  datatype Step = CycleFound | Continue(state: DfsState)

  /** The invariant of the stack loop, while exploring from the outer-loop node `node`. */
  ghost predicate ExploreInv(g: Graph, node: nat, s: DfsState) {
    && WellFormed(g) && node < |g|
    && |s.visited| == |g| && |s.onStack| == |g| && |s.vpos| == |g| && |s.rank| == |g|
    && AllNodes(g, s.stack)
    && (forall x :: 0 <= x < node ==> s.visited[x])
    && (s.visited[node] || s.stack == [node])
    && (forall x: nat :: x in s.unvisited <==> x < |g| && !s.visited[x])
    && (forall x :: 0 <= x < |g| && s.onStack[x] ==> s.visited[x])
    && (forall x, k :: 0 <= x < |g| && s.visited[x] && 0 <= k < |g[x]| ==> g[x][k] != x)
    && StackCovers(g, s.visited, s.stack)
    && FinishedRanked(g, s.visited, s.onStack, s.rank)
    && (forall x :: 0 <= x < |g| && s.visited[x] && !s.onStack[x] ==> s.rank[x] < s.clock)
    && OnStackReaches(g, s.onStack, s.vpos, s.stack)
  }

  /** The first visit of the node on top of the stack, followed by its parent
      scan. Every continuing step visits one more node. */
  method VisitTop(g: Graph, node: nat, s: DfsState) returns (r: Step)
    requires ExploreInv(g, node, s)
    requires |s.stack| > 0 && !s.visited[s.stack[|s.stack| - 1]]
    ensures r.CycleFound? ==> HasCycle(g)
    ensures r.Continue? ==> ExploreInv(g, node, r.state) && |r.state.unvisited| < |s.unvisited|
  {
    var top := |s.stack| - 1;
    var cur := s.stack[top];
    var visited := s.visited[cur := true];
    var onStack := s.onStack[cur := true];
    var scan := ScanParents(g, cur, visited, onStack);
    if scan.Cycle? {
      ReachesRefl(g, cur);
      BackEdgeCycle(g, scan.parent, cur);
      return CycleFound;
    }
    var next := DfsState(visited, onStack, s.stack + scan.nodes, s.vpos[cur := top],
                         s.rank, s.clock, s.unvisited - {cur});
    VisitKeepsInv(g, node, s, scan.nodes);
    return Continue(next);
  }

  /** Visiting the top node and pushing its unvisited parents keeps the loop
      invariant and visits one more node. */
  lemma VisitKeepsInv(g: Graph, node: nat, s: DfsState, pushed: seq<nat>)
    requires ExploreInv(g, node, s)
    requires |s.stack| > 0 && !s.visited[s.stack[|s.stack| - 1]]
    requires var cur := s.stack[|s.stack| - 1];
      && (forall k :: 0 <= k < |pushed| ==> pushed[k] in g[cur] && !s.visited[cur := true][pushed[k]])
      && (forall k :: 0 <= k < |g[cur]| ==>
            (s.visited[cur := true][g[cur][k]] && !s.onStack[cur := true][g[cur][k]]) || g[cur][k] in pushed)
    ensures var top := |s.stack| - 1; var cur := s.stack[top];
      var next := DfsState(s.visited[cur := true], s.onStack[cur := true], s.stack + pushed,
                           s.vpos[cur := top], s.rank, s.clock, s.unvisited - {cur});
      ExploreInv(g, node, next) && |next.unvisited| < |s.unvisited|
  {
    var top := |s.stack| - 1;
    var cur := s.stack[top];
    var visited := s.visited[cur := true];
    ReachesRefl(g, cur);
    PushReaches(g, s.onStack, s.vpos, s.stack, pushed);
    PushCovers(g, s.visited, s.stack, pushed, visited, cur);
    assert s.unvisited - {cur} < s.unvisited;
  }

  /** The parents pushed after visiting the top node are reachable from
      every on-stack node at or below it, the top node included. */
  lemma PushReaches(g: Graph, onStack: seq<bool>, vpos: seq<nat>, stack: seq<nat>, pushed: seq<nat>)
    requires WellFormed(g) && |onStack| == |g| && |vpos| == |g| && AllNodes(g, stack) && |stack| > 0
    requires OnStackReaches(g, onStack, vpos, stack)
    requires forall k :: 0 <= k < |pushed| ==> pushed[k] in g[stack[|stack| - 1]]
    ensures OnStackReaches(g, onStack[stack[|stack| - 1] := true], vpos[stack[|stack| - 1] := |stack| - 1], stack + pushed)
  {
    var top := |stack| - 1;
    var cur := stack[top];
    var onStack', vpos', stack' := onStack[cur := true], vpos[cur := top], stack + pushed;
    ReachesRefl(g, cur);
    forall y, k | 0 <= y < |g| && onStack'[y] && vpos'[y] <= k < |stack'|
      ensures Reaches(g, y, stack'[k])
    {
      if k > top {
        assert stack'[k] == pushed[k - |stack|];
        ReachesStep(g, y, cur, stack'[k]);
      }
    }
  }

  /** Visiting the top node keeps the stack covering: each of its parents is
      visited or pushed above it. */
  lemma PushCovers(g: Graph, visited: seq<bool>, stack: seq<nat>, pushed: seq<nat>, visited': seq<bool>, cur: nat)
    requires WellFormed(g) && |visited| == |g| && AllNodes(g, stack) && |stack| > 0
    requires cur == stack[|stack| - 1] && visited' == visited[cur := true]
    requires StackCovers(g, visited, stack)
    requires forall k :: 0 <= k < |pushed| ==> pushed[k] < |g| && !visited'[pushed[k]]
    requires forall k :: 0 <= k < |g[cur]| ==> visited'[g[cur][k]] || g[cur][k] in pushed
    ensures StackCovers(g, visited', stack + pushed)
  {
    var top := |stack| - 1;
    var stack' := stack + pushed;
    forall i, k | 0 <= i < |stack'| && visited'[stack'[i]] && 0 <= k < |g[stack'[i]]|
      ensures visited'[g[stack'[i]][k]] || g[stack'[i]][k] in stack'[i + 1..]
    {
      var p := g[stack'[i]][k];
      if stack'[i] == cur {
        if p in pushed {
          var m :| 0 <= m < |pushed| && pushed[m] == p;
          assert stack'[|stack| + m] == p;
        }
      } else {
        assert i < |stack|;
        if p in stack[i + 1..] {
          var m :| i + 1 <= m < |stack| && stack[m] == p;
          assert stack'[m] == p;
        }
      }
    }
  }

  /** Popping the top entry keeps every remaining visited entry covered. */
  lemma PopKeepsCover(g: Graph, visited: seq<bool>, stack: seq<nat>)
    requires WellFormed(g) && |visited| == |g| && AllNodes(g, stack) && |stack| > 0
    requires visited[stack[|stack| - 1]]
    requires StackCovers(g, visited, stack)
    ensures StackCovers(g, visited, stack[..|stack| - 1])
  {
    var top := |stack| - 1;
    var s' := stack[..top];
    forall i, k | 0 <= i < |s'| && visited[s'[i]] && 0 <= k < |g[s'[i]]|
      ensures visited[g[s'[i]][k]] || g[s'[i]][k] in s'[i + 1..]
    {
      var p := g[s'[i]][k];
      assert s'[i] == stack[i];
      if !visited[p] {
        assert p in stack[i + 1..];
        var m :| i + 1 <= m < |stack| && stack[m] == p;
        assert m < top;
        assert s'[m] == p;
      }
    }
  }

  /** Finishing `cur`, whose parents are all finished, keeps the ranking. */
  lemma FinishKeepsRanking(g: Graph, visited: seq<bool>, onStack: seq<bool>, rank: seq<nat>, clock: nat, cur: nat)
    requires WellFormed(g) && |visited| == |g| && |onStack| == |g| && |rank| == |g| && cur < |g|
    requires FinishedRanked(g, visited, onStack, rank)
    requires forall x :: 0 <= x < |g| && visited[x] && !onStack[x] ==> rank[x] < clock
    requires visited[cur] && onStack[cur]
    requires forall k :: 0 <= k < |g[cur]| ==> g[cur][k] != cur
    requires forall k :: 0 <= k < |g[cur]| ==> visited[g[cur][k]] && !onStack[cur := false][g[cur][k]]
    ensures FinishedRanked(g, visited, onStack[cur := false], rank[cur := clock])
    ensures forall x :: 0 <= x < |g| && visited[x] && !onStack[cur := false][x] ==> rank[cur := clock][x] < clock + 1
  {
  }

  /** Dropping the top entry keeps every remaining on-stack node reachable from the entry visited before it. */
  lemma OnStackReachesPop(g: Graph, onStack: seq<bool>, vpos: seq<nat>, stack: seq<nat>)
    requires |onStack| == |g| && |vpos| == |g| && |stack| > 0 && stack[|stack| - 1] < |g|
    requires OnStackReaches(g, onStack, vpos, stack)
    ensures OnStackReaches(g, onStack[stack[|stack| - 1] := false], vpos, stack[..|stack| - 1])
    ensures forall y :: 0 <= y < |g| && onStack[y] ==> Reaches(g, y, stack[|stack| - 1])
  {
    var top := |stack| - 1;
    forall y | 0 <= y < |g| && onStack[y]
      ensures Reaches(g, y, stack[top])
    {
      assert vpos[y] <= top;
    }
  }

  /** Popping a visited node from the top of the stack, followed by its
      parent scan. Every continuing step shortens the stack. */
  method PopTop(g: Graph, node: nat, s: DfsState) returns (r: Step)
    requires ExploreInv(g, node, s)
    requires |s.stack| > 0 && s.visited[s.stack[|s.stack| - 1]]
    ensures r.CycleFound? ==> HasCycle(g)
    ensures r.Continue? ==> ExploreInv(g, node, r.state)
    ensures r.Continue? ==> r.state.unvisited == s.unvisited && |r.state.stack| < |s.stack|
  {
    var top := |s.stack| - 1;
    var cur := s.stack[top];
    OnStackReachesPop(g, s.onStack, s.vpos, s.stack);
    PopKeepsCover(g, s.visited, s.stack);
    forall k | 0 <= k < |g[cur]|
      ensures s.visited[g[cur][k]]
    {
      assert s.stack[top + 1..] == [];
    }
    var onStack := s.onStack[cur := false];
    var scan := ScanParents(g, cur, s.visited, onStack);
    if scan.Cycle? {
      BackEdgeCycle(g, scan.parent, cur);
      return CycleFound;
    }
    assert scan.nodes == [];
    var stack := s.stack[..top] + scan.nodes;
    assert stack == s.stack[..top];
    if s.onStack[cur] {
      FinishKeepsRanking(g, s.visited, s.onStack, s.rank, s.clock, cur);
      return Continue(DfsState(s.visited, onStack, stack, s.vpos, s.rank[cur := s.clock], s.clock + 1, s.unvisited));
    } else {
      assert onStack == s.onStack;
      return Continue(DfsState(s.visited, onStack, stack, s.vpos, s.rank, s.clock, s.unvisited));
    }
  }

  /** The invariant of the outer loop over the nodes: the stack is empty, no
      node is on it, and every node before `node` has been visited. */
  ghost predicate OuterInv(g: Graph, node: nat, s: DfsState) {
    && WellFormed(g) && node <= |g|
    && |s.visited| == |g| && |s.onStack| == |g| && |s.vpos| == |g| && |s.rank| == |g|
    && s.stack == []
    && (forall x :: 0 <= x < node ==> s.visited[x])
    && (forall x :: 0 <= x < |g| ==> !s.onStack[x])
    && (forall x: nat :: x in s.unvisited <==> x < |g| && !s.visited[x])
    && (forall x, k :: 0 <= x < |g| && s.visited[x] && 0 <= k < |g[x]| ==> g[x][k] != x)
    && FinishedRanked(g, s.visited, s.onStack, s.rank)
    && (forall x :: 0 <= x < |g| && s.visited[x] && !s.onStack[x] ==> s.rank[x] < s.clock)
  }

  /** Pushing an unvisited node on the empty stack starts an exploration. */
  lemma ExploreStart(g: Graph, node: nat, s: DfsState)
    requires OuterInv(g, node, s) && node < |g| && !s.visited[node]
    ensures ExploreInv(g, node, s.(stack := [node]))
  {
  }

  /** An exploration that emptied the stack has visited `node`. */
  lemma ExploreDone(g: Graph, node: nat, s: DfsState)
    requires ExploreInv(g, node, s) && s.stack == []
    ensures OuterInv(g, node + 1, s)
  {
  }

  /** Returns true exactly when some node reaches itself along `nodes_from`. */
  method GraphHasCycle(g: Graph) returns (cyclic: bool)
    requires WellFormed(g)
    ensures cyclic <==> HasCycle(g)
  {
    var n := |g|;
    var s := DfsState(seq(n, _ => false), seq(n, _ => false), [], seq(n, _ => 0), seq(n, _ => 0), 0, Range(n));
    var node := 0;
    while node < n
      invariant OuterInv(g, node, s)
    {
      if s.visited[node] {
        node := node + 1;
        continue;
      }
      ExploreStart(g, node, s);
      s := s.(stack := [node]);
      while |s.stack| > 0
        invariant ExploreInv(g, node, s)
        decreases |s.unvisited|, |s.stack|
      {
        var step;
        if !s.visited[s.stack[|s.stack| - 1]] {
          step := VisitTop(g, node, s);
        } else {
          step := PopTop(g, node, s);
        }
        if step.CycleFound? {
          return true;
        }
        s := step.state;
      }
      ExploreDone(g, node, s);
      node := node + 1;
    }
    RankedAcyclic(g, s.rank);
    return false;
  }
}

=== FILE: dag.dfy ===
/** Index-based view of a GOLEM graph: node `i` is the `i`-th element of the
    graph's node list, and `g[i]` is its `nodes_from` list (parent indices, in
    order, duplicates allowed). This module defines walks along `nodes_from`,
    reachability, cycles, the children relation and the breadth-first parent
    layers, together with the facts about them that the graph utilities use. */
module Dag {

  type Graph = seq<seq<nat>>

  /** Every parent reference names a node of the graph. */
  predicate WellFormed(g: Graph) {
    forall i, k :: 0 <= i < |g| && 0 <= k < |g[i]| ==> g[i][k] < |g|
  }

  predicate AllNodes(g: Graph, xs: seq<nat>) {
    forall k :: 0 <= k < |xs| ==> xs[k] < |g|
  }

  /** A walk that follows `nodes_from` one step at a time. */
  predicate IsWalk(g: Graph, w: seq<nat>) {
    && |w| > 0
    && AllNodes(g, w)
    && forall k :: 0 <= k < |w| - 1 ==> w[k + 1] in g[w[k]]
  }

  /** `b` is reachable from `a` in zero or more `nodes_from` steps. */
  ghost predicate Reaches(g: Graph, a: nat, b: nat) {
    exists w :: IsWalk(g, w) && w[0] == a && w[|w| - 1] == b
  }

  /** `v` reaches itself in one or more steps. */
  ghost predicate OnCycle(g: Graph, v: nat) {
    exists w :: IsWalk(g, w) && |w| > 1 && w[0] == v && w[|w| - 1] == v
  }

  ghost predicate HasCycle(g: Graph) {
    exists v: nat :: v < |g| && OnCycle(g, v)
  }

  /** Some node on a cycle is reachable from `v`. */
  ghost predicate CycleReachableFrom(g: Graph, v: nat) {
    exists c :: Reaches(g, v, c) && OnCycle(g, c)
  }

  /** The children of `v`: every node listing `v` in its `nodes_from`, in node order. */
  function Children(g: Graph, v: nat): (cs: seq<nat>)
    ensures forall k :: 0 <= k < |cs| ==> cs[k] < |g| && v in g[cs[k]]
    ensures forall c :: 0 <= c < |g| && v in g[c] ==> c in cs
    ensures forall i, j :: 0 <= i < j < |cs| ==> cs[i] < cs[j]
  {
    ChildrenFrom(g, v, 0)
  }

  function ChildrenFrom(g: Graph, v: nat, start: nat): (cs: seq<nat>)
    requires start <= |g|
    ensures forall k :: 0 <= k < |cs| ==> start <= cs[k] < |g| && v in g[cs[k]]
    ensures forall c :: start <= c < |g| && v in g[c] ==> c in cs
    ensures forall i, j :: 0 <= i < j < |cs| ==> cs[i] < cs[j]
    decreases |g| - start
  {
    if start == |g| then []
    else if v in g[start] then [start] + ChildrenFrom(g, v, start + 1)
    else ChildrenFrom(g, v, start + 1)
  }

  /** Nodes without children, in node order (`root_nodes`). */
  function RootNodes(g: Graph): (rs: seq<nat>)
    ensures forall k :: 0 <= k < |rs| ==> rs[k] < |g| && Children(g, rs[k]) == []
    ensures forall v :: 0 <= v < |g| && Children(g, v) == [] ==> v in rs
  {
    RootsFrom(g, 0)
  }

  function RootsFrom(g: Graph, start: nat): (rs: seq<nat>)
    requires start <= |g|
    ensures forall k :: 0 <= k < |rs| ==> start <= rs[k] < |g| && Children(g, rs[k]) == []
    ensures forall v :: start <= v < |g| && Children(g, v) == [] ==> v in rs
    decreases |g| - start
  {
    if start == |g| then []
    else if Children(g, start) == [] then [start] + RootsFrom(g, start + 1)
    else RootsFrom(g, start + 1)
  }

  /** The root nodes come in ascending node order, so none is listed twice. */
  lemma {:induction false} RootsFromAscending(g: Graph, start: nat)
    requires start <= |g|
    ensures forall i, j :: 0 <= i < j < |RootsFrom(g, start)| ==> RootsFrom(g, start)[i] < RootsFrom(g, start)[j]
    decreases |g| - start
  {
    if start < |g| {
      RootsFromAscending(g, start + 1);
    }
  }

  /** The in-order concatenation of the `nodes_from` lists of `xs`. */
  function Expand(g: Graph, xs: seq<nat>): seq<nat>
    requires AllNodes(g, xs)
  {
    if xs == [] then [] else g[xs[0]] + Expand(g, xs[1..])
  }

  /** `Expand` applied `k` times. */
  function ExpandN(g: Graph, xs: seq<nat>, k: nat): seq<nat>
    requires WellFormed(g) && AllNodes(g, xs)
    decreases k
  {
    ExpandPreservesNodes(g, xs);
    if k == 0 then xs else ExpandN(g, Expand(g, xs), k - 1)
  }

  /** Breadth-first parent layer `k` of node `v` (layer 0 is `[v]`). */
  function Layer(g: Graph, v: nat, k: nat): seq<nat>
    requires WellFormed(g) && v < |g|
  {
    ExpandN(g, [v], k)
  }

  lemma ExpandPreservesNodes(g: Graph, xs: seq<nat>)
    requires WellFormed(g) && AllNodes(g, xs)
    ensures AllNodes(g, Expand(g, xs))
  {
    if xs != [] {
      ExpandPreservesNodes(g, xs[1..]);
    }
  }

  lemma ExpandNPreservesNodes(g: Graph, xs: seq<nat>, k: nat)
    requires WellFormed(g) && AllNodes(g, xs)
    ensures AllNodes(g, ExpandN(g, xs, k))
    decreases k
  {
    ExpandPreservesNodes(g, xs);
    if k > 0 {
      ExpandNPreservesNodes(g, Expand(g, xs), k - 1);
    }
  }

  lemma {:induction false} ExpandAppend(g: Graph, xs: seq<nat>, ys: seq<nat>)
    requires AllNodes(g, xs) && AllNodes(g, ys)
    ensures AllNodes(g, xs + ys)
    ensures Expand(g, xs + ys) == Expand(g, xs) + Expand(g, ys)
  {
    if xs == [] {
      assert xs + ys == ys;
    } else {
      assert (xs + ys)[1..] == xs[1..] + ys;
      ExpandAppend(g, xs[1..], ys);
    }
  }

  /** `y` occurs in `Expand(g, xs)` exactly when it is a parent of some element of `xs`. */
  lemma {:induction false} ExpandMembership(g: Graph, xs: seq<nat>, y: nat)
    requires AllNodes(g, xs)
    ensures y in Expand(g, xs) <==> exists i :: 0 <= i < |xs| && y in g[xs[i]]
  {
    if xs != [] {
      ExpandMembership(g, xs[1..], y);
      if y in Expand(g, xs[1..]) {
        var i :| 0 <= i < |xs[1..]| && y in g[xs[1..][i]];
        assert y in g[xs[i + 1]];
      }
      if exists i :: 0 <= i < |xs| && y in g[xs[i]] {
        var i :| 0 <= i < |xs| && y in g[xs[i]];
        if i > 0 {
          assert y in g[xs[1..][i - 1]];
        }
      }
    }
  }

  /** Layer `k + 1` is the expansion of layer `k`. */
  lemma {:induction false} ExpandNSucc(g: Graph, xs: seq<nat>, k: nat)
    requires WellFormed(g) && AllNodes(g, xs)
    ensures AllNodes(g, ExpandN(g, xs, k))
    ensures ExpandN(g, xs, k + 1) == Expand(g, ExpandN(g, xs, k))
    decreases k
  {
    ExpandNPreservesNodes(g, xs, k);
    ExpandPreservesNodes(g, xs);
    if k > 0 {
      ExpandNSucc(g, Expand(g, xs), k - 1);
    }
  }

  lemma ExpandEmpty(g: Graph)
    ensures Expand(g, []) == []
  {
  }

  lemma {:induction false} ExpandNEmpty(g: Graph, k: nat)
    requires WellFormed(g)
    ensures ExpandN(g, [], k) == []
  {
    if k > 0 {
      ExpandNEmpty(g, k - 1);
    }
  }

  // ---------------------------------------------------------------------
  // Walks and reachability

  lemma ReachesRefl(g: Graph, a: nat)
    requires a < |g|
    ensures Reaches(g, a, a)
  {
    assert IsWalk(g, [a]);
  }

  lemma ReachesStep(g: Graph, a: nat, b: nat, c: nat)
    requires WellFormed(g) && Reaches(g, a, b) && b < |g| && c in g[b]
    ensures Reaches(g, a, c)
  {
    var w :| IsWalk(g, w) && w[0] == a && w[|w| - 1] == b;
    var w' := w + [c];
    assert w'[|w'| - 2] == b;
    assert IsWalk(g, w');
  }

  lemma ReachesTrans(g: Graph, a: nat, b: nat, c: nat)
    requires Reaches(g, a, b) && Reaches(g, b, c)
    ensures Reaches(g, a, c)
  {
    var w1 :| IsWalk(g, w1) && w1[0] == a && w1[|w1| - 1] == b;
    var w2 :| IsWalk(g, w2) && w2[0] == b && w2[|w2| - 1] == c;
    var w := w1 + w2[1..];
    assert IsWalk(g, w) by {
      forall k | 0 <= k < |w| - 1
        ensures w[k + 1] in g[w[k]]
      {
        if k < |w1| - 1 {
        } else {
          assert w[k] == w2[k - |w1| + 1];
          assert w[k + 1] == w2[k - |w1| + 2];
        }
      }
    }
  }

  /** A back edge closes a cycle: `a` reaches `b` and `a` is a parent of `b`. */
  lemma BackEdgeCycle(g: Graph, a: nat, b: nat)
    requires WellFormed(g) && Reaches(g, a, b) && b < |g| && a in g[b]
    ensures OnCycle(g, a) && a < |g| && HasCycle(g)
  {
    var w :| IsWalk(g, w) && w[0] == a && w[|w| - 1] == b;
    var w' := w + [a];
    assert w'[|w'| - 2] == b;
    assert IsWalk(g, w');
  }

  /** The first step of a walk of length at least two. */
  lemma WalkTail(g: Graph, w: seq<nat>)
    requires IsWalk(g, w) && |w| > 1
    ensures IsWalk(g, w[1..]) && w[1] in g[w[0]]
  {
    var t := w[1..];
    forall k | 0 <= k < |t| - 1
      ensures t[k + 1] in g[t[k]]
    {
      assert t[k] == w[k + 1] && t[k + 1] == w[k + 2];
    }
  }

  lemma SubWalk(g: Graph, w: seq<nat>, i: nat, j: nat)
    requires IsWalk(g, w) && i < j <= |w|
    ensures IsWalk(g, w[i..j])
  {
    var t := w[i..j];
    forall k | 0 <= k < |t| - 1
      ensures t[k + 1] in g[t[k]]
    {
      assert t[k] == w[i + k] && t[k + 1] == w[i + k + 1];
    }
  }

  /** A node on a cycle reaches walks of every length. */
  lemma {:induction false} CycleGivesLongWalk(g: Graph, c: nat, n: nat)
    requires WellFormed(g) && OnCycle(g, c)
    ensures exists w :: IsWalk(g, w) && w[0] == c && |w| > n
    decreases n
  {
    var cyc :| IsWalk(g, cyc) && |cyc| > 1 && cyc[0] == c && cyc[|cyc| - 1] == c;
    if n > 0 {
      CycleGivesLongWalk(g, c, n - 1);
      var w :| IsWalk(g, w) && w[0] == c && |w| > n - 1;
      var w' := cyc + w[1..];
      if |w| == 1 {
        assert w' == cyc;
      } else {
        assert IsWalk(g, w') by {
          forall k | 0 <= k < |w'| - 1
            ensures w'[k + 1] in g[w'[k]]
          {
            if k < |cyc| - 1 {
            } else {
              assert w'[k] == w[k - |cyc| + 1];
              assert w'[k + 1] == w[k - |cyc| + 2];
            }
          }
        }
      }
    }
  }

  /** Walks from `v` of exactly `k` steps end precisely at the nodes of layer `k`. */
  lemma {:induction false} LayerIsWalkEnds(g: Graph, v: nat, k: nat, x: nat)
    requires WellFormed(g) && v < |g|
    ensures AllNodes(g, Layer(g, v, k))
    ensures x in Layer(g, v, k) <==> exists w :: IsWalk(g, w) && |w| == k + 1 && w[0] == v && w[k] == x
  {
    ExpandNPreservesNodes(g, [v], k);
    if k == 0 {
      if x in Layer(g, v, 0) {
        assert IsWalk(g, [v]);
      }
    } else {
      ExpandNSucc(g, [v], k - 1);
      var prev := Layer(g, v, k - 1);
      ExpandMembership(g, prev, x);
      if x in Layer(g, v, k) {
        var i :| 0 <= i < |prev| && x in g[prev[i]];
        LayerIsWalkEnds(g, v, k - 1, prev[i]);
        var w :| IsWalk(g, w) && |w| == k && w[0] == v && w[k - 1] == prev[i];
        var w' := w + [x];
        assert IsWalk(g, w');
        assert w'[k] == x;
      }
      if exists w :: IsWalk(g, w) && |w| == k + 1 && w[0] == v && w[k] == x {
        var w :| IsWalk(g, w) && |w| == k + 1 && w[0] == v && w[k] == x;
        SubWalk(g, w, 0, k);
        LayerIsWalkEnds(g, v, k - 1, w[k - 1]);
        assert w[..k][k - 1] == w[k - 1];
        assert w[k - 1] in prev;
        var i :| 0 <= i < |prev| && prev[i] == w[k - 1];
        assert x in g[prev[i]];
      }
    }
  }

  // ---------------------------------------------------------------------
  // Pigeonhole: a walk longer than the node count repeats a node

  /** The node indices `0..n-1`. */
  function Range(n: nat): (r: set<nat>)
    ensures forall x: nat :: x in r <==> x < n
    ensures |r| == n
  {
    if n == 0 then {} else
      var r := Range(n - 1);
      assert n - 1 !in r;
      r + {n - 1}
  }

  function Elems(w: seq<nat>): set<nat> {
    set x | x in w
  }

  lemma {:induction false} DistinctCard(w: seq<nat>)
    requires forall i, j :: 0 <= i < j < |w| ==> w[i] != w[j]
    ensures |Elems(w)| == |w|
  {
    if w != [] {
      var t := w[..|w| - 1];
      DistinctCard(t);
      assert Elems(w) == Elems(t) + {w[|w| - 1]};
      assert w[|w| - 1] !in Elems(t);
    }
  }

  lemma SubsetCard(a: set<nat>, b: set<nat>)
    requires a <= b
    ensures |a| <= |b|
  {
    assert b == a + (b - a);
  }

  /** Any sequence of more than `n` values below `n` repeats a value. */
  lemma Pigeonhole(w: seq<nat>, n: nat)
    requires |w| > n && forall k :: 0 <= k < |w| ==> w[k] < n
    ensures exists i, j :: 0 <= i < j < |w| && w[i] == w[j]
  {
    if forall i, j :: 0 <= i < j < |w| ==> w[i] != w[j] {
      DistinctCard(w);
      SubsetCard(Elems(w), Range(n));
      assert false;
    }
  }

  /** A walk with more steps than there are nodes passes through a cycle. */
  lemma LongWalkHasCycle(g: Graph, w: seq<nat>)
    requires WellFormed(g) && IsWalk(g, w) && |w| > |g|
    ensures CycleReachableFrom(g, w[0]) && HasCycle(g)
  {
    Pigeonhole(w, |g|);
    var i, j :| 0 <= i < j < |w| && w[i] == w[j];
    SubWalk(g, w, 0, i + 1);
    SubWalk(g, w, i, j + 1);
    assert w[i..j + 1][0] == w[i] && w[i..j + 1][j - i] == w[j];
    assert OnCycle(g, w[i]);
    assert Reaches(g, w[0], w[i]) by {
      assert w[..i + 1][0] == w[0] && w[..i + 1][i] == w[i];
    }
    CycleReachableHasCycle(g, w[0]);
  }

  lemma CycleReachableHasCycle(g: Graph, v: nat)
    requires CycleReachableFrom(g, v)
    ensures HasCycle(g)
  {
    var c: nat :| Reaches(g, v, c) && OnCycle(g, c);
    var w :| IsWalk(g, w) && |w| > 1 && w[0] == c && w[|w| - 1] == c;
    assert c < |g|;
  }

  /** Without a reachable cycle every walk from `v` has at most `|g| - 1` steps. */
  lemma AcyclicWalkBound(g: Graph, w: seq<nat>)
    requires WellFormed(g) && IsWalk(g, w) && !CycleReachableFrom(g, w[0])
    ensures |w| <= |g|
  {
    if |w| > |g| {
      LongWalkHasCycle(g, w);
    }
  }

  /** With a reachable cycle there are walks of every length. */
  lemma {:induction false} ReachableCycleLongWalk(g: Graph, v: nat, n: nat)
    requires WellFormed(g) && CycleReachableFrom(g, v)
    ensures exists w :: IsWalk(g, w) && w[0] == v && |w| > n
  {
    var c :| Reaches(g, v, c) && OnCycle(g, c);
    var p :| IsWalk(g, p) && p[0] == v && p[|p| - 1] == c;
    CycleGivesLongWalk(g, c, n);
    var q :| IsWalk(g, q) && q[0] == c && |q| > n;
    var w := p + q[1..];
    assert IsWalk(g, w) by {
      forall k | 0 <= k < |w| - 1
        ensures w[k + 1] in g[w[k]]
      {
        if k < |p| - 1 {
        } else {
          assert w[k] == q[k - |p| + 1];
          assert w[k + 1] == q[k - |p| + 2];
        }
      }
    }
  }

  /** Nodes ranked so that every parent ranks strictly lower cannot lie on a cycle. */
  lemma {:induction false} RankedWalkDecreases(g: Graph, rank: seq<nat>, w: seq<nat>)
    requires |rank| == |g| && IsWalk(g, w)
    requires forall x, k :: 0 <= x < |g| && 0 <= k < |g[x]| && g[x][k] < |g| ==> rank[g[x][k]] < rank[x]
    ensures |w| > 1 ==> rank[w[|w| - 1]] < rank[w[0]]
    decreases |w|
  {
    if |w| > 1 {
      WalkTail(g, w);
      var k :| 0 <= k < |g[w[0]]| && g[w[0]][k] == w[1];
      RankedWalkDecreases(g, rank, w[1..]);
    }
  }

  lemma RankedAcyclic(g: Graph, rank: seq<nat>)
    requires |rank| == |g|
    requires forall x, k :: 0 <= x < |g| && 0 <= k < |g[x]| && g[x][k] < |g| ==> rank[g[x][k]] < rank[x]
    ensures !HasCycle(g)
  {
    if HasCycle(g) {
      var v: nat :| v < |g| && OnCycle(g, v);
      var w :| IsWalk(g, w) && |w| > 1 && w[0] == v && w[|w| - 1] == v;
      RankedWalkDecreases(g, rank, w);
    }
  }

  /** The nodes marked in `m` include the parents of every marked node. */
  predicate Closed(g: Graph, m: seq<bool>) {
    |m| == |g| && forall x, k :: 0 <= x < |g| && m[x] && 0 <= k < |g[x]| && g[x][k] < |g| ==> m[g[x][k]]
  }

  /** A walk that starts inside a closed set never leaves it. */
  lemma {:induction false} ClosedWalk(g: Graph, m: seq<bool>, w: seq<nat>)
    requires Closed(g, m) && IsWalk(g, w) && m[w[0]]
    ensures m[w[|w| - 1]]
    decreases |w|
  {
    if |w| > 1 {
      WalkTail(g, w);
      var k :| 0 <= k < |g[w[0]]| && g[w[0]][k] == w[1];
      ClosedWalk(g, m, w[1..]);
    }
  }

  /** Everything a marked node reaches is marked, in a closed set. */
  lemma ClosedReaches(g: Graph, m: seq<bool>, a: nat, b: nat)
    requires Closed(g, m) && a < |g| && m[a] && Reaches(g, a, b)
    ensures b < |g| && m[b]
  {
    var w :| IsWalk(g, w) && w[0] == a && w[|w| - 1] == b;
    ClosedWalk(g, m, w);
  }
}

=== FILE: deletion_result.dfy ===
/** `DeletionSAApproachResult`: the metrics one deletion experiment
    produced for an entity, and the worst of them. */
module DeletionResult {
  import opened Builtins
  import opened Dicts

  datatype DeletionSAResult = DeletionSAResult(metrics: seq<real>)

  /** A new result holds no metrics. */
  function NewDeletionResult(): (r: DeletionSAResult)
    ensures |r.metrics| == 0
  {
    DeletionSAResult([])
  }

  /** `add_results(metrics_values)` replaces the stored metrics. */
  function AddResults(res: DeletionSAResult, metricsValues: seq<real>): (r: DeletionSAResult)
    ensures GetAllResults(r) == metricsValues
  {
    res.(metrics := metricsValues)
  }

  /** `get_all_results()`. */
  function GetAllResults(res: DeletionSAResult): seq<real> {
    res.metrics
  }

  /** `max(xs)` of a non-empty list: the first greatest element. */
  function Max(xs: seq<real>): (r: real)
    requires |xs| > 0
    ensures r in xs && forall k :: 0 <= k < |xs| ==> xs[k] <= r
  {
    if |xs| == 1 then xs[0]
    else
      var m := Max(xs[1..]);
      assert forall k :: 1 <= k < |xs| ==> xs[k] == xs[1..][k - 1];
      if xs[0] >= m then xs[0] else m
  }

  /** `get_worst_result()`: the largest metric; `max` of an empty list
      raises `ValueError`. */
  function GetWorstResult(res: DeletionSAResult): (r: Result<real>)
    ensures r.Ok? <==> |res.metrics| > 0
    ensures r.Err? ==> r.error == ValueError
    ensures r.Ok? ==> r.value in res.metrics && forall k :: 0 <= k < |res.metrics| ==> res.metrics[k] <= r.value
  {
    if |res.metrics| == 0 then Err(ValueError) else Ok(Max(res.metrics))
  }

  /** `get_worst_result_with_names()`: `{'value': worst}`. */
  function GetWorstResultWithNames(res: DeletionSAResult): (r: Result<Dict<real>>)
    ensures r.Ok? <==> GetWorstResult(res).Ok?
    ensures r.Err? ==> r.error == ValueError
    ensures r.Ok? ==> Keys(r.value) == ["value"] && Get(r.value, "value") == Some(GetWorstResult(res).value)
  {
    var worst :- GetWorstResult(res);
    Ok([("value", worst)])
  }

  /** Adding results twice keeps only the second batch. */
  lemma AddResultsReplaces(res: DeletionSAResult, first: seq<real>, second: seq<real>)
    ensures GetAllResults(AddResults(AddResults(res, first), second)) == second
  {
  }
}

=== FILE: dicts.dfy ===
/** Python's insertion-ordered `dict` with string keys, as a list of
    key/value pairs. */
module Dicts {
  import opened Builtins

  type Dict<V> = seq<(string, V)>

  /** The keys of `d`, in insertion order. */
  function Keys<V>(d: Dict<V>): (r: seq<string>)
    ensures |r| == |d| && forall i :: 0 <= i < |d| ==> r[i] == d[i].0
  {
    if d == [] then [] else [d[0].0] + Keys(d[1..])
  }

  /** No key appears twice, as in every dictionary Python builds. */
  predicate KeysDistinct<V>(d: Dict<V>) {
    forall i, j :: 0 <= i < j < |d| ==> d[i].0 != d[j].0
  }

  /** `d.get(k)`. */
  function Get<V>(d: Dict<V>, k: string): (r: Option<V>)
    ensures r.None? <==> forall i :: 0 <= i < |d| ==> d[i].0 != k
  {
    if d == [] then None
    else if d[0].0 == k then Some(d[0].1)
    else Get(d[1..], k)
  }

  /** With distinct keys, the entry at position `i` is what `Get` finds for its key. */
  lemma GetAt<V>(d: Dict<V>, i: nat)
    requires KeysDistinct(d) && i < |d|
    ensures Get(d, d[i].0) == Some(d[i].1)
  {
    if i > 0 && d[0].0 != d[i].0 {
      GetAt(d[1..], i - 1);
    }
  }

  /** `d[k] = v` (also `d.update({k: v})`): an existing key keeps its place
      and takes the new value, a new key goes to the end. */
  function Put<V>(d: Dict<V>, k: string, v: V): (r: Dict<V>)
    ensures Get(r, k) == Some(v)
    ensures forall k' :: k' != k ==> Get(r, k') == Get(d, k')
    ensures Get(d, k).Some? ==> Keys(r) == Keys(d)
    ensures Get(d, k).None? ==> r == d + [(k, v)]
  {
    if d == [] then [(k, v)]
    else if d[0].0 == k then [(k, v)] + d[1..]
    else
      var r := [d[0]] + Put(d[1..], k, v);
      assert Get(d, k).None? ==> r == d + [(k, v)] by {
        if Get(d, k).None? {
          assert d == [d[0]] + d[1..];
        }
      }
      r
  }

  /** Updating a dictionary never creates a duplicate key. */
  lemma PutDistinct<V>(d: Dict<V>, k: string, v: V)
    requires KeysDistinct(d)
    ensures KeysDistinct(Put(d, k, v))
  {
    var r := Put(d, k, v);
    if Get(d, k).Some? {
      forall i, j | 0 <= i < j < |r|
        ensures r[i].0 != r[j].0
      {
        assert Keys(r)[i] == Keys(d)[i] && Keys(r)[j] == Keys(d)[j];
      }
    }
  }

  /** A key is listed exactly when `get` finds it. */
  lemma InKeys<V>(d: Dict<V>, k: string)
    ensures k in Keys(d) <==> Get(d, k).Some?
  {
    if d != [] {
      InKeys(d[1..], k);
      assert Keys(d) == [d[0].0] + Keys(d[1..]);
    }
  }

  /** Updating a key that is present rewrites its entry where it stands. */
  lemma {:induction false} PutAt<V>(d: Dict<V>, i: nat, v: V)
    requires KeysDistinct(d) && i < |d|
    ensures Put(d, d[i].0, v) == d[i := (d[i].0, v)]
  {
    var k := d[i].0;
    if i == 0 {
      assert Put(d, k, v) == [(k, v)] + d[1..];
    } else {
      var tail := d[1..];
      assert KeysDistinct(tail) by {
        forall a, b | 0 <= a < b < |tail|
          ensures tail[a].0 != tail[b].0
        {
          assert tail[a] == d[a + 1] && tail[b] == d[b + 1];
        }
      }
      assert tail[i - 1] == d[i];
      PutAt(tail, i - 1, v);
      assert d[0].0 != k;
      assert Put(d, k, v) == [d[0]] + Put(tail, k, v);
      assert d[i := (k, v)] == [d[0]] + tail[i - 1 := (k, v)];
    }
  }
}

=== FILE: entity.dfy ===
/** `get_entity_from_str`: the node or edge a structural-analysis result
    refers to, written as `"i"` for node `i` or `"i_j"` for the edge from
    node `i` to node `j`. */
module Entity {
  import opened Builtins
  import opened Strings

  datatype Entity<N> = NodeEntity(node: N) | EdgeEntity(parent: N, child: N)

  /** The text of the node entity `i` and of the edge entity `(i, j)`. */
  function NodeStr(i: nat): string {
    NatStr(i)
  }

  function EdgeStr(i: nat, j: nat): string {
    NatStr(i) + "_" + NatStr(j)
  }

  /** Looks the entity up in `nodes`. A string of exactly two `'_'`-separated
      parts is an edge; any other string is one node index. */
  function EntityFromStr<N>(nodes: seq<N>, s: string): (r: Result<Entity<N>>)
    ensures |Split(s, "_")| == 2 ==> r.Err? ==> r.error in {ValueError, UnboundLocalError}
    ensures |Split(s, "_")| != 2 ==> r.Err? ==> r.error in {ValueError, IndexError}
    ensures r.Ok? ==> (r.value.EdgeEntity? <==> |Split(s, "_")| == 2)
    ensures r.Ok? ==> match r.value
      case NodeEntity(n) => n in nodes
      case EdgeEntity(p, c) => p in nodes && c in nodes
  {
    var parts := Split(s, "_");
    if |parts| == 2 then EdgeFromParts(nodes, parts[0], parts[1]) else NodeFromStr(nodes, s)
  }

  /** The edge form: a bad number raises `ValueError`, and an index out of
      range is swallowed by the `except` so that the `return` then reads a
      name never bound, raising `UnboundLocalError`. */
  function EdgeFromParts<N>(nodes: seq<N>, a: string, b: string): (r: Result<Entity<N>>)
    ensures r.Err? ==> r.error in {ValueError, UnboundLocalError}
    ensures r.Ok? ==> r.value.EdgeEntity? && r.value.parent in nodes && r.value.child in nodes
  {
    var parentIdx :- ParseInt(a);
    match PyIndex(nodes, parentIdx)
    case Err(_) => Err(UnboundLocalError)
    case Ok(parent) =>
      var childIdx :- ParseInt(b);
      match PyIndex(nodes, childIdx)
      case Err(_) => Err(UnboundLocalError)
      case Ok(child) => Ok(EdgeEntity(parent, child))
  }

  /** The node form: the errors of `int` and of the indexing escape unchanged. */
  function NodeFromStr<N>(nodes: seq<N>, s: string): (r: Result<Entity<N>>)
    ensures r.Err? ==> r.error in {ValueError, IndexError}
    ensures r.Ok? ==> r.value.NodeEntity? && r.value.node in nodes
  {
    var idx :- ParseInt(s);
    var node :- PyIndex(nodes, idx);
    Ok(NodeEntity(node))
  }

  /** The text of an edge splits back into its two indices. */
  lemma SplitEdgeStr(i: nat, j: nat)
    ensures Split(EdgeStr(i, j), "_") == [NatStr(i), NatStr(j)]
  {
    NatStrChars(i, '_');
    NatStrChars(j, '_');
    SplitPair(NatStr(i), NatStr(j), '_');
  }

  /** Round trip for edges: `f"{i}_{j}"` names the edge `(nodes[i], nodes[j])`. */
  lemma EdgeRoundTrip<N>(nodes: seq<N>, i: nat, j: nat)
    requires i < |nodes| && j < |nodes|
    ensures EntityFromStr(nodes, EdgeStr(i, j)) == Ok(EdgeEntity(nodes[i], nodes[j]))
  {
    SplitEdgeStr(i, j);
    ParseIntStr(i);
    ParseIntStr(j);
  }

  /** Round trip for nodes: `f"{i}"` names `nodes[i]`. */
  lemma NodeRoundTrip<N>(nodes: seq<N>, i: nat)
    requires i < |nodes|
    ensures EntityFromStr(nodes, NodeStr(i)) == Ok(NodeEntity(nodes[i]))
  {
    NatStrChars(i, '_');
    SplitAbsent(NatStr(i), '_');
    ParseIntStr(i);
  }

  /** An index past the end in the edge form is not reported as
      `IndexError`: the swallowed error resurfaces as `UnboundLocalError`,
      whichever of the two indices is out of range. */
  lemma EdgeOutOfRange<N>(nodes: seq<N>, i: nat, j: nat)
    requires i >= |nodes| || j >= |nodes|
    ensures EntityFromStr(nodes, EdgeStr(i, j)) == Err(UnboundLocalError)
  {
    SplitEdgeStr(i, j);
    ParseIntStr(i);
    ParseIntStr(j);
  }

  /** A node index past the end raises `IndexError`. */
  lemma NodeOutOfRange<N>(nodes: seq<N>, i: nat)
    requires i >= |nodes|
    ensures EntityFromStr(nodes, NodeStr(i)) == Err(IndexError)
  {
    NatStrChars(i, '_');
    SplitAbsent(NatStr(i), '_');
    ParseIntStr(i);
  }
}

=== FILE: graph_depth.dfy ===
/** `AdaptiveGraphDepth`: the largest graph depth the optimiser allows,
    raised by one whenever the population has stagnated long enough, up to
    a fixed maximum. */
module GraphDepth {
  import opened Builtins

  datatype DepthParam = DepthParam(startDepth: int, maxDepth: int, currentDepth: int,
                                   maxStagnationGens: int, adaptive: bool)

  /** What the constructor guarantees and `Next` keeps. */
  predicate ValidParam(p: DepthParam) {
    && 0 < p.startDepth <= p.currentDepth <= p.maxDepth
    && p.maxStagnationGens > 0
  }

  /** The constructor: a missing or non-positive start depth, a missing
      maximum below the start, or a missing or non-positive stagnation
      limit raises `ValueError`, checked in that order. */
  function NewDepthParam(startDepth: Option<int>, maxDepth: Option<int>, maxStagnationGens: Option<int>,
                         adaptive: bool): (r: Result<DepthParam>)
    ensures r.Ok? <==> && startDepth.Some? && startDepth.value > 0
                       && maxDepth.Some? && maxDepth.value >= startDepth.value
                       && maxStagnationGens.Some? && maxStagnationGens.value > 0
    ensures r.Err? ==> r.error == ValueError
    ensures r.Ok? ==> ValidParam(r.value) && r.value.currentDepth == r.value.startDepth
    ensures r.Ok? ==> r.value == DepthParam(startDepth.value, maxDepth.value, startDepth.value,
                                            maxStagnationGens.value, adaptive)
  {
    if startDepth.None? || startDepth.value <= 0 then Err(ValueError)
    else if maxDepth.None? || maxDepth.value < startDepth.value then Err(ValueError)
    else if maxStagnationGens.None? || maxStagnationGens.value <= 0 then Err(ValueError)
    else Ok(DepthParam(startDepth.value, maxDepth.value, startDepth.value, maxStagnationGens.value, adaptive))
  }

  /** The `initial` property. */
  function Initial(p: DepthParam): (r: int)
    requires ValidParam(p)
    ensures 0 < r <= p.maxDepth
  {
    p.startDepth
  }

  /** Before any `next()` call, `initial` is the `start_depth` the
      constructor was given, and it equals the depth the parameter starts at. */
  lemma InitialIsStart(startDepth: Option<int>, maxDepth: Option<int>, maxStagnationGens: Option<int>,
                       adaptive: bool)
    requires NewDepthParam(startDepth, maxDepth, maxStagnationGens, adaptive).Ok?
    ensures var p := NewDepthParam(startDepth, maxDepth, maxStagnationGens, adaptive).value;
      Initial(p) == startDepth.value && Initial(p) == p.currentDepth
  {
  }

  /** `next()` given the watcher's current stagnation count: the depth
      allowed for the next generation and the updated parameter. */
  function Next(p: DepthParam, stagnation: nat): (r: (int, DepthParam))
    requires ValidParam(p)
    ensures ValidParam(r.1)
    ensures !p.adaptive ==> r == (p.maxDepth, p)
    ensures p.adaptive ==> r.0 == r.1.currentDepth
    ensures r.1 == p.(currentDepth := r.1.currentDepth)
    ensures p.currentDepth <= r.1.currentDepth <= p.currentDepth + 1
    ensures r.1.currentDepth == p.currentDepth + 1
        <==> p.adaptive && p.currentDepth < p.maxDepth && stagnation >= p.maxStagnationGens
  {
    if !p.adaptive then (p.maxDepth, p)
    else if p.currentDepth >= p.maxDepth then (p.currentDepth, p)
    else if stagnation >= p.maxStagnationGens then
      var q := p.(currentDepth := p.currentDepth + 1);
      (q.currentDepth, q)
    else (p.currentDepth, p)
  }

  /** The depths `next()` hands out over a run, one stagnation count per call. */
  function Run(p: DepthParam, stagnations: seq<nat>): (r: (seq<int>, DepthParam))
    requires ValidParam(p)
    ensures |r.0| == |stagnations|
    ensures ValidParam(r.1)
    decreases |stagnations|
  {
    if stagnations == [] then ([], p)
    else
      var (d, q) := Next(p, stagnations[0]);
      var (ds, last) := Run(q, stagnations[1..]);
      ([d] + ds, last)
  }

  /** Over any run of an adaptive parameter the allowed depth never drops,
      never exceeds the maximum, never falls below the start, and grows by
      at most one per call. */
  lemma {:induction false} RunBounds(p: DepthParam, stagnations: seq<nat>)
    requires ValidParam(p) && p.adaptive
    ensures var (ds, last) := Run(p, stagnations);
      && (forall k :: 0 <= k < |ds| ==> p.currentDepth <= ds[k] <= p.maxDepth)
      && (forall k :: 0 <= k < |ds| ==> ds[k] <= p.currentDepth + k + 1)
      && (forall k :: 0 < k < |ds| ==> ds[k - 1] <= ds[k])
      && p.currentDepth <= last.currentDepth <= p.currentDepth + |stagnations|
      && (|ds| > 0 ==> ds[|ds| - 1] == last.currentDepth)
    decreases |stagnations|
  {
    if stagnations != [] {
      var (d, q) := Next(p, stagnations[0]);
      RunBounds(q, stagnations[1..]);
      var (ds, last) := Run(p, stagnations);
      assert ds == [d] + Run(q, stagnations[1..]).0;
    }
  }

  /** A parameter that is not adaptive always allows the maximum depth. */
  lemma {:induction false} RunStatic(p: DepthParam, stagnations: seq<nat>)
    requires ValidParam(p) && !p.adaptive
    ensures forall k :: 0 <= k < |stagnations| ==> Run(p, stagnations).0[k] == p.maxDepth
    ensures Run(p, stagnations).1 == p
    decreases |stagnations|
  {
    if stagnations != [] {
      RunStatic(p, stagnations[1..]);
    }
  }

  /** Once the maximum is reached the depth stays there. */
  lemma NextAtMax(p: DepthParam, stagnation: nat)
    requires ValidParam(p) && p.adaptive && p.currentDepth == p.maxDepth
    ensures Next(p, stagnation) == (p.maxDepth, p)
  {
  }
}

=== FILE: graph_fixtures.dfy ===
/** The graphs built in GOLEM's `LinkedGraph` unit tests, and what the tests
    assert about them, on the index model. Each graph lists its nodes in the
    order the graph collects them from its root: the root first, then its
    parents depth-first. */
module GraphFixtures {
  import opened Builtins
  import opened Dag
  import opened LinkedGraphs
  import Depths
  import opened Strings

  /** `n4` with parents `n2` and `n3`, and `n3` with parent `n1`. */
  predicate FourNodes(l: Linked) {
    && |l.names| == 4 && l.names[0] == "n4" && l.names[1] == "n2" && l.names[2] == "n3" && l.names[3] == "n1"
    && |l.links| == 4 && l.links[0] == [1, 2] && l.links[1] == [] && l.links[2] == [3] && l.links[3] == []
  }

  lemma Three<T>(s: seq<T>, a: T, b: T, c: T)
    requires |s| == 3 && s[0] == a && s[1] == b && s[2] == c
    ensures s == [a, b, c]
  {
  }

  lemma Four<T>(s: seq<T>, a: T, b: T, c: T, d: T)
    requires |s| == 4 && s[0] == a && s[1] == b && s[2] == c && s[3] == d
    ensures s == [a, b, c, d]
  {
  }

  /** Layer `k + 1` of `v` from layer `k`. */
  lemma NextLayer(g: Graph, v: nat, k: nat, layer: seq<nat>)
    requires WellFormed(g) && v < |g| && Layer(g, v, k) == layer
    ensures AllNodes(g, layer) && Layer(g, v, k + 1) == Expand(g, layer)
  {
    ExpandNSucc(g, [v], k);
  }

  lemma FourNodesChildren(l: Linked)
    requires FourNodes(l)
    ensures Valid(l)
    ensures Children(l.links, 0) == [] && Children(l.links, 1) == [0]
    ensures Children(l.links, 2) == [0] && Children(l.links, 3) == [2]
  {
    var g := l.links;
    assert ChildrenFrom(g, 0, 4) == [] && ChildrenFrom(g, 1, 4) == [];
    assert ChildrenFrom(g, 2, 4) == [] && ChildrenFrom(g, 3, 4) == [];
    assert ChildrenFrom(g, 0, 3) == [] && ChildrenFrom(g, 1, 3) == [];
    assert ChildrenFrom(g, 2, 3) == [] && ChildrenFrom(g, 3, 3) == [];
    assert ChildrenFrom(g, 0, 2) == [] && ChildrenFrom(g, 1, 2) == [];
    assert ChildrenFrom(g, 2, 2) == [] && ChildrenFrom(g, 3, 2) == [2];
    assert ChildrenFrom(g, 0, 1) == [] && ChildrenFrom(g, 1, 1) == [];
    assert ChildrenFrom(g, 2, 1) == [] && ChildrenFrom(g, 3, 1) == [2];
  }

  /** The graph of `FourNodes` has the single root `n4`, of depth 3: `n4`,
      `n3`, `n1`. */
  lemma FourNodesDepth(l: Linked)
    requires FourNodes(l)
    ensures Valid(l) && Roots(l) == [0]
    ensures Depth(l) == 3
  {
    var g := l.links;
    FourNodesChildren(l);
    assert RootsFrom(g, 4) == [];
    assert RootsFrom(g, 3) == [];
    assert RootsFrom(g, 2) == [];
    assert RootsFrom(g, 1) == [];
    Depths.LayerOne(g, 0);
    NextLayer(g, 0, 1, [1, 2]);
    assert Expand(g, [1, 2]) == [3] by {
      assert Expand(g, [2]) == [3];
    }
    NextLayer(g, 0, 2, [3]);
    assert Expand(g, [3]) == [];
    Depths.DepthByLayers(g, 0, 3);
    assert MaxDepth(g, [0]) == 3;
  }

  /** `delete_node(n3)` with single reconnection unlinks `n3` from `n4` and
      hands it `n1`. */
  lemma FourNodesUnlink(l: Linked)
    requires FourNodes(l)
    ensures Valid(l) && 2 !in l.links[2]
    ensures Unlink(l, 2, Single)[0] == [1, 3] && Unlink(l, 2, Single)[1] == [] && Unlink(l, 2, Single)[3] == []
  {
    FourNodesChildren(l);
    assert HandsOver(l, 2, Single, 0) && !HandsOver(l, 2, Single, 1) && !HandsOver(l, 2, Single, 3);
    assert RemoveAll([1, 2], 2) == [1] && RemoveAll([], 2) == [];
  }

  /** Deleting the intermediate `n3` hands its parent `n1` to its only
      child `n4`. */
  lemma DeleteIntermediateNode(l: Linked)
    requires FourNodes(l)
    ensures Valid(l) && DeleteNode(l, 2, Single) == Linked(["n4", "n2", "n1"], [[1, 2], [], []])
  {
    FourNodesUnlink(l);
    var r := DeleteNode(l, 2, Single);
    assert Shifted(0, 2) == 0 && Shifted(1, 2) == 1 && Shifted(3, 2) == 2;
    assert Shift([1, 3], 2) == [1, 2];
    assert Shift([], 2) == [];
    assert r.names[0] == "n4" && r.names[1] == "n2" && r.names[Shifted(3, 2)] == "n1";
    assert r.links[0] == [1, 2] && r.links[1] == [] && r.links[Shifted(3, 2)] == [];
    Three(r.names, "n4", "n2", "n1");
    Three(r.links, [1, 2], [], []);
  }

  /** After the deletion the depth drops to 2. */
  lemma DeleteIntermediateDepth()
    ensures Depth(Linked(["n4", "n2", "n1"], [[1, 2], [], []])) == 2
  {
    var g: Graph := [[1, 2], [], []];
    assert Children(g, 0) == [];
    assert Children(g, 1) == [0];
    assert Children(g, 2) == [0];
    assert RootsFrom(g, 1) == [];
    Depths.LayerOne(g, 0);
    NextLayer(g, 0, 1, [1, 2]);
    assert Expand(g, [1, 2]) == [];
    Depths.DepthByLayers(g, 0, 2);
  }

  /** `test_graph_id`: `n4` with parents `n2` and `n3`, both with parent
      `n1`. */
  predicate Diamond(l: Linked) {
    && |l.names| == 4 && l.names[0] == "n4" && l.names[1] == "n2" && l.names[2] == "n1" && l.names[3] == "n3"
    && |l.links| == 4 && l.links[0] == [1, 3] && l.links[1] == [2] && l.links[2] == [] && l.links[3] == [2]
  }

  /** A list of one string is sorted as it stands. */
  lemma SortOne(a: string)
    ensures Sort([a]) == [a]
  {
    SortedUnique(Sort([a]), [a]);
  }

  /** A list of two strings in order is sorted as it stands. */
  lemma SortTwo(a: string, b: string)
    requires !LexLess(b, a)
    ensures Sort([a, b]) == [a, b]
  {
    SortedUnique(Sort([a, b]), [a, b]);
  }

  lemma DiamondLeaf(l: Linked, s: seq<bool>)
    requires Diamond(l) && |s| == 4 && !s[2]
    ensures Valid(l) && NodeId(l, 2, s) == "/n_n1"
  {
    assert ParentItems(l, [], s[2 := true]) == [];
    assert Sort([]) == [] by {
      SortedUnique(Sort([]), []);
    }
  }

  lemma DiamondMiddle(l: Linked, s: seq<bool>, v: nat)
    requires Diamond(l) && |s| == 4 && v < 4 && l.links[v] == [2] && !s[v] && !s[2]
    ensures Valid(l) && NodeId(l, v, s) == "(/n_n1;)/n_" + l.names[v]
  {
    var s' := s[v := true];
    DiamondLeaf(l, s');
    assert "/n_n1" + ";" == "/n_n1;";
    var items := ParentItems(l, [2], s');
    assert items[0] == NodeId(l, 2, s') + ";";
    assert items == ["/n_n1;"];
    SortOne("/n_n1;");
  }

  /** The items of `n4`'s parents, once `n4` is on the path, sorted. */
  lemma DiamondItems(l: Linked)
    requires Diamond(l)
    ensures Valid(l)
    ensures Sort(ParentItems(l, l.links[0], NoneSeen(4)[0 := true])) == ["(/n_n1;)/n_n2;", "(/n_n1;)/n_n3;"]
  {
    var s := NoneSeen(4)[0 := true];
    DiamondMiddle(l, s, 1);
    DiamondMiddle(l, s, 3);
    var a, b := "(/n_n1;)/n_n2;", "(/n_n1;)/n_n3;";
    assert "(/n_n1;)/n_" + l.names[1] + ";" == a && "(/n_n1;)/n_" + l.names[3] + ";" == b;
    var r := ParentItems(l, l.links[0], s);
    assert r[0] == a && r[1] == b;
    assert r == [a, b];
    LexCommonPrefix("(/n_n1;)/n_n", "3;", "2;");
    assert "(/n_n1;)/n_n" + "3;" == b && "(/n_n1;)/n_n" + "2;" == a;
    SortTwo(a, b);
  }

  /** The id of a node off the path whose two parent items sort to `[a, b]`. */
  lemma IdFromTwoItems(l: Linked, v: nat, s: seq<bool>, a: string, b: string)
    requires Valid(l) && v < |l.names| && |s| == |l.names| && !s[v] && l.links[v] != []
    requires Sort(ParentItems(l, l.links[v], s[v := true])) == [a, b]
    ensures NodeId(l, v, s) == "(" + (a + ";" + b) + ")" + "/" + Description(l.names[v])
  {
    assert [a, b][1..] == [b];
  }

  lemma IdLiteral()
    ensures "(" + ("(/n_n1;)/n_n2;" + ";" + "(/n_n1;)/n_n3;") + ")" + "/" + Description("n4") == "((/n_n1;)/n_n2;;(/n_n1;)/n_n3;)/n_n4"
  {
  }

  lemma DiamondIdParts(l: Linked)
    requires Diamond(l)
    ensures Valid(l)
    ensures NodeId(l, 0, NoneSeen(4)) == "(" + ("(/n_n1;)/n_n2;" + ";" + "(/n_n1;)/n_n3;") + ")" + "/" + Description("n4")
  {
    DiamondItems(l);
    IdFromTwoItems(l, 0, NoneSeen(4), "(/n_n1;)/n_n2;", "(/n_n1;)/n_n3;");
  }

  /** The id of `n4` is the one the test expects. */
  lemma DiamondId(l: Linked)
    requires Diamond(l)
    ensures Valid(l) && NodeId(l, 0, NoneSeen(4)) == "((/n_n1;)/n_n2;;(/n_n1;)/n_n3;)/n_n4"
  {
    DiamondIdParts(l);
    IdLiteral();
  }

  /** The chain `n4 <- n3 <- n2 <- n1` of the cycle tests, closed by
      `connect_nodes(n4, n1)`: `n1` gets `n4` as a parent. */
  predicate Chain(l: Linked) {
    && |l.names| == 4 && l.names[0] == "n4" && l.names[1] == "n3" && l.names[2] == "n2" && l.names[3] == "n1"
    && |l.links| == 4 && l.links[0] == [1] && l.links[1] == [2] && l.links[2] == [3] && l.links[3] == []
  }

  lemma LinkCountThree(g: Graph)
    requires |g| == 3
    ensures LinkCount(g, 0) == |g[0]| + |g[1]| + |g[2]|
  {
    assert LinkCount(g, 3) == 0;
    assert LinkCount(g, 2) == |g[2]|;
    assert LinkCount(g, 1) == |g[1]| + |g[2]|;
  }

  lemma LinkCountFour(g: Graph)
    requires |g| == 4
    ensures LinkCount(g, 0) == |g[0]| + |g[1]| + |g[2]| + |g[3]|
  {
    assert LinkCount(g, 4) == 0;
    assert LinkCount(g, 3) == |g[3]|;
    assert LinkCount(g, 2) == |g[2]| + |g[3]|;
    assert LinkCount(g, 1) == |g[1]| + |g[2]| + |g[3]|;
  }

  /** Closing the chain gives the ring of four edges. */
  lemma CloseChain(l: Linked)
    requires Chain(l)
    ensures Valid(l)
    ensures var r := ConnectNodes(l, 0, 3);
      && r.names == l.names && |r.links| == 4
      && r.links[0] == [1] && r.links[1] == [2] && r.links[2] == [3] && r.links[3] == [0]
      && |Edges(r)| == 4
  {
    var r := ConnectNodes(l, 0, 3);
    assert 0 !in l.links[3];
    LinkCountFour(r.links);
  }

  /** The closed ring. */
  predicate Ring(l: Linked) {
    && |l.names| == 4 && l.names[0] == "n4" && l.names[1] == "n3" && l.names[2] == "n2" && l.names[3] == "n1"
    && |l.links| == 4 && l.links[0] == [1] && l.links[1] == [2] && l.links[2] == [3] && l.links[3] == [0]
  }

  lemma RingChildren(l: Linked)
    requires Ring(l)
    ensures Valid(l) && Children(l.links, 1) == [0]
  {
    var g := l.links;
    assert ChildrenFrom(g, 1, 4) == [];
    assert ChildrenFrom(g, 1, 3) == [];
    assert ChildrenFrom(g, 1, 2) == [];
    assert ChildrenFrom(g, 1, 1) == [];
  }

  lemma RingUnlink(l: Linked, reconnect: ReconnectType)
    requires Ring(l)
    ensures Valid(l) && 1 !in l.links[1]
    ensures var u := Unlink(l, 1, reconnect);
      && u[0] == (if reconnect == Single then [2] else [])
      && u[2] == [3] && u[3] == [0]
  {
    RingChildren(l);
    var e := RemoveEverywhere(l.links, 1);
    assert e[0] == [] && e[2] == [3] && e[3] == [0] by {
      assert RemoveAll([1], 1) == [] && RemoveAll([3], 1) == [3] && RemoveAll([0], 1) == [0];
    }
    assert Unlink(l, 1, reconnect) == if reconnect == Single then e[0 := e[0] + [2]] else e;
  }

  /** `test_delete_leave_cycle`: deleting `n3` with single reconnection
      hands `n2` to `n4` and keeps a cycle of three edges. */
  lemma DeleteLeaveCycle(l: Linked)
    requires Ring(l)
    ensures Valid(l)
    ensures var r := DeleteNode(l, 1, Single);
      && r.names == ["n4", "n2", "n1"] && r.links == [[1], [2], [0]]
      && |Edges(r)| == 3 && (1, 0) in Edges(r)
  {
    RingUnlink(l, Single);
    var r := DeleteNode(l, 1, Single);
    assert Shift([2], 1) == [1] && Shift([3], 1) == [2] && Shift([0], 1) == [0];
    assert r.names[0] == "n4" && r.names[Shifted(2, 1)] == "n2" && r.names[Shifted(3, 1)] == "n1";
    assert r.links[0] == [1] && r.links[Shifted(2, 1)] == [2] && r.links[Shifted(3, 1)] == [0];
    Three(r.names, "n4", "n2", "n1");
    Three(r.links, [1], [2], [0]);
    LinkCountThree(r.links);
  }

  /** `test_delete_break_cycle`: deleting `n3` without reconnection leaves
      two edges and `n4` without parents. */
  lemma DeleteBreakCycle(l: Linked)
    requires Ring(l)
    ensures Valid(l)
    ensures var r := DeleteNode(l, 1, NoReconnect);
      && r.names == ["n4", "n2", "n1"] && r.links == [[], [2], [0]]
      && |Edges(r)| == 2
  {
    RingUnlink(l, NoReconnect);
    var r := DeleteNode(l, 1, NoReconnect);
    assert Shift([], 1) == [] && Shift([3], 1) == [2] && Shift([0], 1) == [0];
    assert r.names[0] == "n4" && r.names[Shifted(2, 1)] == "n2" && r.names[Shifted(3, 1)] == "n1";
    assert r.links[0] == [] && r.links[Shifted(2, 1)] == [2] && r.links[Shifted(3, 1)] == [0];
    Three(r.names, "n4", "n2", "n1");
    Three(r.links, [], [2], [0]);
    LinkCountThree(r.links);
  }

  /** `test_delete_subtree_with_several_edges_distant`: `n4` with parents
      `n3` and `n2a`, `n3` with parents `n2b` and `n1`, and `n2b` with
      parent `n2a`. */
  predicate Distant(l: Linked) {
    && |l.names| == 5 && l.names[0] == "n4" && l.names[1] == "n3" && l.names[2] == "n2b"
    && l.names[3] == "n2a" && l.names[4] == "n1"
    && |l.links| == 5 && l.links[0] == [1, 3] && l.links[1] == [2, 4] && l.links[2] == [3]
    && l.links[3] == [] && l.links[4] == []
  }

  lemma DistantAcyclic(l: Linked)
    requires Distant(l)
    ensures Valid(l) && !CycleReachableFrom(l.links, 2)
  {
    RankedAcyclic(l.links, [4, 3, 2, 1, 0]);
    if CycleReachableFrom(l.links, 2) {
      CycleReachableHasCycle(l.links, 2);
    }
  }

  /** `n2b` reaches exactly itself and `n2a`. */
  lemma DistantReach(l: Linked, x: nat)
    requires Distant(l) && x < 5
    ensures Reaches(l.links, 2, x) <==> x == 2 || x == 3
  {
    var g := l.links;
    var m := [false, false, true, true, false];
    assert Closed(g, m);
    ReachesRefl(g, 2);
    ReachesStep(g, 2, 2, 3);
    if Reaches(g, 2, x) {
      ClosedReaches(g, m, 2, x);
    }
  }

  lemma DistantAncestry(l: Linked)
    requires Distant(l)
    ensures Valid(l) && !CycleReachableFrom(l.links, 2)
    ensures Ancestry(l.links, 2) == [false, false, true, true, false]
  {
    DistantAcyclic(l);
    DistantReach(l, 0);
    DistantReach(l, 1);
    DistantReach(l, 2);
    DistantReach(l, 3);
    DistantReach(l, 4);
    var a := Ancestry(l.links, 2);
    assert !a[0] && !a[1] && a[2] && a[3] && !a[4];
  }

  /** Deleting the subtree of `n2b` also removes `n2a`, and with it the
      distant edge from `n2a` to `n4`. */
  lemma DeleteSubtreeDistant(l: Linked)
    requires Distant(l)
    ensures Valid(l)
    ensures DeleteSubtree(l, 2) == Ok(Linked(["n4", "n3", "n1"], [[1], [2], []]))
  {
    DistantAncestry(l);
    var m := [false, false, true, true, false];
    var r := RemoveNodes(l, m);
    assert Rank(m, 0) == 0 && Rank(m, 1) == 1 && Rank(m, 2) == 2 && Rank(m, 3) == 2;
    assert Rank(m, 4) == 2 && Rank(m, 5) == 3;
    assert Reindex([3], m) == [] && Reindex([1, 3], m) == [1];
    assert Reindex([4], m) == [2] && Reindex([2, 4], m) == [2];
    assert r.names[0] == "n4" && r.names[1] == "n3" && r.names[2] == "n1";
    assert r.links[0] == [1] && r.links[1] == [2] && r.links[2] == [];
    Three(r.names, "n4", "n3", "n1");
    Three(r.links, [1], [2], []);
  }

  /** `test_update_subtree_with_duplicated_edges`: `n3` with parents `n2b`,
      `n1`, `n2b` again and `n2a`, and `n2b` with parent `n2a`. */
  predicate Duplicated(l: Linked) {
    && |l.names| == 4 && l.names[0] == "n3" && l.names[1] == "n2b" && l.names[2] == "n2a" && l.names[3] == "n1"
    && |l.links| == 4 && l.links[0] == [1, 3, 1, 2] && l.links[1] == [2] && l.links[2] == [] && l.links[3] == []
  }

  /** The replacement: `n4b` with parent `n4a`. */
  predicate Branch(s: Linked) {
    && |s.names| == 2 && s.names[0] == "n4b" && s.names[1] == "n4a"
    && |s.links| == 2 && s.links[0] == [1] && s.links[1] == []
  }

  /** The branch grafted in place of `n2b`, before the old subtree goes. */
  predicate Grafted(u: Linked) {
    && |u.names| == 6 && u.names[0] == "n3" && u.names[3] == "n1" && u.names[4] == "n4b" && u.names[5] == "n4a"
    && |u.links| == 6 && u.links[0] == [4, 3, 4, 2] && u.links[1] == [2] && u.links[2] == []
    && u.links[3] == [] && u.links[4] == [5] && u.links[5] == []
  }

  lemma GraftBranch(l: Linked, s: Linked)
    requires Duplicated(l) && Branch(s)
    ensures Valid(l) && Valid(s) && Grafted(Graft(l, 1, s))
  {
    var u := Graft(l, 1, s);
    assert ReplaceAll([1, 3, 1, 2], 1, 4) == [4, 3, 4, 2];
    assert ReplaceAll([2], 1, 4) == [2] && ReplaceAll([], 1, 4) == [];
    assert OffsetList([1], 4) == [5] && OffsetList([], 4) == [];
    assert u.links[4] == OffsetList(s.links[0], 4) && u.links[5] == OffsetList(s.links[1], 4);
    assert u.names[4] == s.names[0] && u.names[5] == s.names[1];
  }

  lemma GraftedReach(u: Linked, x: nat)
    requires Grafted(u) && x < 6
    ensures Valid(u) && (Reaches(u.links, 1, x) <==> x == 1 || x == 2)
  {
    var g := u.links;
    var m := [false, true, true, false, false, false];
    assert Closed(g, m);
    ReachesRefl(g, 1);
    ReachesStep(g, 1, 1, 2);
    if Reaches(g, 1, x) {
      ClosedReaches(g, m, 1, x);
    }
  }

  lemma GraftedAncestry(u: Linked)
    requires Grafted(u)
    ensures Valid(u) && !CycleReachableFrom(u.links, 1)
    ensures Ancestry(u.links, 1) == [false, true, true, false, false, false]
  {
    RankedAcyclic(u.links, [2, 1, 0, 0, 1, 0]);
    if CycleReachableFrom(u.links, 1) {
      CycleReachableHasCycle(u.links, 1);
    }
    GraftedReach(u, 0);
    GraftedReach(u, 1);
    GraftedReach(u, 2);
    GraftedReach(u, 3);
    GraftedReach(u, 4);
    GraftedReach(u, 5);
    var a := Ancestry(u.links, 1);
    assert !a[0] && a[1] && a[2] && !a[3] && !a[4] && !a[5];
  }

  lemma GraftedReindex(m: seq<bool>)
    requires m == [false, true, true, false, false, false]
    ensures Rank(m, 0) == 0 && Rank(m, 3) == 1 && Rank(m, 4) == 2 && Rank(m, 5) == 3 && Rank(m, 6) == 4
    ensures Reindex([4, 3, 4, 2], m) == [2, 1, 2] && Reindex([5], m) == [3] && Reindex([], m) == []
  {
    assert Rank(m, 1) == 1 && Rank(m, 2) == 1 && Rank(m, 3) == 1 && Rank(m, 4) == 2 && Rank(m, 5) == 3;
    assert [4, 3, 4, 2][1..] == [3, 4, 2] && [3, 4, 2][1..] == [4, 2] && [4, 2][1..] == [2];
    assert Reindex([2], m) == [] + Reindex([], m);
    assert Reindex([4, 2], m) == [Rank(m, 4)] + Reindex([2], m);
    assert Reindex([3, 4, 2], m) == [Rank(m, 3)] + Reindex([4, 2], m);
    assert Reindex([4, 3, 4, 2], m) == [Rank(m, 4)] + Reindex([3, 4, 2], m);
  }

  lemma RemoveGrafted(u: Linked)
    requires Grafted(u)
    ensures Valid(u)
    ensures RemoveNodes(u, [false, true, true, false, false, false]) == Linked(["n3", "n1", "n4b", "n4a"], [[2, 1, 2], [], [3], []])
  {
    var m := [false, true, true, false, false, false];
    RemoveGraftedShape(u, m);
    var r := RemoveNodes(u, m);
    Four(r.names, "n3", "n1", "n4b", "n4a");
    Four(r.links, [2, 1, 2], [], [3], []);
  }

  lemma RemoveGraftedShape(u: Linked, m: seq<bool>)
    requires |u.names| == 6 && m == [false, true, true, false, false, false]
    requires |u.links| == 6 && u.links[0] == [4, 3, 4, 2] && u.links[1] == [2] && u.links[2] == []
    requires u.links[3] == [] && u.links[4] == [5] && u.links[5] == []
    ensures Valid(u)
    ensures var r := RemoveNodes(u, m);
      && |r.names| == 4 && r.names[0] == u.names[0] && r.names[1] == u.names[3]
      && r.names[2] == u.names[4] && r.names[3] == u.names[5]
      && |r.links| == 4 && r.links[0] == [2, 1, 2] && r.links[1] == [] && r.links[2] == [3] && r.links[3] == []
  {
    assert WellFormed(u.links) by {
      forall i, k | 0 <= i < 6 && 0 <= k < |u.links[i]|
        ensures u.links[i][k] < 6
      {
      }
    }
    GraftedReindex(m);
  }

  lemma DeleteGrafted(u: Linked)
    requires Grafted(u)
    ensures Valid(u)
    ensures DeleteSubtree(u, 1) == Ok(Linked(["n3", "n1", "n4b", "n4a"], [[2, 1, 2], [], [3], []]))
  {
    GraftedAncestry(u);
    RemoveGrafted(u);
  }

  /** Replacing the subtree of `n2b` by the branch removes `n2b` and `n2a`
      (also `n3`'s direct link to `n2a`) and puts `n4b` in both places
      where `n3` listed `n2b`. */
  lemma UpdateSubtreeDuplicated(l: Linked, s: Linked)
    requires Duplicated(l) && Branch(s)
    ensures Valid(l) && Valid(s)
    ensures UpdateSubtree(l, 1, s) == Ok(Linked(["n3", "n1", "n4b", "n4a"], [[2, 1, 2], [], [3], []]))
  {
    GraftBranch(l, s);
    DeleteGrafted(Graft(l, 1, s));
  }

  /** `test_delete_node_with_duplicated_edges` and
      `test_update_node_with_duplicated_edges`: `n3` with parents `n2`, `n1`
      and `n2` again. */
  predicate Repeated(l: Linked) {
    && |l.names| == 3 && l.names[0] == "n3" && l.names[1] == "n2" && l.names[2] == "n1"
    && |l.links| == 3 && l.links[0] == [1, 2, 1] && l.links[1] == [] && l.links[2] == []
  }

  lemma Two<T>(s: seq<T>, a: T, b: T)
    requires |s| == 2 && s[0] == a && s[1] == b
    ensures s == [a, b]
  {
  }

  /** Deleting `n2` removes both of its entries from `n3`'s parents. */
  lemma DeleteRepeated(l: Linked)
    requires Repeated(l)
    ensures Valid(l)
    ensures DeleteNode(l, 1, Single) == Linked(["n3", "n1"], [[1], []])
  {
    var u := Unlink(l, 1, Single);
    assert u == RemoveEverywhere(l.links, 1);
    assert [1, 2, 1][1..] == [2, 1] && [2, 1][1..] == [1];
    assert RemoveAll([1], 1) == [] && RemoveAll([2, 1], 1) == [2] && RemoveAll([1, 2, 1], 1) == [2];
    assert u[0] == [2] && u[2] == [];
    var r := DeleteNode(l, 1, Single);
    assert Shift([2], 1) == [1] && Shift([], 1) == [];
    assert r.names[0] == "n3" && r.names[Shifted(2, 1)] == "n1";
    assert r.links[0] == [1] && r.links[Shifted(2, 1)] == [];
    Two(r.names, "n3", "n1");
    Two(r.links, [1], []);
  }

  /** Updating `n2` to `n2b` puts `n2b` in both places `n3` listed `n2`. */
  lemma UpdateRepeated(l: Linked)
    requires Repeated(l)
    ensures Valid(l)
    ensures UpdateNode(l, 1, "n2b") == Linked(["n3", "n1", "n2b"], [[2, 1, 2], [], []])
  {
    var r := UpdateNode(l, 1, "n2b");
    assert ReplaceAll([1, 2, 1], 1, 3) == [3, 2, 3];
    assert ReplaceAll([], 1, 3) == [];
    assert Shift([3, 2, 3], 1) == [2, 1, 2] && Shift([], 1) == [];
    assert r.names[0] == "n3" && r.names[Shifted(2, 1)] == "n1" && r.names[2] == "n2b";
    assert r.links[0] == [2, 1, 2] && r.links[Shifted(2, 1)] == [] && r.links[2] == [];
    Three(r.names, "n3", "n1", "n2b");
    Three(r.links, [2, 1, 2], [], []);
  }

  /** `test_delete_root_node`: deleting the root `n4` leaves the roots `n2`
      and `n3`. */
  lemma DeleteRootNode(l: Linked)
    requires FourNodes(l)
    ensures Valid(l)
    ensures DeleteNode(l, 0, Single) == Linked(["n2", "n3", "n1"], [[], [2], []])
  {
    FourNodesChildren(l);
    var u := Unlink(l, 0, Single);
    assert u == RemoveEverywhere(l.links, 0);
    assert RemoveAll([], 0) == [] && RemoveAll([3], 0) == [3];
    assert u[1] == [] && u[2] == [3] && u[3] == [];
    var r := DeleteNode(l, 0, Single);
    assert Shift([], 0) == [] && Shift([3], 0) == [2];
    assert r.names[Shifted(1, 0)] == "n2" && r.names[Shifted(2, 0)] == "n3" && r.names[Shifted(3, 0)] == "n1";
    assert r.links[Shifted(1, 0)] == [] && r.links[Shifted(2, 0)] == [2] && r.links[Shifted(3, 0)] == [];
    Three(r.names, "n2", "n3", "n1");
    Three(r.links, [], [2], []);
  }

  /** What `DeleteRootNode` leaves: `n2`, and `n3` with parent `n1`. */
  predicate TwoRoots(l: Linked) {
    && |l.names| == 3 && l.names[0] == "n2" && l.names[1] == "n3" && l.names[2] == "n1"
    && |l.links| == 3 && l.links[0] == [] && l.links[1] == [2] && l.links[2] == []
  }

  lemma TwoRootsRoots(l: Linked)
    requires TwoRoots(l)
    ensures Valid(l) && Roots(l) == [0, 1]
  {
    var g := l.links;
    assert ChildrenFrom(g, 0, 3) == [] && ChildrenFrom(g, 1, 3) == [] && ChildrenFrom(g, 2, 3) == [];
    assert ChildrenFrom(g, 0, 2) == [] && ChildrenFrom(g, 1, 2) == [] && ChildrenFrom(g, 2, 2) == [];
    assert ChildrenFrom(g, 0, 1) == [] && ChildrenFrom(g, 1, 1) == [] && ChildrenFrom(g, 2, 1) == [1];
    assert Children(g, 0) == [] && Children(g, 1) == [] && Children(g, 2) == [1];
    assert RootsFrom(g, 3) == [] && RootsFrom(g, 2) == [];
    assert RootsFrom(g, 1) == [1];
  }

  lemma TwoRootsDepths(l: Linked)
    requires TwoRoots(l)
    ensures Valid(l) && Depths.LongestDepth(l.links, 0) == 1 && Depths.LongestDepth(l.links, 1) == 2
  {
    var g := l.links;
    Depths.LayerOne(g, 0);
    Depths.DepthByLayers(g, 0, 1);
    Depths.LayerOne(g, 1);
    NextLayer(g, 1, 1, [2]);
    assert Expand(g, [2]) == [];
    Depths.DepthByLayers(g, 1, 2);
  }

  /** Two roots remain; the deeper one, `n3`, gives depth 2. */
  lemma DeleteRootDepth(l: Linked)
    requires TwoRoots(l)
    ensures Valid(l) && Roots(l) == [0, 1] && Depth(l) == 2
  {
    TwoRootsRoots(l);
    TwoRootsDepths(l);
    assert [0, 1][1..] == [1];
    assert MaxDepth(l.links, [1]) == 2;
  }

  /** Deleting `n2` next leaves `n3` with parent `n1`. */
  lemma DeleteSecondRoot(l: Linked)
    requires TwoRoots(l)
    ensures Valid(l)
    ensures DeleteNode(l, 0, Single) == Linked(["n3", "n1"], [[1], []])
  {
    var g := l.links;
    assert ChildrenFrom(g, 0, 3) == [] && ChildrenFrom(g, 0, 2) == [] && ChildrenFrom(g, 0, 1) == [];
    var u := Unlink(l, 0, Single);
    assert u == RemoveEverywhere(g, 0);
    assert RemoveAll([2], 0) == [2] && RemoveAll([], 0) == [];
    assert u[1] == [2] && u[2] == [];
    var r := DeleteNode(l, 0, Single);
    assert Shift([2], 0) == [1] && Shift([], 0) == [];
    assert r.names[Shifted(1, 0)] == "n3" && r.names[Shifted(2, 0)] == "n1";
    assert r.links[Shifted(1, 0)] == [1] && r.links[Shifted(2, 0)] == [];
    Two(r.names, "n3", "n1");
    Two(r.links, [1], []);
  }

  /** `n3` with parent `n1`. */
  predicate LastPair(l: Linked) {
    && |l.names| == 2 && l.names[0] == "n3" && l.names[1] == "n1"
    && |l.links| == 2 && l.links[0] == [1] && l.links[1] == []
  }

  /** `n3` is the only root left, still of depth 2. */
  lemma LastPairDepth(l: Linked)
    requires LastPair(l)
    ensures Valid(l) && Roots(l) == [0] && Depth(l) == 2
  {
    var g := l.links;
    assert ChildrenFrom(g, 0, 2) == [] && ChildrenFrom(g, 1, 2) == [];
    assert ChildrenFrom(g, 0, 1) == [] && ChildrenFrom(g, 1, 1) == [];
    assert ChildrenFrom(g, 1, 0) == [0];
    assert RootsFrom(g, 2) == [] && RootsFrom(g, 1) == [];
    Depths.LayerOne(g, 0);
    NextLayer(g, 0, 1, [1]);
    assert Expand(g, [1]) == [];
    Depths.DepthByLayers(g, 0, 2);
    assert MaxDepth(g, [0]) == 2;
  }

  /** `test_delete_primary_node`: deleting the parentless `n1` leaves three
      nodes, `n2` among them, and `n3` without parents. */
  lemma DeletePrimaryNode(l: Linked)
    requires FourNodes(l)
    ensures Valid(l)
    ensures DeleteNode(l, 3, Single) == Linked(["n4", "n2", "n3"], [[1, 2], [], []])
  {
    PrimaryUnlink(l);
    var r := DeleteNode(l, 3, Single);
    assert Shift([1, 2], 3) == [1, 2] && Shift([], 3) == [];
    assert r.names[0] == "n4" && r.names[1] == "n2" && r.names[2] == "n3";
    assert r.links[0] == [1, 2] && r.links[1] == [] && r.links[2] == [];
    Three(r.names, "n4", "n2", "n3");
    Three(r.links, [1, 2], [], []);
  }

  lemma PrimaryUnlink(l: Linked)
    requires FourNodes(l)
    ensures Valid(l) && 3 !in l.links[3]
    ensures Unlink(l, 3, Single)[0] == [1, 2] && Unlink(l, 3, Single)[1] == [] && Unlink(l, 3, Single)[2] == []
  {
    var u := Unlink(l, 3, Single);
    assert u == RemoveEverywhere(l.links, 3);
    assert RemoveAll([1, 2], 3) == [1, 2] && RemoveAll([3], 3) == [] && RemoveAll([], 3) == [];
  }

  /** Four nodes where node 1 has the single parent 2, nodes 2 and 3 have
      none, and node 0 lists any of nodes 1 to 3: the shape of the subtree
      tests, with `n2b` at index 1 and `n2a` at index 2. */
  predicate SubtreeShape(l: Linked) {
    && |l.names| == 4 && |l.links| == 4
    && l.links[1] == [2] && l.links[2] == [] && l.links[3] == []
    && forall k :: 0 <= k < |l.links[0]| ==> 1 <= l.links[0][k] <= 3
  }

  lemma ShapeAcyclic(l: Linked)
    requires SubtreeShape(l)
    ensures Valid(l) && !CycleReachableFrom(l.links, 1)
  {
    RankedAcyclic(l.links, [2, 1, 0, 0]);
    if CycleReachableFrom(l.links, 1) {
      CycleReachableHasCycle(l.links, 1);
    }
  }

  lemma ShapeReach(l: Linked, x: nat)
    requires SubtreeShape(l) && x < 4
    ensures Reaches(l.links, 1, x) <==> x == 1 || x == 2
  {
    var g := l.links;
    var m := [false, true, true, false];
    assert Closed(g, m);
    ReachesRefl(g, 1);
    ReachesStep(g, 1, 1, 2);
    if Reaches(g, 1, x) {
      ClosedReaches(g, m, 1, x);
    }
  }

  /** In that shape node 1 reaches exactly itself and node 2. */
  lemma ShapeAncestry(l: Linked)
    requires SubtreeShape(l)
    ensures Valid(l) && !CycleReachableFrom(l.links, 1)
    ensures Ancestry(l.links, 1) == [false, true, true, false]
  {
    ShapeAcyclic(l);
    ShapeReach(l, 0);
    ShapeReach(l, 1);
    ShapeReach(l, 2);
    ShapeReach(l, 3);
    var a := Ancestry(l.links, 1);
    assert !a[0] && a[1] && a[2] && !a[3];
  }

  /** Removing nodes 1 and 2 from that shape keeps node 0 and node 3 as `n1`. */
  lemma RemoveShape(l: Linked, ps: seq<nat>)
    requires SubtreeShape(l) && l.names[3] == "n1" && l.names[0] == "n3"
    requires Reindex(l.links[0], [false, true, true, false]) == ps
    ensures Valid(l)
    ensures RemoveNodes(l, [false, true, true, false]) == Linked(["n3", "n1"], [ps, []])
  {
    var m := [false, true, true, false];
    assert Rank(m, 0) == 0 && Rank(m, 1) == 1 && Rank(m, 2) == 1 && Rank(m, 3) == 1 && Rank(m, 4) == 2;
    var r := RemoveNodes(l, m);
    assert Reindex([], m) == [];
    assert r.names[0] == "n3" && r.names[1] == "n1";
    assert r.links[0] == ps && r.links[1] == [];
    Two(r.names, "n3", "n1");
    Two(r.links, ps, []);
  }

  /** `test_delete_subtree_with_several_edges_near`: `n3` with parents
      `n2b`, `n1` and `n2a`, and `n2b` with parent `n2a`. */
  predicate Near(l: Linked) {
    && |l.names| == 4 && l.names[0] == "n3" && l.names[1] == "n2b" && l.names[2] == "n2a" && l.names[3] == "n1"
    && |l.links| == 4 && l.links[0] == [1, 3, 2] && l.links[1] == [2] && l.links[2] == [] && l.links[3] == []
  }

  /** Deleting the subtree of `n2b` removes `n2a` too, and `n3` keeps only `n1`. */
  lemma DeleteSubtreeNear(l: Linked)
    requires Near(l)
    ensures Valid(l)
    ensures DeleteSubtree(l, 1) == Ok(Linked(["n3", "n1"], [[1], []]))
  {
    ShapeAncestry(l);
    var m := [false, true, true, false];
    assert Rank(m, 3) == 1;
    assert [1, 3, 2][1..] == [3, 2] && [3, 2][1..] == [2] && [2][1..] == [];
    assert Reindex([2], m) == [];
    assert Reindex([3, 2], m) == [1];
    assert Reindex([1, 3, 2], m) == [1];
    RemoveShape(l, [1]);
  }

  /** `test_delete_subtree_with_duplicated_edges`: deleting the subtree of
      `n2b`, listed twice by `n3`, leaves `n3` with the single parent `n1`. */
  lemma DeleteSubtreeDuplicated(l: Linked)
    requires Duplicated(l)
    ensures Valid(l)
    ensures DeleteSubtree(l, 1) == Ok(Linked(["n3", "n1"], [[1], []]))
  {
    ShapeAncestry(l);
    var m := [false, true, true, false];
    assert Rank(m, 3) == 1;
    assert [1, 3, 1, 2][1..] == [3, 1, 2] && [3, 1, 2][1..] == [1, 2] && [1, 2][1..] == [2];
    assert Reindex([2], m) == [];
    assert Reindex([1, 2], m) == [];
    assert Reindex([3, 1, 2], m) == [1];
    assert Reindex([1, 3, 1, 2], m) == [1];
    RemoveShape(l, [1]);
  }

  /** `test_update_node_without_predecessors`: `l3n1` with parent `l2n1`,
      which has parents `l1n1` and `l1n2`. */
  predicate Predecessors(l: Linked) {
    && |l.names| == 4 && l.names[0] == "l3n1" && l.names[1] == "l2n1" && l.names[2] == "l1n1" && l.names[3] == "l1n2"
    && |l.links| == 4 && l.links[0] == [1] && l.links[1] == [2, 3] && l.links[2] == [] && l.links[3] == []
  }

  lemma UpdateLists()
    ensures Shift(ReplaceAll([1], 1, 4), 1) == [3] && Shift(ReplaceAll([], 1, 4), 1) == []
    ensures Shift([2, 3], 1) == [1, 2]
  {
    assert ReplaceAll([1], 1, 4) == [4] && ReplaceAll([], 1, 4) == [];
    assert Shift([4], 1) == [3] && Shift([], 1) == [];
    assert Shift([3], 1) == [2];
  }

  /** Updating `l2n1` to `l2new`: the new node takes its parents, `l3n1`
      lists the new node, and `l2n1` is gone. */
  lemma UpdateWithoutPredecessors(l: Linked)
    requires Predecessors(l)
    ensures Valid(l)
    ensures UpdateNode(l, 1, "l2new") == Linked(["l3n1", "l1n1", "l1n2", "l2new"], [[3], [], [], [1, 2]])
  {
    UpdateLists();
    var r := UpdateNode(l, 1, "l2new");
    assert r.names[0] == "l3n1" && r.names[Shifted(2, 1)] == "l1n1" && r.names[Shifted(3, 1)] == "l1n2";
    assert r.links[0] == [3] && r.links[Shifted(2, 1)] == [] && r.links[Shifted(3, 1)] == [];
    Four(r.names, "l3n1", "l1n1", "l1n2", "l2new");
    Four(r.links, [3], [], [], [1, 2]);
  }

  /** The parent lists of `Star`. */
  predicate StarLinks(g: Graph) {
    |g| == 4 && g[0] == [1, 2, 3] && g[1] == [] && g[2] == [] && g[3] == []
  }

  lemma StarChildren(g: Graph, v: nat)
    requires StarLinks(g) && 1 <= v < 4
    ensures Children(g, v) == [0]
  {
    assert ChildrenFrom(g, v, 4) == [] && ChildrenFrom(g, v, 3) == [] && ChildrenFrom(g, v, 2) == [];
    assert ChildrenFrom(g, v, 1) == [];
  }

  lemma StarRoots(g: Graph)
    requires StarLinks(g)
    ensures RootNodes(g) == [0]
  {
    StarChildren(g, 1);
    StarChildren(g, 2);
    StarChildren(g, 3);
    assert ChildrenFrom(g, 0, 4) == [] && ChildrenFrom(g, 0, 3) == [] && ChildrenFrom(g, 0, 2) == [];
    assert ChildrenFrom(g, 0, 1) == [] && ChildrenFrom(g, 0, 0) == [];
    assert RootsFrom(g, 4) == [] && RootsFrom(g, 3) == [] && RootsFrom(g, 2) == [] && RootsFrom(g, 1) == [];
  }

  lemma StarLongest(g: Graph)
    requires StarLinks(g)
    ensures WellFormed(g) && Depths.LongestDepth(g, 0) == 2
  {
    Depths.LayerOne(g, 0);
    NextLayer(g, 0, 1, [1, 2, 3]);
    assert [1, 2, 3][1..] == [2, 3] && [2, 3][1..] == [3] && [3][1..] == [];
    assert Expand(g, [3]) == g[3] + Expand(g, []);
    assert Expand(g, [2, 3]) == g[2] + Expand(g, [3]);
    assert Expand(g, [1, 2, 3]) == g[1] + Expand(g, [2, 3]);
    assert Expand(g, [1, 2, 3]) == [];
    Depths.DepthByLayers(g, 0, 2);
  }

  /** `test_graph_str` and `test_graph_repr`: `n4` with the parents `n1`,
      `n2` and `n3`. */
  predicate Star(l: Linked) {
    && |l.names| == 4 && l.names[0] == "n4" && l.names[1] == "n1" && l.names[2] == "n2" && l.names[3] == "n3"
    && |l.links| == 4 && l.links[0] == [1, 2, 3] && l.links[1] == [] && l.links[2] == [] && l.links[3] == []
  }

  /** The graph has four nodes, the single root `n4` and depth 2, as its
      description states. */
  lemma StarDepth(l: Linked)
    requires Star(l)
    ensures Valid(l) && |l.names| == 4 && Roots(l) == [0] && Depth(l) == 2
  {
    StarRoots(l.links);
    StarLongest(l.links);
    assert MaxDepth(l.links, [0]) == 2;
  }
}

=== FILE: history.dfy ===
/** The pure helpers of the extra history visualiser (`opt_viz_extra.py`):
    the genealogical path of an individual, objective values per objective,
    and the running-best series drawn in the convergence and graph
    animations. */
module History {
  import opened Builtins

  // ---------------------------------------------------------------------
  // trace_genealogical_path

  /** `max(xs, key=key)`: the first element of greatest key. */
  function ArgMax(xs: seq<nat>, key: nat -> real): (r: nat)
    requires |xs| > 0
    ensures r in xs
    ensures forall k :: 0 <= k < |xs| ==> key(xs[k]) <= key(r)
    ensures exists i :: 0 <= i < |xs| && xs[i] == r && forall k :: 0 <= k < i ==> key(xs[k]) < key(r)
  {
    if |xs| == 1 then xs[0]
    else
      var rest := ArgMax(xs[1..], key);
      assert forall k :: 1 <= k < |xs| ==> xs[k] == xs[1..][k - 1];
      if key(xs[0]) >= key(rest) then xs[0]
      else
        var i :| 0 <= i < |xs[1..]| && xs[1..][i] == rest && forall k :: 0 <= k < i ==> key(xs[1..][k]) < key(rest);
        assert xs[i + 1] == rest;
        rest
  }

  /** The individuals of a history by number: the parents each has in the
      previous generation, and the generation it belongs to. */
  datatype Lineage = Lineage(parents: seq<seq<nat>>, generation: seq<nat>)

  /** Every parent is a known individual of an earlier generation. */
  predicate WellFormedLineage(l: Lineage) {
    && |l.generation| == |l.parents|
    && forall c, k :: 0 <= c < |l.parents| && 0 <= k < |l.parents[c]| ==>
         l.parents[c][k] < |l.parents| && l.generation[l.parents[c][k]] < l.generation[c]
  }

  /** The parent of `child` that `trace_genealogical_path` steps to: the
      first one farthest from `child` by `graphDist`. */
  function FarthestParent(l: Lineage, child: nat, graphDist: (nat, nat) -> real): (r: nat)
    requires WellFormedLineage(l) && child < |l.parents| && |l.parents[child]| > 0
    ensures r in l.parents[child] && r < |l.parents| && l.generation[r] < l.generation[child]
  {
    var r := ArgMax(l.parents[child], (p: nat) => graphDist(child, p));
    var k :| 0 <= k < |l.parents[child]| && l.parents[child][k] == r;
    r
  }

  /** `trace_genealogical_path(individual, graph_dist)`: from the individual
      back to an ancestor without parents, taking at each step the parent
      farthest from the current individual by `graphDist`, listed oldest
      first. */
  function TraceGenealogicalPath(l: Lineage, individual: nat, graphDist: (nat, nat) -> real): (r: seq<nat>)
    requires WellFormedLineage(l) && individual < |l.parents|
    ensures |r| > 0 && r[|r| - 1] == individual
    ensures forall i :: 0 <= i < |r| ==> r[i] < |l.parents|
    ensures l.parents[r[0]] == []
    decreases l.generation[individual]
  {
    if l.parents[individual] == [] then [individual]
    else
      var next := FarthestParent(l, individual, graphDist);
      TraceGenealogicalPath(l, next, graphDist) + [individual]
  }

  /** Element `i` of `path` is the farthest parent of element `i + 1`, of
      an earlier generation. */
  predicate StepBack(l: Lineage, path: seq<nat>, i: nat, graphDist: (nat, nat) -> real)
    requires WellFormedLineage(l) && i + 1 < |path| && path[i + 1] < |l.parents|
  {
    && |l.parents[path[i + 1]]| > 0
    && path[i] == FarthestParent(l, path[i + 1], graphDist)
    && l.generation[path[i]] < l.generation[path[i + 1]]
  }

  /** Each element of the path but the last is the farthest parent of the
      element after it, so generations strictly increase along the path. */
  lemma {:induction false} PathSteps(l: Lineage, individual: nat, graphDist: (nat, nat) -> real)
    requires WellFormedLineage(l) && individual < |l.parents|
    ensures forall i :: 0 <= i < |TraceGenealogicalPath(l, individual, graphDist)| - 1 ==>
      StepBack(l, TraceGenealogicalPath(l, individual, graphDist), i, graphDist)
    decreases l.generation[individual]
  {
    var r := TraceGenealogicalPath(l, individual, graphDist);
    if l.parents[individual] != [] {
      var next := FarthestParent(l, individual, graphDist);
      PathSteps(l, next, graphDist);
      var prefix := TraceGenealogicalPath(l, next, graphDist);
      assert r == prefix + [individual];
      forall i | 0 <= i < |r| - 1
        ensures StepBack(l, r, i, graphDist)
      {
        if i < |prefix| - 1 {
          assert StepBack(l, prefix, i, graphDist);
          assert r[i] == prefix[i] && r[i + 1] == prefix[i + 1];
        } else {
          assert r[i] == next && r[i + 1] == individual;
        }
      }
    }
  }

  // ---------------------------------------------------------------------
  // objectives_lists / extract_objectives

  /** One objective's values over the individuals, through Python indexing. */
  function Column(individuals: seq<seq<real>>, objective: int): (r: Result<seq<real>>)
    ensures r.Ok? <==> forall k :: 0 <= k < |individuals| ==> PyIndex(individuals[k], objective).Ok?
    ensures r.Err? ==> r.error == IndexError
    ensures r.Ok? ==> |r.value| == |individuals|
    ensures r.Ok? ==> forall k :: 0 <= k < |individuals| ==> r.value[k] == PyIndex(individuals[k], objective).value
  {
    if individuals == [] then Ok([])
    else
      var v :- PyIndex(individuals[0], objective);
      var rest :- Column(individuals[1..], objective);
      assert forall k :: 1 <= k < |individuals| ==> individuals[k] == individuals[1..][k - 1];
      Ok([v] + rest)
  }

  /** `range(n)`. */
  function Indices(n: nat): (r: seq<int>)
    ensures |r| == n && forall k :: 0 <= k < n ==> r[k] == k
  {
    if n == 0 then [] else Indices(n - 1) + [n - 1]
  }

  /** `objectives_lists(individuals, objectives_numbers)`: for each chosen
      objective, the absolute value of that objective for every individual.
      The individuals are given by their fitness values. With no objective
      numbers the objectives of the first individual are used, so an empty
      list raises `IndexError`. */
  function ObjectivesLists(individuals: seq<seq<real>>, numbers: Option<seq<int>>): (r: Result<seq<seq<real>>>)
    ensures numbers.Some? && |numbers.value| > 0 ==> r == AbsColumns(individuals, numbers.value)
    ensures (numbers.None? || |numbers.value| == 0) && individuals == [] ==> r == Err(IndexError)
    ensures (numbers.None? || |numbers.value| == 0) && individuals != [] ==>
      r == AbsColumns(individuals, Indices(|individuals[0]|))
  {
    if numbers.Some? && |numbers.value| > 0 then AbsColumns(individuals, numbers.value)
    else
      var first :- PyIndex(individuals, 0);
      AbsColumns(individuals, Indices(|first|))
  }

  /** The absolute values of the chosen objectives, objective by objective. */
  function AbsColumns(individuals: seq<seq<real>>, nums: seq<int>): (r: Result<seq<seq<real>>>)
    ensures r.Err? ==> r.error == IndexError
    ensures r.Ok? ==>
      && |r.value| == |nums|
      && forall o :: 0 <= o < |nums| ==>
           && |r.value[o]| == |individuals|
           && forall k :: 0 <= k < |individuals| ==>
                && PyIndex(individuals[k], nums[o]).Ok?
                && r.value[o][k] == Abs(PyIndex(individuals[k], nums[o]).value)
                && r.value[o][k] >= 0.0
  {
    if nums == [] then Ok([])
    else
      var col :- Column(individuals, nums[0]);
      var rest :- AbsColumns(individuals, nums[1..]);
      assert forall o :: 1 <= o < |nums| ==> nums[o] == nums[1..][o - 1];
      Ok([seq(|col|, k requires 0 <= k < |col| => Abs(col[k]))] + rest)
  }

  /** All individuals of all generations, generation by generation
      (`itertools.chain(*individuals)`). */
  function Flatten(generations: seq<seq<seq<real>>>): (r: seq<seq<real>>)
    ensures |r| == SumLengths(generations)
  {
    if generations == [] then [] else generations[0] + Flatten(generations[1..])
  }

  function SumLengths(generations: seq<seq<seq<real>>>): nat {
    if generations == [] then 0 else |generations[0]| + SumLengths(generations[1..])
  }

  /** Every individual of generation `g` appears in the flattened list. */
  lemma {:induction false} FlattenHas(generations: seq<seq<seq<real>>>, g: nat, k: nat)
    requires g < |generations| && k < |generations[g]|
    ensures generations[g][k] in Flatten(generations)
  {
    if g > 0 {
      FlattenHas(generations[1..], g - 1, k);
    } else {
      assert Flatten(generations)[k] == generations[0][k];
    }
  }

  /** The sign flip of `extract_objectives`: a column with a value that is
      not positive is negated as a whole, otherwise kept. */
  function FromMinimisation(values: seq<real>): (r: seq<real>)
    ensures |r| == |values|
    ensures (forall k :: 0 <= k < |values| ==> values[k] > 0.0) ==> r == values
    ensures (exists k :: 0 <= k < |values| && values[k] <= 0.0) ==>
      forall k :: 0 <= k < |values| ==> r[k] == -values[k]
  {
    if forall k :: 0 <= k < |values| ==> values[k] > 0.0 then values
    else seq(|values|, k requires 0 <= k < |values| => -values[k])
  }

  /** `extract_objectives(individuals, objectives_numbers,
      transform_from_minimization)` on the fitness values of each
      generation's individuals: for each chosen objective, its values over
      all individuals, sign-flipped as a whole when asked to and some value
      is not positive. With no objective numbers the objectives of the very
      first individual are used, so an empty history or an empty first
      generation raises `IndexError`, as does an objective an individual
      lacks. */
  function ExtractObjectives(generations: seq<seq<seq<real>>>, numbers: Option<seq<int>>, transform: bool)
    : (r: Result<seq<seq<real>>>)
    ensures (numbers.None? || |numbers.value| == 0) && (generations == [] || generations[0] == []) ==>
      r == Err(IndexError)
    ensures r.Err? ==> r.error == IndexError
    ensures r.Ok? ==> var nums := if numbers.Some? && |numbers.value| > 0 then numbers.value
                                  else Indices(|generations[0][0]|);
      && |r.value| == |nums|
      && forall o :: 0 <= o < |nums| ==>
           && Column(Flatten(generations), nums[o]).Ok?
           && r.value[o] == (if transform then FromMinimisation(Column(Flatten(generations), nums[o]).value)
                             else Column(Flatten(generations), nums[o]).value)
  {
    var nums :-
      if numbers.Some? && |numbers.value| > 0 then Ok(numbers.value)
      else
        var first :- PyIndex(generations, 0);
        var ind :- PyIndex(first, 0);
        Ok(Indices(|ind|));
    var all := Flatten(generations);
    var columns :- Columns(all, nums);
    Ok(if transform then seq(|columns|, o requires 0 <= o < |columns| => FromMinimisation(columns[o]))
       else columns)
  }

  /** The chosen objectives' values, objective by objective. */
  function Columns(individuals: seq<seq<real>>, nums: seq<int>): (r: Result<seq<seq<real>>>)
    ensures r.Err? ==> r.error == IndexError
    ensures r.Ok? <==> forall o :: 0 <= o < |nums| ==> Column(individuals, nums[o]).Ok?
    ensures r.Ok? ==> |r.value| == |nums|
    ensures r.Ok? ==> forall o :: 0 <= o < |nums| ==> r.value[o] == Column(individuals, nums[o]).value
  {
    if nums == [] then Ok([])
    else
      assert forall o :: 1 <= o < |nums| ==> nums[o] == nums[1..][o - 1];
      var col :- Column(individuals, nums[0]);
      var rest :- Columns(individuals, nums[1..]);
      Ok([col] + rest)
  }

  /** Objective `n` is present in every individual and negative in each. */
  predicate NegativeColumn(individuals: seq<seq<real>>, n: int) {
    && Column(individuals, n).Ok?
    && forall k :: 0 <= k < |Column(individuals, n).value| ==> Column(individuals, n).value[k] < 0.0
  }

  /** On a negative column the sign flip of `extract_objectives` and the
      absolute value of `objectives_lists` agree. */
  lemma FlipIsAbs(individuals: seq<seq<real>>, n: int, o: nat, nums: seq<int>)
    requires |individuals| > 0 && NegativeColumn(individuals, n)
    requires o < |nums| && nums[o] == n
    requires AbsColumns(individuals, nums).Ok?
    ensures FromMinimisation(Column(individuals, n).value) == AbsColumns(individuals, nums).value[o]
  {
    var col := Column(individuals, n).value;
    var f := FromMinimisation(col);
    var a := AbsColumns(individuals, nums).value[o];
    assert col[0] <= 0.0;
    forall k | 0 <= k < |individuals|
      ensures f[k] == a[k]
    {
      assert col[k] == PyIndex(individuals[k], n).value;
    }
  }

  /** Where every value of an objective is negative, as for a maximised
      objective stored for minimisation, both helpers give the same
      positive values: `extract_objectives` over all generations agrees
      with `objectives_lists` over all individuals. */
  lemma ExtractAgreesWithLists(generations: seq<seq<seq<real>>>, nums: seq<int>)
    requires |nums| > 0 && |Flatten(generations)| > 0
    requires forall o :: 0 <= o < |nums| ==> NegativeColumn(Flatten(generations), nums[o])
    ensures ExtractObjectives(generations, Some(nums), true).Ok?
    ensures ExtractObjectives(generations, Some(nums), true) == ObjectivesLists(Flatten(generations), Some(nums))
  {
    var all := Flatten(generations);
    AbsColumnsOk(all, nums);
    var e := ExtractObjectives(generations, Some(nums), true);
    var a := ObjectivesLists(all, Some(nums));
    assert e.Ok? && a.Ok?;
    forall o | 0 <= o < |nums|
      ensures e.value[o] == a.value[o]
    {
      FlipIsAbs(all, nums[o], o, nums);
    }
    assert |e.value| == |nums| == |a.value|;
    assert e.value == a.value;
  }

  /** `AbsColumns` fails only on an objective some individual lacks. */
  lemma AbsColumnsOk(individuals: seq<seq<real>>, nums: seq<int>)
    requires forall o :: 0 <= o < |nums| ==> Column(individuals, nums[o]).Ok?
    ensures AbsColumns(individuals, nums).Ok?
  {
    if nums != [] {
      assert forall o :: 1 <= o < |nums| ==> nums[o] == nums[1..][o - 1];
      AbsColumnsOk(individuals, nums[1..]);
    }
  }

  // ---------------------------------------------------------------------
  // _visualise_convergence / _visualise_graphs

  /** The best (smallest) fitness among the first `k + 1`. */
  function MinUpTo(f: seq<real>, k: nat): (r: real)
    requires k < |f|
    ensures forall j :: 0 <= j <= k ==> r <= f[j]
    ensures exists j :: 0 <= j <= k && r == f[j]
  {
    if k == 0 then f[0]
    else
      var m := MinUpTo(f, k - 1);
      if f[k] > m then m else f[k]
  }

  /** The individual drawn as best after the first `k + 1`: the latest one
      that reached the best fitness so far. */
  function LastRecord(f: seq<real>, k: nat): (r: nat)
    requires k < |f|
    ensures r <= k && f[r] == MinUpTo(f, k)
    ensures forall j :: r < j <= k ==> f[j] > f[r]
  {
    if k == 0 then 0
    else if f[k] > MinUpTo(f, k - 1) then LastRecord(f, k - 1)
    else k
  }

  /** One step of the running best: the new fitness either falls behind
      the best so far, which stays the record, or becomes the new record. */
  lemma RecordStep(f: seq<real>, i: nat, prev: real)
    requires i < |f|
    requires prev == if i == 0 then f[0] else MinUpTo(f, i - 1)
    ensures f[i] > prev ==> 0 < i && MinUpTo(f, i) == prev && LastRecord(f, i) == LastRecord(f, i - 1)
    ensures f[i] <= prev ==> MinUpTo(f, i) == f[i] && LastRecord(f, i) == i
  {
  }

  /** `_visualise_convergence`: the fitness history with every value
      clamped to the best one before it, i.e. the running best. An empty
      history raises `IndexError` on its first element. */
  method ConvergenceSeries(history: seq<real>) returns (r: Result<seq<real>>)
    ensures r.Err? <==> history == []
    ensures r.Err? ==> r.error == IndexError
    ensures r.Ok? ==> |r.value| == |history|
    ensures r.Ok? ==> forall k :: 0 <= k < |history| ==> r.value[k] == MinUpTo(history, k)
    ensures r.Ok? ==> forall j, k :: 0 <= j <= k < |history| ==> r.value[k] <= r.value[j]
  {
    if history == [] {
      return Err(IndexError);
    }
    // the clamped entries so far; the rest of the list is still as given
    var clamped: seq<real> := [];
    var prev := history[0];
    var i := 0;
    while i < |history|
      invariant 0 <= i <= |history| && |clamped| == i
      invariant forall k :: 0 <= k < i ==> clamped[k] == MinUpTo(history, k)
      invariant prev == if i == 0 then history[0] else MinUpTo(history, i - 1)
    {
      RecordStep(history, i, prev);
      var fit := history[i];
      if fit > prev {
        fit := prev;
      }
      prev := fit;
      ClampSnoc(history, clamped, fit);
      clamped := clamped + [fit];
      i := i + 1;
    }
    MinUpToMonotone(history);
    return Ok(clamped);
  }

  /** Appending the running best after one more fitness keeps the
      clamped list equal to the running best by position. */
  lemma ClampSnoc(history: seq<real>, clamped: seq<real>, m: real)
    requires |clamped| < |history|
    requires forall k :: 0 <= k < |clamped| ==> clamped[k] == MinUpTo(history, k)
    requires m == MinUpTo(history, |clamped|)
    ensures forall k :: 0 <= k <= |clamped| ==> (clamped + [m])[k] == MinUpTo(history, k)
  {
  }

  /** The running best never gets worse. */
  lemma MinUpToMonotone(f: seq<real>)
    ensures forall j, k :: 0 <= j <= k < |f| ==> MinUpTo(f, k) <= MinUpTo(f, j)
  {
    forall j, k | 0 <= j <= k < |f|
      ensures MinUpTo(f, k) <= MinUpTo(f, j)
    {
      var w :| 0 <= w <= j && MinUpTo(f, j) == f[w];
    }
  }

  /** `_visualise_graphs(graphs, fitnesses)`: the graph drawn as best after
      each graph, the last one that reached the best fitness so far. The
      first graph and the first fitness are read before anything else, and
      each graph's fitness is read by position, so a missing graph or a
      missing fitness raises `IndexError`. */
  method BestGraphs<G>(graphs: seq<G>, fitnesses: seq<real>) returns (r: Result<seq<G>>)
    ensures r.Ok? <==> |graphs| > 0 && |fitnesses| >= |graphs|
    ensures r.Err? ==> r.error == IndexError
    ensures r.Ok? ==> |r.value| == |graphs|
    ensures r.Ok? ==> forall k :: 0 <= k < |graphs| ==> r.value[k] == graphs[LastRecord(fitnesses, k)]
  {
    if graphs == [] || fitnesses == [] || |fitnesses| < |graphs| {
      // the loop would stop on the first graph without a fitness
      return Err(IndexError);
    }
    var lastBest := graphs[0];
    var prev := fitnesses[0];
    var best: seq<G> := [];
    var i := 0;
    while i < |graphs|
      invariant 0 <= i <= |graphs| <= |fitnesses|
      invariant |best| == i
      invariant forall k :: 0 <= k < i ==> best[k] == graphs[LastRecord(fitnesses, k)]
      invariant prev == if i == 0 then fitnesses[0] else MinUpTo(fitnesses, i - 1)
      invariant i > 0 ==> lastBest == graphs[LastRecord(fitnesses, i - 1)]
    {
      // the clamped copy of the fitness list is local, so only its
      // current entry is kept
      RecordStep(fitnesses, i, prev);
      var fit := fitnesses[i];
      if fit > prev {
        fit := prev;
      } else {
        lastBest := graphs[i];
      }
      prev := fit;
      BestSnoc(graphs, fitnesses, best, lastBest);
      best := best + [lastBest];
      i := i + 1;
    }
    return Ok(best);
  }

  /** Appending the best graph after one more fitness keeps the list of
      best graphs by position. */
  lemma BestSnoc<G>(graphs: seq<G>, fitnesses: seq<real>, best: seq<G>, g: G)
    requires |best| < |graphs| <= |fitnesses|
    requires forall k :: 0 <= k < |best| ==> best[k] == graphs[LastRecord(fitnesses, k)]
    requires g == graphs[LastRecord(fitnesses, |best|)]
    ensures forall k :: 0 <= k <= |best| ==> (best + [g])[k] == graphs[LastRecord(fitnesses, k)]
  {
  }
}

=== FILE: iteration_results.dfy ===
/** The results of a structural analysis kept per iteration
    (`graph_sa/results/sa_analysis_results.py`): a dictionary from the
    iteration number, as a string, to the node results and edge results
    gathered in that iteration. */
module IterationResults {
  import opened Builtins
  import opened Strings
  import opened Dicts

  /** One entity's analysis result; the worst value is what
      `get_worst_result_with_names` reports for the chosen metric. */
  datatype ObjectResult = ObjectResult(entityType: string, worstValue: real)

  datatype Kind = NodesKey | EdgesKey

  datatype IterResult = IterResult(nodes: seq<ObjectResult>, edges: seq<ObjectResult>)

  type Table = Dict<IterResult>

  function ListOf(it: IterResult, key: Kind): seq<ObjectResult> {
    match key
    case NodesKey => it.nodes
    case EdgesKey => it.edges
  }

  function Append(it: IterResult, key: Kind, rs: seq<ObjectResult>): (r: IterResult)
    ensures ListOf(r, key) == ListOf(it, key) + rs
    ensures forall k :: k != key ==> ListOf(r, k) == ListOf(it, k)
  {
    match key
    case NodesKey => it.(nodes := it.nodes + rs)
    case EdgesKey => it.(edges := it.edges + rs)
  }

  /** `_init_iteration_result()`. */
  function EmptyIteration(): (r: IterResult)
    ensures ListOf(r, NodesKey) == [] && ListOf(r, EdgesKey) == []
  {
    IterResult([], [])
  }

  /** The keys are the iteration numbers `'0'`, `'1'`, ... in order. */
  predicate Consecutive(t: Table) {
    forall i :: 0 <= i < |t| ==> t[i].0 == NatStr(i)
  }

  lemma ConsecutiveDistinct(t: Table)
    requires Consecutive(t)
    ensures KeysDistinct(t)
  {
    forall i, j | 0 <= i < j < |t|
      ensures t[i].0 != t[j].0
    {
      if t[i].0 == t[j].0 {
        NatStrInjective(i, j);
      }
    }
  }

  /** `_add_empty_iteration_results()`: a fresh iteration keyed one past the
      number of the last key, or `'0'` for an empty table. The last key is
      read back with `int`, which raises `ValueError` on a key that is not a
      number. */
  function AddEmptyIteration(t: Table): (r: Result<Table>)
    ensures r.Err? ==> r.error == ValueError
    ensures t == [] ==> r == Ok([("0", EmptyIteration())])
  {
    var last :- if t == [] then Ok(-1) else ParseInt(t[|t| - 1].0);
    Ok(Put(t, IntStr(last + 1), EmptyIteration()))
  }

  /** The next iteration number is not yet a key. */
  lemma NextKeyAbsent(t: Table)
    requires Consecutive(t)
    ensures Get(t, NatStr(|t|)).None?
  {
    forall i | 0 <= i < |t|
      ensures t[i].0 != NatStr(|t|)
    {
      if t[i].0 == NatStr(|t|) {
        NatStrInjective(i, |t|);
      }
    }
  }

  /** Appending an entry under the next number keeps the keys consecutive. */
  lemma ConsecutiveExtend(t: Table, v: IterResult)
    requires Consecutive(t)
    ensures Consecutive(t + [(NatStr(|t|), v)])
  {
  }

  /** The number of the last key, read back with `int`. */
  lemma LastKeyParses(t: Table)
    requires Consecutive(t) && t != []
    ensures ParseInt(t[|t| - 1].0) == Ok(|t| - 1)
  {
    ParseIntStr(|t| - 1);
  }

  /** On a table with consecutive keys a new empty iteration goes at the end
      under the next number. */
  lemma AddEmptyConsecutive(t: Table)
    requires Consecutive(t)
    ensures AddEmptyIteration(t) == Ok(t + [(NatStr(|t|), EmptyIteration())])
  {
    AddEmptyNextKey(t);
    NextKeyAbsent(t);
  }

  /** On a table with consecutive keys the new key is the next number. */
  lemma AddEmptyNextKey(t: Table)
    requires Consecutive(t)
    ensures AddEmptyIteration(t) == Ok(Put(t, NatStr(|t|), EmptyIteration()))
  {
    var key := IntStr(|t|);
    assert key == NatStr(|t|);
    if t != [] {
      LastKeyParses(t);
      var last := |t| - 1;
      assert ParseInt(t[|t| - 1].0) == Ok(last);
      assert AddEmptyIteration(t) == Ok(Put(t, IntStr(last + 1), EmptyIteration()));
    } else {
      assert AddEmptyIteration(t) == Ok(Put(t, IntStr(-1 + 1), EmptyIteration()));
    }
  }

  /** `SAAnalysisResults()`: one empty iteration `'0'`. */
  function NewResults(): (r: Result<Table>)
    ensures r == Ok([("0", EmptyIteration())])
    ensures r.Ok? ==> Consecutive(r.value)
  {
    var empty: Table := [];
    AddEmptyConsecutive(empty);
    ConsecutiveExtend(empty, EmptyIteration());
    AddEmptyIteration(empty)
  }

  /** `is_empty`: reading iteration `'0'` raises `KeyError` if it is
      missing; it is never `None`, so the answer is always `False`. */
  function IsEmpty(t: Table): (r: Result<bool>)
    ensures r.Ok? <==> Get(t, "0").Some?
    ensures r.Err? ==> r.error == KeyError
    ensures r.Ok? ==> !r.value
  {
    match Get(t, "0")
    case None => Err(KeyError)
    case Some(_) => Ok(false)
  }

  /** Every table built from the constructor answers `False`. */
  lemma IsEmptyNever(t: Table)
    requires Consecutive(t) && |t| > 0
    ensures IsEmpty(t) == Ok(false)
  {
    assert NatStr(0) == "0";
  }

  // ---------------------------------------------------------------------
  // add_results

  /** The position of the first iteration whose list for `key` is empty. */
  function FirstEmpty(t: Table, key: Kind): (r: Option<nat>)
    ensures r.Some? ==> r.value < |t| && ListOf(t[r.value].1, key) == []
    ensures r.Some? ==> forall j :: 0 <= j < r.value ==> ListOf(t[j].1, key) != []
    ensures r.None? ==> forall j :: 0 <= j < |t| ==> ListOf(t[j].1, key) != []
  {
    if t == [] then None
    else if ListOf(t[0].1, key) == [] then Some(0)
    else match FirstEmpty(t[1..], key)
      case None => None
      case Some(i) => Some(i + 1)
  }

  /** `_find_last_empty_iter(key)`: the key of the first iteration with an
      empty list for `key` (written as its position), or else of a freshly
      added iteration, together with the table after the call. */
  function FindLastEmptyIter(t: Table, key: Kind): (r: Result<(string, Table)>)
    ensures FirstEmpty(t, key).Some? ==> r == Ok((NatStr(FirstEmpty(t, key).value), t))
    ensures FirstEmpty(t, key).None? ==> (r.Ok? <==> AddEmptyIteration(t).Ok?)
    ensures FirstEmpty(t, key).None? && r.Ok? ==>
      && r.value.1 == AddEmptyIteration(t).value
      && |r.value.1| > 0 && r.value.0 == r.value.1[|r.value.1| - 1].0
  {
    match FirstEmpty(t, key)
    case Some(i) => Ok((NatStr(i), t))
    case None =>
      var t1 :- AddEmptyIteration(t);
      Ok((t1[|t1| - 1].0, t1))
  }

  /** The list a batch of results goes to: `'edges'` when the first result
      is an edge result, `'nodes'` for anything else. */
  function KeyOf(results: seq<ObjectResult>): Kind
    requires |results| > 0
  {
    if results[0].entityType == "edges" then EdgesKey else NodesKey
  }

  /** `add_results(results)`: the whole batch is appended to one list of
      one iteration; a missing iteration key raises `KeyError`. */
  function AddResults(t: Table, results: seq<ObjectResult>): (r: Result<Table>)
    ensures results == [] ==> r == Ok(t)
  {
    if results == [] then Ok(t)
    else
      var key := KeyOf(results);
      var (iterKey, t1) :- FindLastEmptyIter(t, key);
      match Get(t1, iterKey)
      case None => Err(KeyError)
      case Some(cur) => Ok(Put(t1, iterKey, Append(cur, key, results)))
  }

  /** On a table built by the constructor, `add_results` fills the first
      iteration whose list for the batch's key is empty, and the keys stay
      consecutive. */
  lemma {:induction false} AddResultsFill(t: Table, results: seq<ObjectResult>)
    requires Consecutive(t) && |results| > 0 && FirstEmpty(t, KeyOf(results)).Some?
    ensures var key := KeyOf(results);
      var i := FirstEmpty(t, key).value;
      AddResults(t, results) == Ok(t[i := (NatStr(i), Append(t[i].1, key, results))])
    ensures AddResults(t, results).Ok? && Consecutive(AddResults(t, results).value)
  {
    var key := KeyOf(results);
    var i := FirstEmpty(t, key).value;
    ConsecutiveDistinct(t);
    GetAt(t, i);
    PutAt(t, i, Append(t[i].1, key, results));
  }

  lemma UpdateLast<T>(s: seq<T>, x: T, y: T)
    ensures (s + [x])[|s| := y] == s + [y]
  {
  }

  /** When every iteration already has results for the batch's key,
      `add_results` appends a new iteration holding only the batch. */
  lemma {:induction false} AddResultsAppend(t: Table, results: seq<ObjectResult>)
    requires Consecutive(t) && |results| > 0 && FirstEmpty(t, KeyOf(results)).None?
    ensures AddResults(t, results) == Ok(t + [(NatStr(|t|), Append(EmptyIteration(), KeyOf(results), results))])
    ensures AddResults(t, results).Ok? && Consecutive(AddResults(t, results).value)
  {
    var key := KeyOf(results);
    var v := Append(EmptyIteration(), key, results);
    AddEmptyConsecutive(t);
    var t1 := t + [(NatStr(|t|), EmptyIteration())];
    assert FindLastEmptyIter(t, key) == Ok((NatStr(|t|), t1));
    ConsecutiveExtend(t, EmptyIteration());
    ConsecutiveDistinct(t1);
    GetAt(t1, |t|);
    assert AddResults(t, results) == Ok(Put(t1, NatStr(|t|), v));
    PutAt(t1, |t|, v);
    UpdateLast(t, (NatStr(|t|), EmptyIteration()), (NatStr(|t|), v));
    ConsecutiveExtend(t, v);
  }

  // ---------------------------------------------------------------------
  // get_info_about_worst_result

  /** The scan as written: the running worst is replaced when it is falsy
      (`None` or `0`) or when the current value is greater. */
  function WorstIndexAsWritten(entries: seq<ObjectResult>): (r: Option<nat>)
    ensures r.None? <==> entries == []
    ensures r.Some? ==> r.value < |entries|
  {
    if entries == [] then None
    else
      var n := |entries| - 1;
      var prev := WorstIndexAsWritten(entries[..n]);
      if prev.None? || entries[prev.value].worstValue == 0.0
         || entries[n].worstValue > entries[prev.value].worstValue
      then Some(n)
      else prev
  }

  /** The scan as intended: only a missing running worst or a greater value
      replaces it, which yields the first entry of greatest value. */
  function WorstIndex(entries: seq<ObjectResult>): (r: Option<nat>)
    ensures r.None? <==> entries == []
    ensures r.Some? ==> r.value < |entries|
    ensures r.Some? ==> forall k :: 0 <= k < |entries| ==> entries[k].worstValue <= entries[r.value].worstValue
    ensures r.Some? ==> forall k :: 0 <= k < r.value ==> entries[k].worstValue < entries[r.value].worstValue
  {
    if entries == [] then None
    else
      var n := |entries| - 1;
      var prev := WorstIndex(entries[..n]);
      assert forall k :: 0 <= k < n ==> entries[..n][k] == entries[k];
      if prev.None? || entries[n].worstValue > entries[prev.value].worstValue
      then Some(n)
      else prev
  }

  /** While no running worst is zero the two scans agree. */
  lemma {:induction false} WorstScansAgree(entries: seq<ObjectResult>)
    requires forall k :: 0 <= k < |entries| ==> entries[k].worstValue != 0.0
    ensures WorstIndexAsWritten(entries) == WorstIndex(entries)
  {
    if entries != [] {
      var n := |entries| - 1;
      assert forall k :: 0 <= k < n ==> entries[..n][k] == entries[k];
      WorstScansAgree(entries[..n]);
    }
  }

  /** A running worst of 0 is replaced even by a smaller value: of the
      values `0` and `-3` the scan as written picks `-3`. */
  lemma ZeroWorstReplaced()
    ensures var entries := [ObjectResult("nodes", 0.0), ObjectResult("nodes", -3.0)];
      && WorstIndexAsWritten(entries) == Some(1)
      && WorstIndex(entries) == Some(0)
  {
    var entries := [ObjectResult("nodes", 0.0), ObjectResult("nodes", -3.0)];
    assert entries[..1] == [ObjectResult("nodes", 0.0)];
    assert entries[..1][..0] == [];
  }

  /** The iteration key `get_info_about_worst_result` reads: the last key
      for a falsy `iter` (`None` or `0`), raising `IndexError` when there is
      none, and `str(iter)` otherwise. */
  function IterKey(t: Table, iter: Option<int>): (r: Result<string>)
    ensures (iter.None? || iter == Some(0)) ==> (r.Ok? <==> |t| > 0)
    ensures (iter.None? || iter == Some(0)) && r.Ok? ==> r.value == t[|t| - 1].0
    ensures iter.Some? && iter.value != 0 ==> r == Ok(IntStr(iter.value))
    ensures r.Err? ==> r.error == IndexError
  {
    if iter.None? || iter.value == 0 then PyIndex(Keys(t), -1) else Ok(IntStr(iter.value))
  }

  /** The node results, then the edge results, of an iteration. */
  function Entries(it: IterResult): seq<ObjectResult> {
    it.nodes + it.edges
  }

  /** `get_info_about_worst_result(metric_idx, iter)`: an iteration that is
      not a key raises `IndexError`; otherwise the first result of greatest
      worst value over the nodes then the edges of that iteration, `None`
      when there are none. The scan is the corrected `WorstIndex`. */
  function GetInfoAboutWorstResult(t: Table, iter: Option<int>): (r: Result<Option<ObjectResult>>)
    ensures r.Ok? <==> IterKey(t, iter).Ok? && Get(t, IterKey(t, iter).value).Some?
    ensures r.Err? ==> r.error == IndexError
    ensures r.Ok? ==> var entries := Entries(Get(t, IterKey(t, iter).value).value);
      && (r.value.None? <==> entries == [])
      && (r.value.Some? ==> forall k :: 0 <= k < |entries| ==> entries[k].worstValue <= r.value.value.worstValue)
      && (r.value.Some? ==> exists i ::
            && 0 <= i < |entries| && entries[i] == r.value.value
            && forall k :: 0 <= k < i ==> entries[k].worstValue < r.value.value.worstValue)
  {
    var iterKey :- IterKey(t, iter);
    match Get(t, iterKey)
    case None => Err(IndexError)
    case Some(it) =>
      var entries := Entries(it);
      match WorstIndex(entries)
      case None => Ok(None)
      case Some(i) => Ok(Some(entries[i]))
  }
}

=== FILE: layers.dfy ===
/** `nodes_from_layer`: the nodes `layer_number` parent steps below the root
    nodes, collected depth-first. */
module Layers {
  import opened Dag

  /** The inner `get_nodes`: at the requested height the current nodes are
      the answer; above it, each node contributes the nodes found below its
      own `nodes_from`, in order. */
  function GetNodes(g: Graph, roots: seq<nat>, height: nat, layer: nat): seq<nat>
    requires WellFormed(g) && AllNodes(g, roots) && height <= layer
    decreases layer - height, |roots|
  {
    if height == layer then roots
    else if roots == [] then []
    else GetNodes(g, g[roots[0]], height + 1, layer) + GetNodes(g, roots[1..], height, layer)
  }

  /** Expanding a concatenation `k` times expands each part `k` times. */
  lemma {:induction false} ExpandNAppend(g: Graph, xs: seq<nat>, ys: seq<nat>, k: nat)
    requires WellFormed(g) && AllNodes(g, xs) && AllNodes(g, ys)
    ensures AllNodes(g, xs + ys)
    ensures ExpandN(g, xs + ys, k) == ExpandN(g, xs, k) + ExpandN(g, ys, k)
    decreases k
  {
    ExpandAppend(g, xs, ys);
    if k > 0 {
      ExpandPreservesNodes(g, xs);
      ExpandPreservesNodes(g, ys);
      ExpandNAppend(g, Expand(g, xs), Expand(g, ys), k - 1);
    }
  }

  /** The depth-first collection equals `layer - height` breadth-first expansions. */
  lemma {:induction false} GetNodesIsExpansion(g: Graph, roots: seq<nat>, height: nat, layer: nat)
    requires WellFormed(g) && AllNodes(g, roots) && height <= layer
    ensures GetNodes(g, roots, height, layer) == ExpandN(g, roots, layer - height)
    decreases layer - height, |roots|
  {
    if height == layer {
    } else if roots == [] {
      ExpandNEmpty(g, layer - height);
    } else {
      var k := layer - height;
      GetNodesIsExpansion(g, g[roots[0]], height + 1, layer);
      GetNodesIsExpansion(g, roots[1..], height, layer);
      assert roots == [roots[0]] + roots[1..];
      ExpandNAppend(g, [roots[0]], roots[1..], k);
      assert Expand(g, [roots[0]]) == g[roots[0]] by {
        assert [roots[0]][1..] == [];
      }
    }
  }

  /** `nodes_from_layer(graph, layer)`: layer 0 is the root nodes and every
      further layer is the in-order concatenation of the `nodes_from` lists of
      the previous one, duplicates kept. */
  function NodesFromLayer(g: Graph, layer: nat): (r: seq<nat>)
    requires WellFormed(g)
    ensures AllNodes(g, r)
    ensures r == ExpandN(g, RootNodes(g), layer)
    ensures layer == 0 ==> r == RootNodes(g)
  {
    GetNodesIsExpansion(g, RootNodes(g), 0, layer);
    ExpandNPreservesNodes(g, RootNodes(g), layer);
    GetNodes(g, RootNodes(g), 0, layer)
  }

  /** Layer `k + 1` is the expansion of layer `k`. */
  lemma NodesFromLayerSucc(g: Graph, k: nat)
    requires WellFormed(g)
    ensures NodesFromLayer(g, k + 1) == Expand(g, NodesFromLayer(g, k))
  {
    ExpandNSucc(g, RootNodes(g), k);
  }

  /** `x` is in `ExpandN(g, xs, k)` exactly when a walk of `k` steps leads from an element of `xs` to `x`. */
  lemma {:induction false} ExpandNWalks(g: Graph, xs: seq<nat>, k: nat, x: nat)
    requires WellFormed(g) && AllNodes(g, xs)
    ensures x in ExpandN(g, xs, k) <==> exists w :: IsWalk(g, w) && |w| == k + 1 && w[0] in xs && w[k] == x
  {
    if k == 0 {
      if x in xs {
        assert IsWalk(g, [x]);
      }
    } else {
      ExpandNSucc(g, xs, k - 1);
      var prev := ExpandN(g, xs, k - 1);
      ExpandMembership(g, prev, x);
      if x in ExpandN(g, xs, k) {
        var i :| 0 <= i < |prev| && x in g[prev[i]];
        ExpandNWalks(g, xs, k - 1, prev[i]);
        var w :| IsWalk(g, w) && |w| == k && w[0] in xs && w[k - 1] == prev[i];
        var w' := w + [x];
        assert IsWalk(g, w');
        assert w'[0] == w[0] && w'[k] == x;
      }
      if exists w :: IsWalk(g, w) && |w| == k + 1 && w[0] in xs && w[k] == x {
        var w :| IsWalk(g, w) && |w| == k + 1 && w[0] in xs && w[k] == x;
        SubWalk(g, w, 0, k);
        var p := w[..k];
        assert p[0] == w[0] && p[k - 1] == w[k - 1];
        ExpandNWalks(g, xs, k - 1, w[k - 1]);
        var i :| 0 <= i < |prev| && prev[i] == w[k - 1];
        assert x in g[prev[i]];
      }
    }
  }

  /** `x` is in layer `k` exactly when a walk of `k` steps leads from a root node to `x`. */
  lemma NodesFromLayerWalks(g: Graph, k: nat, x: nat)
    requires WellFormed(g)
    ensures x in NodesFromLayer(g, k) <==>
      exists w :: IsWalk(g, w) && |w| == k + 1 && w[0] in RootNodes(g) && w[k] == x
  {
    ExpandNWalks(g, RootNodes(g), k, x);
  }
}

=== FILE: linked_graph.dfy ===
/** `LinkedGraph` on index graphs: node `i` is the `i`-th element of the
    graph's node list, with a name and the indices of its `nodes_from`. The
    edit operations remove nodes (re-indexing the ones that stay), rewire
    parent lists and add nodes; the read operations list edges, root nodes,
    the depth and the descriptive id. */
module LinkedGraphs {
  import opened Builtins
  import opened Dag
  import opened Strings
  import Depths
  import Subnodes

  datatype Linked = Linked(names: seq<string>, links: Graph)

  /** The node list and the parent lists line up, and every parent is a node
      of the graph. */
  predicate Valid(l: Linked) {
    |l.names| == |l.links| && WellFormed(l.links)
  }

  // ---------------------------------------------------------------------
  // Removing nodes

  /** The new index of node `x` once the nodes marked in `drop` are gone:
      the number of kept nodes before it. */
  function Rank(drop: seq<bool>, x: nat): (r: nat)
    requires x <= |drop|
    ensures r <= x
  {
    if x == 0 then 0 else Rank(drop, x - 1) + (if drop[x - 1] then 0 else 1)
  }

  /** Kept nodes keep their relative order. */
  lemma {:induction false} RankIncreases(drop: seq<bool>, x: nat, y: nat)
    requires x < y <= |drop| && !drop[x]
    ensures Rank(drop, x) < Rank(drop, y)
    decreases y
  {
    if y > x + 1 {
      RankIncreases(drop, x, y - 1);
    }
  }

  /** Every position of the shrunk list is the new index of a kept node. */
  lemma {:induction false} RankOnto(drop: seq<bool>, k: nat, j: nat) returns (i: nat)
    requires k <= |drop| && j < Rank(drop, k)
    ensures i < k && !drop[i] && Rank(drop, i) == j
    decreases k
  {
    if j < Rank(drop, k - 1) {
      i := RankOnto(drop, k - 1, j);
    } else {
      i := k - 1;
    }
  }

  /** A parent list with the dropped parents pruned and the rest re-indexed. */
  function Reindex(ps: seq<nat>, drop: seq<bool>): (r: seq<nat>)
    requires forall k :: 0 <= k < |ps| ==> ps[k] < |drop|
    ensures forall k :: 0 <= k < |r| ==> r[k] < Rank(drop, |drop|)
  {
    if ps == [] then []
    else
      assert !drop[ps[0]] ==> Rank(drop, ps[0]) < Rank(drop, |drop|) by {
        if !drop[ps[0]] {
          RankIncreases(drop, ps[0], |drop|);
        }
      }
      (if drop[ps[0]] then [] else [Rank(drop, ps[0])]) + Reindex(ps[1..], drop)
  }

  /** `x` is in the pruned list exactly when it is the new index of a kept
      parent. */
  lemma {:induction false} ReindexHas(ps: seq<nat>, drop: seq<bool>, x: nat)
    requires forall k :: 0 <= k < |ps| ==> ps[k] < |drop|
    ensures x in Reindex(ps, drop) <==> exists k :: 0 <= k < |ps| && !drop[ps[k]] && Rank(drop, ps[k]) == x
  {
    if ps != [] {
      ReindexHas(ps[1..], drop, x);
      assert forall k :: 1 <= k < |ps| ==> ps[k] == ps[1..][k - 1];
      if exists k :: 0 <= k < |ps| && !drop[ps[k]] && Rank(drop, ps[k]) == x {
        var k :| 0 <= k < |ps| && !drop[ps[k]] && Rank(drop, ps[k]) == x;
        if k > 0 {
          assert ps[1..][k - 1] == ps[k];
        }
      }
    }
  }

  /** The kept nodes among the first `k`, in order, with re-indexed parents. */
  function KeepUpTo(l: Linked, drop: seq<bool>, k: nat): (r: Linked)
    requires Valid(l) && |drop| == |l.names| && k <= |drop|
    ensures |r.names| == |r.links| == Rank(drop, k)
  {
    if k == 0 then Linked([], [])
    else
      var r := KeepUpTo(l, drop, k - 1);
      if drop[k - 1] then r
      else Linked(r.names + [l.names[k - 1]], r.links + [Reindex(l.links[k - 1], drop)])
  }

  /** Kept node `i` sits at its new index, with its name and pruned parents. */
  lemma {:induction false} KeepUpToAt(l: Linked, drop: seq<bool>, k: nat, i: nat)
    requires Valid(l) && |drop| == |l.names| && i < k <= |drop| && !drop[i]
    ensures Rank(drop, i) < Rank(drop, k)
    ensures KeepUpTo(l, drop, k).names[Rank(drop, i)] == l.names[i]
    ensures KeepUpTo(l, drop, k).links[Rank(drop, i)] == Reindex(l.links[i], drop)
  {
    RankIncreases(drop, i, k);
    if i < k - 1 {
      KeepUpToAt(l, drop, k - 1, i);
    }
  }

  /** The graph without the nodes marked in `drop`: every edge into or out
      of a dropped node is gone, the kept nodes keep their order, names and
      the rest of their parent lists. */
  function RemoveNodes(l: Linked, drop: seq<bool>): (r: Linked)
    requires Valid(l) && |drop| == |l.names|
    ensures Valid(r)
    ensures |r.names| == Rank(drop, |drop|)
    ensures forall i :: 0 <= i < |drop| && !drop[i] ==>
      && Rank(drop, i) < |r.names|
      && r.names[Rank(drop, i)] == l.names[i]
      && r.links[Rank(drop, i)] == Reindex(l.links[i], drop)
  {
    var r := KeepUpTo(l, drop, |drop|);
    assert forall i :: 0 <= i < |drop| && !drop[i] ==>
      && Rank(drop, i) < |r.names|
      && r.names[Rank(drop, i)] == l.names[i]
      && r.links[Rank(drop, i)] == Reindex(l.links[i], drop)
    by {
      forall i | 0 <= i < |drop| && !drop[i]
        ensures Rank(drop, i) < |r.names|
        ensures r.names[Rank(drop, i)] == l.names[i]
        ensures r.links[Rank(drop, i)] == Reindex(l.links[i], drop)
      {
        KeepUpToAt(l, drop, |drop|, i);
      }
    }
    assert WellFormed(r.links) by {
      forall j, m | 0 <= j < |r.links| && 0 <= m < |r.links[j]|
        ensures r.links[j][m] < |r.links|
      {
        var i := RankOnto(drop, |drop|, j);
        KeepUpToAt(l, drop, |drop|, i);
      }
    }
    r
  }

  /** After removal, `p` is a parent of `c` exactly when they are the new
      indices of two kept nodes the first of which was a parent of the
      second. */
  lemma RemoveNodesEdges(l: Linked, drop: seq<bool>, p: nat, c: nat)
    requires Valid(l) && |drop| == |l.names|
    ensures var r := RemoveNodes(l, drop);
      c < |r.links| && p in r.links[c] <==>
        exists p0, c0 :: 0 <= p0 < |drop| && 0 <= c0 < |drop| && !drop[p0] && !drop[c0] &&
          Rank(drop, p0) == p && Rank(drop, c0) == c && p0 in l.links[c0]
  {
    var r := RemoveNodes(l, drop);
    if c < |r.links| && p in r.links[c] {
      RemovedEdgeOrigin(l, drop, p, c);
    }
    if exists p0, c0 :: 0 <= p0 < |drop| && 0 <= c0 < |drop| && !drop[p0] && !drop[c0] &&
          Rank(drop, p0) == p && Rank(drop, c0) == c && p0 in l.links[c0] {
      var p0, c0 :| 0 <= p0 < |drop| && 0 <= c0 < |drop| && !drop[p0] && !drop[c0] &&
          Rank(drop, p0) == p && Rank(drop, c0) == c && p0 in l.links[c0];
      KeptEdgeImage(l, drop, p0, c0);
    }
  }

  /** Every edge left after removal comes from an edge between two kept
      nodes. */
  lemma RemovedEdgeOrigin(l: Linked, drop: seq<bool>, p: nat, c: nat)
    requires Valid(l) && |drop| == |l.names|
    requires c < |RemoveNodes(l, drop).links| && p in RemoveNodes(l, drop).links[c]
    ensures exists p0, c0 ::
              && 0 <= p0 < |drop| && 0 <= c0 < |drop| && !drop[p0] && !drop[c0]
              && Rank(drop, p0) == p && Rank(drop, c0) == c && p0 in l.links[c0]
  {
    var c0 := RankOnto(drop, |drop|, c);
    ReindexHas(l.links[c0], drop, p);
    var k :| 0 <= k < |l.links[c0]| && !drop[l.links[c0][k]] && Rank(drop, l.links[c0][k]) == p;
    var p0 := l.links[c0][k];
    assert p0 in l.links[c0];
  }

  lemma KeptEdgeImage(l: Linked, drop: seq<bool>, p0: nat, c0: nat)
    requires Valid(l) && |drop| == |l.names|
    requires p0 < |drop| && c0 < |drop| && !drop[p0] && !drop[c0] && p0 in l.links[c0]
    ensures Rank(drop, c0) < |RemoveNodes(l, drop).links|
    ensures Rank(drop, p0) in RemoveNodes(l, drop).links[Rank(drop, c0)]
  {
    var k :| 0 <= k < |l.links[c0]| && l.links[c0][k] == p0;
    ReindexHas(l.links[c0], drop, Rank(drop, p0));
  }

  /** The mask that marks node `v` alone. */
  function Only(n: nat, v: nat): (r: seq<bool>)
    ensures |r| == n && forall i :: 0 <= i < n ==> r[i] == (i == v)
  {
    if n == 0 then [] else Only(n - 1, v) + [n - 1 == v]
  }

  /** The mask that marks the nodes listed in `xs`. */
  function Marked(n: nat, xs: seq<nat>): (r: seq<bool>)
    ensures |r| == n && forall i :: 0 <= i < n ==> r[i] == (i in xs)
  {
    if n == 0 then [] else Marked(n - 1, xs) + [n - 1 in xs]
  }

  /** Removing one node shifts the nodes after it down by one. */
  lemma {:induction false} RankOnly(n: nat, v: nat, x: nat)
    requires v < n && x <= n
    ensures Rank(Only(n, v), x) == if x <= v then x else x - 1
  {
    if x > 0 {
      RankOnly(n, v, x - 1);
    }
  }

  // ---------------------------------------------------------------------
  // delete_node

  datatype ReconnectType = NoReconnect | Single

  /** `ps` with every occurrence of `v` removed. */
  function RemoveAll(ps: seq<nat>, v: nat): (r: seq<nat>)
    ensures forall x :: x in r <==> x in ps && x != v
    ensures forall k :: 0 <= k < |r| ==> r[k] in ps
    ensures |r| <= |ps|
  {
    if ps == [] then []
    else (if ps[0] == v then [] else [ps[0]]) + RemoveAll(ps[1..], v)
  }

  /** Every parent list with `v` removed from it. */
  function RemoveEverywhere(g: Graph, v: nat): (r: Graph)
    ensures |r| == |g| && forall i :: 0 <= i < |g| ==> r[i] == RemoveAll(g[i], v)
  {
    if g == [] then [] else [RemoveAll(g[0], v)] + RemoveEverywhere(g[1..], v)
  }

  /** Whether deleting `v` with `reconnect` hands `v`'s parents to node `c`:
      only under `Single`, when `v` has parents and `c` is its one child. */
  predicate HandsOver(l: Linked, v: nat, reconnect: ReconnectType, c: nat)
    requires Valid(l) && v < |l.names|
  {
    reconnect == Single && l.links[v] != [] && Children(l.links, v) == [c]
  }

  /** The parent lists after `delete_node(v)` has unlinked `v` from its
      children and, when asked to, handed `v`'s parents to its only child. */
  function Unlink(l: Linked, v: nat, reconnect: ReconnectType): (r: Graph)
    requires Valid(l) && v < |l.names| && v !in l.links[v]
    ensures |r| == |l.links|
    ensures WellFormed(r)
    ensures forall i :: 0 <= i < |r| ==> v !in r[i]
    ensures forall i :: 0 <= i < |r| ==>
      r[i] == RemoveAll(l.links[i], v) + (if HandsOver(l, v, reconnect, i) then l.links[v] else [])
  {
    var children := Children(l.links, v);
    var g := RemoveEverywhere(l.links, v);
    if reconnect == Single && l.links[v] != [] && |children| == 1 then
      assert forall i :: HandsOver(l, v, reconnect, i) <==> i == children[0];
      g[children[0] := g[children[0]] + l.links[v]]
    else
      assert forall i :: !HandsOver(l, v, reconnect, i);
      g
  }

  /** `delete_node(v, reconnect)`: every child of `v` forgets it (all
      occurrences); with `Single`, a node with parents and exactly one child
      hands its parents to that child, appended after the child's own; the
      node then leaves the node list. A node listing itself as a parent is
      not covered (see README). */
  function DeleteNode(l: Linked, v: nat, reconnect: ReconnectType): (r: Linked)
    requires Valid(l) && v < |l.names| && v !in l.links[v]
    ensures Valid(r) && |r.names| == |l.names| - 1
    ensures forall i :: 0 <= i < |l.names| && i != v ==>
      r.names[Shifted(i, v)] == l.names[i]
    ensures forall i :: 0 <= i < |l.names| && i != v ==>
      r.links[Shifted(i, v)] == Shift(Unlink(l, v, reconnect)[i], v)
  {
    var u := Linked(l.names, Unlink(l, v, reconnect));
    RemoveOnly(u, v);
    RemoveNodes(u, Only(|l.names|, v))
  }

  /** Removing one node that nobody lists moves every later node one place
      down and renumbers the parent lists accordingly. */
  lemma RemoveOnly(u: Linked, v: nat)
    requires Valid(u) && v < |u.names| && forall i :: 0 <= i < |u.links| ==> v !in u.links[i]
    ensures var r := RemoveNodes(u, Only(|u.names|, v));
      && |r.names| == |u.names| - 1
      && (forall i :: 0 <= i < |u.names| && i != v ==> r.names[Shifted(i, v)] == u.names[i])
      && (forall i :: 0 <= i < |u.names| && i != v ==> r.links[Shifted(i, v)] == Shift(u.links[i], v))
  {
    var drop := Only(|u.names|, v);
    RankOnly(|u.names|, v, |u.names|);
    forall i | 0 <= i < |u.names| && i != v
      ensures Rank(drop, i) == Shifted(i, v) && Reindex(u.links[i], drop) == Shift(u.links[i], v)
    {
      RankOnly(|u.names|, v, i);
      ReindexOnly(u.links[i], |u.names|, v);
    }
  }

  /** Edges after `delete_node(v)`: between two other nodes, an edge
      exists exactly when it existed before or `v`'s parent was handed to
      its only child. */
  lemma DeleteNodeEdges(l: Linked, v: nat, reconnect: ReconnectType, p: nat, c: nat)
    requires Valid(l) && v < |l.names| && v !in l.links[v]
    requires p < |l.names| && c < |l.names| && p != v && c != v
    ensures Shifted(p, v) in DeleteNode(l, v, reconnect).links[Shifted(c, v)]
        <==> p in l.links[c] || (HandsOver(l, v, reconnect, c) && p in l.links[v])
  {
    var u := Unlink(l, v, reconnect);
    assert v !in u[c];
    ShiftMember(u[c], v, p);
  }

  /** Away from `v`, shifting a list keeps exactly its members. */
  lemma {:induction false} ShiftMember(ps: seq<nat>, v: nat, p: nat)
    requires v !in ps && p != v
    ensures Shifted(p, v) in Shift(ps, v) <==> p in ps
  {
    if ps != [] {
      ShiftMember(ps[1..], v, p);
      assert ps == [ps[0]] + ps[1..];
    }
  }

  /** The index node `i` has once node `v` is gone. */
  function Shifted(i: nat, v: nat): nat {
    if i <= v then i else i - 1
  }

  /** A parent list without `v`, re-indexed for `v`'s removal. */
  function Shift(ps: seq<nat>, v: nat): (r: seq<nat>)
    ensures |r| == |ps|
  {
    if ps == [] then [] else [Shifted(ps[0], v)] + Shift(ps[1..], v)
  }

  lemma {:induction false} ReindexOnly(ps: seq<nat>, n: nat, v: nat)
    requires v < n && forall k :: 0 <= k < |ps| ==> ps[k] < n && ps[k] != v
    ensures Reindex(ps, Only(n, v)) == Shift(ps, v)
  {
    if ps != [] {
      var drop := Only(n, v);
      assert !drop[ps[0]];
      RankOnly(n, v, ps[0]);
      ReindexOnly(ps[1..], n, v);
      assert Reindex(ps, drop) == [Rank(drop, ps[0])] + Reindex(ps[1..], drop);
    }
  }

  // ---------------------------------------------------------------------
  // add_node, connect_nodes, disconnect_nodes

  /** `add_node(node)` for a node without parents: it joins the end of the
      node list and no edge changes. */
  function AddNode(l: Linked, name: string): (r: Linked)
    requires Valid(l)
    ensures Valid(r)
  {
    Linked(l.names + [name], l.links + [[]])
  }

  /** The new node is a root, and every old node keeps its children. */
  lemma AddNodeChildren(l: Linked, name: string, v: nat)
    requires Valid(l) && v <= |l.names|
    ensures v < |l.names| ==> Children(AddNode(l, name).links, v) == Children(l.links, v)
    ensures Children(AddNode(l, name).links, |l.names|) == []
  {
    var g := AddNode(l, name).links;
    if v < |l.names| {
      ChildrenAppend(l.links, [], v, 0);
    }
    assert forall c :: 0 <= c < |g| ==> |l.names| !in g[c];
    NoChildren(g, |l.names|, 0);
  }

  lemma {:induction false} NoChildren(g: Graph, v: nat, start: nat)
    requires start <= |g| && forall c :: 0 <= c < |g| ==> v !in g[c]
    ensures ChildrenFrom(g, v, start) == []
    decreases |g| - start
  {
    if start < |g| {
      NoChildren(g, v, start + 1);
    }
  }

  /** Appending a parentless node adds no children to the old nodes. */
  lemma {:induction false} ChildrenAppend(g: Graph, ps: seq<nat>, v: nat, start: nat)
    requires start <= |g| && v !in ps
    ensures ChildrenFrom(g + [ps], v, start) == ChildrenFrom(g, v, start)
    decreases |g| - start
  {
    if start < |g| {
      ChildrenAppend(g, ps, v, start + 1);
    }
  }

  /** The edges of `AddNode` are the old edges. */
  lemma AddNodeEdges(l: Linked, name: string)
    requires Valid(l)
    ensures forall e :: e in Edges(AddNode(l, name)) <==> e in Edges(l)
    ensures LinkCount(AddNode(l, name).links, 0) == LinkCount(l.links, 0)
  {
    LinkCountAppend(l.links, [], 0);
  }

  lemma {:induction false} LinkCountAppend(g: Graph, ps: seq<nat>, start: nat)
    requires start <= |g|
    ensures LinkCount(g + [ps], start) == LinkCount(g, start) + |ps|
    decreases |g| - start
  {
    if start < |g| {
      LinkCountAppend(g, ps, start + 1);
      assert (g + [ps])[start] == g[start];
    }
  }

  /** `connect_nodes(parent, child)`: `parent` is appended to `child`'s
      parents unless `child` is already among `parent`'s children. No cycle
      check is made, so the edge may close a cycle. */
  function ConnectNodes(l: Linked, parent: nat, child: nat): (r: Linked)
    requires Valid(l) && parent < |l.names| && child < |l.names|
    ensures Valid(r) && r.names == l.names
    ensures parent in l.links[child] ==> r == l
    ensures parent !in l.links[child] ==> r.links == l.links[child := l.links[child] + [parent]]
  {
    if child in Children(l.links, parent) then l
    else Linked(l.names, l.links[child := l.links[child] + [parent]])
  }

  /** `connect_nodes` adds exactly the edge `(parent, child)`, and one more
      edge is listed unless it was there already. */
  lemma ConnectNodesEdges(l: Linked, parent: nat, child: nat)
    requires Valid(l) && parent < |l.names| && child < |l.names|
    ensures var r := ConnectNodes(l, parent, child);
      && (forall e :: e in Edges(r) <==> e in Edges(l) || e == (parent, child))
      && LinkCount(r.links, 0) == LinkCount(l.links, 0) + (if parent in l.links[child] then 0 else 1)
  {
    if parent !in l.links[child] {
      LinkCountUpdate(l.links, child, l.links[child] + [parent], 0);
    }
  }

  /** Replacing one parent list changes the entry count by the difference in
      length. */
  lemma {:induction false} LinkCountUpdate(g: Graph, c: nat, ps: seq<nat>, start: nat)
    requires start <= |g| && c < |g|
    ensures LinkCount(g[c := ps], start) + |g[c]| == LinkCount(g, start) + (if start <= c then |ps| else |g[c]|)
    decreases |g| - start
  {
    if start < |g| {
      LinkCountUpdate(g, c, ps, start + 1);
    }
  }

  /** `ps` without its first occurrence of `v` (Python's `list.remove`). */
  function RemoveFirst(ps: seq<nat>, v: nat): (r: seq<nat>)
    requires v in ps
    ensures |r| == |ps| - 1
    ensures multiset(r) == multiset(ps) - multiset{v}
    ensures forall k :: 0 <= k < |r| ==> r[k] in ps
  {
    assert ps == [ps[0]] + ps[1..];
    if ps[0] == v then ps[1..]
    else
      var rest := RemoveFirst(ps[1..], v);
      RemoveFirstCons(ps, v, rest);
      [ps[0]] + rest
  }

  lemma RemoveFirstCons(ps: seq<nat>, v: nat, rest: seq<nat>)
    requires |ps| > 0 && ps[0] != v && v in ps[1..]
    requires multiset(rest) == multiset(ps[1..]) - multiset{v}
    requires forall k :: 0 <= k < |rest| ==> rest[k] in ps[1..]
    ensures multiset([ps[0]] + rest) == multiset(ps) - multiset{v}
    ensures forall k :: 0 <= k < |[ps[0]] + rest| ==> ([ps[0]] + rest)[k] in ps
  {
    assert ps == [ps[0]] + ps[1..];
    forall k | 0 <= k < |[ps[0]] + rest|
      ensures ([ps[0]] + rest)[k] in ps
    {
      if k > 0 {
        assert ([ps[0]] + rest)[k] == rest[k - 1];
      }
    }
  }

  /** `disconnect_nodes(parent, child)`: nothing happens when `parent` is not
      a parent of `child`; otherwise one occurrence of it leaves `child`'s
      parents. */
  function DisconnectNodes(l: Linked, parent: nat, child: nat): (r: Linked)
    requires Valid(l) && parent < |l.names| && child < |l.names|
    ensures Valid(r) && r.names == l.names
    ensures parent !in l.links[child] ==> r == l
    ensures parent in l.links[child] ==>
      && multiset(r.links[child]) == multiset(l.links[child]) - multiset{parent}
      && forall i :: 0 <= i < |l.links| && i != child ==> r.links[i] == l.links[i]
  {
    if parent !in l.links[child] then l
    else
      var ps := RemoveFirst(l.links[child], parent);
      ReplaceValid(l, child, ps);
      Linked(l.names, l.links[child := ps])
  }

  /** Replacing one parent list by a list of existing nodes keeps the graph valid. */
  lemma ReplaceValid(l: Linked, c: nat, ps: seq<nat>)
    requires Valid(l) && c < |l.names| && forall k :: 0 <= k < |ps| ==> ps[k] in l.links[c]
    ensures Valid(Linked(l.names, l.links[c := ps]))
  {
    var g := l.links[c := ps];
    forall i, k | 0 <= i < |g| && 0 <= k < |g[i]|
      ensures g[i][k] < |g|
    {
      if i == c {
        var j :| 0 <= j < |l.links[c]| && l.links[c][j] == ps[k];
      }
    }
  }

  /** `disconnect_nodes` removes one listed edge, and the edge is gone
      unless it was listed twice. */
  lemma DisconnectNodesEdges(l: Linked, parent: nat, child: nat)
    requires Valid(l) && parent < |l.names| && child < |l.names|
    ensures var r := DisconnectNodes(l, parent, child);
      && LinkCount(r.links, 0) == LinkCount(l.links, 0) - (if parent in l.links[child] then 1 else 0)
      && (forall e :: e in Edges(r) && e != (parent, child) <==> e in Edges(l) && e != (parent, child))
      && ((parent, child) in Edges(r) <==> multiset(l.links[child])[parent] >= 2)
  {
    var r := DisconnectNodes(l, parent, child);
    if parent in l.links[child] {
      LinkCountUpdate(l.links, child, r.links[child], 0);
      forall x
        ensures x in r.links[child] <==> x in l.links[child] && (x != parent || multiset(l.links[child])[parent] >= 2)
      {
        assert x in r.links[child] <==> x in multiset(r.links[child]);
        assert x in l.links[child] <==> x in multiset(l.links[child]);
      }
    }
  }

  /** Connecting a new edge and disconnecting it again gives the graph back. */
  lemma ConnectThenDisconnect(l: Linked, parent: nat, child: nat)
    requires Valid(l) && parent < |l.names| && child < |l.names| && parent !in l.links[child]
    ensures DisconnectNodes(ConnectNodes(l, parent, child), parent, child) == l
  {
    var c := ConnectNodes(l, parent, child);
    assert c.links[child] == l.links[child] + [parent];
    RemoveLast(l.links[child], parent);
    assert DisconnectNodes(c, parent, child).links == l.links;
  }

  lemma {:induction false} RemoveLast(ps: seq<nat>, v: nat)
    requires v !in ps
    ensures RemoveFirst(ps + [v], v) == ps
  {
    if ps != [] {
      assert (ps + [v])[1..] == ps[1..] + [v];
      RemoveLast(ps[1..], v);
    }
  }

  // ---------------------------------------------------------------------
  // update_node, actualise_old_node_children, delete_subtree, update_subtree

  /** `ps` with every occurrence of `prev` replaced by `next`. */
  function ReplaceAll(ps: seq<nat>, prev: nat, next: nat): (r: seq<nat>)
    ensures |r| == |ps|
    ensures forall k :: 0 <= k < |ps| ==> r[k] == if ps[k] == prev then next else ps[k]
  {
    if ps == [] then [] else [if ps[0] == prev then next else ps[0]] + ReplaceAll(ps[1..], prev, next)
  }

  /** `actualise_old_node_children(old, new)`: every child of `old` lists
      `new` wherever it listed `old`, duplicates included. */
  function Actualise(g: Graph, prev: nat, next: nat): (r: Graph)
    ensures |r| == |g|
    ensures forall i :: 0 <= i < |g| ==> r[i] == ReplaceAll(g[i], prev, next)
  {
    if g == [] then [] else [ReplaceAll(g[0], prev, next)] + Actualise(g[1..], prev, next)
  }

  /** After `Actualise`, `p` is a parent of `c` exactly when it was one and
      is not `prev`, or it is `next` and `c` was a child of `prev`. */
  lemma ActualiseEdges(g: Graph, prev: nat, next: nat, p: nat, c: nat)
    requires prev != next && c < |g|
    ensures p in Actualise(g, prev, next)[c] <==> (p in g[c] && p != prev) || (p == next && prev in g[c])
  {
    var ps := Actualise(g, prev, next)[c];
    if p in ps {
      var k :| 0 <= k < |ps| && ps[k] == p;
    }
    if p in g[c] && p != prev {
      var k :| 0 <= k < |g[c]| && g[c][k] == p;
      assert ps[k] == p;
    }
    if p == next && prev in g[c] {
      var k :| 0 <= k < |g[c]| && g[c][k] == prev;
      assert ps[k] == p;
    }
  }

  /** The graph after the first half of `update_node(old, new)`: `new` is
      appended with `old`'s parents, and `old`'s children point to it. */
  function Substituted(l: Linked, prev: nat, name: string): (r: Linked)
    requires Valid(l) && prev < |l.names|
    ensures Valid(r) && |r.names| == |l.names| + 1
    ensures r.names == l.names + [name]
    ensures forall i :: 0 <= i < |l.names| ==> r.links[i] == ReplaceAll(l.links[i], prev, |l.names|)
    ensures r.links[|l.names|] == l.links[prev]
  {
    var n := |l.names|;
    var g := Actualise(l.links, prev, n) + [l.links[prev]];
    assert WellFormed(g) by {
      forall i, k | 0 <= i < |g| && 0 <= k < |g[i]|
        ensures g[i][k] < |g|
      {
        if i < n {
          assert g[i] == ReplaceAll(l.links[i], prev, n);
        }
      }
    }
    Linked(l.names + [name], g)
  }

  /** `update_node(old, new)` for a new node without parents: the nodes
      other than `old` keep their names and order (shifted past `old`), the
      new node joins the end with `old`'s parents, every former child of
      `old` lists the new node wherever it listed `old`, and `old` itself is
      gone. */
  function UpdateNode(l: Linked, prev: nat, name: string): (r: Linked)
    requires Valid(l) && prev < |l.names| && prev !in l.links[prev]
    ensures Valid(r) && |r.names| == |l.names|
    ensures r.names[|l.names| - 1] == name
    ensures r.links[|l.names| - 1] == Shift(l.links[prev], prev)
    ensures forall i :: 0 <= i < |l.names| && i != prev ==>
      && r.names[Shifted(i, prev)] == l.names[i]
      && r.links[Shifted(i, prev)] == Shift(ReplaceAll(l.links[i], prev, |l.names|), prev)
  {
    UpdateNodeNames(l, prev, name);
    UpdateNodeLast(l, prev, name);
    UpdateNodeLinks(l, prev, name);
    DeleteNode(Substituted(l, prev, name), prev, NoReconnect)
  }

  lemma UpdateNodeNames(l: Linked, prev: nat, name: string)
    requires Valid(l) && prev < |l.names| && prev !in l.links[prev]
    ensures prev !in Substituted(l, prev, name).links[prev]
    ensures var r := DeleteNode(Substituted(l, prev, name), prev, NoReconnect);
      && |r.names| == |l.names| && r.names[|l.names| - 1] == name
      && forall i :: 0 <= i < |l.names| && i != prev ==> r.names[Shifted(i, prev)] == l.names[i]
  {
    var u := Substituted(l, prev, name);
    assert u.links[prev] == l.links[prev];
    var r := DeleteNode(u, prev, NoReconnect);
    assert r.names[Shifted(|l.names|, prev)] == u.names[|l.names|];
  }

  lemma UpdateNodeLast(l: Linked, prev: nat, name: string)
    requires Valid(l) && prev < |l.names| && prev !in l.links[prev]
    requires prev !in Substituted(l, prev, name).links[prev]
    ensures var r := DeleteNode(Substituted(l, prev, name), prev, NoReconnect);
      |r.links| == |l.names| && r.links[|l.names| - 1] == Shift(l.links[prev], prev)
  {
    var n := |l.names|;
    assert Shifted(n, prev) == n - 1;
    UpdateNodeAt(l, prev, name, n);
  }

  lemma UpdateNodeLinks(l: Linked, prev: nat, name: string)
    requires Valid(l) && prev < |l.names| && prev !in l.links[prev]
    requires prev !in Substituted(l, prev, name).links[prev]
    ensures var r := DeleteNode(Substituted(l, prev, name), prev, NoReconnect);
      forall i :: 0 <= i < |l.names| && i != prev ==>
        r.links[Shifted(i, prev)] == Shift(ReplaceAll(l.links[i], prev, |l.names|), prev)
  {
    var n := |l.names|;
    forall i | 0 <= i < n && i != prev
      ensures DeleteNode(Substituted(l, prev, name), prev, NoReconnect).links[Shifted(i, prev)]
        == Shift(ReplaceAll(l.links[i], prev, n), prev)
    {
      UpdateNodeAt(l, prev, name, i);
    }
  }

  /** Where node `i` ends up in `update_node`; node `|l.names|` is the new one. */
  lemma UpdateNodeAt(l: Linked, prev: nat, name: string, i: nat)
    requires Valid(l) && prev < |l.names| && prev !in l.links[prev] && i <= |l.names| && i != prev
    requires prev !in Substituted(l, prev, name).links[prev]
    ensures var r := DeleteNode(Substituted(l, prev, name), prev, NoReconnect);
      r.links[Shifted(i, prev)] == Shift(if i < |l.names| then ReplaceAll(l.links[i], prev, |l.names|) else l.links[prev], prev)
  {
    var u := Substituted(l, prev, name);
    var n := |l.names|;
    if i < n {
      ReplaceAllGone(l.links[i], prev, n);
      assert u.links[i] == ReplaceAll(l.links[i], prev, n);
    } else {
      assert u.links[i] == l.links[prev];
    }
    DeleteUnreferenced(u, prev, i);
  }

  /** After replacing `prev` by another node, `prev` is listed nowhere. */
  lemma ReplaceAllGone(ps: seq<nat>, prev: nat, next: nat)
    requires prev != next
    ensures prev !in ReplaceAll(ps, prev, next)
  {
    var r := ReplaceAll(ps, prev, next);
    forall k | 0 <= k < |r|
      ensures r[k] != prev
    {
    }
  }

  /** Deleting a node that `i` does not list as a parent only renumbers the
      parents of `i`. */
  lemma DeleteUnreferenced(u: Linked, v: nat, i: nat)
    requires Valid(u) && v < |u.names| && v !in u.links[v] && i < |u.names| && i != v
    requires v !in u.links[i]
    ensures DeleteNode(u, v, NoReconnect).links[Shifted(i, v)] == Shift(u.links[i], v)
  {
    assert Unlink(u, v, NoReconnect)[i] == RemoveAll(u.links[i], v);
    RemoveAllAbsent(u.links[i], v);
  }

  /** Removing a value that is not there changes nothing. */
  lemma {:induction false} RemoveAllAbsent(ps: seq<nat>, v: nat)
    requires v !in ps
    ensures RemoveAll(ps, v) == ps
  {
    if ps != [] {
      assert ps[0] != v && v !in ps[1..];
      RemoveAllAbsent(ps[1..], v);
      calc {
        RemoveAll(ps, v);
        [ps[0]] + RemoveAll(ps[1..], v);
        [ps[0]] + ps[1..];
        ps;
      }
    }
  }

  /** The mask of the nodes `v` reaches: `v` and all its ancestors. */
  ghost function Ancestry(g: Graph, v: nat): (r: seq<bool>)
    ensures |r| == |g| && forall i :: 0 <= i < |g| ==> r[i] == Reaches(g, v, i)
  {
    seq(|g|, i => i >= 0 && Reaches(g, v, i))
  }

  /** `delete_subtree(node)`: the node and every node it reaches through
      `nodes_from` leave the graph, together with every edge that touches
      them — also an ancestor that is a direct parent of a node that stays.
      A cycle reachable from the node raises `ValueError`. */
  function DeleteSubtree(l: Linked, v: nat): (r: Result<Linked>)
    requires Valid(l) && v < |l.names|
    ensures r.Err? <==> CycleReachableFrom(l.links, v)
    ensures r.Err? ==> r.error == ValueError
    ensures r.Ok? ==> r.value == RemoveNodes(l, Ancestry(l.links, v))
  {
    var sub :- Subnodes.OrderedSubnodesHierarchy(l.links, v);
    var drop := Marked(|l.names|, sub);
    assert drop == Ancestry(l.links, v);
    Ok(RemoveNodes(l, drop))
  }

  /** After `delete_subtree(v)`, `p` is a parent of `c` exactly when both are
      the new indices of nodes `v` does not reach and the first was a parent
      of the second; no node that stays refers to a deleted one. */
  lemma DeleteSubtreeEdges(l: Linked, v: nat, p: nat, c: nat)
    requires Valid(l) && v < |l.names| && !CycleReachableFrom(l.links, v)
    ensures var r := DeleteSubtree(l, v).value;
      c < |r.links| && p in r.links[c] <==>
        exists p0, c0 :: 0 <= p0 < |l.names| && 0 <= c0 < |l.names| &&
          !Reaches(l.links, v, p0) && !Reaches(l.links, v, c0) &&
          Rank(Ancestry(l.links, v), p0) == p && Rank(Ancestry(l.links, v), c0) == c && p0 in l.links[c0]
  {
    RemoveNodesEdges(l, Ancestry(l.links, v), p, c);
  }

  /** A subtree's nodes moved past the first `n` indices. */
  function Offset(g: Graph, n: nat): (r: Graph)
    ensures |r| == |g|
    ensures forall i :: 0 <= i < |g| ==> |r[i]| == |g[i]| && forall k :: 0 <= k < |g[i]| ==> r[i][k] == g[i][k] + n
  {
    if g == [] then [] else [OffsetList(g[0], n)] + Offset(g[1..], n)
  }

  function OffsetList(ps: seq<nat>, n: nat): (r: seq<nat>)
    ensures |r| == |ps| && forall k :: 0 <= k < |ps| ==> r[k] == ps[k] + n
  {
    if ps == [] then [] else [ps[0] + n] + OffsetList(ps[1..], n)
  }

  /** The graph with the nodes of `s` appended, and `old`'s children listing
      the top node of `s` (its node 0) wherever they listed `old`. */
  function Graft(l: Linked, prev: nat, s: Linked): (r: Linked)
    requires Valid(l) && Valid(s) && prev < |l.names| && |s.names| > 0
    ensures Valid(r) && |r.names| == |l.names| + |s.names|
    ensures r.names == l.names + s.names
    ensures forall i :: 0 <= i < |l.names| ==> r.links[i] == ReplaceAll(l.links[i], prev, |l.names|)
    ensures forall j :: 0 <= j < |s.names| ==> r.links[|l.names| + j] == OffsetList(s.links[j], |l.names|)
  {
    var n := |l.names|;
    var g := Actualise(l.links, prev, n) + Offset(s.links, n);
    assert WellFormed(g) by {
      forall i, k | 0 <= i < |g| && 0 <= k < |g[i]|
        ensures g[i][k] < |g|
      {
        if i < n {
          assert g[i] == ReplaceAll(l.links[i], prev, n);
        } else {
          assert g[i] == Offset(s.links, n)[i - n];
        }
      }
    }
    assert forall j :: 0 <= j < |s.names| ==> g[n + j] == Offset(s.links, n)[j];
    Linked(l.names + s.names, g)
  }

  /** `update_subtree(old, new)`: the subtree `s` (a graph whose node 0 is
      `new`) is added, `old`'s children list `new` in its place, and then
      `old` with its whole ancestry is deleted as in `delete_subtree`. */
  function UpdateSubtree(l: Linked, prev: nat, s: Linked): (r: Result<Linked>)
    requires Valid(l) && Valid(s) && prev < |l.names| && |s.names| > 0
    ensures r.Err? <==> CycleReachableFrom(Graft(l, prev, s).links, prev)
    ensures r.Ok? ==> Valid(r.value)
  {
    DeleteSubtree(Graft(l, prev, s), prev)
  }

  // ---------------------------------------------------------------------
  // Read operations: get_edges, root_nodes, depth

  /** `(parent, child)` for each entry of a parent list of `child`. */
  function ParentEdges(ps: seq<nat>, child: nat): (r: seq<(nat, nat)>)
    ensures |r| == |ps|
    ensures forall e :: e in r <==> e.1 == child && e.0 in ps
  {
    if ps == [] then [] else [(ps[0], child)] + ParentEdges(ps[1..], child)
  }

  /** How many parent entries the nodes from `start` on hold. */
  function LinkCount(g: Graph, start: nat): nat
    requires start <= |g|
    decreases |g| - start
  {
    if start == |g| then 0 else |g[start]| + LinkCount(g, start + 1)
  }

  function EdgesFrom(g: Graph, start: nat): (r: seq<(nat, nat)>)
    requires start <= |g|
    ensures |r| == LinkCount(g, start)
    ensures forall e :: e in r <==> start <= e.1 < |g| && e.0 in g[e.1]
    decreases |g| - start
  {
    if start == |g| then [] else ParentEdges(g[start], start) + EdgesFrom(g, start + 1)
  }

  /** `get_edges()`: one `(parent, child)` pair per parent entry, child by
      child in node order, so a repeated parent gives a repeated edge. */
  function Edges(l: Linked): (r: seq<(nat, nat)>)
    ensures |r| == LinkCount(l.links, 0)
    ensures forall e :: e in r <==> e.1 < |l.links| && e.0 in l.links[e.1]
  {
    EdgesFrom(l.links, 0)
  }

  /** `root_nodes()`: the nodes no other node lists as a parent, in node order. */
  function Roots(l: Linked): (r: seq<nat>)
    ensures forall k :: 0 <= k < |r| ==> r[k] < |l.links| && Children(l.links, r[k]) == []
    ensures forall v :: 0 <= v < |l.links| && Children(l.links, v) == [] ==> v in r
  {
    RootNodes(l.links)
  }

  /** `root_nodes()` lists the roots in node order, each once. */
  lemma RootsAscending(l: Linked)
    ensures forall i, j :: 0 <= i < j < |Roots(l)| ==> Roots(l)[i] < Roots(l)[j]
  {
    RootsFromAscending(l.links, 0);
  }

  /** The greatest corrected depth among `roots`, 0 for none. */
  function MaxDepth(g: Graph, roots: seq<nat>): (r: int)
    requires WellFormed(g) && forall k :: 0 <= k < |roots| ==> roots[k] < |g|
    ensures roots == [] ==> r == 0
    ensures forall k :: 0 <= k < |roots| ==> Depths.LongestDepth(g, roots[k]) <= r
    ensures roots != [] ==> exists k :: 0 <= k < |roots| && r == Depths.LongestDepth(g, roots[k])
  {
    if roots == [] then 0
    else
      var d := Depths.LongestDepth(g, roots[0]);
      if |roots| == 1 then d
      else
        var rest := MaxDepth(g, roots[1..]);
        assert forall k :: 1 <= k < |roots| ==> roots[k] == roots[1..][k - 1];
        if d >= rest then d else rest
  }

  /** `depth`: 0 for an empty graph, otherwise the number of nodes on the
      longest chain of parents from a root node; -1 when every root node
      reaches a cycle, and 0 when there is no root node at all. */
  function Depth(l: Linked): (r: int)
    requires Valid(l)
    ensures |l.names| == 0 ==> r == 0
    ensures Roots(l) == [] ==> r == 0
    ensures forall k :: 0 <= k < |Roots(l)| ==> Depths.LongestDepth(l.links, Roots(l)[k]) <= r
    ensures Roots(l) != [] ==> exists k :: 0 <= k < |Roots(l)| && r == Depths.LongestDepth(l.links, Roots(l)[k])
  {
    if |l.names| == 0 then 0 else MaxDepth(l.links, Roots(l))
  }

  // ---------------------------------------------------------------------
  // descriptive_id

  /** A node's own description: `n_` and its name (node parameters are not
      part of this model). */
  function Description(name: string): string {
    "n_" + name
  }

  /** How many nodes are not yet on the current path. */
  function Unseen(seen: seq<bool>): (r: nat)
    ensures r <= |seen|
  {
    if seen == [] then 0 else (if seen[0] then 0 else 1) + Unseen(seen[1..])
  }

  lemma {:induction false} UnseenMark(seen: seq<bool>, v: nat)
    requires v < |seen| && !seen[v]
    ensures Unseen(seen[v := true]) == Unseen(seen) - 1
  {
    if v > 0 {
      assert seen[v := true][1..] == seen[1..][v - 1 := true];
      UnseenMark(seen[1..], v - 1);
    }
  }

  /** No node on the path yet. */
  function NoneSeen(n: nat): (r: seq<bool>)
    ensures |r| == n && forall i :: 0 <= i < n ==> !r[i]
  {
    if n == 0 then [] else NoneSeen(n - 1) + [false]
  }

  /** `_descriptive_id_recursive` of node `v`, where `seen` marks the nodes on
      the path from the node the id was asked of: a node met again on that
      path is `ID_CYCLED`; otherwise the ids of the parents, each followed
      by `;`, are sorted, joined with `;` and bracketed (only when there are
      parents), and followed by `/` and the node's description. */
  function NodeId(l: Linked, v: nat, seen: seq<bool>): (r: string)
    requires Valid(l) && v < |l.names| && |seen| == |l.names|
    ensures seen[v] <==> r == "ID_CYCLED"
    decreases Unseen(seen), 0
  {
    if seen[v] then "ID_CYCLED"
    else
      UnseenMark(seen, v);
      var items := Sort(ParentItems(l, l.links[v], seen[v := true]));
      var prefix := if l.links[v] == [] then "" else "(" + Join(items, ";") + ")";
      var r := prefix + "/" + Description(l.names[v]);
      assert r[|prefix|] == '/' && '/' !in "ID_CYCLED";
      r
  }

  /** The parent ids of a node, each followed by `;`, in `nodes_from` order. */
  function ParentItems(l: Linked, ps: seq<nat>, seen: seq<bool>): (r: seq<string>)
    requires Valid(l) && |seen| == |l.names| && forall k :: 0 <= k < |ps| ==> ps[k] < |l.names|
    ensures |r| == |ps|
    ensures forall k :: 0 <= k < |ps| ==> r[k] == NodeId(l, ps[k], seen) + ";"
    decreases Unseen(seen), 1, |ps|
  {
    if ps == [] then [] else [NodeId(l, ps[0], seen) + ";"] + ParentItems(l, ps[1..], seen)
  }

  /** The graph's `descriptive_id`: the ids of its root nodes, in order,
      concatenated. */
  function DescriptiveId(l: Linked): string
    requires Valid(l)
  {
    RootIds(l, Roots(l))
  }

  function RootIds(l: Linked, roots: seq<nat>): string
    requires Valid(l) && forall k :: 0 <= k < |roots| ==> roots[k] < |l.names|
  {
    if roots == [] then "" else NodeId(l, roots[0], NoneSeen(|l.names|)) + RootIds(l, roots[1..])
  }

  /** The entries of `t` at the positions listed in `ps`. */
  function Lookup(t: seq<string>, ps: seq<nat>): (r: seq<string>)
    requires Below(t, ps)
    ensures |r| == |ps| && forall k :: 0 <= k < |ps| ==> r[k] == t[ps[k]]
  {
    if ps == [] then [] else [t[ps[0]]] + Lookup(t, ps[1..])
  }

  /** Every position in `ps` is an entry of `t`. */
  predicate Below(t: seq<string>, ps: seq<nat>) {
    forall k :: 0 <= k < |ps| ==> ps[k] < |t|
  }

  /** `ps` without its entry at `k`. */
  function Without(ps: seq<nat>, k: nat): (r: seq<nat>)
    requires k < |ps|
    ensures multiset(r) + multiset{ps[k]} == multiset(ps)
  {
    assert ps == ps[..k] + [ps[k]] + ps[k + 1..];
    ps[..k] + ps[k + 1..]
  }

  /** Lists of the same positions, in any order, look up the same entries. */
  lemma {:induction false} LookupMultiset(t: seq<string>, ps: seq<nat>, qs: seq<nat>)
    requires multiset(ps) == multiset(qs) && Below(t, ps)
    ensures Below(t, qs)
    ensures multiset(Lookup(t, ps)) == multiset(Lookup(t, qs))
    decreases |ps|
  {
    BelowMultiset(t, ps, qs);
    if ps == [] {
      assert |qs| == |multiset(qs)| == 0;
    } else {
      var x := ps[0];
      assert x in multiset(qs);
      var k :| 0 <= k < |qs| && qs[k] == x;
      var rest := Without(qs, k);
      TailMultiset(ps, qs, k);
      LookupCons(t, ps);
      LookupMultiset(t, ps[1..], rest);
      LookupWithout(t, qs, k);
    }
  }

  /** Taking the head of `ps` out of `qs` leaves the tail of `ps`. */
  lemma TailMultiset(ps: seq<nat>, qs: seq<nat>, k: nat)
    requires multiset(ps) == multiset(qs) && ps != [] && k < |qs| && qs[k] == ps[0]
    ensures multiset(Without(qs, k)) == multiset(ps[1..])
  {
    assert ps == [ps[0]] + ps[1..];
    MultisetCancel(multiset(ps[1..]), multiset(Without(qs, k)), ps[0]);
  }

  lemma LookupCons(t: seq<string>, ps: seq<nat>)
    requires Below(t, ps) && ps != []
    ensures Below(t, ps[1..])
    ensures multiset(Lookup(t, ps)) == multiset(Lookup(t, ps[1..])) + multiset{t[ps[0]]}
  {
    assert Lookup(t, ps) == [t[ps[0]]] + Lookup(t, ps[1..]);
  }

  lemma MultisetCancel(m1: multiset<nat>, m2: multiset<nat>, x: nat)
    requires multiset{x} + m1 == multiset{x} + m2
    ensures m1 == m2
  {
    forall y
      ensures m1[y] == m2[y]
    {
      assert (multiset{x} + m1)[y] == (multiset{x} + m2)[y];
    }
  }

  lemma BelowMultiset(t: seq<string>, ps: seq<nat>, qs: seq<nat>)
    requires multiset(ps) == multiset(qs) && Below(t, ps)
    ensures Below(t, qs)
  {
    forall k | 0 <= k < |qs|
      ensures qs[k] < |t|
    {
      assert qs[k] in multiset(ps);
    }
  }

  lemma LookupWithout(t: seq<string>, qs: seq<nat>, k: nat)
    requires Below(t, qs) && k < |qs|
    ensures Below(t, Without(qs, k))
    ensures multiset(Lookup(t, qs)) == multiset(Lookup(t, Without(qs, k))) + multiset{t[qs[k]]}
  {
    var a, b := qs[..k], qs[k + 1..];
    assert qs == a + ([qs[k]] + b);
    assert Without(qs, k) == a + b;
    assert Below(t, a) && Below(t, b) by {
      assert forall i :: 0 <= i < |a| ==> a[i] == qs[i];
      assert forall i :: 0 <= i < |b| ==> b[i] == qs[k + 1 + i];
    }
    LookupSplit(t, a, qs[k], b);
  }

  lemma LookupSplit(t: seq<string>, a: seq<nat>, x: nat, b: seq<nat>)
    requires Below(t, a) && Below(t, b) && x < |t|
    ensures Below(t, a + ([x] + b)) && Below(t, a + b)
    ensures multiset(Lookup(t, a + ([x] + b))) == multiset(Lookup(t, a + b)) + multiset{t[x]}
  {
    LookupAppend(t, [x], b);
    LookupAppend(t, a, [x] + b);
    LookupAppend(t, a, b);
    assert Lookup(t, [x]) == [t[x]];
  }

  lemma {:induction false} LookupAppend(t: seq<string>, a: seq<nat>, b: seq<nat>)
    requires Below(t, a) && Below(t, b)
    ensures Below(t, a + b)
    ensures Lookup(t, a + b) == Lookup(t, a) + Lookup(t, b)
  {
    if a != [] {
      assert (a + b)[1..] == a[1..] + b;
      LookupAppend(t, a[1..], b);
    }
  }

  /** The item of every node: its id followed by `;`. */
  function ItemTable(l: Linked, seen: seq<bool>): (r: seq<string>)
    requires Valid(l) && |seen| == |l.names|
    ensures |r| == |l.names| && forall p :: 0 <= p < |r| ==> r[p] == NodeId(l, p, seen) + ";"
  {
    seq(|l.names|, p requires 0 <= p < |l.names| => NodeId(l, p, seen) + ";")
  }

  /** Parent lists holding the same parents, in any order, give the same
      multiset of parent items. */
  lemma ParentItemsMultiset(l: Linked, ps: seq<nat>, qs: seq<nat>, seen: seq<bool>)
    requires Valid(l) && |seen| == |l.names| && multiset(ps) == multiset(qs)
    requires forall k :: 0 <= k < |ps| ==> ps[k] < |l.names|
    ensures forall k :: 0 <= k < |qs| ==> qs[k] < |l.names|
    ensures multiset(ParentItems(l, ps, seen)) == multiset(ParentItems(l, qs, seen))
  {
    var t := ItemTable(l, seen);
    LookupMultiset(t, ps, qs);
    ItemsLookup(l, ps, seen);
    ItemsLookup(l, qs, seen);
  }

  /** The parent items are the table's entries at the parents' positions. */
  lemma ItemsLookup(l: Linked, ps: seq<nat>, seen: seq<bool>)
    requires Valid(l) && |seen| == |l.names| && forall k :: 0 <= k < |ps| ==> ps[k] < |l.names|
    ensures Below(ItemTable(l, seen), ps) && ParentItems(l, ps, seen) == Lookup(ItemTable(l, seen), ps)
  {
  }

  /** The bracketed part of an id does not depend on the order of the
      parents: sorting the items removes it. */
  lemma ParentOrderFree(l: Linked, ps: seq<nat>, qs: seq<nat>, seen: seq<bool>)
    requires Valid(l) && |seen| == |l.names| && multiset(ps) == multiset(qs)
    requires forall k :: 0 <= k < |ps| ==> ps[k] < |l.names|
    ensures forall k :: 0 <= k < |qs| ==> qs[k] < |l.names|
    ensures Sort(ParentItems(l, ps, seen)) == Sort(ParentItems(l, qs, seen))
  {
    ParentItemsMultiset(l, ps, qs, seen);
    SortedUnique(Sort(ParentItems(l, ps, seen)), Sort(ParentItems(l, qs, seen)));
  }

  /** `l` with the parents of `v` listed as `qs`. */
  function Reordered(l: Linked, v: nat, qs: seq<nat>): (r: Linked)
    requires Valid(l) && v < |l.names| && multiset(qs) == multiset(l.links[v])
    ensures Valid(r)
  {
    assert forall k :: 0 <= k < |qs| ==> qs[k] in multiset(l.links[v]);
    Linked(l.names, l.links[v := qs])
  }

  /** Reordering the parents of any node `v` changes no node's id. */
  lemma {:induction false} ReorderedNodeId(l: Linked, v: nat, qs: seq<nat>, x: nat, seen: seq<bool>)
    requires Valid(l) && v < |l.names| && multiset(qs) == multiset(l.links[v])
    requires x < |l.names| && |seen| == |l.names|
    ensures NodeId(Reordered(l, v, qs), x, seen) == NodeId(l, x, seen)
    decreases Unseen(seen), 0
  {
    var l' := Reordered(l, v, qs);
    if !seen[x] {
      UnseenMark(seen, x);
      var s := seen[x := true];
      ReorderedItems(l, v, qs, l'.links[x], s);
      if x == v {
        ParentOrderFree(l, l.links[v], qs, s);
        assert qs == [] <==> l.links[v] == [] by {
          assert |qs| == |multiset(qs)| == |multiset(l.links[v])| == |l.links[v]|;
        }
      }
    }
  }

  lemma {:induction false} ReorderedItems(l: Linked, v: nat, qs: seq<nat>, ps: seq<nat>, seen: seq<bool>)
    requires Valid(l) && v < |l.names| && multiset(qs) == multiset(l.links[v])
    requires |seen| == |l.names| && forall k :: 0 <= k < |ps| ==> ps[k] < |l.names|
    ensures ParentItems(Reordered(l, v, qs), ps, seen) == ParentItems(l, ps, seen)
    decreases Unseen(seen), 1, |ps|
  {
    if ps != [] {
      ReorderedNodeId(l, v, qs, ps[0], seen);
      ReorderedItems(l, v, qs, ps[1..], seen);
    }
  }

  /** Reordering parents keeps every node's children, hence the roots. */
  lemma {:induction false} ReorderedChildren(l: Linked, v: nat, qs: seq<nat>, u: nat, start: nat)
    requires Valid(l) && v < |l.names| && multiset(qs) == multiset(l.links[v]) && start <= |l.names|
    ensures ChildrenFrom(Reordered(l, v, qs).links, u, start) == ChildrenFrom(l.links, u, start)
    decreases |l.names| - start
  {
    if start < |l.names| {
      assert u in qs <==> u in multiset(l.links[v]);
      ReorderedChildren(l, v, qs, u, start + 1);
    }
  }

  lemma {:induction false} ReorderedRoots(l: Linked, v: nat, qs: seq<nat>, start: nat)
    requires Valid(l) && v < |l.names| && multiset(qs) == multiset(l.links[v]) && start <= |l.names|
    ensures RootsFrom(Reordered(l, v, qs).links, start) == RootsFrom(l.links, start)
    decreases |l.names| - start
  {
    if start < |l.names| {
      ReorderedChildren(l, v, qs, start, 0);
      ReorderedRoots(l, v, qs, start + 1);
    }
  }

  lemma {:induction false} ReorderedRootIds(l: Linked, v: nat, qs: seq<nat>, roots: seq<nat>)
    requires Valid(l) && v < |l.names| && multiset(qs) == multiset(l.links[v])
    requires forall k :: 0 <= k < |roots| ==> roots[k] < |l.names|
    ensures RootIds(Reordered(l, v, qs), roots) == RootIds(l, roots)
  {
    if roots != [] {
      ReorderedNodeId(l, v, qs, roots[0], NoneSeen(|l.names|));
      ReorderedRootIds(l, v, qs, roots[1..]);
    }
  }

  /** The descriptive id identifies a graph regardless of the order in
      which any node lists its parents. */
  lemma ReorderedDescriptiveId(l: Linked, v: nat, qs: seq<nat>)
    requires Valid(l) && v < |l.names| && multiset(qs) == multiset(l.links[v])
    ensures DescriptiveId(Reordered(l, v, qs)) == DescriptiveId(l)
  {
    ReorderedRoots(l, v, qs, 0);
    ReorderedRootIds(l, v, qs, Roots(l));
  }
}

=== FILE: map_nodes.dfy ===
/** `map_dag_nodes`: copy the part of a graph reachable from some nodes,
    transforming every node once and re-linking the copies' `nodes_from`
    the way the originals are linked. */
module MapNodes {
  import opened Dag

  /** A produced node: what `transform` made of the original, and the
      positions of its mapped parents among the produced nodes. */
  datatype Mapped<U> = Mapped(content: U, nodesFrom: seq<nat>)

  /** `mapped_nodes`, keyed by original node, and every node produced so far
      in creation order. */
  datatype MapState<U> = MapState(memo: map<nat, nat>, made: seq<Mapped<U>>)

  /** Positions of the produced copies of `xs`, in order. */
  function Translate(m: map<nat, nat>, xs: seq<nat>): (r: seq<nat>)
    requires forall k :: 0 <= k < |xs| ==> xs[k] in m
    ensures |r| == |xs| && forall k :: 0 <= k < |xs| ==> r[k] == m[xs[k]]
  {
    if xs == [] then [] else [m[xs[0]]] + Translate(m, xs[1..])
  }

  /** `map_impl(node)`: reuse the copy made earlier, or transform the node,
      remember the copy before descending (so a cycle ends at it), map the
      parents and link them. */
  function MapImpl<U>(g: Graph, f: nat -> U, x: nat, st: MapState<U>): (r: (nat, MapState<U>))
    requires WellFormed(g) && x < |g|
    ensures x in r.1.memo && r.1.memo[x] == r.0
    ensures st.memo.Keys <= r.1.memo.Keys && |st.made| <= |r.1.made|
    ensures forall y :: y in st.memo ==> r.1.memo[y] == st.memo[y]
    ensures x !in st.memo ==> r.0 == |st.made|
    decreases Range(|g|) - st.memo.Keys, 0, 0
  {
    if x in st.memo then (st.memo[x], st)
    else
      var id := |st.made|;
      var st1 := MapState(st.memo[x := id], st.made + [Mapped(f(x), [])]);
      assert st1.memo.Keys == st.memo.Keys + {x};
      var (ids, st2) := MapAll(g, f, g[x], st1);
      (id, MapState(st2.memo, st2.made[id := Mapped(st2.made[id].content, ids)]))
  }

  /** `list(map(map_impl, xs))`, threading the memo from left to right. */
  function MapAll<U>(g: Graph, f: nat -> U, xs: seq<nat>, st: MapState<U>): (r: (seq<nat>, MapState<U>))
    requires WellFormed(g) && AllNodes(g, xs)
    ensures st.memo.Keys <= r.1.memo.Keys && |st.made| <= |r.1.made|
    ensures forall y :: y in st.memo ==> r.1.memo[y] == st.memo[y]
    ensures forall k :: 0 <= k < |xs| ==> xs[k] in r.1.memo
    decreases Range(|g|) - st.memo.Keys, 1, |xs|
  {
    if xs == [] then ([], st)
    else
      var (id, st1) := MapImpl(g, f, xs[0], st);
      var (ids, st2) := MapAll(g, f, xs[1..], st1);
      ([id] + ids, st2)
  }

  /** `map_dag_nodes(transform, nodes)`: the copies of `nodes`, in order,
      and every node produced on the way. The produced nodes are a faithful
      copy of the part of the graph reachable from `nodes`. */
  function MapDagNodes<U>(g: Graph, f: nat -> U, nodes: seq<nat>): (r: (seq<nat>, seq<Mapped<U>>))
    requires WellFormed(g) && AllNodes(g, nodes)
    ensures exists h :: Copy(g, f, nodes, h, r.0, r.1)
  {
    var (ids, st) := MapAll(g, f, nodes, MapState(map[], []));
    MapDagNodesCopy(g, f, nodes);
    (ids, st.made)
  }

  // ---------------------------------------------------------------------
  // Specification

  /** `h` maps every node reachable from `nodes`, and nothing else, one-to-one
      onto the produced nodes; each copy holds the transformed content and
      links to the copies of the original's parents, in the same order. */
  ghost predicate Copy<U>(g: Graph, f: nat -> U, nodes: seq<nat>, h: map<nat, nat>, ids: seq<nat>,
                          made: seq<Mapped<U>>)
    requires WellFormed(g)
  {
    && (forall x :: x in h <==> ReachableFromAny(g, nodes, x))
    && Sound(g, MapState(h, made))
    && |ids| == |nodes| && (forall k :: 0 <= k < |nodes| ==> nodes[k] in h && ids[k] == h[nodes[k]])
    && (forall x {:trigger MemoLinked(g, f, MapState(h, made), x)} :: x in h ==> MemoLinked(g, f, MapState(h, made), x))
  }

  /** Every memo entry names an original node and its own produced node,
      and there are exactly as many produced nodes as memo entries. */
  ghost predicate Sound<U>(g: Graph, st: MapState<U>) {
    && (forall x :: x in st.memo ==> x < |g| && st.memo[x] < |st.made|)
    && (forall x, y :: x in st.memo && y in st.memo && x != y ==> st.memo[x] != st.memo[y])
    && |st.made| == |st.memo.Keys|
  }

  /** `x` is reachable from one of `starts`. */
  ghost predicate ReachableFromAny(g: Graph, starts: seq<nat>, x: nat) {
    exists k :: 0 <= k < |starts| && Reaches(g, starts[k], x)
  }

  /** The copy of `x` is complete: its parents are mapped and it is linked to their copies. */
  ghost predicate MemoLinked<U>(g: Graph, f: nat -> U, st: MapState<U>, x: nat) {
    && x < |g| && x in st.memo && st.memo[x] < |st.made|
    && (forall k :: 0 <= k < |g[x]| ==> g[x][k] in st.memo)
    && st.made[st.memo[x]] == Mapped(f(x), Translate(st.memo, g[x]))
  }

  /** Invariant of the recursion: `pending` are the nodes whose `map_impl`
      call is still running; every other mapped node is complete. */
  ghost predicate MapInv<U>(g: Graph, f: nat -> U, starts: seq<nat>, st: MapState<U>, pending: set<nat>) {
    && WellFormed(g) && Sound(g, st) && pending <= st.memo.Keys
    && (forall x {:trigger ReachableFromAny(g, starts, x)} :: x in st.memo ==> ReachableFromAny(g, starts, x))
    && (forall x :: x in st.memo ==> st.made[st.memo[x]].content == f(x))
    && (forall x {:trigger MemoLinked(g, f, st, x)} :: x in st.memo && x !in pending ==> MemoLinked(g, f, st, x))
  }

  /** `st'` keeps every memo entry and every node already produced in `st`. */
  ghost predicate Grows<U>(st: MapState<U>, st': MapState<U>) {
    && (forall x :: x in st.memo ==> x in st'.memo && st'.memo[x] == st.memo[x])
    && |st.made| <= |st'.made|
    && (forall i :: 0 <= i < |st.made| ==> st'.made[i] == st.made[i])
  }

  // ---------------------------------------------------------------------
  // Proof

  lemma TranslateGrows(m: map<nat, nat>, m': map<nat, nat>, xs: seq<nat>)
    requires forall k :: 0 <= k < |xs| ==> xs[k] in m
    requires forall x :: x in m ==> x in m' && m'[x] == m[x]
    ensures forall k :: 0 <= k < |xs| ==> xs[k] in m'
    ensures Translate(m', xs) == Translate(m, xs)
  {
  }

  lemma LinkedGrows<U>(g: Graph, f: nat -> U, st: MapState<U>, st': MapState<U>, x: nat)
    requires MemoLinked(g, f, st, x) && Grows(st, st')
    ensures MemoLinked(g, f, st', x)
  {
    TranslateGrows(st.memo, st'.memo, g[x]);
  }

  lemma {:induction false} MapImplSpec<U>(g: Graph, f: nat -> U, starts: seq<nat>, x: nat, st: MapState<U>,
                                          pending: set<nat>)
    requires MapInv(g, f, starts, st, pending) && x < |g| && ReachableFromAny(g, starts, x)
    ensures MapInv(g, f, starts, MapImpl(g, f, x, st).1, pending)
    ensures Grows(st, MapImpl(g, f, x, st).1)
    decreases Range(|g|) - st.memo.Keys, 0, 0
  {
    if x !in st.memo {
      var id := |st.made|;
      var st1 := MapState(st.memo[x := id], st.made + [Mapped(f(x), [])]);
      EnterMapped(g, f, starts, st, pending, x);
      AllParentsReachable(g, starts, x);
      MapAllSpec(g, f, starts, g[x], st1, pending + {x});
      var (ids, st2) := MapAll(g, f, g[x], st1);
      var st3 := MapState(st2.memo, st2.made[id := Mapped(st2.made[id].content, ids)]);
      assert MapImpl(g, f, x, st).1 == st3;
      Complete(g, f, starts, st2, pending, x, ids);
    }
  }

  /** Remembering the fresh copy of `x` keeps the invariant, with `x` now pending. */
  lemma EnterMapped<U>(g: Graph, f: nat -> U, starts: seq<nat>, st: MapState<U>, pending: set<nat>, x: nat)
    requires MapInv(g, f, starts, st, pending) && x < |g| && x !in st.memo && ReachableFromAny(g, starts, x)
    ensures var st1 := MapState(st.memo[x := |st.made|], st.made + [Mapped(f(x), [])]);
      MapInv(g, f, starts, st1, pending + {x}) && Grows(st, st1)
  {
    var id := |st.made|;
    var st1 := MapState(st.memo[x := id], st.made + [Mapped(f(x), [])]);
    EnterSound(g, st, x, Mapped(f(x), []));
    forall y | y in st1.memo
      ensures st1.made[st1.memo[y]].content == f(y)
    {
      if y != x {
        assert st1.made[st1.memo[y]] == st.made[st.memo[y]];
      }
    }
    forall y | y in st1.memo && y !in pending + {x}
      ensures MemoLinked(g, f, st1, y)
    {
      LinkedGrows(g, f, st, st1, y);
    }
  }

  /** A fresh memo entry for `x`, naming a new produced node, keeps the
      memo sound and the older entries. */
  lemma EnterSound<U>(g: Graph, st: MapState<U>, x: nat, m: Mapped<U>)
    requires Sound(g, st) && x < |g| && x !in st.memo
    ensures Sound(g, MapState(st.memo[x := |st.made|], st.made + [m]))
    ensures Grows(st, MapState(st.memo[x := |st.made|], st.made + [m]))
  {
    var st1 := MapState(st.memo[x := |st.made|], st.made + [m]);
    assert st1.memo.Keys == st.memo.Keys + {x};
    assert |st.memo.Keys + {x}| == |st.memo.Keys| + 1;
    forall y | y in st1.memo
      ensures y < |g| && st1.memo[y] < |st1.made|
    {
    }
    forall y, z | y in st1.memo && z in st1.memo && y != z
      ensures st1.memo[y] != st1.memo[z]
    {
      if y != x && z != x {
        assert st1.memo[y] == st.memo[y] && st1.memo[z] == st.memo[z];
      }
    }
  }

  /** Linking the copy of `x` to the copies of its parents completes `x` and touches nothing else. */
  lemma Complete<U>(g: Graph, f: nat -> U, starts: seq<nat>, st2: MapState<U>, pending: set<nat>, x: nat,
                    ids: seq<nat>)
    requires MapInv(g, f, starts, st2, pending + {x}) && x in st2.memo && x < |g|
    requires forall k :: 0 <= k < |g[x]| ==> g[x][k] in st2.memo
    requires ids == Translate(st2.memo, g[x])
    ensures var id := st2.memo[x];
      var st3 := MapState(st2.memo, st2.made[id := Mapped(st2.made[id].content, ids)]);
      && MapInv(g, f, starts, st3, pending)
      && forall i :: 0 <= i < |st2.made| && i != id ==> st3.made[i] == st2.made[i]
  {
    var id := st2.memo[x];
    var st3 := MapState(st2.memo, st2.made[id := Mapped(st2.made[id].content, ids)]);
    forall y | y in st3.memo
      ensures st3.made[st3.memo[y]].content == f(y)
    {
      if y != x {
        assert st2.memo[y] != id;
      }
    }
    forall y | y in st3.memo && y !in pending
      ensures MemoLinked(g, f, st3, y)
    {
      if y != x {
        assert st2.memo[y] != id;
        assert MemoLinked(g, f, st2, y);
      }
    }
  }

  lemma AllParentsReachable(g: Graph, starts: seq<nat>, x: nat)
    requires WellFormed(g) && x < |g| && ReachableFromAny(g, starts, x)
    ensures AllNodes(g, g[x])
    ensures forall k :: 0 <= k < |g[x]| ==> ReachableFromAny(g, starts, g[x][k])
  {
    var i :| 0 <= i < |starts| && Reaches(g, starts[i], x);
    forall k | 0 <= k < |g[x]|
      ensures ReachableFromAny(g, starts, g[x][k])
    {
      ReachesStep(g, starts[i], x, g[x][k]);
    }
  }

  lemma {:induction false} MapAllSpec<U>(g: Graph, f: nat -> U, starts: seq<nat>, xs: seq<nat>, st: MapState<U>,
                                         pending: set<nat>)
    requires MapInv(g, f, starts, st, pending) && AllNodes(g, xs)
    requires forall k :: 0 <= k < |xs| ==> ReachableFromAny(g, starts, xs[k])
    ensures var (ids, st') := MapAll(g, f, xs, st);
      && MapInv(g, f, starts, st', pending)
      && Grows(st, st')
      && (forall k :: 0 <= k < |xs| ==> xs[k] in st'.memo)
      && ids == Translate(st'.memo, xs)
    decreases Range(|g|) - st.memo.Keys, 1, |xs|
  {
    if xs != [] {
      MapImplSpec(g, f, starts, xs[0], st, pending);
      var (id, st1) := MapImpl(g, f, xs[0], st);
      MapAllSpec(g, f, starts, xs[1..], st1, pending);
      var (ids, st2) := MapAll(g, f, xs[1..], st1);
      assert xs[0] in st2.memo && st2.memo[xs[0]] == id;
      forall k | 0 <= k < |xs|
        ensures xs[k] in st2.memo
      {
        if k > 0 {
          assert xs[k] == xs[1..][k - 1];
        }
      }
      assert Translate(st2.memo, xs) == [id] + Translate(st2.memo, xs[1..]);
    }
  }

  /** Nodes closed under taking parents contain everything reachable from them. */
  lemma {:induction false} ClosedReach(g: Graph, keys: set<nat>, w: seq<nat>)
    requires IsWalk(g, w) && w[0] in keys
    requires forall x, k :: x in keys && x < |g| && 0 <= k < |g[x]| ==> g[x][k] in keys
    ensures w[|w| - 1] in keys
    decreases |w|
  {
    if |w| > 1 {
      WalkTail(g, w);
      ClosedReach(g, keys, w[1..]);
    }
  }

  /** Once nothing is pending, the mapped nodes are closed under taking parents. */
  lemma MappedClosed<U>(g: Graph, f: nat -> U, starts: seq<nat>, st: MapState<U>)
    requires MapInv(g, f, starts, st, {})
    ensures forall y, k :: y in st.memo.Keys && y < |g| && 0 <= k < |g[y]| ==> g[y][k] in st.memo.Keys
  {
    forall y, k | y in st.memo.Keys && y < |g| && 0 <= k < |g[y]|
      ensures g[y][k] in st.memo.Keys
    {
      assert MemoLinked(g, f, st, y);
    }
  }

  /** Nodes closed under taking parents that hold every start hold
      everything reachable from a start. */
  lemma MappedReachable(g: Graph, keys: set<nat>, starts: seq<nat>, x: nat)
    requires forall y, k :: y in keys && y < |g| && 0 <= k < |g[y]| ==> g[y][k] in keys
    requires forall k :: 0 <= k < |starts| ==> starts[k] in keys
    requires ReachableFromAny(g, starts, x)
    ensures x in keys
  {
    var i :| 0 <= i < |starts| && Reaches(g, starts[i], x);
    var w :| IsWalk(g, w) && w[0] == starts[i] && w[|w| - 1] == x;
    ClosedReach(g, keys, w);
  }

  /** Once nothing is pending and every start is mapped, the mapped nodes are exactly the reachable ones. */
  lemma MappedExactly<U>(g: Graph, f: nat -> U, nodes: seq<nat>, st: MapState<U>)
    requires MapInv(g, f, nodes, st, {})
    requires forall k :: 0 <= k < |nodes| ==> nodes[k] in st.memo
    ensures forall x :: x in st.memo <==> ReachableFromAny(g, nodes, x)
  {
    MappedClosed(g, f, nodes, st);
    forall x | ReachableFromAny(g, nodes, x)
      ensures x in st.memo
    {
      MappedReachable(g, st.memo.Keys, nodes, x);
    }
  }

  /** With nothing pending and every start mapped, the state is a copy. */
  lemma InvIsCopy<U>(g: Graph, f: nat -> U, nodes: seq<nat>, st: MapState<U>, ids: seq<nat>)
    requires MapInv(g, f, nodes, st, {})
    requires forall k :: 0 <= k < |nodes| ==> nodes[k] in st.memo
    requires ids == Translate(st.memo, nodes)
    ensures Copy(g, f, nodes, st.memo, ids, st.made)
  {
    assert forall x :: x in st.memo <==> ReachableFromAny(g, nodes, x) by {
      MappedExactly(g, f, nodes, st);
    }
    assert MapState(st.memo, st.made) == st;
    CopyFrom(g, f, nodes, st.memo, ids, st.made);
  }

  /** The parts of `Copy`, one by one. */
  lemma CopyFrom<U>(g: Graph, f: nat -> U, nodes: seq<nat>, h: map<nat, nat>, ids: seq<nat>, made: seq<Mapped<U>>)
    requires WellFormed(g)
    requires forall x :: x in h <==> ReachableFromAny(g, nodes, x)
    requires Sound(g, MapState(h, made))
    requires |ids| == |nodes| && forall k :: 0 <= k < |nodes| ==> nodes[k] in h && ids[k] == h[nodes[k]]
    requires forall x {:trigger MemoLinked(g, f, MapState(h, made), x)} :: x in h ==> MemoLinked(g, f, MapState(h, made), x)
    ensures Copy(g, f, nodes, h, ids, made)
  {
  }

  lemma MapDagNodesCopy<U>(g: Graph, f: nat -> U, nodes: seq<nat>)
    requires WellFormed(g) && AllNodes(g, nodes)
    ensures var (ids, st) := MapAll(g, f, nodes, MapState(map[], []));
      Copy(g, f, nodes, st.memo, ids, st.made)
  {
    var st0: MapState<U> := MapState(map[], []);
    forall k | 0 <= k < |nodes|
      ensures ReachableFromAny(g, nodes, nodes[k])
    {
      ReachesRefl(g, nodes[k]);
    }
    assert MapInv(g, f, nodes, st0, {});
    MapAllSpec(g, f, nodes, nodes, st0, {});
    var (ids, st) := MapAll(g, f, nodes, st0);
    InvIsCopy(g, f, nodes, st, ids);
  }
}

=== FILE: node_depth.dfy ===
/** `node_depth`, `distance_to_primary_level` and `distance_to_root_level`
    from GOLEM's graph utilities, on index graphs. */
module Depths {
  import opened Dag
  import opened GraphCycle
  import opened Builtins

  // ---------------------------------------------------------------------
  // Reference notions: breadth-first layers and walk lengths

  /** No node of layer `k` already occurs in an earlier layer. */
  ghost predicate Fresh(g: Graph, v: nat, k: nat)
    requires WellFormed(g) && v < |g|
  {
    forall x, j :: 0 <= j < k && x in Layer(g, v, k) ==> x !in Layer(g, v, j)
  }

  /** `x` is the end of a walk of exactly `k` steps from `v`. */
  ghost predicate WalkOfLen(g: Graph, v: nat, x: nat, k: nat) {
    exists w :: IsWalk(g, w) && |w| == k + 1 && w[0] == v && w[k] == x
  }

  /** Some node is reached from `v` by walks of two different lengths. */
  ghost predicate AmbiguousDepth(g: Graph, v: nat) {
    exists x, i, j :: i < j && WalkOfLen(g, v, x, i) && WalkOfLen(g, v, x, j)
  }

  /** Every walk from `v` has at most `k` nodes, and one has exactly `k`. */
  ghost predicate LongestWalk(g: Graph, v: nat, k: nat) {
    && (exists w :: IsWalk(g, w) && w[0] == v && |w| == k)
    && (forall w :: IsWalk(g, w) && w[0] == v ==> |w| <= k)
  }

  // ---------------------------------------------------------------------
  // node_depth as written

  /** The breadth-first loop of `node_depth`: `parents` is the current layer,
      `visited` every node of the earlier layers, `depth` the layer index.
      The scan fails as soon as a node of the current layer was seen before. */
  function DepthLoop(g: Graph, visited: seq<nat>, depth: nat, parents: seq<nat>): (r: int)
    requires WellFormed(g) && AllNodes(g, visited) && AllNodes(g, parents)
    ensures r == -1 || r >= depth
    decreases |g| - |Elems(visited)|
  {
    if parents == [] then depth
    else if exists i :: 0 <= i < |parents| && parents[i] in visited then -1
    else
      ExpandPreservesNodes(g, parents);
      ElemsGrow(g, visited, parents);
      DepthLoop(g, visited + parents, depth + 1, Expand(g, parents))
  }

  /** Appending a layer disjoint from `visited` adds at least one node, within the node range. */
  lemma ElemsGrow(g: Graph, visited: seq<nat>, parents: seq<nat>)
    requires AllNodes(g, visited) && AllNodes(g, parents) && parents != []
    requires forall i :: 0 <= i < |parents| ==> parents[i] !in visited
    ensures AllNodes(g, visited + parents)
    ensures |Elems(visited)| < |Elems(visited + parents)| <= |g|
  {
    var a := Elems(visited);
    var b := Elems(visited + parents);
    assert parents[0] !in a;
    assert a + {parents[0]} <= b;
    SubsetCard(a + {parents[0]}, b);
    assert forall x :: x in b ==> x < |g|;
    SubsetCard(b, Range(|g|));
  }

  /** `node_depth`: 1 for a node without parents, one more per further
      non-empty parent layer, and -1 as soon as a layer repeats a node. */
  function NodeDepth(g: Graph, v: nat): (r: int)
    requires WellFormed(g) && v < |g|
    ensures r == -1 || r >= 1
    ensures r >= 1 ==> Layer(g, v, r) == []
    ensures r >= 1 ==> forall k :: 0 <= k < r ==> Layer(g, v, k) != [] && Fresh(g, v, k)
    ensures r == -1 ==> exists k :: k >= 1 && !Fresh(g, v, k)
                                 && forall j :: 0 <= j < k ==> Layer(g, v, j) != [] && Fresh(g, v, j)
  {
    LayerOne(g, v);
    DepthStateStart(g, v);
    DepthLoopLayers(g, v, [v], 1, g[v]);
    DepthLoop(g, [v], 1, g[v])
  }

  lemma LayerOne(g: Graph, v: nat)
    requires WellFormed(g) && v < |g|
    ensures Layer(g, v, 0) == [v]
    ensures Layer(g, v, 1) == g[v]
  {
    ExpandNSucc(g, [v], 0);
    assert [v][1..] == [];
  }

  /** Loop invariant of `DepthLoop` stated over the reference layers. */
  ghost predicate DepthState(g: Graph, v: nat, visited: seq<nat>, depth: nat, parents: seq<nat>)
    requires WellFormed(g) && v < |g|
  {
    && depth >= 1
    && parents == Layer(g, v, depth)
    && (forall x :: x in visited <==> exists j :: 0 <= j < depth && x in Layer(g, v, j))
    && (forall k :: 0 <= k < depth ==> Layer(g, v, k) != [] && Fresh(g, v, k))
  }

  lemma {:induction false} DepthLoopLayers(g: Graph, v: nat, visited: seq<nat>, depth: nat, parents: seq<nat>)
    requires WellFormed(g) && v < |g| && AllNodes(g, visited) && AllNodes(g, parents)
    requires DepthState(g, v, visited, depth, parents)
    ensures var r := DepthLoop(g, visited, depth, parents);
      && (r >= 1 ==> Layer(g, v, r) == [])
      && (r >= 1 ==> forall k :: 0 <= k < r ==> Layer(g, v, k) != [] && Fresh(g, v, k))
      && (r == -1 ==> exists k :: k >= 1 && !Fresh(g, v, k)
                               && forall j :: 0 <= j < k ==> Layer(g, v, j) != [] && Fresh(g, v, j))
    decreases |g| - |Elems(visited)|
  {
    if parents == [] {
    } else if exists i :: 0 <= i < |parents| && parents[i] in visited {
      var i :| 0 <= i < |parents| && parents[i] in visited;
      var j :| 0 <= j < depth && parents[i] in Layer(g, v, j);
      assert parents[i] in Layer(g, v, depth);
      assert !Fresh(g, v, depth);
    } else {
      ExpandPreservesNodes(g, parents);
      ElemsGrow(g, visited, parents);
      DepthStateStep(g, v, visited, depth, parents);
      DepthLoopLayers(g, v, visited + parents, depth + 1, Expand(g, parents));
    }
  }

  /** The state before the first round of the loop. */
  lemma DepthStateStart(g: Graph, v: nat)
    requires WellFormed(g) && v < |g|
    ensures DepthState(g, v, [v], 1, g[v])
  {
    LayerOne(g, v);
    assert Fresh(g, v, 0);
    forall x
      ensures x in [v] <==> exists j :: 0 <= j < 1 && x in Layer(g, v, j)
    {
      if x in [v] {
        assert x in Layer(g, v, 0);
      }
    }
  }

  /** A round whose layer holds no visited node moves the state one layer on. */
  lemma DepthStateStep(g: Graph, v: nat, visited: seq<nat>, depth: nat, parents: seq<nat>)
    requires WellFormed(g) && v < |g| && AllNodes(g, parents)
    requires DepthState(g, v, visited, depth, parents) && parents != []
    requires forall i :: 0 <= i < |parents| ==> parents[i] !in visited
    ensures DepthState(g, v, visited + parents, depth + 1, Expand(g, parents))
  {
    ExpandNSucc(g, [v], depth);
    FreshStep(g, v, visited, depth, parents);
    DepthVisitedStep(g, v, visited, depth, parents);
  }

  /** A layer disjoint from the visited nodes is fresh. */
  lemma FreshStep(g: Graph, v: nat, visited: seq<nat>, depth: nat, parents: seq<nat>)
    requires WellFormed(g) && v < |g| && parents == Layer(g, v, depth)
    requires forall x :: x in visited <==> exists j :: 0 <= j < depth && x in Layer(g, v, j)
    requires forall i :: 0 <= i < |parents| ==> parents[i] !in visited
    ensures Fresh(g, v, depth)
  {
    forall x, j | 0 <= j < depth && x in Layer(g, v, depth)
      ensures x !in Layer(g, v, j)
    {
      var i :| 0 <= i < |parents| && parents[i] == x;
    }
  }

  /** After a round the visited nodes are those of the first `depth + 1` layers. */
  lemma DepthVisitedStep(g: Graph, v: nat, visited: seq<nat>, depth: nat, parents: seq<nat>)
    requires WellFormed(g) && v < |g| && parents == Layer(g, v, depth)
    requires forall x :: x in visited <==> exists j :: 0 <= j < depth && x in Layer(g, v, j)
    ensures forall x :: x in visited + parents <==> exists j :: 0 <= j < depth + 1 && x in Layer(g, v, j)
  {
    var visited' := visited + parents;
    forall x
      ensures x in visited' <==> exists j :: 0 <= j < depth + 1 && x in Layer(g, v, j)
    {
      if x in visited' && x !in visited {
        assert x in Layer(g, v, depth);
      }
      if exists j :: 0 <= j < depth + 1 && x in Layer(g, v, j) {
        var j :| 0 <= j < depth + 1 && x in Layer(g, v, j);
        if j < depth {
          assert x in visited;
        }
      }
    }
  }

  // ---------------------------------------------------------------------
  // What the result means in terms of walks

  lemma LayerWalk(g: Graph, v: nat, x: nat, k: nat)
    requires WellFormed(g) && v < |g|
    ensures x in Layer(g, v, k) <==> WalkOfLen(g, v, x, k)
  {
    LayerIsWalkEnds(g, v, k, x);
  }

  /** An empty layer `k` bounds every walk from `v` to at most `k` nodes. */
  lemma EmptyLayerBoundsWalks(g: Graph, v: nat, k: nat)
    requires WellFormed(g) && v < |g| && Layer(g, v, k) == []
    ensures forall w :: IsWalk(g, w) && w[0] == v ==> |w| <= k
  {
    forall w | IsWalk(g, w) && w[0] == v
      ensures |w| <= k
    {
      if |w| > k {
        SubWalk(g, w, 0, k + 1);
        var p := w[..k + 1];
        assert p[0] == v && p[k] == w[k];
        LayerIsWalkEnds(g, v, k, w[k]);
      }
    }
  }

  /** A non-empty layer `k` gives a walk of `k + 1` nodes. */
  lemma NonEmptyLayerWalk(g: Graph, v: nat, k: nat)
    requires WellFormed(g) && v < |g| && Layer(g, v, k) != []
    ensures exists w :: IsWalk(g, w) && w[0] == v && |w| == k + 1
  {
    var x := Layer(g, v, k)[0];
    LayerIsWalkEnds(g, v, k, x);
  }

  /** `node_depth` is -1 exactly when some node is reached from `v` by walks
      of two different lengths; otherwise it is the number of nodes of the
      longest walk from `v`. */
  lemma NodeDepthMeaning(g: Graph, v: nat)
    requires WellFormed(g) && v < |g|
    ensures NodeDepth(g, v) == -1 <==> AmbiguousDepth(g, v)
    ensures NodeDepth(g, v) >= 1 ==> LongestWalk(g, v, NodeDepth(g, v))
  {
    var r := NodeDepth(g, v);
    if r == -1 {
      var k :| k >= 1 && !Fresh(g, v, k) && forall j :: 0 <= j < k ==> Layer(g, v, j) != [] && Fresh(g, v, j);
      var x, j :| 0 <= j < k && x in Layer(g, v, k) && x in Layer(g, v, j);
      LayerWalk(g, v, x, k);
      LayerWalk(g, v, x, j);
      assert WalkOfLen(g, v, x, j) && WalkOfLen(g, v, x, k);
    } else {
      EmptyLayerBoundsWalks(g, v, r);
      forall x: nat, i: nat, j: nat
        ensures !(i < j && WalkOfLen(g, v, x, i) && WalkOfLen(g, v, x, j))
      {
        LayerWalk(g, v, x, i);
        LayerWalk(g, v, x, j);
      }
      NonEmptyLayerWalk(g, v, r - 1);
    }
  }

  /** A cycle reachable from `v` always makes `node_depth` report -1. */
  lemma NodeDepthCycle(g: Graph, v: nat)
    requires WellFormed(g) && v < |g| && CycleReachableFrom(g, v)
    ensures NodeDepth(g, v) == -1
  {
    var r := NodeDepth(g, v);
    if r >= 1 {
      ReachableCycleLongWalk(g, v, r);
      EmptyLayerBoundsWalks(g, v, r);
    }
  }

  /** An acyclic graph on which `node_depth` still reports -1: node 0 has
      parents 1 and 2, and 1 also has parent 2, so 2 is met at depth 1 and
      again at depth 2. */
  lemma NodeDepthShortcut()
    ensures WellFormed([[1, 2], [2], []])
    ensures !HasCycle([[1, 2], [2], []])
    ensures NodeDepth([[1, 2], [2], []], 0) == -1
  {
    var g: Graph := [[1, 2], [2], []];
    RankedAcyclic(g, [2, 1, 0]);
    assert IsWalk(g, [0, 2]);
    assert IsWalk(g, [0, 1, 2]);
    assert WalkOfLen(g, 0, 2, 1);
    assert WalkOfLen(g, 0, 2, 2);
    NodeDepthMeaning(g, 0);
  }

  // ---------------------------------------------------------------------
  // node_depth as intended: the longest walk, -1 only on a reachable cycle

  /** First `k` in `start..|g| - 1` whose layer is empty, scanning the layers
      in order; -1 when layer `|g|` is reached non-empty. */
  function FirstEmptyLayer(g: Graph, v: nat, layer: seq<nat>, k: nat): (r: int)
    requires WellFormed(g) && v < |g| && k <= |g| && layer == Layer(g, v, k)
    ensures r == -1 || k <= r <= |g|
    ensures r >= 0 ==> Layer(g, v, r) == [] && forall j :: k <= j < r ==> Layer(g, v, j) != []
    ensures r == -1 ==> forall j :: k <= j <= |g| ==> Layer(g, v, j) != []
    decreases |g| - k
  {
    if layer == [] then k
    else if k == |g| then -1
    else
      ExpandNSucc(g, [v], k);
      FirstEmptyLayer(g, v, Expand(g, layer), k + 1)
  }

  /** Corrected depth: the number of nodes on the longest walk from `v`, or -1
      when a cycle is reachable from `v`. */
  function LongestDepth(g: Graph, v: nat): (r: int)
    requires WellFormed(g) && v < |g|
    ensures r == -1 <==> CycleReachableFrom(g, v)
    ensures r != -1 ==> 1 <= r <= |g| && LongestWalk(g, v, r)
  {
    LayerOne(g, v);
    LongestDepthFacts(g, v);
    FirstEmptyLayer(g, v, g[v], 1)
  }

  lemma LongestDepthFacts(g: Graph, v: nat)
    requires WellFormed(g) && v < |g| && Layer(g, v, 1) == g[v]
    ensures var r := FirstEmptyLayer(g, v, g[v], 1);
      && (r == -1 <==> CycleReachableFrom(g, v))
      && (r != -1 ==> 1 <= r <= |g| && LongestWalk(g, v, r))
  {
    var r := FirstEmptyLayer(g, v, g[v], 1);
    if r == -1 {
      NonEmptyLayerWalk(g, v, |g|);
      var w :| IsWalk(g, w) && w[0] == v && |w| == |g| + 1;
      LongWalkHasCycle(g, w);
    } else {
      LayerOne(g, v);
      assert Layer(g, v, r - 1) != [];
      NonEmptyLayerWalk(g, v, r - 1);
      EmptyLayerBoundsWalks(g, v, r);
      if CycleReachableFrom(g, v) {
        ReachableCycleLongWalk(g, v, r);
      }
    }
  }

  /** The corrected depth is the number of the first empty layer. */
  lemma DepthByLayers(g: Graph, v: nat, d: nat)
    requires WellFormed(g) && v < |g| && 1 <= d
    requires forall j :: 1 <= j < d ==> Layer(g, v, j) != []
    requires Layer(g, v, d) == []
    ensures LongestDepth(g, v) == d
  {
    LayerOne(g, v);
    var r := FirstEmptyLayer(g, v, g[v], 1);
    assert LongestDepth(g, v) == r;
    if r == -1 {
      EmptyLayerBoundsWalks(g, v, d);
      ReachableCycleLongWalk(g, v, d);
      assert false;
    }
  }

  /** Wherever `node_depth` returns a depth, it agrees with the corrected one. */
  lemma NodeDepthAgrees(g: Graph, v: nat)
    requires WellFormed(g) && v < |g|
    ensures NodeDepth(g, v) >= 1 ==> NodeDepth(g, v) == LongestDepth(g, v)
    ensures !CycleReachableFrom(g, v) && NodeDepth(g, v) == -1 ==> AmbiguousDepth(g, v)
  {
    NodeDepthMeaning(g, v);
    var r := NodeDepth(g, v);
    if r >= 1 {
      NodeDepthCycleFree(g, v);
      var d := LongestDepth(g, v);
      var w :| IsWalk(g, w) && w[0] == v && |w| == r;
      var u :| IsWalk(g, u) && u[0] == v && |u| == d;
    }
  }

  lemma NodeDepthCycleFree(g: Graph, v: nat)
    requires WellFormed(g) && v < |g| && NodeDepth(g, v) >= 1
    ensures !CycleReachableFrom(g, v)
  {
    if CycleReachableFrom(g, v) {
      NodeDepthCycle(g, v);
    }
  }

  /** On the counterexample above the corrected depth is 3 (walk 0, 1, 2). */
  lemma LongestDepthShortcut()
    ensures WellFormed([[1, 2], [2], []])
    ensures LongestDepth([[1, 2], [2], []], 0) == 3
  {
    var g: Graph := [[1, 2], [2], []];
    LayerOne(g, 0);
    ExpandNSucc(g, [0], 1);
    ExpandNSucc(g, [0], 2);
    assert Layer(g, 0, 2) == [2];
    assert Layer(g, 0, 3) == [];
  }

  // ---------------------------------------------------------------------
  // distance_to_primary_level

  /** `node_depth - 1` when positive, else -1. */
  function DistanceToPrimaryLevel(g: Graph, v: nat): (r: int)
    requires WellFormed(g) && v < |g|
    ensures r == -1 <==> AmbiguousDepth(g, v)
    ensures r >= 0 ==> LongestWalk(g, v, r + 1)
  {
    NodeDepthMeaning(g, v);
    var depth := NodeDepth(g, v);
    if depth > 0 then depth - 1 else -1
  }

  // ---------------------------------------------------------------------
  // distance_to_root_level

  /** The `child_height` loop: follow the first child for at most `fuel`
      more rounds; `None` when the rounds run out. */
  function ChildHeight(g: Graph, v: nat, height: nat, fuel: nat): (r: Option<nat>)
    requires v < |g|
    decreases fuel
  {
    if fuel == 0 then None
    else
      match FirstChild(g, v)
      case Some(c) => ChildHeight(g, c, height + 1, fuel - 1)
      case None => Some(height)
  }

  /** `node_children(v)[0]`, or `None` when `v` has no children. */
  function FirstChild(g: Graph, v: nat): (r: Option<nat>)
    ensures r.Some? ==> r.value < |g| && v in g[r.value]
    ensures r.Some? ==> forall c :: 0 <= c < r.value ==> v !in g[c]
  {
    var children := Children(g, v);
    if children == [] then None else Some(children[0])
  }

  /** A node has a first child exactly when some node lists it as a parent. */
  lemma FirstChildNone(g: Graph, v: nat)
    ensures FirstChild(g, v).None? <==> Childless(g, v)
  {
    ChildlessIff(g, v);
  }

  /** No node lists `x` among its parents. */
  ghost predicate Childless(g: Graph, x: nat) {
    forall c :: 0 <= c < |g| ==> x !in g[c]
  }

  lemma ChildlessIff(g: Graph, x: nat)
    ensures Children(g, x) == [] <==> Childless(g, x)
  {
    if Children(g, x) != [] {
      var c := Children(g, x)[0];
      assert x in g[c];
    }
  }

  /** A walk extended by one more parent step. */
  lemma WalkSnoc(g: Graph, w: seq<nat>, x: nat)
    requires IsWalk(g, w) && x < |g| && x in g[w[|w| - 1]]
    ensures IsWalk(g, w + [x]) && (w + [x])[0] == w[0]
  {
  }

  /** `w`, read backwards, follows `node_children(x)[0]` from node to node
      and stops at the first node without children. */
  ghost predicate FirstChildChain(g: Graph, w: seq<nat>) {
    && |w| > 0 && Childless(g, w[0])
    && forall i :: 0 < i < |w| ==> FirstChild(g, w[i]) == Some(w[i - 1])
  }

  /** The first-child chain from a node is unique: two such chains ending
      at the same node have the same length (and so the same nodes). */
  lemma {:induction false} FirstChildChainUnique(g: Graph, w1: seq<nat>, w2: seq<nat>)
    requires FirstChildChain(g, w1) && FirstChildChain(g, w2)
    requires w1[|w1| - 1] == w2[|w2| - 1]
    ensures w1 == w2
    decreases |w1|
  {
    var x := w1[|w1| - 1];
    if |w1| > 1 && |w2| > 1 {
      var u1, u2 := w1[..|w1| - 1], w2[..|w2| - 1];
      assert FirstChild(g, x) == Some(u1[|u1| - 1]) == Some(u2[|u2| - 1]);
      FirstChildChainUnique(g, u1, u2);
      assert w1 == u1 + [x] && w2 == u2 + [x];
    } else {
      ChainEnd(g, w1);
      ChainEnd(g, w2);
    }
  }

  /** A first-child chain stops exactly at the first node without children. */
  lemma ChainEnd(g: Graph, w: seq<nat>)
    requires FirstChildChain(g, w)
    ensures |w| == 1 <==> FirstChild(g, w[|w| - 1]).None?
  {
    if |w| > 1 {
      var i := |w| - 1;
      assert FirstChild(g, w[i]) == Some(w[i - 1]);
    } else {
      FirstChildNone(g, w[0]);
    }
  }

  /** When the loop stops at a node without children, the chain of first
      children from `v`, read backwards, is a walk `w` along `nodes_from`
      from that node to `v`. */
  lemma {:induction false} ChildHeightSome(g: Graph, v: nat, height: nat, fuel: nat) returns (w: seq<nat>)
    requires WellFormed(g) && v < |g| && ChildHeight(g, v, height, fuel).Some?
    ensures height <= ChildHeight(g, v, height, fuel).value < height + fuel
    ensures IsWalk(g, w) && |w| == ChildHeight(g, v, height, fuel).value - height + 1
    ensures w[|w| - 1] == v && FirstChildChain(g, w)
    decreases fuel
  {
    if FirstChild(g, v).None? {
      FirstChildNone(g, v);
      w := [v];
    } else {
      var c := FirstChild(g, v).value;
      var u := ChildHeightSome(g, c, height + 1, fuel - 1);
      WalkSnoc(g, u, v);
      w := u + [v];
    }
  }

  /** A round that does not end the loop moves to the first child. */
  ghost predicate RunsOut(g: Graph, v: nat, height: nat, fuel: nat)
    requires v < |g|
  {
    ChildHeight(g, v, height, fuel).None?
  }

  lemma NextRound(g: Graph, v: nat, height: nat, fuel: nat) returns (c: nat)
    requires v < |g| && fuel > 0 && RunsOut(g, v, height, fuel)
    ensures c < |g| && v in g[c] && RunsOut(g, c, height + 1, fuel - 1)
  {
    c := FirstChild(g, v).value;
  }

  /** A walk of `n` nodes extended by one step is a walk of `n + 1` nodes. */
  lemma WalkExtend(g: Graph, u: seq<nat>, v: nat) returns (w: seq<nat>)
    requires IsWalk(g, u) && v < |g| && v in g[u[|u| - 1]]
    ensures IsWalk(g, w) && |w| == |u| + 1 && w[|u|] == v
  {
    WalkSnoc(g, u, v);
    w := u + [v];
  }

  /** When the rounds run out, the chain is a walk of `fuel + 1` nodes ending at `v`. */
  lemma {:induction false} ChildHeightNone(g: Graph, v: nat, height: nat, fuel: nat) returns (w: seq<nat>)
    requires WellFormed(g) && v < |g| && RunsOut(g, v, height, fuel)
    ensures IsWalk(g, w) && |w| == fuel + 1 && w[fuel] == v
    decreases fuel
  {
    if fuel == 0 {
      w := [v];
    } else {
      var c := NextRound(g, v, height, fuel);
      var u := ChildHeightNone(g, c, height + 1, fuel - 1);
      w := WalkExtend(g, u, v);
    }
  }

  /** `distance_to_root_level`: -1 on a cyclic graph, otherwise the number of
      first-child steps from `node` to a node without children. */
  method DistanceToRootLevel(g: Graph, node: nat) returns (r: Option<int>)
    requires WellFormed(g) && node < |g|
    ensures HasCycle(g) ==> r == Some(-1)
    ensures !HasCycle(g) ==> r.Some? && 0 <= r.value < |g|
    ensures !HasCycle(g) ==> (r.value == 0 <==> Childless(g, node))
    ensures !HasCycle(g) ==> exists w :: IsWalk(g, w) && |w| == r.value + 1 && w[r.value] == node
                                         && FirstChildChain(g, w)
    ensures !HasCycle(g) ==> forall w :: FirstChildChain(g, w) && w[|w| - 1] == node ==> |w| == r.value + 1
  {
    var cyclic := GraphHasCycle(g);
    if cyclic {
      return Some(-1);
    }
    var h := ChildHeight(g, node, 0, |g|);
    if h.None? {
      ghost var w := ChildHeightNone(g, node, 0, |g|);
      LongWalkHasCycle(g, w);
      assert false;
    }
    ghost var w := ChildHeightSome(g, node, 0, |g|);
    assert h.value == 0 ==> w[0] == node;
    forall w' | FirstChildChain(g, w') && w'[|w'| - 1] == node
      ensures |w'| == h.value + 1
    {
      FirstChildChainUnique(g, w, w');
    }
    r := Some(h.value);
  }
}

=== FILE: presenting_results.dfy ===
/** The results of a structural analysis as presented to the user
    (`graph_sa/result_presenting_structures/sa_analysis_results.py`): one
    result object per analysed node and per analysed edge. The result
    objects themselves are not part of this model; they are a type `R`
    with the worst value each reports. */
module PresentingResults {
  import opened Builtins

  datatype Presenting<N, E, R> = Presenting(nodesToAnalyze: seq<N>, edgesToAnalyze: seq<E>,
                                            nodes: seq<R>, edges: seq<R>)

  /** Python's truthiness of an optional list. */
  predicate Truthy<T>(xs: Option<seq<T>>) {
    xs.Some? && |xs.value| > 0
  }

  /** The result objects created for one kind of entity: one per element of
      the list argument when approaches are given, iterating the argument
      itself, so a missing argument raises `TypeError`. */
  function InitialResults<T, R>(toAnalyze: Option<seq<T>>, approaches: Option<seq<string>>,
                                newResult: seq<string> -> R): (r: Result<seq<R>>)
    ensures !Truthy(approaches) ==> r == Ok([])
    ensures Truthy(approaches) ==> (r.Ok? <==> toAnalyze.Some?)
    ensures r.Err? ==> r.error == TypeError
    ensures Truthy(approaches) && r.Ok? ==>
      && |r.value| == |toAnalyze.value|
      && forall k :: 0 <= k < |r.value| ==> r.value[k] == newResult(approaches.value)
  {
    if !Truthy(approaches) then Ok([])
    else if toAnalyze.None? then Err(TypeError)
    else Ok(seq(|toAnalyze.value|, _ => newResult(approaches.value)))
  }

  /** The constructor: the entities to analyse default to the graph's nodes
      and edges when the argument is missing or empty; `newResult` builds
      the result object for a list of approach names. */
  function NewPresenting<N, E, R>(graphNodes: seq<N>, graphEdges: seq<E>,
                                  nodesToAnalyze: Option<seq<N>>, edgesToAnalyze: Option<seq<E>>,
                                  nodesApproaches: Option<seq<string>>, edgesApproaches: Option<seq<string>>,
                                  newResult: seq<string> -> R): (r: Result<Presenting<N, E, R>>)
    ensures r.Ok? <==> InitialResults(nodesToAnalyze, nodesApproaches, newResult).Ok?
                       && InitialResults(edgesToAnalyze, edgesApproaches, newResult).Ok?
    ensures r.Ok? ==> r.value.nodesToAnalyze == (if Truthy(nodesToAnalyze) then nodesToAnalyze.value else graphNodes)
    ensures r.Ok? ==> r.value.edgesToAnalyze == (if Truthy(edgesToAnalyze) then edgesToAnalyze.value else graphEdges)
    ensures r.Ok? ==> r.value.nodes == InitialResults(nodesToAnalyze, nodesApproaches, newResult).value
    ensures r.Ok? ==> r.value.edges == InitialResults(edgesToAnalyze, edgesApproaches, newResult).value
  {
    var nodes :- InitialResults(nodesToAnalyze, nodesApproaches, newResult);
    var edges :- InitialResults(edgesToAnalyze, edgesApproaches, newResult);
    Ok(Presenting(if Truthy(nodesToAnalyze) then nodesToAnalyze.value else graphNodes,
                  if Truthy(edgesToAnalyze) then edgesToAnalyze.value else graphEdges,
                  nodes, edges))
  }

  /** `is_empty`: neither list is ever `None`, so the answer is `False`. */
  function IsEmpty<N, E, R>(p: Presenting<N, E, R>): (r: bool)
    ensures !r
  {
    false
  }

  /** All result objects, nodes before edges. */
  function AllResults<N, E, R>(p: Presenting<N, E, R>): seq<R> {
    p.nodes + p.edges
  }

  function MaxOf<R>(rs: seq<R>, worst: R -> real): (m: real)
    requires |rs| > 0
    ensures forall k :: 0 <= k < |rs| ==> worst(rs[k]) <= m
    ensures exists k :: 0 <= k < |rs| && worst(rs[k]) == m
  {
    if |rs| == 1 then worst(rs[0])
    else
      var m := MaxOf(rs[1..], worst);
      assert forall k :: 1 <= k < |rs| ==> rs[k] == rs[1..][k - 1];
      if worst(rs[0]) >= m then worst(rs[0]) else m
  }

  /** `get_worst_result()`: the greatest worst value over all node and edge
      results, or `None` when there are none. */
  function GetWorstResult<N, E, R>(p: Presenting<N, E, R>, worst: R -> real): (r: Option<real>)
    ensures r.None? <==> p.nodes == [] && p.edges == []
    ensures r.Some? ==> forall k :: 0 <= k < |AllResults(p)| ==> worst(AllResults(p)[k]) <= r.value
    ensures r.Some? ==> exists k :: 0 <= k < |AllResults(p)| && worst(AllResults(p)[k]) == r.value
  {
    var all := AllResults(p);
    if all == [] then None else Some(MaxOf(all, worst))
  }

  /** What `get_info_about_worst_result` returns: `{'value': -1}`, or the
      names and entity of one result. */
  datatype Info<R> = NoWorst | WorstOf(result: R)

  /** The first result whose worst value is `w`. */
  function FirstWith<R>(rs: seq<R>, worst: R -> real, w: real): (i: nat)
    requires exists k :: 0 <= k < |rs| && worst(rs[k]) == w
    ensures i < |rs| && worst(rs[i]) == w
    ensures forall k :: 0 <= k < i ==> worst(rs[k]) != w
  {
    if worst(rs[0]) == w then 0
    else
      var k :| 0 <= k < |rs| && worst(rs[k]) == w;
      assert rs[1..][k - 1] == rs[k];
      1 + FirstWith(rs[1..], worst, w)
  }

  /** `get_info_about_worst_result()`: `{'value': -1}` when the worst value
      is missing or zero, otherwise the first result, nodes before edges,
      whose worst value is the greatest. */
  function GetInfoAboutWorstResult<N, E, R>(p: Presenting<N, E, R>, worst: R -> real): (r: Info<R>)
    ensures r.NoWorst? <==> GetWorstResult(p, worst) in {None, Some(0.0)}
    ensures r.WorstOf? ==> exists i ::
      && 0 <= i < |AllResults(p)| && AllResults(p)[i] == r.result
      && (forall k :: 0 <= k < |AllResults(p)| ==> worst(AllResults(p)[k]) <= worst(r.result))
      && (forall k :: 0 <= k < i ==> worst(AllResults(p)[k]) < worst(r.result))
  {
    var w := GetWorstResult(p, worst);
    if w.None? || w.value == 0.0 then NoWorst
    else
      var all := AllResults(p);
      WorstOf(all[FirstWith(all, worst, w.value)])
  }

  /** `add_node_result(node_result)`. */
  function AddNodeResult<N, E, R>(p: Presenting<N, E, R>, nodeResult: R): (r: Presenting<N, E, R>)
    ensures r.nodes == p.nodes + [nodeResult]
    ensures r.edges == p.edges && r.nodesToAnalyze == p.nodesToAnalyze && r.edgesToAnalyze == p.edgesToAnalyze
  {
    p.(nodes := p.nodes + [nodeResult])
  }

  /** `add_edge_result(edge_result)` as written: the edge result goes to the
      node list. */
  function AddEdgeResult<N, E, R>(p: Presenting<N, E, R>, edgeResult: R): (r: Presenting<N, E, R>)
    ensures r.nodes == p.nodes + [edgeResult]
    ensures r.edges == p.edges && r.nodesToAnalyze == p.nodesToAnalyze && r.edgesToAnalyze == p.edgesToAnalyze
  {
    p.(nodes := p.nodes + [edgeResult])
  }

  /** `add_edge_result(edge_result)` as its name and docstring say: the edge
      result goes to the edge list. */
  function AddEdgeResultFixed<N, E, R>(p: Presenting<N, E, R>, edgeResult: R): (r: Presenting<N, E, R>)
    ensures r.edges == p.edges + [edgeResult]
    ensures r.nodes == p.nodes && r.nodesToAnalyze == p.nodesToAnalyze && r.edgesToAnalyze == p.edgesToAnalyze
  {
    p.(edges := p.edges + [edgeResult])
  }

  /** A batch of results handed over by the node or the edge analysis. */
  datatype Added<R> = NodeAdded(r: R) | EdgeAdded(r: R)

  /** The object after a run of `add_node_result` / `add_edge_result` calls. */
  function AddAll<N, E, R>(p: Presenting<N, E, R>, added: seq<Added<R>>): Presenting<N, E, R>
    decreases |added|
  {
    if added == [] then p
    else
      var q := match added[0]
        case NodeAdded(x) => AddNodeResult(p, x)
        case EdgeAdded(x) => AddEdgeResult(p, x);
      AddAll(q, added[1..])
  }

  /** With the method as written the edge list never changes after
      construction, and every added result, edge or node, lands in the node
      list in the order added. */
  lemma {:induction false} EdgesNeverChange<N, E, R>(p: Presenting<N, E, R>, added: seq<Added<R>>)
    ensures AddAll(p, added).edges == p.edges
    ensures |AddAll(p, added).nodes| == |p.nodes| + |added|
    ensures AddAll(p, added).nodes[..|p.nodes|] == p.nodes
    ensures forall k :: 0 <= k < |added| ==> AddAll(p, added).nodes[|p.nodes| + k] == added[k].r
    decreases |added|
  {
    if added != [] {
      var q := match added[0]
        case NodeAdded(x) => AddNodeResult(p, x)
        case EdgeAdded(x) => AddEdgeResult(p, x);
      EdgesNeverChange(q, added[1..]);
      assert AddAll(p, added).nodes[..|q.nodes|][..|p.nodes|] == AddAll(p, added).nodes[..|p.nodes|];
      forall k | 0 <= k < |added|
        ensures AddAll(p, added).nodes[|p.nodes| + k] == added[k].r
      {
        if k > 0 {
          assert added[1..][k - 1] == added[k];
        } else {
          assert AddAll(p, added).nodes[..|q.nodes|] == q.nodes;
        }
      }
    }
  }

  /** The results of the node analyses among `added`, in order. */
  function NodeResults<R>(added: seq<Added<R>>): seq<R>
    decreases |added|
  {
    if added == [] then []
    else (if added[0].NodeAdded? then [added[0].r] else []) + NodeResults(added[1..])
  }

  /** The results of the edge analyses among `added`, in order. */
  function EdgeResults<R>(added: seq<Added<R>>): seq<R>
    decreases |added|
  {
    if added == [] then []
    else (if added[0].EdgeAdded? then [added[0].r] else []) + EdgeResults(added[1..])
  }

  /** The object after a run of additions, with the corrected `add_edge_result`. */
  function AddAllFixed<N, E, R>(p: Presenting<N, E, R>, added: seq<Added<R>>): Presenting<N, E, R>
    decreases |added|
  {
    if added == [] then p
    else
      var q := match added[0]
        case NodeAdded(x) => AddNodeResult(p, x)
        case EdgeAdded(x) => AddEdgeResultFixed(p, x);
      AddAllFixed(q, added[1..])
  }

  /** With the correction every node result lands in the node list and every
      edge result in the edge list, each in the order added, and the objects
      to analyse are untouched. */
  lemma {:induction false} AddAllFixedSorts<N, E, R>(p: Presenting<N, E, R>, added: seq<Added<R>>)
    ensures AddAllFixed(p, added).nodes == p.nodes + NodeResults(added)
    ensures AddAllFixed(p, added).edges == p.edges + EdgeResults(added)
    ensures AddAllFixed(p, added).nodesToAnalyze == p.nodesToAnalyze
    ensures AddAllFixed(p, added).edgesToAnalyze == p.edgesToAnalyze
    decreases |added|
  {
    if added != [] {
      var q := match added[0]
        case NodeAdded(x) => AddNodeResult(p, x)
        case EdgeAdded(x) => AddEdgeResultFixed(p, x);
      AddAllFixedSorts(q, added[1..]);
      var n := if added[0].NodeAdded? then [added[0].r] else [];
      var e := if added[0].EdgeAdded? then [added[0].r] else [];
      assert q.nodes == p.nodes + n && q.edges == p.edges + e;
      assert (p.nodes + n) + NodeResults(added[1..]) == p.nodes + (n + NodeResults(added[1..]));
      assert (p.edges + e) + EdgeResults(added[1..]) == p.edges + (e + EdgeResults(added[1..]));
    }
  }

  /** Once the edge analysis has added a result, the worst edge is missing
      from the edge list: one edge result added to a fresh object leaves no
      edge results, while the corrected method stores it. */
  lemma EdgeResultMisfiled<N, E, R>(p: Presenting<N, E, R>, edgeResult: R)
    requires p.edges == []
    ensures AddEdgeResult(p, edgeResult).edges == []
    ensures AddEdgeResultFixed(p, edgeResult).edges == [edgeResult]
  {
  }
}

=== FILE: reset_id_fixtures.dfy ===
/** The first edits of `test_reset_descriptive_id` on the index model: each
    of `delete_node`, `disconnect_nodes`, `connect_nodes` and `update_node`
    changes the graph's `descriptive_id`. The graph lists its nodes root
    first, then the parents depth-first. */
module ResetIdFixtures {
  import opened Dag
  import opened LinkedGraphs
  import opened Strings

  /** `get_graph()`: `l0_n1` with parent `l1_n1`, whose parents are `l2_n1`
      (with parent `l3_n1`), `l2_n2` and `l2_n3` (with parent `l2_n2`). */
  predicate GetGraph(l: Linked) {
    && |l.names| == 6 && l.names[0] == "l0_n1" && l.names[1] == "l1_n1" && l.names[2] == "l2_n1"
    && l.names[3] == "l3_n1" && l.names[4] == "l2_n2" && l.names[5] == "l2_n3"
    && |l.links| == 6 && l.links[0] == [1] && l.links[1] == [2, 4, 5] && l.links[2] == [3]
    && l.links[3] == [] && l.links[4] == [] && l.links[5] == [4]
  }

  /** The five nodes left once `l3_n1` is deleted, with the edge
      `l2_n2 -> l2_n3` present or not. */
  predicate Pruned(l: Linked, linked: bool) {
    && |l.names| == 5 && l.names[0] == "l0_n1" && l.names[1] == "l1_n1" && l.names[2] == "l2_n1"
    && l.names[3] == "l2_n2" && l.names[4] == "l2_n3"
    && |l.links| == 5 && l.links[0] == [1] && l.links[1] == [2, 3, 4] && l.links[2] == []
    && l.links[3] == [] && l.links[4] == (if linked then [3] else [])
  }

  // ---------------------------------------------------------------------
  // The edits

  /** The pruned graph after `update_node` replaced `l0_n1` by a parentless
      `new`, which the model appends as the last node. */
  predicate Updated(l: Linked) {
    && |l.names| == 5 && l.names[0] == "l1_n1" && l.names[1] == "l2_n1" && l.names[2] == "l2_n2"
    && l.names[3] == "l2_n3" && l.names[4] == "new"
    && |l.links| == 5 && l.links[0] == [1, 2, 3] && l.links[1] == [] && l.links[2] == []
    && l.links[3] == [2] && l.links[4] == [0]
  }

  /** `delete_node(graph.nodes[3])` removes `l3_n1`; it has no parents to
      hand on, so only `l2_n1` loses its parent. */
  lemma DeleteLeaf(l: Linked)
    requires GetGraph(l)
    ensures Valid(l) && 3 !in l.links[3] && Pruned(DeleteNode(l, 3, Single), true)
  {
    DeleteLeafShape(l);
  }

  lemma DeleteLeafShape(l: Linked)
    requires |l.names| == 6 && |l.links| == 6 && l.links[0] == [1] && l.links[1] == [2, 4, 5]
    requires l.links[2] == [3] && l.links[3] == [] && l.links[4] == [] && l.links[5] == [4]
    ensures Valid(l) && 3 !in l.links[3]
    ensures var r := DeleteNode(l, 3, Single);
      && |r.names| == 5 && r.names[0] == l.names[0] && r.names[1] == l.names[1] && r.names[2] == l.names[2]
      && r.names[3] == l.names[4] && r.names[4] == l.names[5]
      && |r.links| == 5 && r.links[0] == [1] && r.links[1] == [2, 3, 4] && r.links[2] == []
      && r.links[3] == [] && r.links[4] == [3]
  {
    UnlinkLeaf(l);
    var u := Unlink(l, 3, Single);
    var r := DeleteNode(l, 3, Single);
    assert Shifted(4, 3) == 3 && Shifted(5, 3) == 4;
    assert r.links[0] == Shift(u[0], 3) && r.links[1] == Shift(u[1], 3) && r.links[2] == Shift(u[2], 3);
    assert r.links[3] == Shift(u[4], 3) && r.links[4] == Shift(u[5], 3);
    ShiftLeafFacts();
  }

  /** The parent lists of `get_graph()` without `l3_n1`, renumbered. */
  lemma ShiftLeafFacts()
    ensures Shift([1], 3) == [1] && Shift([2, 4, 5], 3) == [2, 3, 4]
    ensures Shift([], 3) == [] && Shift([4], 3) == [3]
  {
  }

  lemma GetGraphValid(l: Linked)
    requires |l.names| == 6 && |l.links| == 6 && l.links[0] == [1] && l.links[1] == [2, 4, 5]
    requires l.links[2] == [3] && l.links[3] == [] && l.links[4] == [] && l.links[5] == [4]
    ensures Valid(l)
  {
    forall i, k | 0 <= i < 6 && 0 <= k < |l.links[i]|
      ensures l.links[i][k] < 6
    {
    }
  }

  /** Unlinking `l3_n1` only empties the parent list of `l2_n1`. */
  lemma UnlinkLeaf(l: Linked)
    requires |l.names| == 6 && |l.links| == 6 && l.links[0] == [1] && l.links[1] == [2, 4, 5]
    requires l.links[2] == [3] && l.links[3] == [] && l.links[4] == [] && l.links[5] == [4]
    ensures Valid(l)
    ensures var u := Unlink(l, 3, Single);
      && u[0] == [1] && u[1] == [2, 4, 5] && u[2] == [] && u[4] == [] && u[5] == [4]
  {
    GetGraphValid(l);
    UnlinkParentless(l, 3, Single);
    var u := RemoveEverywhere(l.links, 3);
    RemoveLeafFacts();
    assert u[0] == [1] && u[1] == [2, 4, 5] && u[2] == [] && u[4] == [] && u[5] == [4];
  }

  /** A node without parents hands nothing on: unlinking it only removes it. */
  lemma UnlinkParentless(l: Linked, v: nat, reconnect: ReconnectType)
    requires Valid(l) && v < |l.names| && v !in l.links[v] && l.links[v] == []
    ensures Unlink(l, v, reconnect) == RemoveEverywhere(l.links, v)
  {
  }

  /** `l3_n1` (node 3) taken out of each parent list of `get_graph()`. */
  lemma RemoveLeafFacts()
    ensures RemoveAll([1], 3) == [1] && RemoveAll([2, 4, 5], 3) == [2, 4, 5]
    ensures RemoveAll([3], 3) == [] && RemoveAll([], 3) == [] && RemoveAll([4], 3) == [4]
  {
  }

  /** `disconnect_nodes(graph.nodes[3], graph.nodes[4])` drops the edge
      `l2_n2 -> l2_n3`, and `connect_nodes` with the same nodes restores it. */
  lemma DisconnectReconnect(l: Linked)
    requires Pruned(l, true)
    ensures Valid(l) && Pruned(DisconnectNodes(l, 3, 4), false)
    ensures ConnectNodes(DisconnectNodes(l, 3, 4), 3, 4) == l
  {
    var d := DisconnectNodes(l, 3, 4);
    assert 3 in l.links[4] && multiset(l.links[4]) == multiset{3};
    assert |d.links[4]| == |multiset(d.links[4])| == 0;
    assert d.links[4] == [] && d.links[4] + [3] == [3];
    var c := ConnectNodes(d, 3, 4);
    assert c.links == d.links[4 := [3]];
    assert c.links == l.links;
  }

  // ---------------------------------------------------------------------
  // Id lengths

  /** The total length of a list of strings. */
  function SumLen(xs: seq<string>): nat {
    if xs == [] then 0 else |xs[0]| + SumLen(xs[1..])
  }

  lemma {:induction false} SumLenAppend(xs: seq<string>, ys: seq<string>)
    ensures SumLen(xs + ys) == SumLen(xs) + SumLen(ys)
  {
    if xs != [] {
      assert (xs + ys)[1..] == xs[1..] + ys;
      SumLenAppend(xs[1..], ys);
    } else {
      assert xs + ys == ys;
    }
  }

  /** The total length does not depend on the order of the strings. */
  lemma {:induction false} SumLenPermutation(xs: seq<string>, ys: seq<string>)
    requires multiset(xs) == multiset(ys)
    ensures SumLen(xs) == SumLen(ys)
    decreases |xs|
  {
    assert |xs| == |multiset(xs)| == |multiset(ys)| == |ys|;
    if xs != [] {
      var x := xs[0];
      assert x in multiset(ys);
      var k :| 0 <= k < |ys| && ys[k] == x;
      var rest := ys[..k] + ys[k + 1..];
      assert ys == ys[..k] + [x] + ys[k + 1..];
      SumLenAppend(ys[..k] + [x], ys[k + 1..]);
      SumLenAppend(ys[..k], [x]);
      SumLenAppend(ys[..k], ys[k + 1..]);
      assert SumLen([x]) == |x|;
      assert multiset(ys) == multiset(rest) + multiset{x};
      assert xs == [x] + xs[1..];
      assert multiset(xs) == multiset(xs[1..]) + multiset{x};
      forall e
        ensures multiset(xs[1..])[e] == multiset(rest)[e]
      {
        assert multiset(xs)[e] == multiset(ys)[e];
      }
      assert multiset(xs[1..]) == multiset(rest);
      SumLenPermutation(xs[1..], rest);
    }
  }

  /** `sep.join(xs)` is as long as the pieces plus one separator between each two. */
  lemma {:induction false} JoinLength(xs: seq<string>, sep: string)
    requires xs != []
    ensures |Join(xs, sep)| == SumLen(xs) + (|xs| - 1) * |sep|
  {
    if |xs| > 1 {
      JoinLength(xs[1..], sep);
    }
  }

  /** The length of a node's id off the path: brackets, the items and the
      separators between them when it has parents, then `/n_` and its name. */
  lemma IdLength(l: Linked, v: nat, s: seq<bool>)
    requires Valid(l) && v < |l.names| && |s| == |l.names| && !s[v]
    ensures |NodeId(l, v, s)|
      == (if l.links[v] == [] then 0 else 1 + SumLen(ParentItems(l, l.links[v], s[v := true])) + |l.links[v]|)
         + 3 + |l.names[v]|
  {
    var items := ParentItems(l, l.links[v], s[v := true]);
    var prefix := if l.links[v] == [] then "" else "(" + Join(Sort(items), ";") + ")";
    assert NodeId(l, v, s) == prefix + "/" + Description(l.names[v]);
    assert |Description(l.names[v])| == 2 + |l.names[v]|;
    if l.links[v] != [] {
      JoinLength(Sort(items), ";");
      SumLenPermutation(Sort(items), items);
      assert |prefix| == 2 + |Join(Sort(items), ";")|;
    }
  }

  lemma SumLenThree(xs: seq<string>)
    requires |xs| == 3
    ensures SumLen(xs) == |xs[0]| + |xs[1]| + |xs[2]|
  {
    var t := xs[1..];
    assert SumLen(t[1..][1..]) == 0;
    assert SumLen(t[1..]) == |xs[2]|;
    assert SumLen(t) == |xs[1]| + |xs[2]|;
  }

  /** The total length of one, or three, parent items. */
  lemma ItemsOne(l: Linked, ps: seq<nat>, s: seq<bool>)
    requires Valid(l) && |s| == |l.names| && |ps| == 1 && ps[0] < |l.names|
    ensures SumLen(ParentItems(l, ps, s)) == |NodeId(l, ps[0], s)| + 1
  {
    var r := ParentItems(l, ps, s);
    assert r[1..] == [];
  }

  lemma ItemsThree(l: Linked, ps: seq<nat>, s: seq<bool>)
    requires Valid(l) && |s| == |l.names| && |ps| == 3 && forall k :: 0 <= k < 3 ==> ps[k] < |l.names|
    ensures SumLen(ParentItems(l, ps, s))
      == |NodeId(l, ps[0], s)| + |NodeId(l, ps[1], s)| + |NodeId(l, ps[2], s)| + 3
  {
    SumLenThree(ParentItems(l, ps, s));
  }

  /** A node without parents, named with five characters, has an id of 8. */
  lemma LeafLength(l: Linked, v: nat, s: seq<bool>)
    requires Valid(l) && v < |l.names| && |s| == |l.names| && !s[v] && l.links[v] == [] && |l.names[v]| == 5
    ensures |NodeId(l, v, s)| == 8
  {
    IdLength(l, v, s);
  }

  /** A node with one parent, named with five characters, adds 11 to its parent's id. */
  lemma OneParentLength(l: Linked, v: nat, s: seq<bool>)
    requires Valid(l) && v < |l.names| && |s| == |l.names| && !s[v] && |l.links[v]| == 1 && |l.names[v]| == 5
    ensures |NodeId(l, v, s)| == |NodeId(l, l.links[v][0], s[v := true])| + 11
  {
    IdLength(l, v, s);
    ItemsOne(l, l.links[v], s[v := true]);
  }

  /** A node with three parents, named with five characters: 15 more than the three parent ids together. */
  lemma MiddleLength(l: Linked, v: nat, s: seq<bool>)
    requires Valid(l) && v < |l.names| && |s| == |l.names| && !s[v] && |l.links[v]| == 3 && |l.names[v]| == 5
    ensures var t := s[v := true];
      |NodeId(l, v, s)|
        == |NodeId(l, l.links[v][0], t)| + |NodeId(l, l.links[v][1], t)| + |NodeId(l, l.links[v][2], t)| + 15
  {
    IdLength(l, v, s);
    ItemsThree(l, l.links[v], s[v := true]);
  }

  // ---------------------------------------------------------------------
  // The three graphs

  /** Every graph of the test has the single root `l0_n1`, so its
      `descriptive_id` is the id of node 0, 11 longer than that of `l1_n1`. */
  lemma RootOnly(l: Linked)
    requires Valid(l) && 1 < |l.names| && l.links[0] == [1] && |l.names[0]| == 5
    requires forall c :: 0 <= c < |l.links| ==> 0 !in l.links[c]
    requires forall v :: 1 <= v < |l.links| ==> Children(l.links, v) != []
    ensures |DescriptiveId(l)| == |NodeId(l, 1, NoneSeen(|l.names|)[0 := true])| + 11
  {
    var g := l.links;
    NoChildren(g, 0, 0);
    RootsOnlyFirst(g, 1);
    assert RootNodes(g) == RootsFrom(g, 0) == [0] + RootsFrom(g, 1);
    assert Roots(l) == [0];
    assert [0][1..] == [] && RootIds(l, []) == "";
    assert RootIds(l, [0]) == NodeId(l, 0, NoneSeen(|l.names|)) + RootIds(l, [0][1..]);
    assert DescriptiveId(l) == NodeId(l, 0, NoneSeen(|l.names|));
    OneParentLength(l, 0, NoneSeen(|l.names|));
  }

  lemma {:induction false} RootsOnlyFirst(g: Graph, start: nat)
    requires 1 <= start <= |g|
    requires forall v :: 1 <= v < |g| ==> Children(g, v) != []
    ensures RootsFrom(g, start) == []
    decreases |g| - start
  {
    if start < |g| {
      RootsOnlyFirst(g, start + 1);
    }
  }

  /** `v` has a child, `c`. */
  lemma HasChild(g: Graph, v: nat, c: nat)
    requires c < |g| && v in g[c]
    ensures Children(g, v) != []
  {
  }

  /** Every node name has five characters. */
  predicate FiveLetterNames(l: Linked) {
    forall i :: 0 <= i < |l.names| ==> |l.names[i]| == 5
  }

  /** `descriptive_id` of `get_graph()` is 72 characters long. */
  lemma GetGraphIdLength(l: Linked)
    requires GetGraph(l)
    ensures Valid(l) && |DescriptiveId(l)| == 72
  {
    GetGraphShapeLength(l);
  }

  lemma GetGraphShapeLength(l: Linked)
    requires |l.names| == 6 && FiveLetterNames(l)
    requires |l.links| == 6 && l.links[0] == [1] && l.links[1] == [2, 4, 5] && l.links[2] == [3]
    requires l.links[3] == [] && l.links[4] == [] && l.links[5] == [4]
    ensures Valid(l) && |DescriptiveId(l)| == 72
  {
    var g := l.links;
    assert WellFormed(g) by {
      forall i, k | 0 <= i < 6 && 0 <= k < |g[i]|
        ensures g[i][k] < 6
      {
      }
    }
    forall v | 1 <= v < 6
      ensures Children(g, v) != []
    {
      HasChild(g, v, if v == 1 then 0 else if v == 3 then 2 else 1);
    }
    RootOnly(l);
    GetGraphMiddleLength(l, NoneSeen(6)[0 := true]);
  }

  /** In `get_graph()`, the id of `l1_n1` seen from the root is 61 characters long. */
  lemma GetGraphMiddleLength(l: Linked, s: seq<bool>)
    requires Valid(l) && |l.names| == 6 && FiveLetterNames(l) && s == NoneSeen(6)[0 := true]
    requires l.links[1] == [2, 4, 5] && l.links[2] == [3]
    requires l.links[3] == [] && l.links[4] == [] && l.links[5] == [4]
    ensures |NodeId(l, 1, s)| == 61
  {
    var t := s[1 := true];
    MiddleLength(l, 1, s);
    LeafOfLeafLength(l, 2, 3, t);
    LeafLength(l, 4, t);
    LeafOfLeafLength(l, 5, 4, t);
  }

  /** A node whose one parent has no parents: 19 characters, both names
      having five. */
  lemma LeafOfLeafLength(l: Linked, v: nat, p: nat, s: seq<bool>)
    requires Valid(l) && FiveLetterNames(l) && v < |l.names| && p < |l.names| && v != p
    requires |s| == |l.names| && !s[v] && !s[p] && l.links[v] == [p] && l.links[p] == []
    ensures |NodeId(l, v, s)| == 19
  {
    OneParentLength(l, v, s);
    LeafLength(l, p, s[v := true]);
  }

  /** With `l2_n2 -> l2_n3` the five-node graph's id is 61 characters long;
      without it, 50. */
  lemma PrunedIdLength(l: Linked, linked: bool)
    requires Pruned(l, linked)
    ensures Valid(l) && |DescriptiveId(l)| == (if linked then 61 else 50)
  {
    PrunedShapeLength(l, linked);
  }

  lemma PrunedShapeLength(l: Linked, linked: bool)
    requires |l.names| == 5 && FiveLetterNames(l)
    requires |l.links| == 5 && l.links[0] == [1] && l.links[1] == [2, 3, 4] && l.links[2] == []
    requires l.links[3] == [] && l.links[4] == (if linked then [3] else [])
    ensures Valid(l) && |DescriptiveId(l)| == (if linked then 61 else 50)
  {
    var g := l.links;
    assert WellFormed(g) by {
      forall i, k | 0 <= i < 5 && 0 <= k < |g[i]|
        ensures g[i][k] < 5
      {
      }
    }
    forall v | 1 <= v < 5
      ensures Children(g, v) != []
    {
      HasChild(g, v, if v == 1 then 0 else 1);
    }
    RootOnly(l);
    PrunedMiddleLength(l, linked, NoneSeen(5)[0 := true]);
  }

  /** In the five-node graph, the id of `l1_n1` seen from the root. */
  lemma PrunedMiddleLength(l: Linked, linked: bool, s: seq<bool>)
    requires Valid(l) && |l.names| == 5 && FiveLetterNames(l) && s == NoneSeen(5)[0 := true]
    requires l.links[1] == [2, 3, 4] && l.links[2] == []
    requires l.links[3] == [] && l.links[4] == (if linked then [3] else [])
    ensures |NodeId(l, 1, s)| == (if linked then 50 else 39)
  {
    var t := s[1 := true];
    MiddleLength(l, 1, s);
    LeafLength(l, 2, t);
    LeafLength(l, 3, t);
    if linked {
      LeafOfLeafLength(l, 4, 3, t);
    } else {
      LeafLength(l, 4, t);
    }
  }

  /** `update_node(graph.nodes[0], LinkedGraphNode('new'))` on the five-node
      graph: the root `l0_n1` gives way to `new`, which takes its parent
      `l1_n1` and joins the end of the node list. */
  lemma UpdateRoot(l: Linked)
    requires Pruned(l, true)
    ensures Valid(l) && 0 !in l.links[0]
    ensures Updated(UpdateNode(l, 0, "new"))
  {
    UpdateRootShape(l);
  }

  lemma UpdateRootShape(l: Linked)
    requires |l.names| == 5 && |l.links| == 5 && l.links[0] == [1] && l.links[1] == [2, 3, 4]
    requires l.links[2] == [] && l.links[3] == [] && l.links[4] == [3]
    ensures Valid(l) && 0 !in l.links[0]
    ensures var r := UpdateNode(l, 0, "new");
      && |r.names| == 5 && r.names[0] == l.names[1] && r.names[1] == l.names[2] && r.names[2] == l.names[3]
      && r.names[3] == l.names[4] && r.names[4] == "new"
      && |r.links| == 5 && r.links[0] == [1, 2, 3] && r.links[1] == [] && r.links[2] == []
      && r.links[3] == [2] && r.links[4] == [0]
  {
    assert WellFormed(l.links) by {
      forall i, k | 0 <= i < 5 && 0 <= k < |l.links[i]|
        ensures l.links[i][k] < 5
      {
      }
    }
    var r := UpdateNode(l, 0, "new");
    assert Shifted(1, 0) == 0 && Shifted(2, 0) == 1 && Shifted(3, 0) == 2 && Shifted(4, 0) == 3;
    assert r.links[0] == Shift(ReplaceAll(l.links[1], 0, 5), 0);
    assert r.links[1] == Shift(ReplaceAll(l.links[2], 0, 5), 0);
    assert r.links[2] == Shift(ReplaceAll(l.links[3], 0, 5), 0);
    assert r.links[3] == Shift(ReplaceAll(l.links[4], 0, 5), 0);
    UpdateRootFacts();
  }

  /** The parent lists of the five-node graph with `l0_n1` replaced and removed. */
  lemma UpdateRootFacts()
    ensures ReplaceAll([2, 3, 4], 0, 5) == [2, 3, 4] && ReplaceAll([], 0, 5) == [] && ReplaceAll([3], 0, 5) == [3]
    ensures Shift([2, 3, 4], 0) == [1, 2, 3] && Shift([], 0) == [] && Shift([3], 0) == [2] && Shift([1], 0) == [0]
  {
    assert ReplaceAll([2, 3, 4], 0, 5)[0] == 2;
  }

  /** After the update the only root is `new` (node 4); its id is 59
      characters long, two fewer than before, its name being two shorter. */
  lemma UpdatedIdLength(l: Linked)
    requires Updated(l)
    ensures Valid(l) && |DescriptiveId(l)| == 59
  {
    UpdatedShapeLength(l);
  }

  lemma UpdatedShapeLength(l: Linked)
    requires |l.names| == 5 && |l.links| == 5 && l.links[0] == [1, 2, 3] && l.links[1] == []
    requires l.links[2] == [] && l.links[3] == [2] && l.links[4] == [0]
    requires forall i :: 0 <= i < 4 ==> |l.names[i]| == 5
    requires |l.names[4]| == 3
    ensures Valid(l) && |DescriptiveId(l)| == 59
  {
    var n := NoneSeen(5);
    UpdatedRoot(l);
    IdLength(l, 4, n);
    ItemsOne(l, l.links[4], n[4 := true]);
    UpdatedParentLength(l, n[4 := true]);
  }

  /** The node appended last is the only root, so its id is the graph's. */
  lemma UpdatedRoot(l: Linked)
    requires |l.names| == 5 && |l.links| == 5 && l.links[0] == [1, 2, 3] && l.links[1] == []
    requires l.links[2] == [] && l.links[3] == [2] && l.links[4] == [0]
    ensures Valid(l) && DescriptiveId(l) == NodeId(l, 4, NoneSeen(5))
  {
    var g := l.links;
    assert WellFormed(g) by {
      forall i, k | 0 <= i < 5 && 0 <= k < |g[i]|
        ensures g[i][k] < 5
      {
      }
    }
    HasChild(g, 0, 4);
    HasChild(g, 1, 0);
    HasChild(g, 2, 0);
    HasChild(g, 3, 0);
    NoChildren(g, 4, 0);
    assert RootsFrom(g, 5) == [];
    assert RootsFrom(g, 4) == [4];
    assert RootsFrom(g, 3) == [4];
    assert RootsFrom(g, 2) == [4];
    assert RootsFrom(g, 1) == [4];
    assert RootsFrom(g, 0) == [4];
    assert Roots(l) == [4];
    var n := NoneSeen(5);
    assert [4][1..] == [] && RootIds(l, []) == "";
    assert RootIds(l, [4]) == NodeId(l, 4, n) + RootIds(l, [4][1..]);
  }

  lemma UpdatedParentLength(l: Linked, s: seq<bool>)
    requires Valid(l) && |l.names| == 5 && s == NoneSeen(5)[4 := true]
    requires l.links[0] == [1, 2, 3] && l.links[1] == [] && l.links[2] == [] && l.links[3] == [2]
    requires forall i :: 0 <= i < 4 ==> |l.names[i]| == 5
    ensures |NodeId(l, 0, s)| == 50
  {
    var t := s[0 := true];
    MiddleLength(l, 0, s);
    LeafLength(l, 1, t);
    LeafLength(l, 2, t);
    OneParentLength(l, 3, t);
    LeafLength(l, 2, t[3 := true]);
  }

  /** `test_reset_descriptive_id`, first four edits: deleting `nodes[3]`,
      disconnecting `nodes[3]` from `nodes[4]`, connecting them again, and
      replacing `nodes[0]` by `new`, each changes `descriptive_id`. */
  lemma ResetDescriptiveId(l: Linked)
    requires GetGraph(l)
    ensures Valid(l) && 3 !in l.links[3]
    ensures var d := DeleteNode(l, 3, Single);
      && DescriptiveId(d) != DescriptiveId(l)
      && DescriptiveId(DisconnectNodes(d, 3, 4)) != DescriptiveId(d)
      && DescriptiveId(ConnectNodes(DisconnectNodes(d, 3, 4), 3, 4)) != DescriptiveId(DisconnectNodes(d, 3, 4))
    ensures var c := ConnectNodes(DisconnectNodes(DeleteNode(l, 3, Single), 3, 4), 3, 4);
      0 !in c.links[0] && DescriptiveId(UpdateNode(c, 0, "new")) != DescriptiveId(c)
  {
    DeleteLeaf(l);
    var d := DeleteNode(l, 3, Single);
    DisconnectReconnect(d);
    GetGraphIdLength(l);
    PrunedIdLength(d, true);
    PrunedIdLength(DisconnectNodes(d, 3, 4), false);
    UpdateChangesId(d);
  }

  /** Replacing the root `l0_n1` by `new` shortens the id from 61 to 59 characters. */
  lemma UpdateChangesId(d: Linked)
    requires Pruned(d, true)
    ensures Valid(d) && 0 !in d.links[0]
    ensures |DescriptiveId(d)| == 61 && |DescriptiveId(UpdateNode(d, 0, "new"))| == 59
  {
    PrunedIdLength(d, true);
    UpdatedLength(d);
  }

  lemma UpdatedLength(d: Linked)
    requires Pruned(d, true)
    ensures Valid(d) && 0 !in d.links[0] && |DescriptiveId(UpdateNode(d, 0, "new"))| == 59
  {
    UpdateRoot(d);
    UpdatedIdLength(UpdateNode(d, 0, "new"));
  }
}

=== FILE: reward_agent.dfy ===
/** `RewardAgent`: turns the raw fitness rewards observed for each pull of
    an operator ("arm") into fitness-rank rates, one per pull. */
module Rewards {
  import opened Builtins

  // ---------------------------------------------------------------------
  // Reference definitions

  /** The rewards of the first `|rewards|` pulls that went to arm `a`, summed. */
  function SumAt(rewards: seq<real>, arms: seq<int>, a: int): real
    requires |rewards| <= |arms|
  {
    if rewards == [] then 0.0
    else
      var n := |rewards| - 1;
      SumAt(rewards[..n], arms, a) + (if arms[n] == a then rewards[n] else 0.0)
  }

  /** An arm pulled at none of the rewarded positions has collected nothing. */
  lemma {:induction false} SumAtAbsent(rewards: seq<real>, arms: seq<int>, a: int)
    requires |rewards| <= |arms|
    requires forall i :: 0 <= i < |rewards| ==> arms[i] != a
    ensures SumAt(rewards, arms, a) == 0.0
  {
    if rewards != [] {
      SumAtAbsent(rewards[..|rewards| - 1], arms, a);
    }
  }

  /** Pulls of one arm only: that arm collects every reward, one after the
      other. */
  lemma {:induction false} SumAtSnoc(rewards: seq<real>, arms: seq<int>, a: int, x: real)
    requires |rewards| < |arms| && arms[|rewards|] == a
    ensures SumAt(rewards + [x], arms, a) == SumAt(rewards, arms, a) + x
  {
    assert (rewards + [x])[..|rewards|] == rewards;
  }

  /** One more reward goes to the arm of its pull and to no other. */
  lemma SumAtStep(rewards: seq<real>, arms: seq<int>, i: nat)
    requires i < |rewards| && i < |arms|
    ensures forall a :: SumAt(rewards[..i + 1], arms, a)
                        == SumAt(rewards[..i], arms, a) + (if arms[i] == a then rewards[i] else 0.0)
  {
    assert rewards[..i + 1][..i] == rewards[..i];
  }

  /** The distinct arms, each where it first appears. */
  function Dedup(xs: seq<int>): (r: seq<int>)
    ensures Distinct(r)
    ensures forall x :: x in r <==> x in xs
  {
    if xs == [] then []
    else
      var d := Dedup(xs[..|xs| - 1]);
      var x := xs[|xs| - 1];
      assert forall y :: y in xs <==> y in xs[..|xs| - 1] || y == x by {
        assert xs == xs[..|xs| - 1] + [x];
      }
      if x in d then d else d + [x]
  }

  /** `xs.index(x)`: the first position holding `x`. */
  function IndexOf(xs: seq<int>, x: int): (r: nat)
    requires x in xs
    ensures r < |xs| && xs[r] == x
    ensures forall j :: 0 <= j < r ==> xs[j] != x
  {
    if xs[0] == x then 0 else 1 + IndexOf(xs[1..], x)
  }

  /** `sum(abs(v) for v in xs)`. */
  function AbsSum(xs: seq<real>): (r: real)
    ensures r >= 0.0
  {
    if xs == [] then 0.0 else Abs(xs[0]) + AbsSum(xs[1..])
  }

  // ---------------------------------------------------------------------
  // get_decay_values_for_arms

  /** The loop of `get_decay_values_for_arms`: a dict from every arm to the
      sum of its rewards; a reward past the last pull raises `IndexError`. */
  method SumsPerArm(rewards: seq<real>, arms: seq<int>) returns (r: Result<map<int, real>>)
    ensures r.Ok? <==> |rewards| <= |arms|
    ensures r.Err? ==> r.error == IndexError
    ensures r.Ok? ==> forall k :: 0 <= k < |arms| ==> arms[k] in r.value
    ensures r.Ok? ==> forall a :: a in r.value ==> r.value[a] == SumAt(rewards, arms, a)
  {
    var decays: map<int, real> := map a | a in arms :: 0.0;
    var i := 0;
    while i < |rewards|
      invariant 0 <= i <= |rewards| && i <= |arms|
      invariant decays.Keys == set a | a in arms
      invariant forall a :: a in decays ==> decays[a] == SumAt(rewards[..i], arms, a)
    {
      if i >= |arms| {
        return Err(IndexError);
      }
      SumAtStep(rewards, arms, i);
      decays := decays[arms[i] := decays[arms[i]] + rewards[i]];
      i := i + 1;
    }
    assert rewards[..i] == rewards;
    return Ok(decays);
  }

  /** `get_decay_values_for_arms(rewards, arms)`: for each distinct arm the
      decayed sum of its rewards. Reward `i` belongs to pull `i`, so more
      rewards than pulls raises `IndexError`. */
  method DecayValuesForArms(decayingFactor: real, rewards: seq<real>, arms: seq<int>)
    returns (r: Result<(seq<int>, seq<real>)>)
    ensures r.Ok? <==> |rewards| <= |arms|
    ensures r.Err? ==> r.error == IndexError
    ensures r.Ok? ==> r.value.0 == Dedup(arms) && |r.value.1| == |r.value.0|
    ensures r.Ok? ==> forall j :: 0 <= j < |r.value.1| ==>
      r.value.1[j] == decayingFactor * SumAt(rewards, arms, r.value.0[j])
  {
    var sums := SumsPerArm(rewards, arms);
    if sums.Err? {
      return Err(sums.error);
    }
    var decays := sums.value;
    var unique := Dedup(arms);
    forall j | 0 <= j < |unique|
      ensures unique[j] in decays
    {
      assert unique[j] in unique;
      var k :| 0 <= k < |arms| && arms[k] == unique[j];
    }
    var values := seq(|unique|, j requires 0 <= j < |unique| => decayingFactor * decays[unique[j]]);
    return Ok((unique, values));
  }

  // ---------------------------------------------------------------------
  // get_fitness_rank_rate

  function Scale(xs: seq<real>, c: real): (r: seq<real>)
    requires c != 0.0
    ensures |r| == |xs|
    ensures forall k :: 0 <= k < |xs| ==> r[k] == xs[k] / c
  {
    if xs == [] then [] else [xs[0] / c] + Scale(xs[1..], c)
  }

  /** `get_fitness_rank_rate(decay_values)`: each value divided by the sum of
      the absolute values, or the single rate `[0.0]` when that sum is zero. */
  function FitnessRankRate(decayValues: seq<real>): (r: seq<real>)
    ensures AbsSum(decayValues) == 0.0 ==> r == [0.0]
    ensures AbsSum(decayValues) != 0.0 ==> r == Scale(decayValues, AbsSum(decayValues))
  {
    var total := AbsSum(decayValues);
    if total != 0.0 then Scale(decayValues, total) else [0.0]
  }

  lemma AbsDiv(x: real, c: real)
    requires c > 0.0
    ensures Abs(x / c) == Abs(x) / c
  {
    if x < 0.0 {
      assert x / c < 0.0;
      assert -(x / c) == (-x) / c;
    } else {
      assert x / c >= 0.0;
    }
  }

  lemma SumDiv(a: real, b: real, c: real)
    requires c > 0.0
    ensures (a + b) / c == a / c + b / c
  {
  }

  lemma {:induction false} AbsSumScale(xs: seq<real>, c: real)
    requires c > 0.0
    ensures AbsSum(Scale(xs, c)) == AbsSum(xs) / c
  {
    if xs != [] {
      var ys := Scale(xs, c);
      AbsSumScale(xs[1..], c);
      assert ys[1..] == Scale(xs[1..], c);
      assert AbsSum(ys) == Abs(ys[0]) + AbsSum(ys[1..]);
      AbsDiv(xs[0], c);
      SumDiv(Abs(xs[0]), AbsSum(xs[1..]), c);
    }
  }

  lemma DivSign(x: real, c: real)
    requires c > 0.0
    ensures (x / c > 0.0 <==> x > 0.0) && (x / c < 0.0 <==> x < 0.0)
  {
    if x > 0.0 {
      assert x / c > 0.0;
    } else if x < 0.0 {
      assert x / c < 0.0;
    } else {
      assert x / c == 0.0;
    }
  }

  /** Every rate has the sign of its decay value: a rewarded arm keeps a
      positive rate and a penalised one a negative rate. */
  lemma FitnessRankRateSigns(decayValues: seq<real>)
    requires AbsSum(decayValues) != 0.0
    ensures |FitnessRankRate(decayValues)| == |decayValues|
    ensures forall k :: 0 <= k < |decayValues| ==>
      && (FitnessRankRate(decayValues)[k] > 0.0 <==> decayValues[k] > 0.0)
      && (FitnessRankRate(decayValues)[k] < 0.0 <==> decayValues[k] < 0.0)
  {
    var total := AbsSum(decayValues);
    forall k | 0 <= k < |decayValues|
      ensures (Scale(decayValues, total)[k] > 0.0 <==> decayValues[k] > 0.0)
      ensures (Scale(decayValues, total)[k] < 0.0 <==> decayValues[k] < 0.0)
    {
      DivSign(decayValues[k], total);
    }
  }

  lemma DivSelf(c: real)
    requires c > 0.0
    ensures c / c == 1.0
  {
  }

  /** The rates are normalised: their absolute values sum to one, whenever
      any decay value is non-zero. */
  lemma FitnessRankRateNormalised(decayValues: seq<real>)
    requires AbsSum(decayValues) != 0.0
    ensures AbsSum(FitnessRankRate(decayValues)) == 1.0
  {
    var total := AbsSum(decayValues);
    AbsSumScale(decayValues, total);
    DivSelf(total);
  }

  /** The sum of absolute values is zero exactly when every value is. */
  lemma {:induction false} AbsSumZero(xs: seq<real>)
    ensures AbsSum(xs) == 0.0 <==> forall k :: 0 <= k < |xs| ==> xs[k] == 0.0
  {
    if xs != [] {
      AbsSumZero(xs[1..]);
      assert forall k :: 1 <= k < |xs| ==> xs[k] == xs[1..][k - 1];
    }
  }

  // ---------------------------------------------------------------------
  // get_rewards_for_arms

  /** `[frr_per_arm[unique_arms.index(arm)] for arm in arms]`. */
  function PickRates(frr: seq<real>, unique: seq<int>, arms: seq<int>): (r: Result<seq<real>>)
    requires forall a :: a in arms ==> a in unique
    ensures r.Ok? <==> forall k :: 0 <= k < |arms| ==> IndexOf(unique, arms[k]) < |frr|
    ensures r.Err? ==> r.error == IndexError
    ensures r.Ok? ==> |r.value| == |arms|
    ensures r.Ok? ==> forall k :: 0 <= k < |arms| ==> r.value[k] == frr[IndexOf(unique, arms[k])]
  {
    if arms == [] then Ok([])
    else
      var rate :- PyIndex(frr, IndexOf(unique, arms[0]));
      var rest :- PickRates(frr, unique, arms[1..]);
      assert forall k :: 1 <= k < |arms| ==> arms[k] == arms[1..][k - 1];
      Ok([rate] + rest)
  }

  /** The decayed reward sum of arm `a`. */
  function DecayOf(decayingFactor: real, rewards: seq<real>, arms: seq<int>, a: int): real
    requires |rewards| <= |arms|
  {
    decayingFactor * SumAt(rewards, arms, a)
  }

  /** The decayed reward sum of every distinct arm. */
  function Decays(decayingFactor: real, rewards: seq<real>, arms: seq<int>): (r: seq<real>)
    requires |rewards| <= |arms|
    ensures |r| == |Dedup(arms)|
    ensures forall j :: 0 <= j < |r| ==> r[j] == DecayOf(decayingFactor, rewards, arms, Dedup(arms)[j])
  {
    var unique := Dedup(arms);
    seq(|unique|, j requires 0 <= j < |unique| => DecayOf(decayingFactor, rewards, arms, unique[j]))
  }

  /** The decay values of the distinct arms, summed in absolute value. */
  function DecayTotal(decayingFactor: real, rewards: seq<real>, arms: seq<int>): real
    requires |rewards| <= |arms|
  {
    AbsSum(Decays(decayingFactor, rewards, arms))
  }

  /** The rate a pull of arm `a` earns: its decayed reward sum over the total. */
  function ArmRate(decayingFactor: real, rewards: seq<real>, arms: seq<int>, a: int): real
    requires |rewards| <= |arms|
  {
    var total := DecayTotal(decayingFactor, rewards, arms);
    if total == 0.0 then 0.0 else DecayOf(decayingFactor, rewards, arms, a) / total
  }

  /** Picking the rates by arm fails exactly when every decay value is zero
      and there are two or more distinct arms; otherwise each pull gets its
      arm's rate. */
  lemma PickedRates(decayingFactor: real, rewards: seq<real>, arms: seq<int>)
    requires |rewards| <= |arms|
    ensures var r := PickRates(FitnessRankRate(Decays(decayingFactor, rewards, arms)), Dedup(arms), arms);
      && (r.Err? <==> DecayTotal(decayingFactor, rewards, arms) == 0.0 && |Dedup(arms)| >= 2)
      && (r.Ok? ==> forall k :: 0 <= k < |arms| ==> r.value[k] == ArmRate(decayingFactor, rewards, arms, arms[k]))
  {
    var unique := Dedup(arms);
    var decays := Decays(decayingFactor, rewards, arms);
    var total := AbsSum(decays);
    var frr := FitnessRankRate(decays);
    var r := PickRates(frr, unique, arms);
    if total == 0.0 && |unique| >= 2 {
      assert unique[1] in arms;
      var k :| 0 <= k < |arms| && arms[k] == unique[1];
      assert IndexOf(unique, arms[k]) == 1;
    }
    if r.Ok? {
      forall k | 0 <= k < |arms|
        ensures r.value[k] == ArmRate(decayingFactor, rewards, arms, arms[k])
      {
        var j := IndexOf(unique, arms[k]);
        if total != 0.0 {
          assert frr[j] == decays[j] / total;
          assert decays[j] == DecayOf(decayingFactor, rewards, arms, arms[k]);
        }
      }
    }
  }

  /** `get_rewards_for_arms(obs, arms)`: the rate of every pull is its arm's
      decayed reward sum divided by the total; when the total is zero the
      only rate is 0, which every pull of the first arm gets while any other
      arm makes the lookup raise `IndexError`. */
  method RewardsForArms(decayingFactor: real, rewards: seq<real>, arms: seq<int>) returns (r: Result<seq<real>>)
    ensures |rewards| > |arms| ==> r == Err(IndexError)
    ensures |rewards| <= |arms| ==>
      (r.Err? <==> DecayTotal(decayingFactor, rewards, arms) == 0.0 && |Dedup(arms)| >= 2)
    ensures r.Err? ==> r.error == IndexError
    ensures r.Ok? ==> |r.value| == |arms| && |rewards| <= |arms|
    ensures r.Ok? ==> forall k :: 0 <= k < |arms| ==> r.value[k] == ArmRate(decayingFactor, rewards, arms, arms[k])
    ensures r.Ok? ==> forall k, l :: 0 <= k < l < |arms| && arms[k] == arms[l] ==> r.value[k] == r.value[l]
  {
    var decayed := DecayValuesForArms(decayingFactor, rewards, arms);
    if decayed.Err? {
      return Err(decayed.error);
    }
    var (unique, decays) := decayed.value;
    assert forall j :: 0 <= j < |decays| ==> decays[j] == Decays(decayingFactor, rewards, arms)[j];
    assert decays == Decays(decayingFactor, rewards, arms);
    var frr := FitnessRankRate(decays);
    r := PickRates(frr, unique, arms);
    PickedRates(decayingFactor, rewards, arms);
  }
}

=== FILE: search_space.dfy ===
/** `SearchSpace` and the parameter labels of the tuner: a label
    `"<node id> || <operation> | <parameter>"` names one hyperparameter of
    one node, and `convert_params` strips a label back to the parameter. */
module SearchSpace {
  import opened Builtins
  import opened Strings
  import opened Dicts

  /** What the search space records about one parameter: the entries
      `'hyperopt-dist'`, `'sampling-scope'` and `'type'` of its dictionary. */
  datatype ParamProps<D, S> = ParamProps(hyperoptDist: Option<D>, samplingScope: Option<S>, paramType: Option<string>)

  /** `parameters_per_operation`: operation name to parameter name to properties. */
  type Space<D, S> = Dict<Dict<ParamProps<D, S>>>

  /** The separator between the operation and the parameter in a label. */
  const ParamSep := " | "

  /** `get_node_operation_parameter_label(node_id, operation_name, parameter_name)`. */
  function Label(nodeId: nat, op: string, p: string): string {
    NatStr(nodeId) + " || " + op + ParamSep + p
  }

  /** The parameter name a key strips to: `key.split(' | ')[-1]`. */
  function StripLabel(key: string): string {
    LastPiece(key, ParamSep)
  }

  /** `p` does not contain the separator `' | '`. */
  predicate NoParamSep(p: string) {
    forall j :: 0 <= j <= |p| ==> !OccursAt(p, ParamSep, j)
  }

  // ---------------------------------------------------------------------
  // Labels

  /** Stripping a label gives back the parameter name, provided the
      operation name has no `'|'` and the parameter name no `' | '`. */
  lemma StripLabelRoundTrip(nodeId: nat, op: string, p: string)
    requires '|' !in op && NoParamSep(p)
    ensures StripLabel(Label(nodeId, op, p)) == p
  {
    var n := NatStr(nodeId);
    var a := n + " || " + op;
    var s := a + ParamSep + p;
    assert Label(nodeId, op, p) == s;
    forall j | 0 <= j < |a|
      ensures !OccursAt(s, ParamSep, j)
    {
      if j + 3 <= |s| {
        var w := s[j..j + 3];
        assert w[0] == s[j] && w[1] == s[j + 1] && w[2] == s[j + 2];
        if j + 1 < |n| {
          assert s[j + 1] == n[j + 1];
        } else if j + 1 == |n| {
          assert s[j + 1] == ' ';
        } else if j == |n| {
          assert s[j + 2] == '|';
        } else if j == |n| + 1 || j == |n| + 2 {
          assert s[j] == '|';
        } else if j + 1 < |a| {
          assert s[j + 1] == op[j + 1 - |n| - 4];
          assert op[j + 1 - |n| - 4] in op;
        } else {
          assert s[j + 1] == ' ';
        }
      }
    }
    SplitFirst(a, ParamSep, p);
    SplitNone(p, ParamSep);
  }

  /** Different parameters of the same node and operation have different labels. */
  lemma LabelInjective(nodeId: nat, op: string, p: string, q: string)
    requires Label(nodeId, op, p) == Label(nodeId, op, q)
    ensures p == q
  {
    var a := NatStr(nodeId) + " || " + op + ParamSep;
    assert Label(nodeId, op, p) == a + p && Label(nodeId, op, q) == a + q;
    assert p == (a + p)[|a|..] && q == (a + q)[|a|..];
  }

  // ---------------------------------------------------------------------
  // convert_params

  /** `convert_params(params)`: strip every key and keep the entries whose
      value is not `None`; a later entry overwrites an earlier one with the
      same stripped name. */
  function ConvertParams<V>(params: Dict<Option<V>>): (r: Dict<V>)
    ensures KeysDistinct(r)
  {
    ConvertFrom([], params)
  }

  function ConvertFrom<V>(acc: Dict<V>, params: Dict<Option<V>>): (r: Dict<V>)
    requires KeysDistinct(acc)
    ensures KeysDistinct(r)
    decreases |params|
  {
    if params == [] then acc
    else match params[0].1
      case None => ConvertFrom(acc, params[1..])
      case Some(v) =>
        PutDistinct(acc, StripLabel(params[0].0), v);
        ConvertFrom(Put(acc, StripLabel(params[0].0), v), params[1..])
  }

  /** The value of the last entry of `params` that strips to `name` and is
      not `None`. */
  function LastValue<V>(params: Dict<Option<V>>, name: string): Option<V> {
    if params == [] then None
    else
      var later := LastValue(params[1..], name);
      if later.Some? then later
      else if StripLabel(params[0].0) == name then params[0].1
      else None
  }

  lemma {:induction false} ConvertFromGet<V>(acc: Dict<V>, params: Dict<Option<V>>, name: string)
    requires KeysDistinct(acc)
    ensures Get(ConvertFrom(acc, params), name) ==
      if LastValue(params, name).Some? then LastValue(params, name) else Get(acc, name)
    decreases |params|
  {
    if params != [] {
      match params[0].1
      case None =>
        ConvertFromGet(acc, params[1..], name);
      case Some(v) =>
        PutDistinct(acc, StripLabel(params[0].0), v);
        ConvertFromGet(Put(acc, StripLabel(params[0].0), v), params[1..], name);
    }
  }

  /** Each stripped name ends up with the value of its last non-`None`
      entry, and a name none of the entries strips to is absent. */
  lemma ConvertParamsGet<V>(params: Dict<Option<V>>, name: string)
    ensures Get(ConvertParams(params), name) == LastValue(params, name)
  {
    ConvertFromGet([], params, name);
  }

  /** Round trip: a single labelled value strips back to `{p: v}`. */
  lemma ConvertLabel<V>(nodeId: nat, op: string, p: string, v: V)
    requires '|' !in op && NoParamSep(p)
    ensures ConvertParams([(Label(nodeId, op, p), Some(v))]) == [(p, v)]
  {
    StripLabelRoundTrip(nodeId, op, p);
    var params := [(Label(nodeId, op, p), Some(v))];
    assert params[1..] == [];
    assert ConvertFrom([], params) == ConvertFrom([(p, v)], []);
  }

  /** A `None` value contributes nothing. */
  lemma ConvertDropsNone<V>(key: string)
    ensures ConvertParams<V>([(key, None)]) == []
  {
    var params: Dict<Option<V>> := [(key, None)];
    assert params[1..] == [];
    assert ConvertFrom([], params) == ConvertFrom([], []);
  }

  /** Two keys with the same parameter name: the later value wins. */
  lemma ConvertLaterWins<V>(op1: string, op2: string, p: string, v: V, w: V)
    requires '|' !in op1 && '|' !in op2 && NoParamSep(p)
    ensures ConvertParams([(Label(0, op1, p), Some(v)), (Label(1, op2, p), Some(w))]) == [(p, w)]
  {
    StripLabelRoundTrip(0, op1, p);
    StripLabelRoundTrip(1, op2, p);
    var params := [(Label(0, op1, p), Some(v)), (Label(1, op2, p), Some(w))];
    assert params[1..][1..] == [];
    assert ConvertFrom([], params) == ConvertFrom([(p, v)], params[1..]);
    assert ConvertFrom([(p, v)], params[1..]) == ConvertFrom([(p, w)], []);
  }

  // ---------------------------------------------------------------------
  // Queries on the search space

  /** `get_parameters_for_operation(operation_name)`. */
  function ParametersForOperation<D, S>(space: Space<D, S>, op: string): (r: seq<string>)
    ensures Get(space, op).None? ==> r == []
    ensures Get(space, op).Some? ==> forall p :: p in r <==> Get(Get(space, op).value, p).Some?
    ensures Get(space, op).Some? ==> |r| == |Get(space, op).value|
    ensures Get(space, op).Some? ==> forall i :: 0 <= i < |r| ==> r[i] == Get(space, op).value[i].0
  {
    match Get(space, op)
    case None => []
    case Some(params) =>
      AllInKeys(params);
      Keys(params)
  }

  lemma AllInKeys<V>(d: Dict<V>)
    ensures forall p :: p in Keys(d) <==> Get(d, p).Some?
  {
    forall p
      ensures p in Keys(d) <==> Get(d, p).Some?
    {
      InKeys(d, p);
    }
  }

  /** A call of a hyperopt distribution constructor, left uninterpreted. */
  datatype HyperoptCall<D, S> = HyperoptCall(dist: D, tag: string, scope: S)

  /** `get_parameter_hyperopt_space`: `None` for an unknown operation; an
      unknown parameter fails on `None.get`; a missing distribution or
      scope fails when the call is made. */
  function ParameterHyperoptSpace<D, S>(space: Space<D, S>, op: string, p: string, tag: string)
    : (r: Result<Option<HyperoptCall<D, S>>>)
    ensures r == Ok(None) <==> Get(space, op).None?
    ensures Get(space, op).Some? && Get(Get(space, op).value, p).None? ==> r == Err(AttributeError)
    ensures r.Ok? && r.value.Some? ==> r.value.value.tag == tag
  {
    match Get(space, op)
    case None => Ok(None)
    case Some(params) =>
      match Get(params, p)
      case None => Err(AttributeError)
      case Some(props) =>
        if props.hyperoptDist.None? || props.samplingScope.None? then Err(TypeError)
        else Ok(Some(HyperoptCall(props.hyperoptDist.value, tag, props.samplingScope.value)))
  }

  /** The labelled sampling scopes of the parameters of `params` whose type is `kind`, in order. */
  function Tagged<D, S>(nodeId: nat, op: string, params: Dict<ParamProps<D, S>>, kind: string)
    : Dict<Option<S>>
  {
    if params == [] then []
    else
      (if params[0].1.paramType == Some(kind) then [(Label(nodeId, op, params[0].0), params[0].1.samplingScope)] else [])
      + Tagged(nodeId, op, params[1..], kind)
  }

  /** `get_node_params_for_iopt(node_id, operation_name)`: the continuous
      and the discrete parameters of the operation, keyed by label. */
  function NodeParamsForIopt<D, S>(space: Space<D, S>, nodeId: nat, op: string)
    : (r: (Dict<Option<S>>, Dict<Option<S>>))
    ensures Get(space, op).None? ==> r == ([], [])
    ensures Get(space, op).Some? && KeysDistinct(Get(space, op).value) ==>
      var params := Get(space, op).value;
      r == (Tagged(nodeId, op, params, "continuous"), Tagged(nodeId, op, params, "discrete"))
  {
    match Get(space, op)
    case None => ([], [])
    case Some(params) =>
      IoptSpec(nodeId, op, params);
      IoptFrom(nodeId, op, params, 0, [], [])
  }

  function IoptFrom<D, S>(nodeId: nat, op: string, params: Dict<ParamProps<D, S>>, k: nat,
                          floats: Dict<Option<S>>, discretes: Dict<Option<S>>)
    : (r: (Dict<Option<S>>, Dict<Option<S>>))
    requires k <= |params|
    decreases |params| - k
  {
    if k == |params| then (floats, discretes)
    else
      var key := Label(nodeId, op, params[k].0);
      var props := params[k].1;
      if props.paramType == Some("discrete") then
        IoptFrom(nodeId, op, params, k + 1, floats, Put(discretes, key, props.samplingScope))
      else if props.paramType == Some("continuous") then
        IoptFrom(nodeId, op, params, k + 1, Put(floats, key, props.samplingScope), discretes)
      else IoptFrom(nodeId, op, params, k + 1, floats, discretes)
  }

  lemma {:induction false} TaggedAppend<D, S>(nodeId: nat, op: string, xs: Dict<ParamProps<D, S>>,
                                              ys: Dict<ParamProps<D, S>>, kind: string)
    ensures Tagged(nodeId, op, xs + ys, kind) == Tagged(nodeId, op, xs, kind) + Tagged(nodeId, op, ys, kind)
  {
    if xs != [] {
      TaggedAppend(nodeId, op, xs[1..], ys, kind);
      assert (xs + ys)[0] == xs[0];
      assert (xs + ys)[1..] == xs[1..] + ys;
    } else {
      assert xs + ys == ys;
    }
  }

  /** A label of a parameter outside `xs` is not among the labels of `xs`. */
  lemma {:induction false} TaggedMissing<D, S>(nodeId: nat, op: string, xs: Dict<ParamProps<D, S>>, kind: string,
                                               p: string)
    requires forall i :: 0 <= i < |xs| ==> xs[i].0 != p
    ensures Get(Tagged(nodeId, op, xs, kind), Label(nodeId, op, p)).None?
  {
    if xs != [] {
      TaggedMissing(nodeId, op, xs[1..], kind, p);
      if Label(nodeId, op, xs[0].0) == Label(nodeId, op, p) {
        LabelInjective(nodeId, op, xs[0].0, p);
      }
    }
  }

  lemma {:induction false} IoptFromSpec<D, S>(nodeId: nat, op: string, params: Dict<ParamProps<D, S>>, k: nat)
    requires KeysDistinct(params) && k <= |params|
    ensures IoptFrom(nodeId, op, params, k, Tagged(nodeId, op, params[..k], "continuous"),
                     Tagged(nodeId, op, params[..k], "discrete"))
         == (Tagged(nodeId, op, params, "continuous"), Tagged(nodeId, op, params, "discrete"))
    decreases |params| - k
  {
    if k == |params| {
      assert params[..k] == params;
    } else {
      var x := params[k];
      assert params[..k + 1] == params[..k] + [x];
      TaggedAppend(nodeId, op, params[..k], [x], "continuous");
      TaggedAppend(nodeId, op, params[..k], [x], "discrete");
      assert [x][1..] == [];
      forall i | 0 <= i < |params[..k]|
        ensures params[..k][i].0 != x.0
      {
        assert params[..k][i] == params[i];
      }
      TaggedMissing(nodeId, op, params[..k], "continuous", x.0);
      TaggedMissing(nodeId, op, params[..k], "discrete", x.0);
      IoptFromSpec(nodeId, op, params, k + 1);
      var key := Label(nodeId, op, x.0);
      var tc := Tagged(nodeId, op, params[..k], "continuous");
      var td := Tagged(nodeId, op, params[..k], "discrete");
      if x.1.paramType == Some("discrete") {
        assert Put(td, key, x.1.samplingScope) == Tagged(nodeId, op, params[..k + 1], "discrete");
        assert tc == Tagged(nodeId, op, params[..k + 1], "continuous");
      } else if x.1.paramType == Some("continuous") {
        assert Put(tc, key, x.1.samplingScope) == Tagged(nodeId, op, params[..k + 1], "continuous");
        assert td == Tagged(nodeId, op, params[..k + 1], "discrete");
      } else {
        assert tc == Tagged(nodeId, op, params[..k + 1], "continuous");
        assert td == Tagged(nodeId, op, params[..k + 1], "discrete");
      }
    }
  }

  lemma IoptSpec<D, S>(nodeId: nat, op: string, params: Dict<ParamProps<D, S>>)
    ensures KeysDistinct(params) ==>
      IoptFrom(nodeId, op, params, 0, [], [])
        == (Tagged(nodeId, op, params, "continuous"), Tagged(nodeId, op, params, "discrete"))
  {
    if KeysDistinct(params) {
      IoptFromSpec(nodeId, op, params, 0);
      assert params[..0] == [];
    }
  }
}

=== FILE: strings.dfy ===
/** The parts of Python's `str` and `int` the modelled code uses: `str(n)`
    of an integer, `int(s)` of a decimal string, `s.split(sep)` and
    `s.startswith(prefix)`. */
module Strings {
  import opened Builtins

  predicate IsDigit(c: char) {
    '0' <= c <= '9'
  }

  function DigitChar(d: nat): char
    requires d < 10
  {
    "0123456789"[d]
  }

  function DigitValue(c: char): nat
    requires IsDigit(c)
  {
    c as nat - '0' as nat
  }

  /** `str(n)` of a natural number: its decimal digits, no leading zero. */
  function NatStr(n: nat): (r: string)
    ensures |r| >= 1 && forall k :: 0 <= k < |r| ==> IsDigit(r[k])
    ensures |r| > 1 ==> r[0] != '0'
  {
    if n < 10 then [DigitChar(n)] else NatStr(n / 10) + [DigitChar(n % 10)]
  }

  /** `str(i)` of an integer: a minus sign before the digits of a negative number. */
  function IntStr(i: int): (r: string)
    ensures |r| >= 1
    ensures i >= 0 ==> r == NatStr(i)
    ensures i < 0 ==> r == "-" + NatStr(-i)
  {
    if i < 0 then "-" + NatStr(-i) else NatStr(i)
  }

  // ---------------------------------------------------------------------
  // int(s)

  /** The characters `int()` skips around a number: the ASCII whitespace. */
  predicate IsSpace(c: char) {
    c == ' ' || c == '\t' || c == '\n' || c == '\r' || c == '\U{0B}' || c == '\U{0C}'
    || c == '\U{1C}' || c == '\U{1D}' || c == '\U{1E}' || c == '\U{1F}'
  }

  function StripLeft(s: string): (r: string)
    ensures |r| <= |s| && r == s[|s| - |r|..]
    ensures r != [] ==> !IsSpace(r[0])
  {
    if s != [] && IsSpace(s[0]) then StripLeft(s[1..]) else s
  }

  function StripRight(s: string): (r: string)
    ensures |r| <= |s| && r == s[..|r|]
    ensures r != [] ==> !IsSpace(r[|r| - 1])
  {
    if s != [] && IsSpace(s[|s| - 1]) then StripRight(s[..|s| - 1]) else s
  }

  /** Digits with single underscores between them: `"1_000"`, not `"_1"`,
      `"1_"` or `"1__0"`. */
  predicate DigitGroups(s: string) {
    && s != [] && IsDigit(s[0]) && IsDigit(s[|s| - 1])
    && (forall k :: 0 <= k < |s| ==> IsDigit(s[k]) || s[k] == '_')
    && (forall k :: 0 <= k < |s| - 1 && s[k] == '_' ==> s[k + 1] != '_')
  }

  /** The number the digits of `s` spell, underscores skipped. */
  function GroupsValue(s: string): nat
    requires forall k :: 0 <= k < |s| ==> IsDigit(s[k]) || s[k] == '_'
  {
    if s == [] then 0
    else if s[|s| - 1] == '_' then GroupsValue(s[..|s| - 1])
    else 10 * GroupsValue(s[..|s| - 1]) + DigitValue(s[|s| - 1])
  }

  /** The magnitude after an optional sign: `None` when it is not digit groups. */
  function Magnitude(s: string): (r: Option<nat>)
    ensures r.Some? <==> DigitGroups(s)
  {
    if DigitGroups(s) then Some(GroupsValue(s)) else None
  }

  /** `int(s)` for a decimal string: surrounding whitespace, an optional sign,
      then digit groups; anything else raises `ValueError`. */
  function ParseInt(s: string): (r: Result<int>)
    ensures r.Err? ==> r.error == ValueError
  {
    var t := StripRight(StripLeft(s));
    if t != [] && (t[0] == '-' || t[0] == '+') then
      match Magnitude(t[1..])
      case Some(n) => var v: int := n; Ok(if t[0] == '-' then -v else v)
      case None => Err(ValueError)
    else
      match Magnitude(t)
      case Some(n) => Ok(n)
      case None => Err(ValueError)
  }

  /** What `int` accepts: after stripping whitespace, digit groups behind
      an optional sign; an unsigned string gives the number its digits spell
      and a `-` negates it. */
  lemma ParseIntAccepts(s: string)
    ensures var t := StripRight(StripLeft(s));
      && (ParseInt(s).Ok? <==> DigitGroups(t) || (t != [] && (t[0] == '-' || t[0] == '+') && DigitGroups(t[1..])))
      && (DigitGroups(t) ==> ParseInt(s) == Ok(GroupsValue(t)))
      && (t != [] && t[0] == '-' && DigitGroups(t[1..]) ==> ParseInt(s) == Ok(-(GroupsValue(t[1..]) as int)))
  {
  }

  lemma {:induction false} GroupsValueNatStr(n: nat)
    ensures forall k :: 0 <= k < |NatStr(n)| ==> IsDigit(NatStr(n)[k]) || NatStr(n)[k] == '_'
    ensures GroupsValue(NatStr(n)) == n
  {
    if n >= 10 {
      GroupsValueNatStr(n / 10);
      var s := NatStr(n);
      assert s[..|s| - 1] == NatStr(n / 10);
      assert DigitValue(DigitChar(n % 10)) == n % 10;
    } else {
      assert DigitValue(DigitChar(n)) == n;
    }
  }

  /** The digits of a number form a single digit group. */
  lemma NatStrGroups(n: nat)
    ensures DigitGroups(NatStr(n)) && Magnitude(NatStr(n)) == Some(n)
  {
    GroupsValueNatStr(n);
  }

  /** A string with no whitespace at either end is not changed by stripping. */
  lemma StripNothing(s: string)
    requires s != [] && !IsSpace(s[0]) && !IsSpace(s[|s| - 1])
    ensures StripRight(StripLeft(s)) == s
  {
  }

  /** `int(str(i)) == i`. */
  lemma ParseIntStr(i: int)
    ensures ParseInt(IntStr(i)) == Ok(i)
  {
    var s := IntStr(i);
    var d := if i < 0 then NatStr(-i) else NatStr(i);
    NatStrGroups(if i < 0 then -i else i);
    assert s[|s| - 1] == d[|d| - 1];
    StripNothing(s);
    if i < 0 {
      assert s[1..] == d;
    }
  }

  /** Different numbers have different decimal strings. */
  lemma NatStrInjective(m: nat, n: nat)
    requires NatStr(m) == NatStr(n)
    ensures m == n
  {
    ParseIntStr(m);
    ParseIntStr(n);
  }

  /** Python accepts underscores between digit groups: `int("1_0_0") == 100`. */
  lemma ParseUnderscores(s: string)
    requires |s| == 5 && s[0] == '1' && s[1] == '_' && s[2] == '0' && s[3] == '_' && s[4] == '0'
    ensures ParseInt(s) == Ok(100)
  {
    StripNothing(s);
    assert GroupsValue(s[..1]) == 1 by {
      assert s[..1][..0] == [];
    }
    assert GroupsValue(s[..2]) == 1 by {
      assert s[..2][..1] == s[..1];
    }
    assert GroupsValue(s[..3]) == 10 by {
      assert s[..3][..2] == s[..2];
    }
    assert GroupsValue(s[..4]) == 10 by {
      assert s[..4][..3] == s[..3];
    }
    assert s[..5] == s;
    assert DigitGroups(s);
  }

  // ---------------------------------------------------------------------
  // split and startswith

  /** `sep` occurs in `s` at position `k`. */
  predicate OccursAt(s: string, sep: string, k: nat) {
    k + |sep| <= |s| && s[k..k + |sep|] == sep
  }

  /** `s.startswith(p)`. */
  predicate StartsWith(s: string, p: string) {
    |p| <= |s| && s[..|p|] == p
  }

  /** `s.find(sep)`: the leftmost occurrence, or `None`. */
  function Find(s: string, sep: string): (r: Option<nat>)
    requires |sep| > 0
    ensures r.Some? ==> OccursAt(s, sep, r.value) && forall j :: 0 <= j < r.value ==> !OccursAt(s, sep, j)
    ensures r.None? ==> forall j :: 0 <= j <= |s| ==> !OccursAt(s, sep, j)
    decreases |s|
  {
    if |s| < |sep| then None
    else if s[..|sep|] == sep then Some(0)
    else
      OccursShift(s, sep);
      assert !OccursAt(s, sep, 0) by {
        assert s[0..|sep|] == s[..|sep|];
      }
      match Find(s[1..], sep)
      case None => None
      case Some(k) => Some(k + 1)
  }

  /** Dropping the first character moves every occurrence one place left. */
  lemma OccursShift(s: string, sep: string)
    requires |s| > 0
    ensures forall j: nat :: 1 <= j ==> (OccursAt(s, sep, j) <==> OccursAt(s[1..], sep, j - 1))
  {
    forall j: nat | 1 <= j
      ensures OccursAt(s, sep, j) <==> OccursAt(s[1..], sep, j - 1)
    {
      if j + |sep| <= |s| {
        assert s[1..][j - 1..j - 1 + |sep|] == s[j..j + |sep|];
      }
    }
  }

  /** `s.split(sep)` for a non-empty separator: the pieces between the
      occurrences found scanning from the left, without overlap. */
  function Split(s: string, sep: string): (r: seq<string>)
    requires |sep| > 0
    ensures |r| >= 1
    decreases |s|
  {
    match Find(s, sep)
    case None => [s]
    case Some(k) => [s[..k]] + Split(s[k + |sep|..], sep)
  }

  /** The last piece of `s.split(sep)`, Python's `s.split(sep)[-1]`. */
  function LastPiece(s: string, sep: string): string
    requires |sep| > 0
  {
    var parts := Split(s, sep);
    parts[|parts| - 1]
  }

  /** A string without the separator is its own only piece. */
  lemma SplitNone(s: string, sep: string)
    requires |sep| > 0 && forall j :: 0 <= j <= |s| ==> !OccursAt(s, sep, j)
    ensures Split(s, sep) == [s]
  {
  }

  /** When the first occurrence in `a + sep + b` is the one after `a`, the
      split continues with `b`. */
  lemma SplitFirst(a: string, sep: string, b: string)
    requires |sep| > 0
    requires forall j :: 0 <= j < |a| ==> !OccursAt(a + sep + b, sep, j)
    ensures Split(a + sep + b, sep) == [a] + Split(b, sep)
  {
    var s := a + sep + b;
    assert OccursAt(s, sep, |a|) by {
      assert s[|a|..|a| + |sep|] == sep;
    }
    var k := Find(s, sep).value;
    assert k == |a|;
    assert s[..k] == a;
    assert s[k + |sep|..] == b;
  }

  /** A string without the separator character is its own only piece. */
  lemma SplitAbsent(y: string, sep: char)
    requires sep !in y
    ensures Split(y, [sep]) == [y]
  {
    forall j | 0 <= j <= |y|
      ensures !OccursAt(y, [sep], j)
    {
      if j < |y| {
        assert y[j] in y;
        assert y[j..j + 1] == [y[j]];
      }
    }
    SplitNone(y, [sep]);
  }

  /** The two halves of `x + "_" + y` when neither contains `'_'`. */
  lemma SplitPair(x: string, y: string, sep: char)
    requires sep !in x && sep !in y
    ensures Split(x + [sep] + y, [sep]) == [x, y]
  {
    forall j | 0 <= j < |x|
      ensures !OccursAt(x + [sep] + y, [sep], j)
    {
      assert (x + [sep] + y)[j] == x[j];
    }
    SplitFirst(x, [sep], y);
    SplitAbsent(y, sep);
  }

  /** Digits contain no separator characters. */
  lemma NatStrChars(n: nat, c: char)
    requires !IsDigit(c)
    ensures c !in NatStr(n)
  {
  }

  // ---------------------------------------------------------------------
  // Ordering, sorting and joining

  /** Python's `a < b` on strings: lexicographic by code point, a proper
      prefix before the longer string. */
  predicate LexLess(a: string, b: string) {
    if a == [] then b != []
    else if b == [] then false
    else if a[0] != b[0] then a[0] < b[0]
    else LexLess(a[1..], b[1..])
  }

  lemma {:induction false} LexIrreflexive(a: string)
    ensures !LexLess(a, a)
  {
    if a != [] {
      LexIrreflexive(a[1..]);
    }
  }

  lemma {:induction false} LexTotal(a: string, b: string)
    ensures a == b || LexLess(a, b) || LexLess(b, a)
  {
    if a != [] && b != [] && a[0] == b[0] {
      LexTotal(a[1..], b[1..]);
      if a[1..] == b[1..] {
        assert a == [a[0]] + a[1..] && b == [b[0]] + b[1..];
      }
    }
  }

  lemma {:induction false} LexAsymmetric(a: string, b: string)
    requires LexLess(a, b)
    ensures !LexLess(b, a)
  {
    if a != [] && b != [] && a[0] == b[0] {
      LexAsymmetric(a[1..], b[1..]);
    }
  }

  lemma {:induction false} LexTransitive(a: string, b: string, c: string)
    requires LexLess(a, b) && LexLess(b, c)
    ensures LexLess(a, c)
  {
    if a != [] && b != [] && c != [] && a[0] == b[0] && b[0] == c[0] {
      LexTransitive(a[1..], b[1..], c[1..]);
    }
  }

  /** A common prefix does not decide the order. */
  lemma {:induction false} LexCommonPrefix(p: string, a: string, b: string)
    ensures LexLess(p + a, p + b) == LexLess(a, b)
  {
    if p != [] {
      assert (p + a)[1..] == p[1..] + a && (p + b)[1..] == p[1..] + b;
      LexCommonPrefix(p[1..], a, b);
    } else {
      assert p + a == a && p + b == b;
    }
  }

  /** Never a later element smaller than an earlier one. */
  predicate Sorted(xs: seq<string>) {
    forall i, j :: 0 <= i < j < |xs| ==> !LexLess(xs[j], xs[i])
  }

  /** Insert `x` into a sorted list before the first element not smaller. */
  function Insert(x: string, xs: seq<string>): (r: seq<string>)
    requires Sorted(xs)
    ensures Sorted(r) && multiset(r) == multiset(xs) + multiset{x}
  {
    if xs == [] then [x]
    else if !LexLess(xs[0], x) then
      SortedFront(x, xs);
      [x] + xs
    else
      var rest := Insert(x, xs[1..]);
      SortedCons(x, xs, rest);
      [xs[0]] + rest
  }

  /** A string no greater than the head of a sorted list may go in front. */
  lemma SortedFront(x: string, xs: seq<string>)
    requires Sorted(xs) && xs != [] && !LexLess(xs[0], x)
    ensures Sorted([x] + xs)
  {
    forall k | 0 <= k < |xs|
      ensures !LexLess(xs[k], x)
    {
      if LexLess(xs[k], x) {
        LexTotal(xs[k], xs[0]);
        if xs[k] != xs[0] {
          LexTransitive(xs[0], xs[k], x);
        }
      }
    }
    forall i, j | 0 <= i < j < |xs| + 1
      ensures !LexLess(([x] + xs)[j], ([x] + xs)[i])
    {
      assert ([x] + xs)[j] == xs[j - 1];
      if i > 0 {
        assert ([x] + xs)[i] == xs[i - 1];
      }
    }
  }

  /** The head of a sorted list, smaller than `x`, stays in front of the
      tail with `x` inserted. */
  lemma SortedCons(x: string, xs: seq<string>, rest: seq<string>)
    requires Sorted(xs) && xs != [] && LexLess(xs[0], x)
    requires Sorted(rest) && multiset(rest) == multiset(xs[1..]) + multiset{x}
    ensures Sorted([xs[0]] + rest) && multiset([xs[0]] + rest) == multiset(xs) + multiset{x}
  {
    assert xs == [xs[0]] + xs[1..];
    forall j | 0 <= j < |rest|
      ensures !LexLess(rest[j], xs[0])
    {
      assert rest[j] in multiset(xs[1..]) + multiset{x};
      if rest[j] == x {
        LexAsymmetric(xs[0], x);
      } else {
        assert rest[j] in xs[1..];
        var k :| 0 <= k < |xs[1..]| && xs[1..][k] == rest[j];
        assert xs[k + 1] == rest[j];
      }
    }
    forall i, j | 0 <= i < j < |rest| + 1
      ensures !LexLess(([xs[0]] + rest)[j], ([xs[0]] + rest)[i])
    {
      assert ([xs[0]] + rest)[j] == rest[j - 1];
      if i > 0 {
        assert ([xs[0]] + rest)[i] == rest[i - 1];
      }
    }
  }

  /** `sorted(xs)`: the same strings in ascending order. */
  function Sort(xs: seq<string>): (r: seq<string>)
    ensures Sorted(r) && multiset(r) == multiset(xs)
  {
    if xs == [] then []
    else
      assert xs == [xs[0]] + xs[1..];
      Insert(xs[0], Sort(xs[1..]))
  }

  /** Two sorted lists holding the same strings are the same list: the
      result of sorting does not depend on the input order. */
  lemma {:induction false} SortedUnique(xs: seq<string>, ys: seq<string>)
    requires Sorted(xs) && Sorted(ys) && multiset(xs) == multiset(ys)
    ensures xs == ys
    decreases |xs|
  {
    assert |ys| == |multiset(ys)| == |multiset(xs)| == |xs|;
    if xs != [] {
      SameHead(xs, ys);
      var x := xs[0];
      assert xs == [x] + xs[1..] && ys == [x] + ys[1..];
      assert multiset(xs[1..]) == multiset(xs) - multiset{x};
      assert multiset(ys[1..]) == multiset(ys) - multiset{x};
      SortedUnique(xs[1..], ys[1..]);
    }
  }

  /** Sorted lists with the same strings start with the same string. */
  lemma SameHead(xs: seq<string>, ys: seq<string>)
    requires Sorted(xs) && Sorted(ys) && multiset(xs) == multiset(ys) && xs != [] && ys != []
    ensures xs[0] == ys[0]
  {
    assert xs[0] in multiset(ys) && ys[0] in multiset(xs);
    var i :| 0 <= i < |ys| && ys[i] == xs[0];
    var j :| 0 <= j < |xs| && xs[j] == ys[0];
    LexIrreflexive(xs[0]);
    LexIrreflexive(ys[0]);
    assert !LexLess(ys[i], ys[0]);
    assert !LexLess(xs[j], xs[0]);
    LexTotal(xs[0], ys[0]);
  }

  /** `sep.join(xs)`. */
  function Join(xs: seq<string>, sep: string): (r: string)
    ensures |xs| == 1 ==> r == xs[0]
  {
    if xs == [] then ""
    else if |xs| == 1 then xs[0]
    else xs[0] + sep + Join(xs[1..], sep)
  }
}

=== FILE: subnodes.dfy ===
/** `ordered_subnodes_hierarchy`: a depth-first listing of every node reachable
    from a start node along `nodes_from`, failing on a reachable cycle. */
module Subnodes {
  import opened Dag
  import opened Builtins

  /** The two sets shared by the recursive `subtree_impl` calls. `started`
      holds every node entered so far; `visited` every node whose subtree has
      been completed. `visited` is kept in completion order: the code only
      asks for membership, and the order is what the proofs rank nodes by. */
  datatype Search = Search(started: set<nat>, visited: seq<nat>)

  predicate Bounded(g: Graph, s: Search) {
    forall x :: x in s.started ==> x < |g|
  }

  /** `subtree_impl(node)`: the node itself followed by the listings of its
      parents, in `nodes_from` order. */
  function Subtree(g: Graph, node: nat, s: Search): (r: Result<(seq<nat>, Search)>)
    requires WellFormed(g) && node < |g| && Bounded(g, s)
    ensures r.Ok? ==> Bounded(g, r.value.1) && s.started <= r.value.1.started
    decreases Range(|g|) - s.started, 1, 0
  {
    match ParentsFrom(g, node, 0, s)
    case Err(e) => Err(e)
    case Ok((lst, s')) => Ok(([node] + lst, s'))
  }

  /** The `for parent in node.nodes_from` loop from position `i` on: a
      completed parent is skipped, an entered but unfinished one means a
      cycle (ValueError), any other is entered, listed and then completed. */
  function ParentsFrom(g: Graph, node: nat, i: nat, s: Search): (r: Result<(seq<nat>, Search)>)
    requires WellFormed(g) && node < |g| && i <= |g[node]| && Bounded(g, s)
    ensures r.Ok? ==> Bounded(g, r.value.1) && s.started <= r.value.1.started
    decreases Range(|g|) - s.started, 0, |g[node]| - i
  {
    if i == |g[node]| then Ok(([], s))
    else
      var p := g[node][i];
      if p in s.visited then ParentsFrom(g, node, i + 1, s)
      else if p in s.started then Err(ValueError)
      else
        match Subtree(g, p, Search(s.started + {p}, s.visited))
        case Err(e) => Err(e)
        case Ok((sub, s1)) =>
          match ParentsFrom(g, node, i + 1, Search(s1.started, s1.visited + [p]))
          case Err(e) => Err(e)
          case Ok((rest, s2)) => Ok((sub + rest, s2))
  }

  /** `ordered_subnodes_hierarchy(node)`: `node` first, then every node
      reachable from it, each exactly once, in depth-first pre-order along
      `nodes_from`; ValueError exactly when a cycle is reachable. */
  function OrderedSubnodesHierarchy(g: Graph, node: nat): (r: Result<seq<nat>>)
    requires WellFormed(g) && node < |g|
    ensures r.Err? <==> CycleReachableFrom(g, node)
    ensures r.Err? ==> r.error == ValueError
    ensures r.Ok? ==> |r.value| > 0 && r.value[0] == node && Distinct(r.value)
    ensures r.Ok? ==> forall x :: x in r.value <==> Reaches(g, node, x)
    ensures r.Ok? ==> ListedAfterChild(g, r.value)
    ensures r.Ok? ==> DepthFirst(g, {}, r.value)
  {
    HierarchySpec(g, node);
    HierarchyDepthFirst(g, node);
    match Subtree(g, node, Search({node}, []))
    case Err(e) => Err(e)
    case Ok((lst, _)) => Ok(lst)
  }

  // ---------------------------------------------------------------------
  // Specification predicates

  /** `xs[k]` is a parent of an element listed before it. */
  ghost predicate ChildBefore(g: Graph, xs: seq<nat>, k: nat)
    requires k < |xs|
  {
    exists j :: 0 <= j < k && xs[j] < |g| && xs[k] in g[xs[j]]
  }

  /** Every element after the first is a parent of an earlier element. */
  ghost predicate ListedAfterChild(g: Graph, xs: seq<nat>) {
    forall k :: 1 <= k < |xs| ==> ChildBefore(g, xs, k)
  }

  /** Every element is a parent of `cur` or of an earlier element. */
  ghost predicate ListedAfter(g: Graph, cur: nat, xs: seq<nat>)
    requires cur < |g|
  {
    forall k :: 0 <= k < |xs| ==> xs[k] in g[cur] || ChildBefore(g, xs, k)
  }

  /** `q` is neither in `base` nor among the first `k` elements of `xs`. */
  ghost predicate Unseen(base: set<nat>, xs: seq<nat>, k: nat, q: nat)
    requires k <= |xs|
  {
    q !in base && q !in xs[..k]
  }

  /** Once `xs[..k]` is listed, `xs[j]` still has a parent not yet seen. */
  ghost predicate Pending(g: Graph, base: set<nat>, xs: seq<nat>, j: nat, k: nat)
    requires j < k <= |xs|
  {
    xs[j] < |g| && exists m :: 0 <= m < |g[xs[j]]| && Unseen(base, xs, k, g[xs[j]][m])
  }

  /** `q` is the first parent of `v`, in `nodes_from` order, not yet seen once
      `xs[..k]` is listed. */
  ghost predicate FirstUnseen(g: Graph, base: set<nat>, xs: seq<nat>, k: nat, v: nat, q: nat)
    requires k <= |xs| && v < |g|
  {
    && Unseen(base, xs, k, q)
    && exists m :: 0 <= m < |g[v]| && g[v][m] == q && forall m' :: 0 <= m' < m ==> !Unseen(base, xs, k, g[v][m'])
  }

  /** `xs[j]` is the last element of `xs[..k]` that still has an unseen
      parent, and `xs[k]` is the first such parent. */
  ghost predicate StepFrom(g: Graph, base: set<nat>, xs: seq<nat>, j: nat, k: nat)
    requires j < k < |xs|
  {
    && Pending(g, base, xs, j, k)
    && (forall j' :: j < j' < k ==> !Pending(g, base, xs, j', k))
    && FirstUnseen(g, base, xs, k, xs[j], xs[k])
  }

  /** `xs[k]` is the step a depth-first search takes next after `xs[..k]`. */
  ghost predicate DfsStep(g: Graph, base: set<nat>, xs: seq<nat>, k: nat)
    requires k < |xs|
  {
    exists j :: 0 <= j < k && StepFrom(g, base, xs, j, k)
  }

  /** `xs` is a depth-first pre-order listing, the nodes of `base` counting
      as seen from the start. */
  ghost predicate DepthFirst(g: Graph, base: set<nat>, xs: seq<nat>) {
    forall k :: 1 <= k < |xs| ==> DfsStep(g, base, xs, k)
  }

  /** Each completed node's parents were all completed before it. */
  ghost predicate FinishOrder(g: Graph, v: seq<nat>) {
    && (forall i :: 0 <= i < |v| ==> v[i] < |g|)
    && forall i, k {:trigger g[v[i]][k]} :: 0 <= i < |v| && 0 <= k < |g[v[i]]| ==> g[v[i]][k] in v[..i]
  }

  /** The search invariant while `cur` is being expanded from `root`. */
  ghost predicate SearchInv(g: Graph, root: nat, cur: nat, s: Search) {
    && WellFormed(g) && cur < |g|
    && (forall x :: x in s.started ==> x < |g| && Reaches(g, root, x))
    && (forall x :: x in s.visited ==> x in s.started)
    && FinishOrder(g, s.visited)
    && (forall x :: x in s.started && x !in s.visited ==> Reaches(g, x, cur))
    && cur in s.started && cur !in s.visited
  }

  /** What a successful listing `lst` does to the search state `s`, giving `s'`. */
  ghost predicate Listed(g: Graph, root: nat, cur: nat, s: Search, lst: seq<nat>, s': Search) {
    && SearchInv(g, root, cur, s')
    && s.visited <= s'.visited
    && s'.started == s.started + Elems(lst)
    && Elems(s'.visited) == Elems(s.visited) + Elems(lst)
    && Distinct(lst)
    && (forall k :: 0 <= k < |lst| ==> lst[k] !in s.started)
  }

  // ---------------------------------------------------------------------
  // Proof

  /** Entering parent `p` of `cur` keeps the invariant, with `p` as the node being expanded. */
  lemma EnterSearch(g: Graph, root: nat, cur: nat, s: Search, p: nat)
    requires SearchInv(g, root, cur, s) && p in g[cur] && p !in s.started
    ensures SearchInv(g, root, p, Search(s.started + {p}, s.visited))
  {
    var s0 := Search(s.started + {p}, s.visited);
    ReachesStep(g, root, cur, p);
    ReachesRefl(g, p);
    forall x | x in s0.started && x !in s0.visited
      ensures Reaches(g, x, p)
    {
      if x != p {
        ReachesStep(g, x, cur, p);
      }
    }
  }

  lemma FinishOrderSnoc(g: Graph, v: seq<nat>, p: nat)
    requires FinishOrder(g, v) && p < |g|
    requires forall k :: 0 <= k < |g[p]| ==> g[p][k] in v
    ensures FinishOrder(g, v + [p])
  {
    var v' := v + [p];
    forall i, k | 0 <= i < |v'| && 0 <= k < |g[v'[i]]|
      ensures g[v'[i]][k] in v'[..i]
    {
      if i < |v| {
        assert v'[..i] == v[..i];
      } else {
        assert v'[..i] == v;
      }
    }
  }

  /** Completing `p` and returning to `cur` keeps the invariant for `cur`. */
  lemma Leave(g: Graph, root: nat, cur: nat, s: Search, p: nat, sub: seq<nat>, s1: Search)
    requires SearchInv(g, root, cur, s) && p in g[cur] && p !in s.started
    requires |sub| > 0 && sub[0] == p
    requires Listed(g, root, p, Search(s.started + {p}, s.visited), sub[1..], s1)
    requires forall k :: 0 <= k < |g[p]| ==> g[p][k] in s1.visited
    ensures SearchInv(g, root, cur, Search(s1.started, s1.visited + [p]))
    ensures s.visited <= s1.visited + [p]
  {
    var s1' := Search(s1.started, s1.visited + [p]);
    FinishOrderSnoc(g, s1.visited, p);
    assert Elems(s1.visited + [p]) == Elems(s1.visited) + {p};
    forall x | x in s1'.started && x !in s1'.visited
      ensures Reaches(g, x, cur)
    {
      assert x in s.started && x !in s.visited;
    }
    assert s.visited <= s1.visited;
  }

  /** The bookkeeping of `Leave` on the listing and the two sets alone. */
  lemma LeaveSets(s: Search, p: nat, sub: seq<nat>, s1: Search)
    requires |sub| > 0 && sub[0] == p && p !in s.started
    requires s.visited <= s1.visited
    requires s1.started == s.started + {p} + Elems(sub[1..])
    requires Elems(s1.visited) == Elems(s.visited) + Elems(sub[1..])
    requires Distinct(sub[1..]) && forall k :: 0 <= k < |sub[1..]| ==> sub[1..][k] !in s.started + {p}
    ensures s.visited <= s1.visited + [p]
    ensures s1.started == s.started + Elems(sub)
    ensures Elems(s1.visited + [p]) == Elems(s.visited) + Elems(sub)
    ensures Distinct(sub) && forall k :: 0 <= k < |sub| ==> sub[k] !in s.started
  {
    assert Elems(sub) == {p} + Elems(sub[1..]) by {
      assert sub == [p] + sub[1..];
    }
    assert Elems(s1.visited + [p]) == Elems(s1.visited) + {p};
    forall i, j | 0 <= i < j < |sub|
      ensures sub[i] != sub[j]
    {
      if i == 0 {
        assert sub[j] == sub[1..][j - 1];
      } else {
        assert sub[i] == sub[1..][i - 1] && sub[j] == sub[1..][j - 1];
      }
    }
    forall k | 0 <= k < |sub|
      ensures sub[k] !in s.started
    {
      if k > 0 {
        assert sub[k] == sub[1..][k - 1];
      }
    }
  }

  /** Gluing the listing of one parent to the listing of the remaining ones. */
  lemma Glue(g: Graph, root: nat, cur: nat, s: Search, p: nat, sub: seq<nat>, s1: Search,
             rest: seq<nat>, s2: Search)
    requires cur < |g| && p in g[cur] && p !in s.started
    requires |sub| > 0 && sub[0] == p
    requires s.visited <= s1.visited
    requires s1.started == s.started + {p} + Elems(sub[1..])
    requires Elems(s1.visited) == Elems(s.visited) + Elems(sub[1..])
    requires Distinct(sub[1..]) && forall k :: 0 <= k < |sub[1..]| ==> sub[1..][k] !in s.started + {p}
    requires Listed(g, root, cur, Search(s1.started, s1.visited + [p]), rest, s2)
    requires ListedAfterChild(g, sub) && ListedAfter(g, cur, rest)
    requires forall k :: 0 <= k < |g[cur]| ==> g[cur][k] in s2.visited
    ensures ParentsPost(g, root, cur, s, Ok((sub + rest, s2)))
  {
    GlueSets(s, p, sub, s1, rest, s2);
    GlueAfter(g, cur, sub, rest);
  }

  /** The bookkeeping of `Glue` on the listings and the sets alone. */
  lemma GlueSets(s: Search, p: nat, sub: seq<nat>, s1: Search, rest: seq<nat>, s2: Search)
    requires |sub| > 0 && sub[0] == p && p !in s.started
    requires s.visited <= s1.visited
    requires s1.started == s.started + {p} + Elems(sub[1..])
    requires Elems(s1.visited) == Elems(s.visited) + Elems(sub[1..])
    requires Distinct(sub[1..]) && forall k :: 0 <= k < |sub[1..]| ==> sub[1..][k] !in s.started + {p}
    requires s1.visited + [p] <= s2.visited
    requires s2.started == s1.started + Elems(rest)
    requires Elems(s2.visited) == Elems(s1.visited + [p]) + Elems(rest)
    requires Distinct(rest) && forall k :: 0 <= k < |rest| ==> rest[k] !in s1.started
    ensures s.visited <= s2.visited
    ensures s2.started == s.started + Elems(sub + rest)
    ensures Elems(s2.visited) == Elems(s.visited) + Elems(sub + rest)
    ensures Distinct(sub + rest) && forall k :: 0 <= k < |sub + rest| ==> (sub + rest)[k] !in s.started
  {
    LeaveSets(s, p, sub, s1);
    assert Elems(sub + rest) == Elems(sub) + Elems(rest);
    GlueDistinct(sub, rest, s.started, s1.started);
  }

  lemma GlueDistinct(sub: seq<nat>, rest: seq<nat>, started: set<nat>, started1: set<nat>)
    requires Distinct(sub) && Distinct(rest)
    requires forall k :: 0 <= k < |sub| ==> sub[k] !in started && sub[k] in started1
    requires forall k :: 0 <= k < |rest| ==> rest[k] !in started1
    requires started <= started1
    ensures Distinct(sub + rest)
    ensures forall k :: 0 <= k < |sub + rest| ==> (sub + rest)[k] !in started
  {
    var lst := sub + rest;
    forall i, j | 0 <= i < j < |lst|
      ensures lst[i] != lst[j]
    {
      if j >= |sub| && i < |sub| {
        assert lst[j] == rest[j - |sub|];
      } else if i >= |sub| {
        assert lst[i] == rest[i - |sub|] && lst[j] == rest[j - |sub|];
      }
    }
    forall k | 0 <= k < |lst|
      ensures lst[k] !in started
    {
      if k >= |sub| {
        assert lst[k] == rest[k - |sub|];
      }
    }
  }

  lemma GlueAfter(g: Graph, cur: nat, sub: seq<nat>, rest: seq<nat>)
    requires cur < |g| && |sub| > 0 && sub[0] in g[cur]
    requires ListedAfterChild(g, sub) && ListedAfter(g, cur, rest)
    ensures ListedAfter(g, cur, sub + rest)
  {
    var lst := sub + rest;
    forall k | 0 <= k < |lst|
      ensures lst[k] in g[cur] || ChildBefore(g, lst, k)
    {
      if k == 0 {
      } else if k < |sub| {
        assert ChildBefore(g, sub, k);
        var j :| 0 <= j < k && sub[j] < |g| && sub[k] in g[sub[j]];
        assert lst[j] == sub[j] && lst[k] == sub[k];
      } else {
        var m := k - |sub|;
        assert lst[k] == rest[m];
        if rest[m] !in g[cur] {
          assert ChildBefore(g, rest, m);
          var j :| 0 <= j < m && rest[j] < |g| && rest[m] in g[rest[j]];
          assert lst[j + |sub|] == rest[j];
        }
      }
    }
  }


  /** What a successful `ParentsFrom` result promises about the search state. */
  ghost predicate ParentsPost(g: Graph, root: nat, cur: nat, s: Search, r: Result<(seq<nat>, Search)>)
    requires cur < |g|
  {
    r.Ok? ==>
      && Listed(g, root, cur, s, r.value.0, r.value.1)
      && ListedAfter(g, cur, r.value.0)
      && forall k :: 0 <= k < |g[cur]| ==> g[cur][k] in r.value.1.visited
  }

  lemma {:induction false} ParentsSpec(g: Graph, root: nat, cur: nat, i: nat, s: Search)
    requires SearchInv(g, root, cur, s) && i <= |g[cur]|
    requires forall k :: 0 <= k < i ==> g[cur][k] in s.visited
    ensures Bounded(g, s)
    ensures ParentsFrom(g, cur, i, s).Err? ==> CycleReachableFrom(g, root)
    ensures ParentsPost(g, root, cur, s, ParentsFrom(g, cur, i, s))
    decreases Range(|g|) - s.started, 0, |g[cur]| - i, 1
  {
    if i == |g[cur]| {
      assert Elems([]) == {};
      return;
    }
    var p := g[cur][i];
    if p in s.visited {
      ParentsSpec(g, root, cur, i + 1, s);
    } else if p in s.started {
      assert Reaches(g, p, cur);
      BackEdgeCycle(g, p, cur);
      assert Reaches(g, root, p);
    } else {
      ParentsEnter(g, root, cur, i, s);
    }
  }

  /** The loop body for a parent that has not been entered yet. */
  lemma {:induction false} ParentsEnter(g: Graph, root: nat, cur: nat, i: nat, s: Search)
    requires SearchInv(g, root, cur, s) && i < |g[cur]|
    requires forall k :: 0 <= k < i ==> g[cur][k] in s.visited
    requires g[cur][i] !in s.started
    ensures ParentsFrom(g, cur, i, s).Err? ==> CycleReachableFrom(g, root)
    ensures ParentsPost(g, root, cur, s, ParentsFrom(g, cur, i, s))
    decreases Range(|g|) - s.started, 0, |g[cur]| - i, 0
  {
    var p := g[cur][i];
    var s0 := Search(s.started + {p}, s.visited);
    EnterSearch(g, root, cur, s, p);
    SubtreeSpec(g, root, p, s0);
    var r1 := Subtree(g, p, s0);
    if r1.Err? {
      assert ParentsFrom(g, cur, i, s) == Err(r1.error);
    } else {
      var sub, s1 := r1.value.0, r1.value.1;
      assert s1.started == s0.started + Elems(sub[1..]);
      ParentsEntered(g, root, cur, i, s, sub, s1);
    }
  }

  /** The rest of the loop once parent `g[cur][i]` has been listed as `sub`. */
  lemma {:induction false} ParentsEntered(g: Graph, root: nat, cur: nat, i: nat, s: Search,
                                          sub: seq<nat>, s1: Search)
    requires SearchInv(g, root, cur, s) && i < |g[cur]|
    requires forall k :: 0 <= k < i ==> g[cur][k] in s.visited
    requires g[cur][i] !in s.started && g[cur][i] in s1.started && s.started <= s1.started
    requires Subtree(g, g[cur][i], Search(s.started + {g[cur][i]}, s.visited)) == Ok((sub, s1))
    requires |sub| > 0 && sub[0] == g[cur][i]
    requires Listed(g, root, g[cur][i], Search(s.started + {g[cur][i]}, s.visited), sub[1..], s1)
    requires ListedAfterChild(g, sub)
    requires forall k :: 0 <= k < |g[g[cur][i]]| ==> g[g[cur][i]][k] in s1.visited
    ensures ParentsFrom(g, cur, i, s).Err? ==> CycleReachableFrom(g, root)
    ensures ParentsPost(g, root, cur, s, ParentsFrom(g, cur, i, s))
    decreases Range(|g|) - s1.started, 0, |g[cur]| - i
  {
    var p := g[cur][i];
    var s1' := Search(s1.started, s1.visited + [p]);
    assert SearchInv(g, root, cur, s1') && forall k :: 0 <= k < i + 1 ==> g[cur][k] in s1'.visited by {
      Leave(g, root, cur, s, p, sub, s1);
      VisitedPrefix(g, cur, i, s.visited, s1');
    }
    ParentsSpec(g, root, cur, i + 1, s1');
    ParentsStep(g, cur, i, s, sub, s1);
    var r2 := ParentsFrom(g, cur, i + 1, s1');
    if r2.Ok? {
      Glue(g, root, cur, s, p, sub, s1, r2.value.0, r2.value.1);
    }
  }

  /** One round of the loop for a parent that is entered and listed as `sub`. */
  lemma ParentsStep(g: Graph, cur: nat, i: nat, s: Search, sub: seq<nat>, s1: Search)
    requires WellFormed(g) && cur < |g| && i < |g[cur]| && Bounded(g, s)
    requires g[cur][i] !in s.started && g[cur][i] !in s.visited && Bounded(g, s1)
    requires Subtree(g, g[cur][i], Search(s.started + {g[cur][i]}, s.visited)) == Ok((sub, s1))
    ensures var r2 := ParentsFrom(g, cur, i + 1, Search(s1.started, s1.visited + [g[cur][i]]));
      && (r2.Err? ==> ParentsFrom(g, cur, i, s).Err?)
      && (r2.Ok? ==> ParentsFrom(g, cur, i, s) == Ok((sub + r2.value.0, r2.value.1)))
  {
  }

  lemma VisitedPrefix(g: Graph, cur: nat, i: nat, v: seq<nat>, s1': Search)
    requires cur < |g| && i < |g[cur]| && v <= s1'.visited
    requires forall k :: 0 <= k < i ==> g[cur][k] in v
    requires |s1'.visited| > 0 && s1'.visited[|s1'.visited| - 1] == g[cur][i]
    ensures forall k :: 0 <= k < i + 1 ==> g[cur][k] in s1'.visited
  {
    forall k | 0 <= k < i + 1
      ensures g[cur][k] in s1'.visited
    {
      if k < i {
        var j :| 0 <= j < |v| && v[j] == g[cur][k];
        assert s1'.visited[j] == v[j];
      }
    }
  }

  lemma {:induction false} SubtreeSpec(g: Graph, root: nat, cur: nat, s: Search)
    requires SearchInv(g, root, cur, s)
    ensures Bounded(g, s)
    ensures Subtree(g, cur, s).Err? ==> CycleReachableFrom(g, root)
    ensures Subtree(g, cur, s).Ok? ==>
      var (lst, s') := Subtree(g, cur, s).value;
      && |lst| > 0 && lst[0] == cur
      && Listed(g, root, cur, s, lst[1..], s')
      && ListedAfterChild(g, lst)
      && forall k :: 0 <= k < |g[cur]| ==> g[cur][k] in s'.visited
    decreases Range(|g|) - s.started, 1, 0
  {
    ParentsSpec(g, root, cur, 0, s);
    var r := ParentsFrom(g, cur, 0, s);
    if r.Ok? {
      var lst, s' := r.value.0, r.value.1;
      assert Subtree(g, cur, s) == Ok(([cur] + lst, s'));
      assert ([cur] + lst)[1..] == lst;
      ConsAfterChild(g, cur, lst);
    }
  }

  /** `cur` followed by a listing of its ancestors lists each after a child. */
  lemma ConsAfterChild(g: Graph, cur: nat, lst: seq<nat>)
    requires cur < |g| && ListedAfter(g, cur, lst)
    ensures ListedAfterChild(g, [cur] + lst)
  {
    var out := [cur] + lst;
    forall k | 1 <= k < |out|
      ensures ChildBefore(g, out, k)
    {
      assert out[k] == lst[k - 1];
      if lst[k - 1] in g[cur] {
        assert out[0] == cur && out[0] < |g| && out[k] in g[out[0]];
      } else {
        assert ChildBefore(g, lst, k - 1);
        var j :| 0 <= j < k - 1 && lst[j] < |g| && lst[k - 1] in g[lst[j]];
        assert out[j + 1] == lst[j];
      }
    }
  }


  /** Along a walk from a completed node the completion positions strictly fall. */
  lemma {:induction false} FinishedWalk(g: Graph, v: seq<nat>, w: seq<nat>, i: nat) returns (j: nat)
    requires FinishOrder(g, v) && IsWalk(g, w) && i < |v| && w[0] == v[i]
    ensures j < |v| && v[j] == w[|w| - 1] && j + |w| - 1 <= i
    decreases |w|
  {
    if |w| == 1 {
      j := i;
    } else {
      WalkTail(g, w);
      var k :| 0 <= k < |g[v[i]]| && g[v[i]][k] == w[1];
      assert w[1] in v[..i];
      var i' :| 0 <= i' < i && v[i'] == w[1];
      j := FinishedWalk(g, v, w[1..], i');
    }
  }

  /** No completed node lies on a cycle. */
  lemma FinishedAcyclic(g: Graph, v: seq<nat>, c: nat)
    requires WellFormed(g) && FinishOrder(g, v) && c in v
    ensures !OnCycle(g, c)
  {
    if OnCycle(g, c) {
      var i :| 0 <= i < |v| && v[i] == c;
      CycleGivesLongWalk(g, c, |v|);
      var w :| IsWalk(g, w) && w[0] == c && |w| > |v|;
      var j := FinishedWalk(g, v, w, i);
    }
  }

  lemma HierarchySpec(g: Graph, n: nat)
    requires WellFormed(g) && n < |g|
    ensures Bounded(g, Search({n}, []))
    ensures var r := Subtree(g, n, Search({n}, []));
      && (r.Err? <==> CycleReachableFrom(g, n))
      && (r.Err? ==> r.error == ValueError)
      && (r.Ok? ==> |r.value.0| > 0 && r.value.0[0] == n && Distinct(r.value.0))
      && (r.Ok? ==> forall x :: x in r.value.0 <==> Reaches(g, n, x))
      && (r.Ok? ==> ListedAfterChild(g, r.value.0))
  {
    var s := Search({n}, []);
    ReachesRefl(g, n);
    SubtreeSpec(g, n, n, s);
    ErrIsValueError(g, n, s);
    var r := Subtree(g, n, s);
    if r.Ok? {
      var lst, s' := r.value.0, r.value.1;
      HierarchyOk(g, n, lst, s');
    }
  }

  /** A completed search from `n` has listed exactly what `n` reaches, and
      none of it lies on a cycle. */
  lemma HierarchyOk(g: Graph, n: nat, lst: seq<nat>, s': Search)
    requires |lst| > 0 && lst[0] == n
    requires Listed(g, n, n, Search({n}, []), lst[1..], s')
    requires forall k :: 0 <= k < |g[n]| ==> g[n][k] in s'.visited
    ensures Distinct(lst)
    ensures forall x :: x in lst <==> Reaches(g, n, x)
    ensures !CycleReachableFrom(g, n)
  {
    var v := s'.visited + [n];
    FinishOrderSnoc(g, s'.visited, n);
    assert Elems(v) == Elems(lst) by {
      assert lst == [n] + lst[1..];
      assert Elems(s'.visited + [n]) == Elems(s'.visited) + {n};
    }
    assert v[|v| - 1] == n;
    FinishedReaches(g, v, n);
    forall x | x in lst
      ensures Reaches(g, n, x)
    {
      assert x in s'.started;
    }
    forall c | Reaches(g, n, c)
      ensures !OnCycle(g, c)
    {
      assert c in Elems(v);
      FinishedAcyclic(g, v, c);
    }
    HeadDistinct(lst, {n});
  }

  /** Everything reachable from the last completed node has been completed. */
  lemma FinishedReaches(g: Graph, v: seq<nat>, n: nat)
    requires FinishOrder(g, v) && |v| > 0 && v[|v| - 1] == n
    ensures forall x :: Reaches(g, n, x) ==> x in Elems(v)
  {
    forall x | Reaches(g, n, x)
      ensures x in Elems(v)
    {
      var w :| IsWalk(g, w) && w[0] == n && w[|w| - 1] == x;
      var j := FinishedWalk(g, v, w, |v| - 1);
    }
  }

  /** A head in `started` followed by distinct elements outside it is distinct. */
  lemma HeadDistinct(lst: seq<nat>, started: set<nat>)
    requires |lst| > 0 && lst[0] in started && Distinct(lst[1..])
    requires forall k :: 0 <= k < |lst[1..]| ==> lst[1..][k] !in started
    ensures Distinct(lst)
  {
    forall i, j | 0 <= i < j < |lst|
      ensures lst[i] != lst[j]
    {
      if i > 0 {
        assert lst[i] == lst[1..][i - 1];
      }
      assert lst[j] == lst[1..][j - 1];
    }
  }

  /** The only exception the search raises is ValueError. */
  lemma {:induction false} ErrIsValueError(g: Graph, n: nat, s: Search)
    requires WellFormed(g) && n < |g| && Bounded(g, s)
    ensures Subtree(g, n, s).Err? ==> Subtree(g, n, s).error == ValueError
    decreases Range(|g|) - s.started, 1, 0
  {
    ParentsErrIsValueError(g, n, 0, s);
  }

  lemma {:induction false} ParentsErrIsValueError(g: Graph, n: nat, i: nat, s: Search)
    requires WellFormed(g) && n < |g| && i <= |g[n]| && Bounded(g, s)
    ensures ParentsFrom(g, n, i, s).Err? ==> ParentsFrom(g, n, i, s).error == ValueError
    decreases Range(|g|) - s.started, 0, |g[n]| - i
  {
    if i < |g[n]| {
      var p := g[n][i];
      if p in s.visited {
        ParentsErrIsValueError(g, n, i + 1, s);
      } else if p !in s.started {
        var s0 := Search(s.started + {p}, s.visited);
        ErrIsValueError(g, p, s0);
        var r1 := Subtree(g, p, s0);
        if r1.Ok? {
          var (sub, s1) := r1.value;
          ParentsErrIsValueError(g, n, i + 1, Search(s1.started, s1.visited + [p]));
        }
      }
    }
  }

  // ---------------------------------------------------------------------
  // Depth-first order

  /** Whether a node is pending depends only on what has been seen. */
  lemma PendingTransfer(g: Graph, b1: set<nat>, xs: seq<nat>, j1: nat, k1: nat,
                        b2: set<nat>, ys: seq<nat>, j2: nat, k2: nat)
    requires j1 < k1 <= |xs| && j2 < k2 <= |ys| && xs[j1] == ys[j2]
    requires forall q :: Unseen(b1, xs, k1, q) <==> Unseen(b2, ys, k2, q)
    ensures Pending(g, b1, xs, j1, k1) <==> Pending(g, b2, ys, j2, k2)
  {
    if Pending(g, b1, xs, j1, k1) {
      var m :| 0 <= m < |g[xs[j1]]| && Unseen(b1, xs, k1, g[xs[j1]][m]);
      assert Unseen(b2, ys, k2, g[ys[j2]][m]);
    }
    if Pending(g, b2, ys, j2, k2) {
      var m :| 0 <= m < |g[ys[j2]]| && Unseen(b2, ys, k2, g[ys[j2]][m]);
      assert Unseen(b1, xs, k1, g[xs[j1]][m]);
    }
  }

  /** Which parent is the first unseen one depends only on what has been seen. */
  lemma FirstUnseenTransfer(g: Graph, b1: set<nat>, xs: seq<nat>, k1: nat,
                            b2: set<nat>, ys: seq<nat>, k2: nat, v: nat, q: nat)
    requires k1 <= |xs| && k2 <= |ys| && v < |g|
    requires forall q :: Unseen(b1, xs, k1, q) <==> Unseen(b2, ys, k2, q)
    ensures FirstUnseen(g, b1, xs, k1, v, q) <==> FirstUnseen(g, b2, ys, k2, v, q)
  {
  }

  /** A step survives moving the listing `d` places to the right, into
      another listing that has seen the same nodes. */
  lemma StepShift(g: Graph, b1: set<nat>, xs: seq<nat>, j: nat, k: nat, b2: set<nat>, ys: seq<nat>, d: nat)
    requires j < k < |xs| && k + d < |ys| && StepFrom(g, b1, xs, j, k)
    requires forall i :: j <= i <= k ==> ys[i + d] == xs[i]
    requires forall q :: Unseen(b1, xs, k, q) <==> Unseen(b2, ys, k + d, q)
    ensures StepFrom(g, b2, ys, j + d, k + d)
  {
    var j2, k2 := j + d, k + d;
    PendingTransfer(g, b1, xs, j, k, b2, ys, j2, k2);
    forall j' | j2 < j' < k2
      ensures !Pending(g, b2, ys, j', k2)
    {
      PendingTransfer(g, b1, xs, j' - d, k, b2, ys, j', k2);
    }
    FirstUnseenTransfer(g, b1, xs, k, b2, ys, k2, xs[j], xs[k]);
  }

  /** A completed node has every parent among the started ones. */
  lemma CompleteVisited(g: Graph, root: nat, cur: nat, s: Search)
    requires SearchInv(g, root, cur, s)
    ensures forall x, m {:trigger g[x][m]} :: x in s.visited && 0 <= m < |g[x]| ==> g[x][m] in s.started
  {
    forall x, m | x in s.visited && 0 <= m < |g[x]|
      ensures g[x][m] in s.started
    {
      var i :| 0 <= i < |s.visited| && s.visited[i] == x;
      assert g[s.visited[i]][m] in s.visited[..i];
    }
  }

  /** The first parent entered from `cur` is its first unseen one. */
  lemma DfsFirstParent(g: Graph, base: set<nat>, cur: nat, i: nat, xs: seq<nat>)
    requires cur < |g| && i < |g[cur]| && cur in base && g[cur][i] !in base
    requires forall m :: 0 <= m < i ==> g[cur][m] in base
    requires |xs| > 1 && xs[0] == cur && xs[1] == g[cur][i]
    ensures DfsStep(g, base, xs, 1)
  {
    assert xs[..1] == [cur];
    assert Pending(g, base, xs, 0, 1) by {
      assert Unseen(base, xs, 1, g[xs[0]][i]);
    }
    assert FirstUnseen(g, base, xs, 1, xs[0], xs[1]) by {
      forall m' | 0 <= m' < i
        ensures !Unseen(base, xs, 1, g[cur][m'])
      {
      }
    }
    assert StepFrom(g, base, xs, 0, 1);
  }

  /** A step inside the listing `sub` of the first parent `p` entered from `cur`. */
  lemma DfsWithinSub(g: Graph, base: set<nat>, cur: nat, sub: seq<nat>, rest: seq<nat>, t: nat)
    requires cur in base && 1 <= t < |sub|
    requires DepthFirst(g, base + {sub[0]}, sub)
    ensures DfsStep(g, base, [cur] + sub + rest, t + 1)
  {
    assert DfsStep(g, base + {sub[0]}, sub, t);
    var j :| 0 <= j < t && StepFrom(g, base + {sub[0]}, sub, j, t);
    StepWithinSub(g, base, cur, sub, rest, j, t);
  }

  lemma StepWithinSub(g: Graph, base: set<nat>, cur: nat, sub: seq<nat>, rest: seq<nat>, j: nat, t: nat)
    requires cur in base && j < t < |sub| && 1 <= t
    requires StepFrom(g, base + {sub[0]}, sub, j, t)
    ensures StepFrom(g, base, [cur] + sub + rest, j + 1, t + 1)
  {
    var xs, b0 := [cur] + sub + rest, base + {sub[0]};
    SeenWithinSub(base, cur, sub, rest, t);
    assert forall q :: Unseen(b0, sub, t, q) <==> Unseen(base, xs, t + 1, q);
    assert forall i :: j <= i <= t ==> xs[i + 1] == sub[i];
    StepShift(g, b0, sub, j, t, base, xs, 1);
  }

  /** Inside the listing of `p`, `cur` and `p` are seen either way. */
  lemma SeenWithinSub(base: set<nat>, cur: nat, sub: seq<nat>, rest: seq<nat>, t: nat)
    requires cur in base && 1 <= t < |sub|
    ensures var xs := [cur] + sub + rest;
      && (forall q :: Unseen(base, xs, t + 1, q) <==> Unseen(base + {sub[0]}, sub, t, q))
      && (forall i :: 0 <= i < |sub| ==> xs[i + 1] == sub[i])
  {
    var xs := [cur] + sub + rest;
    assert xs[..t + 1] == [cur] + sub[..t];
    assert sub[0] in sub[..t];
    forall q
      ensures Unseen(base, xs, t + 1, q) <==> Unseen(base + {sub[0]}, sub, t, q)
    {
      assert q in xs[..t + 1] <==> q == cur || q in sub[..t];
    }
  }

  /** A step of the remaining parents of `cur`, listed as `rest` after `sub`,
      every node of which is complete. */
  lemma DfsAfterSub(g: Graph, base: set<nat>, cur: nat, sub: seq<nat>, rest: seq<nat>, u: nat)
    requires cur in base && u < |rest|
    requires forall x, m {:trigger g[x][m]} :: x in sub && x < |g| && 0 <= m < |g[x]| ==> g[x][m] in base + Elems(sub)
    requires forall x :: x in sub ==> x < |g|
    requires DepthFirst(g, base + Elems(sub), [cur] + rest)
    ensures DfsStep(g, base, [cur] + sub + rest, |sub| + u + 1)
  {
    assert DfsStep(g, base + Elems(sub), [cur] + rest, u + 1);
    var b2, ys, xs := base + Elems(sub), [cur] + rest, [cur] + sub + rest;
    var n, k, ky := |sub|, |sub| + u + 1, u + 1;
    SeenAfterSub(base, cur, sub, rest, u);
    var jy :| 0 <= jy < ky && StepFrom(g, b2, ys, jy, ky);
    if jy > 0 {
      StepShift(g, b2, ys, jy, ky, base, xs, n);
    } else {
      PendingTransfer(g, b2, ys, 0, ky, base, xs, 0, k);
      forall j' | 0 < j' < k
        ensures !Pending(g, base, xs, j', k)
      {
        if j' <= n {
          assert xs[j'] in sub;
        } else {
          PendingTransfer(g, b2, ys, j' - n, ky, base, xs, j', k);
        }
      }
      FirstUnseenTransfer(g, b2, ys, ky, base, xs, k, ys[0], ys[ky]);
      assert StepFrom(g, base, xs, 0, k);
    }
  }

  /** After the listing `sub`, its nodes count as seen either way. */
  lemma SeenAfterSub(base: set<nat>, cur: nat, sub: seq<nat>, rest: seq<nat>, u: nat)
    requires cur in base && u < |rest|
    ensures var xs, ys, k := [cur] + sub + rest, [cur] + rest, |sub| + u + 1;
      && (forall q :: Unseen(base, xs, k, q) <==> Unseen(base + Elems(sub), ys, u + 1, q))
      && xs[k] == ys[u + 1] && xs[0] == ys[0]
      && (forall i :: 1 <= i <= |sub| ==> xs[i] == sub[i - 1])
      && (forall i :: 1 <= i <= |rest| ==> xs[i + |sub|] == ys[i])
  {
    var xs, ys, k := [cur] + sub + rest, [cur] + rest, |sub| + u + 1;
    assert xs[..k] == [cur] + sub + rest[..u];
    assert ys[..u + 1] == [cur] + rest[..u];
    forall q
      ensures Unseen(base, xs, k, q) <==> Unseen(base + Elems(sub), ys, u + 1, q)
    {
      assert q in xs[..k] <==> q == cur || q in sub || q in rest[..u];
      assert q in ys[..u + 1] <==> q == cur || q in rest[..u];
    }
  }

  /** Gluing: `cur`, then the listing of its parent `g[cur][i]`, then the
      listing of its remaining parents, is in depth-first order. */
  lemma DfsGlue(g: Graph, base: set<nat>, cur: nat, i: nat, sub: seq<nat>, rest: seq<nat>)
    requires cur < |g| && i < |g[cur]| && cur in base && g[cur][i] !in base
    requires forall m :: 0 <= m < i ==> g[cur][m] in base
    requires |sub| > 0 && sub[0] == g[cur][i] && DepthFirst(g, base + {g[cur][i]}, sub)
    requires forall x :: x in sub ==> x < |g|
    requires forall x, m {:trigger g[x][m]} :: x in sub && x < |g| && 0 <= m < |g[x]| ==> g[x][m] in base + Elems(sub)
    requires DepthFirst(g, base + Elems(sub), [cur] + rest)
    ensures DepthFirst(g, base, [cur] + (sub + rest))
  {
    var xs := [cur] + (sub + rest);
    assert xs == [cur] + sub + rest;
    forall k | 1 <= k < |xs|
      ensures DfsStep(g, base, xs, k)
    {
      if k == 1 {
        DfsFirstParent(g, base, cur, i, xs);
      } else if k <= |sub| {
        DfsWithinSub(g, base, cur, sub, rest, k - 1);
      } else {
        DfsAfterSub(g, base, cur, sub, rest, k - |sub| - 1);
      }
    }
  }

  lemma {:induction false} ParentsDepthFirst(g: Graph, root: nat, cur: nat, i: nat, s: Search)
    requires SearchInv(g, root, cur, s) && i <= |g[cur]|
    requires forall k :: 0 <= k < i ==> g[cur][k] in s.visited
    ensures Bounded(g, s)
    ensures ParentsFrom(g, cur, i, s).Ok? ==> DepthFirst(g, s.started, [cur] + ParentsFrom(g, cur, i, s).value.0)
    decreases Range(|g|) - s.started, 0, |g[cur]| - i, 1
  {
    if i == |g[cur]| {
      return;
    }
    var p := g[cur][i];
    if p in s.visited {
      ParentsDepthFirst(g, root, cur, i + 1, s);
    } else if p !in s.started {
      ParentsEnterDepthFirst(g, root, cur, i, s);
    }
  }

  /** The loop body for a parent that has not been entered yet. */
  lemma {:induction false} ParentsEnterDepthFirst(g: Graph, root: nat, cur: nat, i: nat, s: Search)
    requires SearchInv(g, root, cur, s) && i < |g[cur]|
    requires forall k :: 0 <= k < i ==> g[cur][k] in s.visited
    requires g[cur][i] !in s.started
    ensures ParentsFrom(g, cur, i, s).Ok? ==> DepthFirst(g, s.started, [cur] + ParentsFrom(g, cur, i, s).value.0)
    decreases Range(|g|) - s.started, 0, |g[cur]| - i, 0
  {
    var p := g[cur][i];
    var s0 := Search(s.started + {p}, s.visited);
    EnterSearch(g, root, cur, s, p);
    SubtreeSpec(g, root, p, s0);
    SubtreeDepthFirst(g, root, p, s0);
    var r1 := Subtree(g, p, s0);
    if r1.Ok? {
      var sub, s1 := r1.value.0, r1.value.1;
      assert s1.started == s0.started + Elems(sub[1..]);
      ParentsEnteredDepthFirst(g, root, cur, i, s, sub, s1);
    }
  }

  /** The rest of the loop once parent `g[cur][i]` has been listed as `sub`. */
  lemma {:induction false} ParentsEnteredDepthFirst(g: Graph, root: nat, cur: nat, i: nat, s: Search,
                                                    sub: seq<nat>, s1: Search)
    requires SearchInv(g, root, cur, s) && i < |g[cur]|
    requires forall k :: 0 <= k < i ==> g[cur][k] in s.visited
    requires g[cur][i] !in s.started && g[cur][i] in s1.started && s.started <= s1.started
    requires Subtree(g, g[cur][i], Search(s.started + {g[cur][i]}, s.visited)) == Ok((sub, s1))
    requires |sub| > 0 && sub[0] == g[cur][i]
    requires Listed(g, root, g[cur][i], Search(s.started + {g[cur][i]}, s.visited), sub[1..], s1)
    requires forall k :: 0 <= k < |g[g[cur][i]]| ==> g[g[cur][i]][k] in s1.visited
    requires DepthFirst(g, s.started + {g[cur][i]}, sub)
    ensures ParentsFrom(g, cur, i, s).Ok? ==> DepthFirst(g, s.started, [cur] + ParentsFrom(g, cur, i, s).value.0)
    decreases Range(|g|) - s1.started, 0, |g[cur]| - i
  {
    var p := g[cur][i];
    var s1' := Search(s1.started, s1.visited + [p]);
    assert SearchInv(g, root, cur, s1') && forall k :: 0 <= k < i + 1 ==> g[cur][k] in s1'.visited by {
      Leave(g, root, cur, s, p, sub, s1);
      VisitedPrefix(g, cur, i, s.visited, s1');
    }
    ParentsDepthFirst(g, root, cur, i + 1, s1');
    ParentsStep(g, cur, i, s, sub, s1);
    var r2 := ParentsFrom(g, cur, i + 1, s1');
    if r2.Ok? {
      SubComplete(g, root, cur, s, p, sub, s1, s1');
      GlueDepthFirst(g, cur, i, s, sub, s1'.started, r2.value.0);
    }
  }

  lemma GlueDepthFirst(g: Graph, cur: nat, i: nat, s: Search, sub: seq<nat>, started: set<nat>, rest: seq<nat>)
    requires WellFormed(g) && cur < |g| && i < |g[cur]| && cur in s.started && g[cur][i] !in s.started
    requires forall k :: 0 <= k < i ==> g[cur][k] in s.visited
    requires forall x :: x in s.visited ==> x in s.started
    requires |sub| > 0 && sub[0] == g[cur][i] && DepthFirst(g, s.started + {g[cur][i]}, sub)
    requires started == s.started + Elems(sub)
    requires forall x :: x in sub ==> x < |g|
    requires forall x, m {:trigger g[x][m]} :: x in sub && x < |g| && 0 <= m < |g[x]| ==> g[x][m] in s.started + Elems(sub)
    requires DepthFirst(g, started, [cur] + rest)
    ensures DepthFirst(g, s.started, [cur] + (sub + rest))
  {
    forall m | 0 <= m < i
      ensures g[cur][m] in s.started
    {
      assert g[cur][m] in s.visited;
    }
    DfsGlue(g, s.started, cur, i, sub, rest);
  }

  /** Once `p` is completed, every node of its listing has all its parents started. */
  lemma SubComplete(g: Graph, root: nat, cur: nat, s: Search, p: nat, sub: seq<nat>, s1: Search, s1': Search)
    requires SearchInv(g, root, cur, s) && p !in s.started
    requires |sub| > 0 && sub[0] == p
    requires Listed(g, root, p, Search(s.started + {p}, s.visited), sub[1..], s1)
    requires s1' == Search(s1.started, s1.visited + [p]) && SearchInv(g, root, cur, s1')
    ensures s1'.started == s.started + Elems(sub)
    ensures forall x :: x in sub ==> x < |g|
    ensures forall x, m {:trigger g[x][m]} :: x in sub && x < |g| && 0 <= m < |g[x]| ==> g[x][m] in s.started + Elems(sub)
  {
    assert Elems(sub) == {p} + Elems(sub[1..]) by {
      assert sub == [p] + sub[1..];
    }
    assert Elems(s1.visited + [p]) == Elems(s1.visited) + {p};
    CompleteVisited(g, root, cur, s1');
    forall x | x in sub
      ensures x in s1'.visited
    {
      assert x in Elems(sub);
    }
  }

  lemma {:induction false} SubtreeDepthFirst(g: Graph, root: nat, cur: nat, s: Search)
    requires SearchInv(g, root, cur, s)
    ensures Bounded(g, s)
    ensures Subtree(g, cur, s).Ok? ==> DepthFirst(g, s.started, Subtree(g, cur, s).value.0)
    decreases Range(|g|) - s.started, 1, 0
  {
    ParentsDepthFirst(g, root, cur, 0, s);
  }

  /** The listing from `n` is in depth-first order. */
  lemma HierarchyDepthFirst(g: Graph, n: nat)
    requires WellFormed(g) && n < |g|
    ensures Bounded(g, Search({n}, []))
    ensures var r := Subtree(g, n, Search({n}, []));
      r.Ok? ==> DepthFirst(g, {}, r.value.0)
  {
    var s := Search({n}, []);
    ReachesRefl(g, n);
    SubtreeDepthFirst(g, n, n, s);
    HierarchySpec(g, n);
    var r := Subtree(g, n, s);
    if r.Ok? {
      DepthFirstRebase(g, n, r.value.0);
    }
  }

  /** The start node counts as seen from the first step on. */
  lemma DepthFirstRebase(g: Graph, n: nat, xs: seq<nat>)
    requires |xs| > 0 && xs[0] == n && DepthFirst(g, {n}, xs)
    ensures DepthFirst(g, {}, xs)
  {
    forall k | 1 <= k < |xs|
      ensures DfsStep(g, {}, xs, k)
    {
      assert xs[0] in xs[..k];
      assert DfsStep(g, {n}, xs, k);
      assert forall q :: Unseen({n}, xs, k, q) <==> Unseen({}, xs, k, q);
      var j :| 0 <= j < k && StepFrom(g, {n}, xs, j, k);
      StepShift(g, {n}, xs, j, k, {}, xs, 0);
    }
  }

  /** A depth-first listing is fixed by its start and its length: two such
      listings agree. */
  lemma DepthFirstUnique(g: Graph, xs: seq<nat>, ys: seq<nat>)
    requires DepthFirst(g, {}, xs) && DepthFirst(g, {}, ys)
    requires |xs| == |ys| && |xs| > 0 && xs[0] == ys[0]
    ensures xs == ys
  {
    var k := 1;
    while k < |xs|
      invariant 1 <= k <= |xs| && xs[..k] == ys[..k]
    {
      DfsStepUnique(g, xs, ys, k);
      assert xs[..k + 1] == xs[..k] + [xs[k]] && ys[..k + 1] == ys[..k] + [ys[k]];
      k := k + 1;
    }
    assert xs == xs[..k] && ys == ys[..k];
  }

  /** Two listings that agree so far take the same next depth-first step. */
  lemma DfsStepUnique(g: Graph, xs: seq<nat>, ys: seq<nat>, k: nat)
    requires 1 <= k < |xs| && k < |ys| && xs[..k] == ys[..k]
    requires DfsStep(g, {}, xs, k) && DfsStep(g, {}, ys, k)
    ensures xs[k] == ys[k]
  {
    assert forall q :: Unseen({}, xs, k, q) <==> Unseen({}, ys, k, q);
    var jx :| 0 <= jx < k && StepFrom(g, {}, xs, jx, k);
    var jy :| 0 <= jy < k && StepFrom(g, {}, ys, jy, k);
    assert xs[jx] == xs[..k][jx] == ys[jx];
    assert xs[jy] == xs[..k][jy] == ys[jy];
    PendingTransfer(g, {}, xs, jx, k, {}, ys, jx, k);
    PendingTransfer(g, {}, xs, jy, k, {}, ys, jy, k);
    assert jx == jy;
    var v := xs[jx];
    FirstUnseenTransfer(g, {}, xs, k, {}, ys, k, v, xs[k]);
    var mx :| 0 <= mx < |g[v]| && g[v][mx] == xs[k] && forall m' :: 0 <= m' < mx ==> !Unseen({}, ys, k, g[v][m']);
    var my :| 0 <= my < |g[v]| && g[v][my] == ys[k] && forall m' :: 0 <= m' < my ==> !Unseen({}, ys, k, g[v][m']);
    assert Unseen({}, ys, k, xs[k]) && Unseen({}, ys, k, ys[k]);
    assert mx == my;
  }

  /** The breadth-first listing of node 0 with parents 1 and 2, node 1 having
      parent 3, is not a depth-first one: after 0 and 1 the search goes on to 3. */
  lemma BreadthFirstExcluded()
    ensures !DepthFirst([[1, 2], [3], [], []], {}, [0, 1, 2, 3])
  {
    var g: Graph, xs := [[1, 2], [3], [], []], [0, 1, 2, 3];
    assert xs[..2] == [0, 1];
    assert Pending(g, {}, xs, 1, 2) by {
      assert Unseen({}, xs, 2, g[1][0]);
    }
    forall j | 0 <= j < 2
      ensures !StepFrom(g, {}, xs, j, 2)
    {
      if j == 1 {
        assert !FirstUnseen(g, {}, xs, 2, 1, 2);
      }
    }
    assert !DfsStep(g, {}, xs, 2);
  }

  /** A parent listed twice is skipped the second time: node 0 lists parent 1 twice. */
  lemma RepeatedParent()
    ensures OrderedSubnodesHierarchy([[1, 1], []], 0) == Ok([0, 1])
  {
    var g: Graph := [[1, 1], []];
    var s1 := Search({0, 1}, []);
    assert ParentsFrom(g, 1, 0, s1) == Ok(([], s1));
    assert [1] + [] == [1];
    assert Subtree(g, 1, s1) == Ok(([1], s1));
    var s2 := Search({0, 1}, [1]);
    assert ParentsFrom(g, 0, 2, s2) == Ok(([], s2));
    assert ParentsFrom(g, 0, 1, s2) == Ok(([], s2));
    assert Search({0} + {1}, []) == s1;
    assert Search(s1.started, s1.visited + [1]) == s2;
    assert ParentsFrom(g, 0, 0, Search({0}, [])) == Ok(([1], s2));
    assert [0] + [1] == [0, 1];
    assert Subtree(g, 0, Search({0}, [])) == Ok(([0, 1], s2));
  }
}

=== FILE: tuner.dfy ===
/** The bookkeeping of `BaseTuner`: turning a fitness into a metric, the
    final decision between the tuned and the initial graph, and writing
    labelled hyperparameters back onto the nodes of a graph. */
module Tuner {
  import opened Builtins
  import opened Strings
  import opened Dicts
  import opened SearchSpace

  // ---------------------------------------------------------------------
  // get_metric_value

  /** The fitness the objective returns for a graph. */
  datatype Fitness =
    | SingleObj(value: real, valid: bool)
    | MultiObj(values: seq<Option<real>>)
    | OtherFitness

  datatype Metric = Scalar(v: real) | Vector(vs: seq<real>)

  /** `get_metric_value`: an invalid single-objective fitness gives the
      default metric, a multi-objective fitness has each missing component
      replaced by it, and any other fitness falls through to `None`. */
  function MetricValue(fitness: Fitness, default: real): (r: Option<Metric>)
    ensures fitness.SingleObj? ==> r == Some(Scalar(if fitness.valid then fitness.value else default))
    ensures fitness.MultiObj? ==> r.Some? && r.value.Vector? && |r.value.vs| == |fitness.values|
    ensures fitness.MultiObj? ==> forall e :: 0 <= e < |fitness.values| ==>
      r.value.vs[e] == (if fitness.values[e].None? then default else fitness.values[e].value)
    ensures fitness.OtherFitness? ==> r.None?
  {
    match fitness
    case SingleObj(value, valid) => if !valid then Some(Scalar(default)) else Some(Scalar(value))
    case MultiObj(values) => Some(Vector(FillMissing(values, default)))
    case OtherFitness => None
  }

  /** The loop that overwrites every `None` component with the default. */
  function FillMissing(values: seq<Option<real>>, default: real): (r: seq<real>)
    ensures |r| == |values|
    ensures forall e :: 0 <= e < |values| ==> r[e] == (if values[e].None? then default else values[e].value)
  {
    if values == [] then []
    else [if values[0].None? then default else values[0].value] + FillMissing(values[1..], default)
  }

  // ---------------------------------------------------------------------
  // final_check

  /** The part of a tuner's state that `final_check` reads and writes. */
  datatype TunerState<G> = TunerState(initGraph: G, initMetric: real, obtainedMetric: Option<real>,
                                      deviation: real, defaultMetric: real)

  /** `np.sign`. */
  function Sign(x: real): real {
    if x > 0.0 then 1.0 else if x < 0.0 then -1.0 else 0.0
  }

  /** The metric the tuned graph has to reach: the initial metric moved
      towards better (smaller) values by `deviation` percent of its size. */
  function Threshold(init: real, deviation: real): (r: real)
    ensures r == init - Abs(init) * deviation / 100.0
    ensures deviation >= 0.0 ==> r <= init
  {
    var deviationValue := (init / 100.0) * deviation;
    init + deviationValue * (-Sign(init))
  }

  /** `final_check(tuned_graph)` for a single-objective metric: a metric
      equal to the default counts as missing; the tuned graph is returned
      only when its metric is present and at most the threshold, and the
      obtained metric becomes the metric of the graph returned. */
  function FinalCheck<G>(st: TunerState<G>, tuned: G, tunedMetric: real): (r: (G, TunerState<G>))
    ensures var accepted := tunedMetric != st.defaultMetric && tunedMetric <= Threshold(st.initMetric, st.deviation);
      && r.0 == (if accepted then tuned else st.initGraph)
      && r.1 == st.(obtainedMetric := Some(if accepted then tunedMetric else st.initMetric))
  {
    var obtained := if tunedMetric == st.defaultMetric then None else Some(tunedMetric);
    var init := Threshold(st.initMetric, st.deviation);
    var (finalGraph, finalMetric) :=
      if obtained.None? then (st.initGraph, st.initMetric)
      else if obtained.value <= init then (tuned, obtained.value)
      else (st.initGraph, st.initMetric);
    (finalGraph, st.(obtainedMetric := Some(finalMetric)))
  }

  /** With a non-negative deviation the metric `final_check` settles on is
      never worse than the initial metric. */
  lemma FinalCheckNeverWorse<G>(st: TunerState<G>, tuned: G, tunedMetric: real)
    requires st.deviation >= 0.0
    ensures FinalCheck(st, tuned, tunedMetric).1.obtainedMetric.value <= st.initMetric
  {
  }

  /** A tuned metric equal to the default is never accepted, however small. */
  lemma FinalCheckDefaultRejected<G>(st: TunerState<G>, tuned: G)
    ensures FinalCheck(st, tuned, st.defaultMetric).1.obtainedMetric == Some(st.initMetric)
  {
  }

  /** `_stop_tuning_with_message`: the obtained metric falls back to the initial one. */
  function StopTuning<G>(st: TunerState<G>): (r: TunerState<G>)
    ensures r.obtainedMetric == Some(st.initMetric)
    ensures r.initGraph == st.initGraph && r.initMetric == st.initMetric
    ensures r.deviation == st.deviation && r.defaultMetric == st.defaultMetric
  {
    st.(obtainedMetric := Some(st.initMetric))
  }

  // ---------------------------------------------------------------------
  // set_arg_graph / set_arg_node

  /** A graph node as the tuner sees it: its operation name and parameters. */
  datatype TunedNode<V> = TunedNode(name: string, parameters: Dict<V>)

  /** `{key: value for key, value in parameters.items() if key.startswith(prefix)}`. */
  function WithPrefix<V>(parameters: Dict<Option<V>>, prefix: string): (r: Dict<Option<V>>)
    ensures forall i :: 0 <= i < |r| ==> StartsWith(r[i].0, prefix) && r[i] in parameters
    ensures forall i :: 0 <= i < |parameters| && StartsWith(parameters[i].0, prefix) ==> parameters[i] in r
  {
    if parameters == [] then []
    else (if StartsWith(parameters[0].0, prefix) then [parameters[0]] else []) + WithPrefix(parameters[1..], prefix)
  }

  /** The comprehension keeps the dict's order: filtering a concatenation
      filters each part and keeps the parts in order. */
  lemma {:induction false} WithPrefixAppend<V>(a: Dict<Option<V>>, b: Dict<Option<V>>, prefix: string)
    ensures WithPrefix(a + b, prefix) == WithPrefix(a, prefix) + WithPrefix(b, prefix)
  {
    if a != [] {
      assert (a + b)[0] == a[0] && (a + b)[1..] == a[1..] + b;
      WithPrefixAppend(a[1..], b, prefix);
    } else {
      assert a + b == b;
    }
  }

  /** The prefix that selects the parameters of node `nodeId`. */
  function NodePrefix(nodeId: nat, name: string): string {
    NatStr(nodeId) + " || " + name
  }

  /** `set_arg_node(graph, node_id, node_params)`: the node's parameters are
      replaced by the stripped labelled ones; a bad index raises `IndexError`. */
  function SetArgNode<V>(nodes: seq<TunedNode<V>>, nodeId: int, nodeParams: Dict<Option<V>>)
    : (r: Result<seq<TunedNode<V>>>)
    ensures r.Ok? <==> -|nodes| <= nodeId < |nodes|
    ensures r.Err? ==> r.error == IndexError
    ensures r.Ok? ==> |r.value| == |nodes|
    ensures r.Ok? ==> var k := if nodeId < 0 then |nodes| + nodeId else nodeId;
      && r.value[k] == nodes[k].(parameters := ConvertParams(nodeParams))
      && forall j :: 0 <= j < |nodes| && j != k ==> r.value[j] == nodes[j]
  {
    var node :- PyIndex(nodes, nodeId);
    var k := if nodeId < 0 then |nodes| + nodeId else nodeId;
    Ok(nodes[k := node.(parameters := ConvertParams(nodeParams))])
  }

  /** `set_arg_graph(graph, parameters)`: every node gets the stripped
      entries whose key starts with `'<its index> || <its name>'` — an empty
      dictionary when none does, since the comprehension is never `None`. */
  function SetArgGraph<V>(nodes: seq<TunedNode<V>>, parameters: Dict<Option<V>>): (r: seq<TunedNode<V>>)
    ensures |r| == |nodes|
    ensures forall i :: 0 <= i < |nodes| ==>
      r[i] == TunedNode(nodes[i].name, ConvertParams(WithPrefix(parameters, NodePrefix(i, nodes[i].name))))
  {
    SetArgFrom(nodes, parameters, 0)
  }

  function SetArgFrom<V>(nodes: seq<TunedNode<V>>, parameters: Dict<Option<V>>, k: nat): (r: seq<TunedNode<V>>)
    requires k <= |nodes|
    ensures |r| == |nodes|
    ensures forall i :: 0 <= i < k ==> r[i] == nodes[i]
    ensures forall i :: k <= i < |nodes| ==>
      r[i] == TunedNode(nodes[i].name, ConvertParams(WithPrefix(parameters, NodePrefix(i, nodes[i].name))))
    decreases |nodes| - k
  {
    if k == |nodes| then nodes
    else
      var nodeParams := WithPrefix(parameters, NodePrefix(k, nodes[k].name));
      var next := SetArgNode(nodes, k, nodeParams).value;
      SetArgFrom(next, parameters, k + 1)
  }

  /** Two different digit strings, each followed by a space, cannot be a
      prefix of one another. */
  lemma DigitsThenSpace(a: string, x: string, b: string, y: string)
    requires a != b
    requires forall k :: 0 <= k < |a| ==> IsDigit(a[k])
    requires forall k :: 0 <= k < |b| ==> IsDigit(b[k])
    requires |x| > 0 && x[0] == ' ' && |y| > 0 && y[0] == ' '
    ensures !StartsWith(a + x, b + y)
  {
    var s := a + x;
    var pre := b + y;
    if |pre| <= |s| {
      if |b| < |a| {
        assert s[..|pre|][|b|] == a[|b|] && pre[|b|] == ' ';
      } else if |a| < |b| {
        assert s[..|pre|][|a|] == ' ' && pre[|a|] == b[|a|];
      } else {
        var k :| 0 <= k < |a| && a[k] != b[k];
        assert s[..|pre|][k] == a[k] && pre[k] == b[k];
      }
    }
  }

  /** Different node indices never share a key prefix. */
  lemma OtherNodePrefix(i: nat, j: nat, op: string, p: string, name: string)
    requires i != j
    ensures !StartsWith(Label(i, op, p), NodePrefix(j, name))
  {
    assert NatStr(i) != NatStr(j) by {
      if NatStr(i) == NatStr(j) {
        NatStrInjective(i, j);
      }
    }
    var x := " || " + op + ParamSep + p;
    var y := " || " + name;
    assert x[0] == ' ' && y[0] == ' ';
    assert Label(i, op, p) == NatStr(i) + x;
    assert NodePrefix(j, name) == NatStr(j) + y;
    DigitsThenSpace(NatStr(i), x, NatStr(j), y);
  }

  /** The own node's prefix selects its label. */
  lemma OwnNodePrefix(i: nat, op: string, p: string)
    ensures StartsWith(Label(i, op, p), NodePrefix(i, op))
  {
    assert Label(i, op, p) == NodePrefix(i, op) + ParamSep + p;
  }

  /** Round trip through a graph: a single labelled value for node `i` ends
      up, stripped, as the only parameter of node `i`, and every other node
      is left with no parameters. */
  lemma SetArgGraphLabel<V>(nodes: seq<TunedNode<V>>, i: nat, p: string, v: V)
    requires i < |nodes| && '|' !in nodes[i].name && NoParamSep(p)
    ensures var r := SetArgGraph(nodes, [(Label(i, nodes[i].name, p), Some(v))]);
      && r[i].parameters == [(p, v)]
      && forall j :: 0 <= j < |nodes| && j != i ==> r[j].parameters == []
  {
    var parameters := [(Label(i, nodes[i].name, p), Some(v))];
    OwnNodePrefix(i, nodes[i].name, p);
    assert WithPrefix(parameters, NodePrefix(i, nodes[i].name)) == parameters by {
      assert parameters[1..] == [];
    }
    ConvertLabel(i, nodes[i].name, p, v);
    forall j | 0 <= j < |nodes| && j != i
      ensures WithPrefix(parameters, NodePrefix(j, nodes[j].name)) == []
    {
      OtherNodePrefix(i, j, nodes[i].name, p, nodes[j].name);
      assert parameters[1..] == [];
    }
    var empty: Dict<Option<V>> := [];
    assert ConvertParams(empty) == [];
  }
}
